=== FILE: README.md ===
# EGADS entropy gateway: a Dafny model of its core

EGADS collects entropy from system activity and hands out random bytes.
This project models its core in Dafny and proves properties of the
model:

- **UMAC** (umac.c).
  - The core is the message authentication code the pool uses as its mixing function.
  - AES (`aes_setup`, `aes`) and the key derivation `kdf` are modelled.
  - So are the pad generator `pdf_gen_xor`, NH with its streaming context, POLY over Z_p64, and the inner-product layer.
  - `uhash_init/update/final`, the all-in-one `uhash`, and `umac_new/reset/update/final/umac` are modelled too.
  - The streaming interface is proved to compute the one-shot UHASH function `UhashOf`, and the tag to compute `Tag`. Both are the functions the code computes, including its inner-product key offsets ip_keys + i (see Findings). `UhashOfIntended` is UHASH with the keys read where uhash_init lays them, and `UhashIsIntendedOnReadKeys` relates the two.
  - The build modelled is the one the source compiles: UMAC_OUTPUT_LEN 8, WORD_LEN 4, two streams.
- **The entropy pool** (eg.c).
  - Source registration, and credits capped at 70.
  - The "sum of the registered credits less the largest credit" readiness test.
  - Output of UMAC tags, either to a 248-byte ring or mixed into a 32-byte spool that rekeys UMAC.
  - Reading from the ring with `EG_output`, keying with `EG_startup_done`, and `EG_init`.
  - The ring is a class of its own (eg_ring.dfy). The pool is a class over the file's statics (eg.dfy).
- **The counter-mode generator** (prng.c).
  - `increment_counter` on the two 64-bit limbs, `internal_output_bytes` and `self_reseed`.
  - `PRNG_rekey`, `poll_rekey`, `PRNG_output`, `PRNG_init` and `PRNG_destroy`.
  - Everything is specified against ghost functions of the generator's abstract state (`OutputBytes`, `Reseeded`, `Rekeyed`, `Gated`).
- **long_long_swap** (byteswap.h), in both build configurations.
- **Command helpers.**
  - `to_words` and the flag normalisation of `run_cmd`/`priv_run_cmd` (popen.c).
  - `read_line`/`read_lines` over a character stream (procout.c).
- **The ps and df samplers** (linux/ps.c, darwin/df.c).
  - Their comparators, the sorted-merge difference count and the rotation of the last and current snapshots.
  - The merge is proved to count exactly the entries that went, came or changed.
  - The column skipping, strcmp/strncmp, the merge and the sort are shared in linediff.dfy.

Byte strings are `seq<Byte>`, with `Byte` the 8-bit bit-vector. Machine
words are naturals below 2^32 or 2^64, and every wrap-around is written
out as a `%`. C strings are Dafny strings without their NUL.

## Model

| member | source | states |
|---|---|---|
| Bytes.Zeros | umac.c:769 | `memset(p, 0, n)`: n bytes, every one zero |
| Bytes.Xor | umac.c:793-806 | byte-wise exclusive or: same length, byte i is a[i] ^ b[i] |
| Bytes.XorInvolution | umac.c:793-806 | XOR-ing the same pad twice gives the data back |
| Bytes.Val | umac.c:237 | a byte's numeric value is below 256 |
| Bytes.BE32 | umac.c:241 | (no ensures) LOAD_UINT32_BIG: the value of four bytes read most significant first |
| Bytes.LE32 | umac.c:237 | (no ensures) LOAD_UINT32_LITTLE: the value of four bytes read least significant first |
| Bytes.BE64 | byteswap.h:10-18 | (no ensures) the value of eight bytes read most significant first |
| Bytes.LE64 | eg.c:75 | (no ensures) the value of eight bytes read least significant first, as a little-endian host loads a uint64 |
| Bytes.AppendByte | umac.c:237 | appending one more byte to a value below a bound multiplies the bound by 256 |
| Bytes.Increment | umac.c:735 | the successor byte has value one more |
| Bytes.ToByte | umac.c:735 | the index stored as a UINT8 has that numeric value |
| Bytes.StoreBE32 | umac.c:243 | STORE_UINT32_BIG: four bytes whose big-endian reading is the word |
| Bytes.StoreBE64 | byteswap.h:10-18 | eight bytes whose big-endian reading is the word |
| Bytes.StoreLE64 | eg.c:75 | eight bytes whose little-endian reading is the word (a little-endian host's memcpy of a UINT64) |
| Bytes.FromSeq | umac.c:731 | a fresh buffer holding exactly the given bytes |
| Bytes.Store | umac.c:739 | memcpy into dst at off: those bytes land there and nothing else changes |
| Bytes.XorInto | umac.c:798 | `buf ^= pad` in place: the new buffer is the exclusive or of the old one with the pad |
| ByteSwap.Rev8 | byteswap.h:10-18 | eight bytes in the opposite order |
| ByteSwap.SwapBytes | byteswap.h:10-18 | (no ensures) the WORDS_BIGENDIAN long_long_swap: the bytes of x, most significant first, read back least significant first |
| ByteSwap.LongLongSwap | byteswap.h:8-25 | without WORDS_BIGENDIAN long_long_swap is the identity; with it, it mirrors the eight bytes |
| ByteSwap.ValInjective | byteswap.h:10-18 | two bytes with one value are the same byte |
| ByteSwap.SplitByte | byteswap.h:10-18 | a value below 256·bound splits uniquely into a high part and a low byte |
| ByteSwap.StoreLoadBE32 | umac.c:243 | storing a big-endian load gives the four bytes back |
| ByteSwap.StoreLoadBE64 | byteswap.h:10-18 | storing a big-endian load gives the eight bytes back |
| ByteSwap.LoadLE64Reversed | byteswap.h:10-18 | a little-endian load is a big-endian load of the mirrored bytes |
| ByteSwap.SwapMirrors | byteswap.h:10-18 | under WORDS_BIGENDIAN the byte of weight 256^k moves to weight 256^(7-k) |
| ByteSwap.SwapInvolution | byteswap.h:8-25 | swapping twice gives the word back, in both configurations |
| ByteSwap.StoreBE32Small | umac.c:243 | a word below 256 is stored as three zero bytes followed by its value |
| ByteSwap.StoreOne | prng.c:87 | the bytes of 1 stored most significant first: seven zeros, then one |
| ByteSwap.SwapOne | prng.c:87 | on a big-endian host long_long_swap(1) is 2^56 |
| ByteSwap.SwapZero | prng.c:121 | zero is its own swap in both configurations |
| Endian.Reverse | umac.c:201-207 | the bytes in reverse order: same length, byte i is byte n-1-i |
| Endian.SwapGroups | umac.c:1093-1122 | the buffer with each whole w-byte word reversed; the length is kept |
| Endian.Reverse4 | umac.c:201-207 | LOAD_UINT32_REVERSED written out on the four bytes |
| Endian.Reverse8 | umac.c:1114-1119 | the bpw 8 swap written out on the eight bytes |
| Endian.ReverseInvolution | umac.c:201-207 | reversing twice restores the bytes |
| Endian.SwapGroupsInvolution | umac.c:1093-1122 | endian_convert is its own inverse |
| Endian.SwapGroupsSnoc | umac.c:1093-1122 | converting a buffer with one more word converts that word on its own |
| Endian.SwapGroupsAt | umac.c:1093-1122 | word k of the converted buffer is word k of the original, reversed |
| Endian.LoadReversed32 | umac.c:246 | a little-endian load of a reversed word reads it big-endian |
| Endian.LoadReversed64 | umac.c:1114-1119 | the same for 64-bit words |
| Endian.EndianConvert | umac.c:1093-1122 | the buffer afterwards is the old one with every bpw-byte word reversed |
| Endian.ConvertStep | umac.c:1107-1110 | one turn of the loop extends the converted prefix by one word and leaves the rest alone |
| Endian.ReverseWordAt | umac.c:1108 | `*p = LOAD_UINT32_REVERSED(p)` reverses the four bytes at p and nothing else |
| Endian.ReverseDoubleWordAt | umac.c:1115-1117 | the two reversed half-word stores reverse the eight bytes at p and nothing else |
| Endian.ConvertWords | umac.c:1104-1110 | the bpw 4 branch reverses each 32-bit word |
| Endian.ConvertDoubleWords | umac.c:1111-1120 | the bpw 8 branch reverses each 64-bit word |
| Kdf.Chain | umac.c:732-735 | the initial chain block: fifteen zero bytes, then the index |
| Kdf.KdfBlock | umac.c:737-746 | output block i is the cipher applied i+1 times to the chain block; 16 bytes |
| Kdf.KdfStream | umac.c:737-742 | the first k blocks concatenated: 16k bytes |
| Kdf.KdfBytes | umac.c:730-747 | kdf writes exactly n bytes |
| Kdf.StreamPrefix | umac.c:737-742 | a shorter stream is a prefix of a longer one |
| Kdf.KdfPrefix | umac.c:730-747 | asking for fewer bytes yields a prefix of a longer request |
| Kdf.ComputesSame | umac.c:730 | two block functions that both compute AES under one key agree on every block |
| Kdf.BlockAgree | umac.c:737-746 | each output block depends on the cipher only through its values |
| Kdf.StreamAgree | umac.c:737-742 | so does the stream |
| Kdf.KdfAgree | umac.c:730-747 | so do the derived bytes |
| Kdf.StreamBlock | umac.c:739-741 | block i of the stream sits at bytes 16i to 16i+15 |
| Kdf.WholeBlocks | umac.c:737-742 | for n a multiple of 16 the output is exactly the stream of n/16 blocks |
| Kdf.PartialBlock | umac.c:743-746 | with r bytes past k whole blocks, the head of block k follows the stream |
| Kdf.Appended | umac.c:739-741 | writing b right after a prefix a makes the prefix a + b |
| Kdf.NextBlock | umac.c:738-741 | one turn encrypts the chain in place and appends its first n bytes to the output |
| Kdf.Derive | umac.c:730-747 | the buffer afterwards holds the derivation stream for the index, exactly buf.Length bytes |
| Pdf.PadInput | umac.c:782-792 | the AES input for a nonce: its low bit cleared, then eight zero bytes |
| Pdf.Half | umac.c:782 | the low bit of nonce[7] picks the half of the AES block |
| Pdf.Pad | umac.c:793-799 | the pad is eight bytes of the encrypted block |
| Pdf.PairShareBlock | umac.c:773-792 | an even nonce and the odd one after it share one AES block, the even one taking its first half |
| Pdf.PadKey | umac.c:763-766 | K' is the first key-length bytes of the index-128 stream, and the expanded key computes AES under it |
| Pdf.PrimeCache | umac.c:768-770 | the nonce block is zero and the cache holds its encryption |
| Pdf.PdfCtx.constructor | umac.c:761-771 | pdf_init: derived key, zero nonce, primed cache |
| Pdf.PdfCtx.Refresh | umac.c:785-792 | afterwards the stored nonce is the new nonce with its low bit cleared, and the cache is its encryption |
| Pdf.PdfCtx.GenXor | umac.c:773-810 | the buffer is XOR-ed with the pad for the nonce, and the cache follows the nonce |
| Aes.ValidKeyLen | umac.h:110 | the key lengths FIPS 197 allows: 16, 24 or 32 bytes |
| Aes.Rounds | umac.h:110 | ROUNDS = key length / 4 + 6, so 10, 12 or 14 |
| Aes.Mul3 | umac.c:301-366 | multiplication of one byte by 3 in GF(2^8), xtime(x) XOR x, the ·3 entry of the T tables |
| Aes.SubBytes | umac.c:281-298 | the S-box applied to each of the 16 bytes |
| Aes.SubByte | umac.c:281-298 | (no ensures) the S-box entry for one byte, looked up by its high and low nibble |
| Aes.SubWord | umac.c:603-606 | (no ensures) the S-box applied to each byte of one key word |
| Aes.RotWord | umac.c:603-606 | (no ensures) a key word's bytes rotated by one place |
| Aes.XorWord | umac.c:611 | (no ensures) byte-wise XOR of two key words |
| Aes.XTime | umac.c:301-366 | (no ensures) multiplication of one byte by x in GF(2^8): a left shift, reduced by 0x1b when the top bit was set |
| Aes.ShiftRows | umac.c:645-661 | row r rotated left by r columns (the diagonal the tables read); 16 bytes |
| Aes.MixRow0 | umac.c:301-567 | row 0 of MixColumns for one column (a, b, c, d): 2a + 3b + c + d in GF(2^8), one byte |
| Aes.MixRow1 | umac.c:301-567 | row 1 of MixColumns for one column: a + 2b + 3c + d, one byte |
| Aes.MixRow2 | umac.c:301-567 | row 2 of MixColumns for one column: a + b + 2c + 3d, one byte |
| Aes.MixRow3 | umac.c:301-567 | row 3 of MixColumns for one column: 3a + b + c + 2d, one byte |
| Aes.Xor4Bytes | umac.c:645-648 | the XOR of four bytes, the GF(2^8) sum of four table-entry bytes |
| Aes.MixColumns | umac.c:645-661 | MixColumns of FIPS 197 on the whole state; 16 bytes |
| Aes.XorBlock | umac.c:641-644 | AddRoundKey: the byte-wise XOR of state and round key |
| Aes.NextGroup | umac.c:601-624 | the "calculate new values" step keeps the group length |
| Aes.Rcon | umac.c:569-573 | (no ensures) round constant g of the 30 in rcon |
| Aes.NextWord | umac.c:601-624 | (no ensures) word j of the next key-schedule group: word 0 takes SubWord(RotWord) of the last word and the round constant, word KC/2 of a 256-bit key takes SubWord of the word before, and every other word XORs in the word before it |
| Aes.KeyWords | umac.c:584-586 | the key loaded into tk as KC words |
| Aes.KeyGroup | umac.c:601-624 | group g of the key schedule has KC words |
| Aes.Schedule | umac.c:591-634 | the first n groups laid end to end |
| Aes.GroupStart | umac.c:626-633 | (no ensures) the word where key group g starts: g·KC |
| Aes.ScheduleAt | umac.c:591-634 | word j of group g sits at word g·KC + j of the schedule |
| Aes.WordsBytes | umac.c:593 | the words laid out byte after byte as in memory |
| Aes.WordsBytesAt | umac.c:593 | byte k of word v sits at 4v + k |
| Aes.ExpandedWords | umac.c:577-637 | the 4(ROUNDS+1) words of the key expansion |
| Aes.ExpandedWordInGroup | umac.c:626-633 | word j of group g is word GroupStart(g) + j of the expansion |
| Aes.RoundKeys | umac.c:577-637 | aes_int_key: 16(ROUNDS+1) bytes |
| Aes.RoundKeysAt | umac.c:593 | byte k of word v of W is byte k of expanded word v |
| Aes.WordsEqual | umac.c:593 | two layouts that agree word by word are equal |
| Aes.FilledIsRoundKeys | umac.c:577-637 | a W whose every word is the expanded key holds the round keys |
| Aes.RoundKeysWord | umac.c:593 | W holds the expanded key word by word |
| Aes.WordsBytesWord | umac.c:593 | word v of a byte layout is ws[v] |
| Aes.GroupBytes | umac.c:641-644 | four words as one 16-byte round key |
| Aes.DivFour | umac.c:584-586 | `i >> 2` and `i & 3` split 4q + m into q and m |
| Aes.GroupBytesOf | umac.c:641-644 | sixteen bytes agreeing with four words are those words' bytes |
| Aes.WordsBytesRound | umac.c:641-644 | round key r of a layout is the bytes of words 4r..4r+3 |
| Aes.RoundOfWords | umac.c:641-644 | round key r of a layout whose words 4r..4r+3 are tk is tk's bytes |
| Aes.RoundKeyIsGroup | umac.c:591-599 | with a 16-byte key, round key r is schedule group r |
| Aes.RoundKey | umac.c:641-644 | rk[r] is 16 bytes |
| Aes.State | umac.c:641-687 | the state after AddRoundKey of round r is 16 bytes |
| Aes.Cipher | umac.c:642-716 | the cipher of FIPS 197 section 5.1 gives 16 bytes |
| Aes.Encrypt | umac.c:642-716 | AES under a key gives 16 bytes |
| Aes.AesOf | umac.c:642-716 | the block function it returns computes AES under key |
| Aes.ColumnsAreMixColumn | umac.c:645-648 | the four shifted table columns add up to the MixColumns column |
| Aes.T1 | umac.c:301-366 | (no ensures) table T1 at x: the column (2s, s, s, 3s) of s = S[x] |
| Aes.T2 | umac.c:368-433 | (no ensures) table T2 at x: the column (3s, 2s, s, s) |
| Aes.T3 | umac.c:435-500 | (no ensures) table T3 at x: the column (s, 3s, 2s, s) |
| Aes.T4 | umac.c:502-567 | (no ensures) table T4 at x: the column (s, s, 3s, 2s) |
| Aes.Col1 | umac.c:301-366 | (no ensures) the MixColumns column (2s, s, s, 3s) that T1 holds for S-box output s |
| Aes.Col2 | umac.c:368-433 | (no ensures) the column (3s, 2s, s, s) that T2 holds |
| Aes.Col3 | umac.c:435-500 | (no ensures) the column (s, 3s, 2s, s) that T3 holds |
| Aes.Col4 | umac.c:502-567 | (no ensures) the column (s, s, 3s, 2s) that T4 holds |
| Aes.Xor4 | umac.c:672-675 | (no ensures) the XOR of four 32-bit words, byte by byte |
| Aes.TColumn | umac.c:672-675 | (no ensures) one output column of a table round: T1[a] ^ T2[b] ^ T3[c] ^ T4[d] |
| Aes.SumIsWord | umac.c:645-648 | four words whose byte-wise XORs are the bytes of m add up to m |
| Aes.RowZero | umac.c:645-648 | row 0 of the table sum is row 0 of MixColumns |
| Aes.RowOne | umac.c:649-652 | row 1 of the table sum is row 1 of MixColumns |
| Aes.RowTwo | umac.c:653-656 | row 2 of the table sum is row 2 of MixColumns |
| Aes.RowThree | umac.c:657-660 | row 3 of the table sum is row 3 of MixColumns |
| Aes.TRound | umac.c:645-661 | a table round maps 16 bytes to 16 bytes |
| Aes.TColumnIsMixColumn | umac.c:645-648 | one table column is the MixColumns column of four S-box outputs |
| Aes.MixWord | umac.c:645-648 | (no ensures) one column after MixColumns: rows MixRow0 to MixRow3 of (a, b, c, d) |
| Aes.TRoundIsRound | umac.c:666-687 | a table round is MixColumns(ShiftRows(SubBytes(t))) |
| Aes.MixColumnsOfWords | umac.c:645-661 | MixColumns of a state is the bytes of its four mixed columns |
| Aes.LastRoundTable | umac.c:694-709 | byte 1 of T1[x] is S[x] |
| Aes.LastTableRound | umac.c:694-709 | the last round's byte picks give 16 bytes |
| Aes.LastTableRoundIsFinal | umac.c:694-709 | the last round is ShiftRows(SubBytes(t)), without MixColumns |
| Aes.StoreBlock | umac.c:645-661 | the block stores leave b holding the computed bytes |
| Aes.TableRound | umac.c:666-687 | one loop turn: b becomes MixColumns(ShiftRows(SubBytes(b XOR rk[r]))) |
| Aes.LastRound | umac.c:689-713 | the last round: b becomes ShiftRows(SubBytes(b XOR rk[R-1])) XOR rk[R] |
| Aes.FirstRound | umac.c:645-661 | round key 0 added to a, then a table round into b |
| Aes.MiddleRounds | umac.c:666-687 | after the loop b is the state of round R-2 pushed through one table round |
| Aes.EncryptBlock | umac.c:642-716 | b afterwards is the FIPS 197 cipher of the old a, even when a and b alias |
| Aes.UpdateGroup | umac.c:602-624 | tk becomes the next key-schedule group, both for KC = 8 and otherwise |
| Aes.StoreWord | umac.c:593 | one 32-bit store into W changes word u and no other |
| Aes.CopyWords | umac.c:626-633 | the copy loop writes tk's words at round r, column t onwards and returns the next free position |
| Aes.LoadKey | umac.c:584-586 | tk holds the key as KC words |
| Aes.ExpandGroup | umac.c:601-635 | one outer turn: tk becomes group g and is copied to W from GroupStart(g) |
| Aes.ExpandStep | umac.c:626-633 | writing group g at its place extends a correct prefix of the expansion |
| Aes.GroupInExpanded | umac.c:601-635 | group g sits at word GroupStart(g) of the expansion |
| Aes.Extended | umac.c:626-633 | a layout holding ws below base and ws's tail up to lim holds ws below lim |
| Aes.Setup | umac.c:577-637 | aes_setup fills W with exactly the round keys of FIPS 197 |
| Aes.CipherOf | umac.c:642-716 | the cipher an expanded key of its length computes gives 16 bytes |
| Aes.CipherOfRounds | umac.c:642-716 | it is the cipher with \|rk\|/16 - 1 rounds |
| Aes.KeyedAes | umac.c:577-637 | after aes_setup the round keys compute AES under the key |
| Aes.SetupKeyed | umac.c:577-637 | aes_setup stated as: W computes AES under key |
| Aes.KeyedIsAes | umac.c:577-716 | an expanded key of key encrypts every block as AES under key |
| Aes.CipherBlock | umac.c:642-716 | aes(a, b, rk): b is CipherOf(rk, a) |
| Aes.AesBlock | umac.c:642-716 | aes(a, b, rk): b is E(a) for the block function rk computes |
| AesKnownAnswer.NextGroup1 | umac.c:601-624 | the zero key's schedule group 1 is computed from group 0, on concrete words |
| AesKnownAnswer.Group1 | umac.c:626-633 | the zero key's schedule group 1, as concrete words |
| AesKnownAnswer.NextGroup2 | umac.c:601-624 | the zero key's schedule group 2 is computed from group 1, on concrete words |
| AesKnownAnswer.Group2 | umac.c:626-633 | the zero key's schedule group 2, as concrete words |
| AesKnownAnswer.NextGroup3 | umac.c:601-624 | the zero key's schedule group 3 is computed from group 2, on concrete words |
| AesKnownAnswer.Group3 | umac.c:626-633 | the zero key's schedule group 3, as concrete words |
| AesKnownAnswer.NextGroup4 | umac.c:601-624 | the zero key's schedule group 4 is computed from group 3, on concrete words |
| AesKnownAnswer.Group4 | umac.c:626-633 | the zero key's schedule group 4, as concrete words |
| AesKnownAnswer.NextGroup5 | umac.c:601-624 | the zero key's schedule group 5 is computed from group 4, on concrete words |
| AesKnownAnswer.Group5 | umac.c:626-633 | the zero key's schedule group 5, as concrete words |
| AesKnownAnswer.NextGroup6 | umac.c:601-624 | the zero key's schedule group 6 is computed from group 5, on concrete words |
| AesKnownAnswer.Group6 | umac.c:626-633 | the zero key's schedule group 6, as concrete words |
| AesKnownAnswer.NextGroup7 | umac.c:601-624 | the zero key's schedule group 7 is computed from group 6, on concrete words |
| AesKnownAnswer.Group7 | umac.c:626-633 | the zero key's schedule group 7, as concrete words |
| AesKnownAnswer.NextGroup8 | umac.c:601-624 | the zero key's schedule group 8 is computed from group 7, on concrete words |
| AesKnownAnswer.Group8 | umac.c:626-633 | the zero key's schedule group 8, as concrete words |
| AesKnownAnswer.NextGroup9 | umac.c:601-624 | the zero key's schedule group 9 is computed from group 8, on concrete words |
| AesKnownAnswer.Group9 | umac.c:626-633 | the zero key's schedule group 9, as concrete words |
| AesKnownAnswer.NextGroup10 | umac.c:601-624 | the zero key's schedule group 10 is computed from group 9, on concrete words |
| AesKnownAnswer.Group10 | umac.c:626-633 | the zero key's schedule group 10, as concrete words |
| AesKnownAnswer.Sub1 | umac.c:281-298 | SubBytes of the self-test state in round 1, on concrete bytes |
| AesKnownAnswer.Shift1 | umac.c:645-661 | ShiftRows of the self-test state in round 1, on concrete bytes |
| AesKnownAnswer.Mix1 | umac.c:645-661 | MixColumns of the self-test state in round 1, on concrete bytes |
| AesKnownAnswer.AddKey1 | umac.c:641-644 | round key 1 added to the self-test state, on concrete bytes |
| AesKnownAnswer.Round1 | umac.c:666-687 | round 1 of the self-test encryption, on concrete bytes |
| AesKnownAnswer.Sub2 | umac.c:281-298 | SubBytes of the self-test state in round 2, on concrete bytes |
| AesKnownAnswer.Shift2 | umac.c:645-661 | ShiftRows of the self-test state in round 2, on concrete bytes |
| AesKnownAnswer.Mix2 | umac.c:645-661 | MixColumns of the self-test state in round 2, on concrete bytes |
| AesKnownAnswer.AddKey2 | umac.c:641-644 | round key 2 added to the self-test state, on concrete bytes |
| AesKnownAnswer.Round2 | umac.c:666-687 | round 2 of the self-test encryption, on concrete bytes |
| AesKnownAnswer.Sub3 | umac.c:281-298 | SubBytes of the self-test state in round 3, on concrete bytes |
| AesKnownAnswer.Shift3 | umac.c:645-661 | ShiftRows of the self-test state in round 3, on concrete bytes |
| AesKnownAnswer.Mix3 | umac.c:645-661 | MixColumns of the self-test state in round 3, on concrete bytes |
| AesKnownAnswer.AddKey3 | umac.c:641-644 | round key 3 added to the self-test state, on concrete bytes |
| AesKnownAnswer.Round3 | umac.c:666-687 | round 3 of the self-test encryption, on concrete bytes |
| AesKnownAnswer.Sub4 | umac.c:281-298 | SubBytes of the self-test state in round 4, on concrete bytes |
| AesKnownAnswer.Shift4 | umac.c:645-661 | ShiftRows of the self-test state in round 4, on concrete bytes |
| AesKnownAnswer.Mix4 | umac.c:645-661 | MixColumns of the self-test state in round 4, on concrete bytes |
| AesKnownAnswer.AddKey4 | umac.c:641-644 | round key 4 added to the self-test state, on concrete bytes |
| AesKnownAnswer.Round4 | umac.c:666-687 | round 4 of the self-test encryption, on concrete bytes |
| AesKnownAnswer.Sub5 | umac.c:281-298 | SubBytes of the self-test state in round 5, on concrete bytes |
| AesKnownAnswer.Shift5 | umac.c:645-661 | ShiftRows of the self-test state in round 5, on concrete bytes |
| AesKnownAnswer.Mix5 | umac.c:645-661 | MixColumns of the self-test state in round 5, on concrete bytes |
| AesKnownAnswer.AddKey5 | umac.c:641-644 | round key 5 added to the self-test state, on concrete bytes |
| AesKnownAnswer.Round5 | umac.c:666-687 | round 5 of the self-test encryption, on concrete bytes |
| AesKnownAnswer.Sub6 | umac.c:281-298 | SubBytes of the self-test state in round 6, on concrete bytes |
| AesKnownAnswer.Shift6 | umac.c:645-661 | ShiftRows of the self-test state in round 6, on concrete bytes |
| AesKnownAnswer.Mix6 | umac.c:645-661 | MixColumns of the self-test state in round 6, on concrete bytes |
| AesKnownAnswer.AddKey6 | umac.c:641-644 | round key 6 added to the self-test state, on concrete bytes |
| AesKnownAnswer.Round6 | umac.c:666-687 | round 6 of the self-test encryption, on concrete bytes |
| AesKnownAnswer.Sub7 | umac.c:281-298 | SubBytes of the self-test state in round 7, on concrete bytes |
| AesKnownAnswer.Shift7 | umac.c:645-661 | ShiftRows of the self-test state in round 7, on concrete bytes |
| AesKnownAnswer.Mix7 | umac.c:645-661 | MixColumns of the self-test state in round 7, on concrete bytes |
| AesKnownAnswer.AddKey7 | umac.c:641-644 | round key 7 added to the self-test state, on concrete bytes |
| AesKnownAnswer.Round7 | umac.c:666-687 | round 7 of the self-test encryption, on concrete bytes |
| AesKnownAnswer.Sub8 | umac.c:281-298 | SubBytes of the self-test state in round 8, on concrete bytes |
| AesKnownAnswer.Shift8 | umac.c:645-661 | ShiftRows of the self-test state in round 8, on concrete bytes |
| AesKnownAnswer.Mix8 | umac.c:645-661 | MixColumns of the self-test state in round 8, on concrete bytes |
| AesKnownAnswer.AddKey8 | umac.c:641-644 | round key 8 added to the self-test state, on concrete bytes |
| AesKnownAnswer.Round8 | umac.c:666-687 | round 8 of the self-test encryption, on concrete bytes |
| AesKnownAnswer.Sub9 | umac.c:281-298 | SubBytes of the self-test state in round 9, on concrete bytes |
| AesKnownAnswer.Shift9 | umac.c:645-661 | ShiftRows of the self-test state in round 9, on concrete bytes |
| AesKnownAnswer.Mix9 | umac.c:645-661 | MixColumns of the self-test state in round 9, on concrete bytes |
| AesKnownAnswer.AddKey9 | umac.c:641-644 | round key 9 added to the self-test state, on concrete bytes |
| AesKnownAnswer.Round9 | umac.c:666-687 | round 9 of the self-test encryption, on concrete bytes |
| AesKnownAnswer.Sub10 | umac.c:281-298 | SubBytes of the self-test state in round 10, on concrete bytes |
| AesKnownAnswer.Shift10 | umac.c:645-661 | ShiftRows of the self-test state in round 10, on concrete bytes |
| AesKnownAnswer.AddKey10 | umac.c:641-644 | round key 10 added to the self-test state, on concrete bytes |
| AesKnownAnswer.AddKey0 | umac.c:641-644 | round key 0 added to the self-test state, on concrete bytes |
| AesKnownAnswer.KeyGroupsZero | umac.c:577-637 | all eleven schedule groups of the all-zero 16-byte key |
| AesKnownAnswer.RoundKeysZero | umac.c:577-637 | the round keys of the all-zero key, as concrete bytes |
| AesKnownAnswer.FirstRoundsZeroKey | umac.c:641-687 | the first rounds of the self-test encryption |
| AesKnownAnswer.LastRoundsZeroKey | umac.c:666-713 | the remaining rounds of the self-test encryption |
| AesKnownAnswer.CipherZeroKey | umac.c:642-716 | the cipher under the zero key's round keys maps 80 00..00 to the self-test answer |
| AesKnownAnswer.KnownAnswer128 | umac.c:2182-2185 | AES-128 under the zero key maps 80 00..00 to 3AD78E726C1EC02B7EBFE92B23D9EC34 |
| Nh.Add32IsMod | umac.c:939 | `k0 + d0` on UINT32 is addition mod 2^32 |
| Nh.Add32 | umac.c:939 | (no ensures) UINT32 addition `k0 + d0`, wrapping at 2^32 |
| Nh.Words | umac.c:931-934 | the n little-endian 32-bit words of the data |
| Nh.Word | umac.c:932-935 | (no ensures) LOAD_UINT32_LITTLE of message word k: bytes 4k..4k+3 read little-endian |
| Nh.WordsAppend | umac.c:931-934 | the words of A + B are A's words then B's words |
| Nh.ProductIsMul | umac.c:177 | MUL64 of two 32-bit values is their exact product |
| Nh.Product | umac.c:177 | (no ensures) MUL64 of two 32-bit values, as repeated addition |
| Nh.NhSumChunk | umac.c:939-950 | one chunk adds its four products to the sum |
| Nh.Term | umac.c:939-950 | (no ensures) one product of a chunk: (k + d) on UINT32 times (k' + d') on UINT32, exact |
| Nh.NhSum | umac.c:939-950 | (no ensures) the NH sum over the integers of the first c chunks and the first j products of chunk c+1, chunk i keyed from word ko + 8i, in the order the source adds the products |
| Nh.NhSumPrefix | umac.c:931-953 | the first c chunks' sum does not depend on data after them |
| Nh.NhSumAppend | umac.c:1078-1089 | hashing A then B adds B's sum keyed 8·(chunks of A) words further on |
| Nh.NhAux | umac.c:915-956 | each accumulator gains the NH sum of the chunks under its key (stream 2 four words further), mod 2^64 |
| Nh.Quotient32 | umac.c:921 | `c = dlen / 32` for a multiple of 32 |
| Nh.NhSums | umac.c:931-953 | the loop's two sums are the two streams' NH sums over the first c chunks |
| Nh.ChunkPair | umac.c:931-950 | one turn adds the four products of each stream for the chunk at word w |
| Nh.LoadChunk | umac.c:932-935 | the eight loads read words w..w+7 of the data |
| Nh.BEWords | umac.c:1160 | the n big-endian words of the key bytes |
| Nh.NativeKeyWords | umac.c:1160 | after endian_convert on a little-endian host native loads read the big-endian words |
| Nh.WrapIsMod | umac.c:939-950 | UINT64 wrap-around is the remainder mod 2^64 |
| Nh.ModAddLeft | umac.c:939-950 | reducing the left operand first does not change a sum mod 2^64 |
| Nh.WrapAdd | umac.c:939-950 | wrapping the accumulator before an addition does not change the wrapped sum |
| Nh.PadChunks | umac.c:1242-1243 | the 32-byte chunks n bytes fill: n ≤ 32c < n + 32 |
| Nh.PadChunksIsCeil | umac.c:1242-1243 | it is the masked round-up `(n + 31) & ~31` |
| Nh.PadChunksShift | umac.c:1242-1243 | whole chunks before add their count |
| Nh.Pad32 | umac.c:1242-1246 | the message followed by zeros up to the next 32-byte boundary |
| Nh.PadWhole | umac.c:1242-1246 | a message of whole chunks needs no padding |
| Nh.PadAppend | umac.c:1242-1246 | padding after whole chunks pads only the tail |
| Nh.AccWAppend | umac.c:1078-1089 | hashing A and then B continues A's accumulator with the key 8·(chunks of A) words in |
| Nh.Wrap64 | umac.c:939-950 | (no ensures) a sum reduced mod 2^64, as the UINT64 accumulator `h += …` keeps it |
| Nh.AccW | umac.c:1078-1089 | (no ensures) the UINT64 accumulator after c chunks: the NH sum mod 2^64 |
| Nh.AccumulateStep | umac.c:1078-1089 | an accumulator over H that adds d under the shifted key holds the accumulator over H + d |
| Nh.Accumulate | umac.c:1078-1089 | nh_transform makes the accumulators hold NH of all chunks hashed so far |
| Nh.WordsAppendAt | umac.c:931-934 | the words of H + d for whole chunks |
| Nh.WrapStart | umac.c:1288-1303 | an accumulator started at v ends v further on, mod 2^64 |
| Nh.NhOutput | umac.c:1272-1306 | the two stream results of the all-in-one nh |
| Nh.NhResult | umac.c:1230-1269 | the two stream results of nh_update/nh_final |
| Nh.NhResultIsSum | umac.c:1230-1269 | stream s is the sum over the padded chunks of the four products plus 8·length, mod 2^64 |
| Nh.NhOutputIsSum | umac.c:1272-1306 | stream s of nh is the NH sum plus the bit length, mod 2^64 |
| Nh.NhBlock | umac.c:1272-1306 | a whole L1_KEY_LEN block has the same result through nh as through update/final |
| Nh.SmallMod | umac.c:1284 | a number below the modulus is its own residue |
| Nh.PaddedBlock | umac.c:1272-1306 | a short message zero-padded to 32 bytes hashed by nh with its own length has the update/final result |
| Nh.ZeroPad | umac.c:1206-1226 | zero_pad writes n zeros at off and nothing else |
| Nh.DeriveKey | umac.c:1156-1161 | nh_key is kdf index 0, endian-converted, read as big-endian words |
| Nh.PadLength | umac.c:1242-1243 | nh_len is n rounded up to a multiple of 32 |
| Nh.FinalStream | umac.c:1248-1250 | each result word is the accumulator over the padded message plus its bit length |
| Nh.Add64 | umac.c:1250 | UINT64 addition wraps mod 2^64 |
| Nh.OneShotStream | umac.c:1284-1305 | nh starts each accumulator at the bit length |
| Nh.BulkLength | umac.c:1192-1193 | `nbytes & ~127`: the whole 128-byte blocks, a positive multiple of 128 |
| Nh.WordOffset | umac.c:1086 | the key offset in words of the byte offset bytes_hashed |
| Nh.NhCtx.ValidFed | umac.c:833 | a valid context holds at most L1_KEY_LEN bytes fed |
| Nh.NhCtx.Reset | umac.c:1129-1152 | nothing fed, nothing buffered, accumulators zero |
| Nh.NhCtx.constructor | umac.c:1156-1168 | nh_init: the key words come from kdf index 0, the context is reset |
| Nh.NhCtx.Transform | umac.c:1078-1089 | the accumulators absorb the chunks under the key shifted past the bytes hashed |
| Nh.NhCtx.Update | umac.c:1174-1202 | the bytes fed grow by buf; whole blocks are hashed and the rest buffered |
| Nh.NhCtx.FillAndHash | umac.c:1180-1188 | the first branch completes the buffer, hashes it and leaves the rest of the input |
| Nh.NhCtx.HashWhole | umac.c:1189-1196 | the second branch hashes the whole blocks straight from the input, fewer than 128 bytes remain |
| Nh.NhCtx.BufferRest | umac.c:1200-1201 | the remaining input is copied after the buffered bytes |
| Nh.NhCtx.Final | umac.c:1230-1269 | the result is NH of all bytes fed, and the context is reset |
| Nh.NhCtx.PadTail | umac.c:1240-1247 | the buffered bytes are padded, hashed and counted |
| Nh.NhCtx.Nh | umac.c:1272-1306 | the result is NH of the padded buffer with the UINT32 bit length, and the context is unchanged |
| Poly.MaskKey | umac.c:1797-1798 | the poly key mask keeps the low 25 bits of each 32-bit half and nothing else |
| Poly.Mul64 | umac.c:185 | (no ensures) MUL64: the exact product of two 32-bit words, below 2^64 |
| Poly.KeyInDomain | umac.c:1797 | (no ensures) the key domain the mask leaves: each 32-bit half below 2^25 |
| Poly.Add | umac.c:1408-1414 | (no ensures) UINT64 addition, wrapping at 2^64 |
| Poly.CarryAdd | umac.c:1408-1414 | (no ensures) `res += b; if (res < b) res += 59;` with UINT64 wrap-around |
| Poly.MulP64 | umac.c:1393-1411 | (no ensures) poly64's product part: the three half products, x_hi times 59, then T = x_lo << 32 added with the carry fold, every operation wrapping at 2^64 |
| Poly.Poly64 | umac.c:1391-1418 | (no ensures) poly64: the product part, then data added with the carry fold; its meaning is stated by Poly.Poly64Congruent |
| Poly.PolyStep | umac.c:1499-1515 | (no ensures) poly_hash for one stream: a word whose high half is 0xffffffff goes in as p64 - 1 then the word minus 59, any other word as it is |
| Poly.PolyFold | umac.c:1499-1515 | (no ensures) the UINT64 accumulator after poly_hash over a sequence of words, starting at 1; Poly.PolyFoldIsPoly states what it computes |
| Poly.ModShift | umac.c:129 | adding 59 to a value that overflowed 2^64 keeps its residue mod p64 = 2^64 - 59 |
| Poly.CarryFold | umac.c:1385-1388 | an addition whose lost carry is added back as 59 is an addition mod p64 |
| Poly.SplitProduct | umac.c:1401-1405 | cur * key equals the four 32-bit half products recombined |
| Poly.PartialBounds | umac.c:1401-1405 | with a masked key the half products stay far below 2^64 |
| Poly.FoldBound | umac.c:1405 | the folded high part plus the low product cannot reach 2^64 - 2^32 |
| Poly.MulP64Exact | umac.c:1401-1410 | for a masked key poly64's multiply step wraps only when T is added |
| Poly.MulP64Congruent | umac.c:1391-1410 | for a masked key poly64's multiply step is cur * key mod p64 |
| Poly.Poly64Congruent | umac.c:1391-1418 | for a masked key and data below p64, poly64 is cur * key + data mod p64 |
| Poly.PolyRef | umac.c:1499-1515 | POLY's step in Z_p64, out-of-range words split into the marker p64 - 1 and the word minus 59; result below p64 |
| Poly.FedBelowP64 | umac.c:1507-1513 | the high half is all ones exactly when the word is out of range, and each value poly_hash passes to poly64 is below p64 |
| Poly.MulModLeft | umac.c:1391-1418 | a product mod p64 depends only on the left factor mod p64 |
| Poly.PolyStepCongruent | umac.c:1505-1514 | poly_hash's step on the unreduced accumulator agrees mod p64 with POLY's step on the reduced one |
| Poly.Fix | umac.c:1605-1606 | ip_long's one subtraction brings any UINT64 into Z_p64: the result is the value mod p64 |
| Poly.PolyRefFold | umac.c:1755 | POLY over a word sequence, starting from 1, stays below p64 |
| Poly.PolyFoldIsPoly | umac.c:1499-1515 | poly_hash's accumulation, fixed once at the end, equals POLY over the same words |
| Ip.Piece | umac.c:1533-1541 | each 16-bit piece ip_aux multiplies is below 2^16 |
| Ip.MulAdd | umac.c:1535-1538 | (no ensures) one line of ip_aux: t plus key times a 16-bit piece, mod 2^64 |
| Ip.IpSum | umac.c:1533-1541 | (no ensures) the reference for ip_aux: the four key-piece products added over the integers |
| Ip.IpAux | umac.c:1533-1541 | (no ensures) ip_aux(t, k + o, data): the four key-piece products added to t, each addition wrapping at 2^64; Ip.IpAuxExact states when nothing wraps |
| Ip.PiecesCompose | umac.c:1533-1541 | the four pieces, most significant first, make up the word |
| Ip.ProductBound | umac.c:1533-1541 | a key below p36 times a piece is below 2^52 |
| Ip.IpAuxExact | umac.c:1533-1541 | with keys below p36, ip_aux from 0 is the exact inner product, below 2^54, with no UINT64 wrap |
| Ip.FoldHigh | umac.c:1547 | folding the bits above 36 in times 5 keeps the residue mod p36 and stays below 2 p36 |
| Ip.IpReduceP36 | umac.c:1543-1554 | ip_reduce_p36 returns t mod p36 mod 2^32 for every UINT64 t |
| Ip.IpOutAsWritten | umac.c:1567-1568 | stream s's result read with ip_aux given ip_keys + s, as the code does: four bytes; UHASH is built on it |
| Ip.IpBytesAsWritten | umac.c:1599-1613 | both streams' results as ip_short and ip_long compute them: eight bytes; UHASH is built on it |
| Ip.IpKeysUnread | umac.c:1567-1570 | as written, key arrays agreeing on their first five keys give the same result, so ip_keys[5..7] are never read |
| Ip.IpKeysMisread | umac.c:1569-1570 | for ip_keys with only key 4 set and the word 1 in stream 1, the as-written result differs from the result with each stream's keys at 4s |
| Ip.IpOut | umac.c:1803-1805 | the corrected layer of the Findings row: stream s's result with its keys read where uhash_init laid them, ip_keys[4s..4s+3]: four bytes |
| Ip.IpBytes | umac.c:1803-1805 | the corrected variant of ip_short/ip_long's layer: both streams' results with keys at 4s, stream 0 first: eight bytes; the code computes Ip.IpBytesAsWritten instead |
| Ip.IpOwnKeys | umac.c:1803-1805 | with the keys read at 4s, stream s depends on its own four keys and on no other |
| Ip.IpOutIsRef | umac.c:1803-1805 | with keys below p36, the corrected stream s's result is the inner product with keys 4s..4s+3 mod p36 mod 2^32, XOR the translation key, big-endian |
| Ip.IpRef | umac.c:1533-1573 | (no ensures) the inner-product layer over the integers: the exact inner product with keys o .. o+3, mod p36, mod 2^32, XOR the translation key, big-endian |
| Ip.IpOutAsWrittenIsRef | umac.c:1562-1613 | with keys below p36, the code's stream s result is the inner product with keys s..s+3 mod p36 mod 2^32, XOR the translation key, big-endian |
| Ip.ReadLayout | umac.c:1567-1570 | the keys the code reads, laid out at 4s: keys 0..3, then keys 1..4 |
| Ip.AsWrittenIsReadLayout | umac.c:1562-1613 | the code's layer is the corrected layer run on the keys it actually reads |
| Uhash.PolyKeysOf | umac.c:1782-1798 | each stream's poly key is the eight bytes at 24i of kdf index 1 read big-endian, and lies in the masked key domain |
| Uhash.IpKeyOffset | umac.c:1803-1805 | inner-product key 4i + j is copied from word j of the four at byte (8i + 4) * 8 of the kdf buffer, inside the buffer |
| Uhash.IpKeyAt | umac.c:1806-1812 | each inner-product key is below p36 |
| Uhash.IpKeysOf | umac.c:1802-1812 | there are eight inner-product keys, each reduced into Z_p36 |
| Uhash.KeysOf | umac.c:1769-1820 | the keys uhash_init derives (NH from kdf index 0, poly from 1, inner product from 2, translation from 3) are well formed |
| Uhash.Done | umac.c:1896-1903 | stream s has one NH result per whole block hashed |
| Uhash.L2Words | umac.c:1896-1903 | (no ensures) the words stream s hands to poly_hash: one NH result per whole block, then one for a partial last block (umac.c:1923-1927) |
| Uhash.L3Input | umac.c:1918-1950 | (no ensures) what stream s hands to the inner-product layer: the NH result for a short message, the polynomial accumulator otherwise |
| Uhash.UhashOf | umac.c:1918-1953 | UHASH as the code computes it, inner-product keys at ip_keys + i, yields eight bytes |
| Uhash.UhashOfIntended | umac.c:1803-1805 | UHASH with each stream's inner-product keys read where uhash_init laid them yields eight bytes |
| Uhash.UhashIsIntendedOnReadKeys | umac.c:1562-1613 | the code's UHASH is the intended UHASH under the same keys with the inner-product keys replaced by those the code reads, and those keys are well formed |
| Uhash.UhashLayers | umac.c:1957-2015 | UHASH is NH for a message of at most one block, else POLY over Z_p64 of the blocks' NH results, followed by stream s's inner product with the keys from ip_keys + s, mod p36, plus the translation key |
| Uhash.RefInput | umac.c:1918-1950 | (no ensures) the inner-product input over the integers: the NH result, or POLY of the L2 words |
| Uhash.DoneAppend | umac.c:1896-1903 | one more whole block appends exactly its NH result to each stream's list |
| Uhash.PolyFoldSnoc | umac.c:1499-1515 | the accumulator after one more poly_hash step is Horner's rule over one more word |
| Uhash.LoadConverted64 | umac.c:1806-1807 | endian-converting eight bytes and then loading them little-endian reads them big-endian |
| Uhash.DerivePolyKeys | umac.c:1782-1799 | the poly-key loop yields PolyKeysOf of kdf index 1 |
| Uhash.EightOfConcat | umac.c:1803-1805 | an eight-byte window of a concatenation lies in one of its halves |
| Uhash.EightOfSlice | umac.c:1803-1805 | an eight-byte window of a slice is the matching window of the whole |
| Uhash.IpKeyLoad | umac.c:1803-1812 | key n of the gathered, converted, reduced buffer is IpKeyAt of the kdf bytes |
| Uhash.DeriveIpKeys | umac.c:1801-1813 | the inner-product-key part of uhash_init yields IpKeysOf of kdf index 2 |
| Uhash.DeriveTrans | umac.c:1815-1819 | the translation keys are the eight bytes of kdf index 3 read as two big-endian words |
| Uhash.DoneBlocks | umac.c:1871-1911 | the number of blocks uhash_update has passed to poly_hash leaves at most one block in the NH context, and strictly less than one once past the first block |
| Uhash.BlockSplit | umac.c:1876 | p and r are the quotient and remainder of n by L1_KEY_LEN |
| Uhash.BytesHashed | umac.c:1876-1878 | bytes_hashed is exactly the number of bytes the NH context holds |
| Uhash.DoneAfter | umac.c:1896-1910 | after the first block, whole blocks followed by a short tail are the blocks DoneBlocks counts |
| Uhash.L2Split | umac.c:1923-1927 | a long message's POLY input is its whole blocks' NH results and then the tail's, when the tail is not empty |
| Uhash.StartFold | umac.c:1741-1743 | each accumulator starts at 1 |
| Uhash.FoldBlock | umac.c:1896-1903 | hashing one more whole block moves the accumulator to the fold over one more NH result |
| Uhash.ShortOf | umac.c:1947-1950 | for a message of at most one block, ip_short over the NH result is UHASH |
| Uhash.LongOf | umac.c:1923-1946 | for a longer message, ip_long over the accumulators after the blocks and the tail is UHASH |
| Uhash.UhashCtx.StagedFacts | umac.c:1340-1356 | the context invariant after p blocks unpacks into its shape, the NH context holding the bytes after the p blocks, and each accumulator the fold over those blocks |
| Uhash.UhashCtx.StagedIntro | umac.c:1340-1356 | those facts establish the invariant |
| Uhash.UhashCtx.ValidShaped | umac.c:1340-1356 | a valid context has keys and buffers of the sizes the structure declares |
| Uhash.UhashCtx.Reset | umac.c:1733-1760 | uhash_reset leaves a valid, empty context with the same keys |
| Uhash.UhashCtx.constructor | umac.c:1769-1820 | uhash_init yields a valid, empty context whose keys are KeysOf the block function |
| Uhash.UhashCtx.PolyHash | umac.c:1499-1515 | each stream's accumulator takes one POLY step with that stream's NH result |
| Uhash.UhashCtx.IpShort | umac.c:1562-1595 | ip_short, reading stream i's keys at ip_keys + i as the code does, writes the inner-product layer of the two NH results into the first eight result bytes and nothing else |
| Uhash.UhashCtx.IpLong | umac.c:1599-1613 | ip_long brings each accumulator into Z_p64 and, reading the keys at ip_keys + i as the code does, writes the inner-product layer of the results into the first eight bytes |
| Uhash.UhashCtx.CompleteBlock | umac.c:1885-1893 | completing the NH context's block passes one more whole block to POLY and keeps the invariant |
| Uhash.UhashCtx.HashBlock | umac.c:1896-1903 | hashing a whole block directly passes one more block to POLY and keeps the invariant |
| Uhash.UhashCtx.Buffer | umac.c:1871-1873 | bytes that stay in the NH context extend both what it holds and what has been fed |
| Uhash.UhashCtx.HashBlocks | umac.c:1880-1904 | the block loop consumes the input up to a tail shorter than a block and keeps the invariant |
| Uhash.UhashCtx.Update | umac.c:1863-1914 | uhash_update keeps the context valid, appends the input to what has been fed and leaves the keys alone |
| Uhash.UhashCtx.FinishLong | umac.c:1923-1946 | the long-message branch of uhash_final writes UHASH of everything fed |
| Uhash.UhashCtx.Final | umac.c:1918-1953 | uhash_final writes UHASH of everything fed since the reset and resets the context |
| Uhash.UhashCtx.NhPadded | umac.c:1970-1973 | zero-padding to the 32-byte boundary and hashing with the true length gives the NH result of the unpadded bytes, touching only the padding |
| Uhash.UhashCtx.HashDirect | umac.c:1979-1984 | the loop hashes every whole block of the message and the accumulators are the folds over them |
| Uhash.UhashCtx.OneShotLong | umac.c:1975-2011 | the long branch of uhash writes UHASH of the message and changes only the padding bytes |
| Uhash.UhashCtx.Uhash | umac.c:1957-2015 | the all-in-one uhash writes UHASH of msg[..len], changes only the padding bytes and resets the context |
| Umac.Tag | umac.c:2088-2112 | a UMAC tag is eight bytes |
| Umac.TagDependsOnKey | umac.c:2062-2084 | any two block functions computing AES under the same key (and the same pad key) give the same tag |
| Umac.KeysAgree | umac.c:1769-1820 | block functions that agree on every block derive the same UHASH keys |
| Umac.PadAgree | umac.c:761-810 | block functions that agree on every block give the same pad |
| Umac.KeyTag | umac.c:2062-2112 | the tag as a function of the user key alone is eight bytes |
| Umac.TagOfKey | umac.c:2062-2112 | every pair of block functions set up from the key gives that tag |
| Umac.TagUnmasks | umac.c:2102-2104 | the tag XOR the pad is the UHASH value |
| Umac.ExpandKey | umac.c:577 | aes_setup yields a fresh round-key buffer of the right length holding the schedule of the key |
| Umac.UmacCtx.constructor | umac.c:2062-2084 | umac_new yields a valid context for the key, nothing fed, whose pad cipher is AES under the derived pad key |
| Umac.UmacCtx.FinalTag | umac.c:2088-2112 | the tags a valid context computes are those of its key |
| Umac.UmacCtx.Reset | umac.c:2036-2041 | umac_reset empties what has been fed and keeps the key |
| Umac.UmacCtx.Update | umac.c:2116-2122 | umac_update appends the input to what has been fed |
| Umac.UmacCtx.Final | umac.c:2088-2112 | umac_final writes the tag of everything fed, for the nonce, and resets the context |
| Umac.UmacCtx.Umac | umac.c:2127-2148 | the all-in-one umac writes the tag of msg[..len] for the nonce and leaves the message bytes unchanged |
| EgRing.Min | eg.c:164-168 | the smaller of two counts, and one of them |
| EgRing.Contents | eg.c:185-192 | the unread bytes fit in the ring, and there are none exactly when ohead equals otail |
| EgRing.Capacity | eg.c:8-11 | unread plus free bytes make the whole 248-byte ring less one slot, or all of it while ohead is at the start |
| EgRing.FullIffNoRoom | eg.c:115-133 | when eg_buf_full reports full there is no room, and no room without that report happens exactly with ohead one past the start and otail on oend |
| EgRing.IsFull | eg.c:115-133 | (no ensures) eg_buf_full: the slot after otail, wrapping from oend to the start, is ohead |
| EgRing.Free | eg.c:155-168 | (no ensures) the bytes eg_out_buf may still write before otail reaches ohead, across the wrap |
| EgRing.FillLim | eg.c:201-208 | (no ensures) where one eg_fill_entropy copy stops: otail when it lies ahead of ohead and within oend, else oend |
| EgRing.WrapTail | eg.c:146-149 | moving otail from oend to the start changes neither the contents nor the room while ohead is not at the start |
| EgRing.AppendSpan | eg.c:164-175 | a copy at otail that stays below the copy limit appends the data to the contents and uses up that much room |
| EgRing.FillSpan | eg.c:201-224 | a read of n bytes from ohead up to the copy limit takes the first n unread bytes and leaves exactly the rest unread |
| EgRing.Joined | eg.c:177-180 | the first copy and the recursive one lay down the first n + m bytes of the data in a row |
| EgRing.Ring.constructor | eg.c:495-497 | the ring starts empty with all 248 bytes of room |
| EgRing.Ring.Full | eg.c:115-133 | eg_buf_full's answer, and when full there is no room |
| EgRing.Ring.CopySpan | eg.c:146-175 | one copy appends as many bytes of the data as fit before the limit, and copies nothing only when the ring is full |
| EgRing.Ring.Append | eg.c:135-183 | the corrected eg_out_buf appends min(length, room) bytes of the data after the unread bytes, which stay as they were |
| EgRing.Ring.TakeSpan | eg.c:201-225 | one copy of eg_fill_entropy hands out an in-order prefix of the unread bytes, stopping short of howmuch only at the copy limit |
| EgRing.Ring.Fill | eg.c:194-231 | eg_fill_entropy on a ring holding bytes hands out the first min(howmuch, unread) unread bytes in order, removes them and touches no other byte of out |
| EgRing.OutBufAsWritten | eg.c:135-183 | eg_out_buf as written leaves a well-formed ring |
| EgRing.OutBufOverwrites | eg.c:155-180 | with ohead ahead of otail, an 8-byte tag overwrites unread bytes: 245 unread bytes become five |
| EgRing.FillAsWritten | eg.c:194-231 | eg_fill_entropy as written, on any ring, leaves a well-formed ring |
| EgRing.FillEmptyRing | eg.c:201-215 | on an empty ring eg_fill_entropy hands out eight stale bytes and leaves 240 stale bytes looking unread |
| EgRing.FillNothingEmptiesFullRing | eg.c:221-224 | a zero-byte read of a full ring with ohead at the start drops all 248 unread bytes |
| Eg.MaxOfIsMax | eg.c:313-323 | the credit subtracted is the largest of the slots and is one of them |
| Eg.Sum | eg.c:316-319 | (no ensures) estimates[0] + … + estimates[n - 1] over the integers |
| Eg.MaxOf | eg.c:313-323 | (no ensures) the largest of the first n slots, which estcpy[0] holds after the descending qsort |
| Eg.Elevel | eg.c:306-326 | (no ensures) eg_compute_elevel: the sum of the registered slots less the largest of all seven |
| Eg.SumPrefix | eg.c:316-319 | only the first `sources` slots enter the sum |
| Eg.SumLone | eg.c:316-319 | with no negative credit the sum equals the lone non-zero slot, if it is counted |
| Eg.LoneSourceNeverReady | eg.c:306-335 | credit from one source alone never raises the level above zero, so the pool never outputs on it |
| Eg.UnregisteredCreditNeverRaises | eg.c:313-323 | credit to a slot no registered source owns never raises the level |
| Eg.Cap | eg.c:442-446 | a credit is capped at 70 and at the uncapped value, with no lower bound |
| Eg.SpoolXor | eg.c:101-110 | mixing data into the spool keeps its 32 bytes |
| Eg.SpoolXorStep | eg.c:103-108 | the first byte goes in at spoolpos and the rest from the next position, wrapping |
| Eg.SpoolXorNil | eg.c:101 | no data leaves the spool unchanged |
| Eg.SpoolPosStep | eg.c:104-108 | spoolpos steps modulo 32 |
| Eg.SpoolXorAt | eg.c:101-110 | with at most 32 bytes of data, slot k is changed once, by the byte whose distance from spoolpos is k's |
| Eg.Dist | eg.c:101-110 | how far slot k lies after spoolpos going round the spool: below 32, and spoolpos + d reaches k mod 32 |
| Eg.SpoolXorTwice | eg.c:101-110 | mixing the same data twice from the same position gives the spool back |
| Eg.SpoolOut | eg.c:96-113 | a write to the spool keeps the spool state well formed |
| Eg.Rekeys | eg.c:82-94 | (no ensures) check_spool_rekey rekeys exactly when slowcount has reached slowthresh |
| Eg.SpoolRun | eg.c:96-113 | a run of writes keeps the spool state well formed |
| Eg.WritesUntilRekey | eg.c:82-113 | writes only count up to the rekey, which comes exactly when slowcount reaches slowthresh |
| Eg.MixSpool | eg.c:101-110 | the loop leaves the spool as SpoolXor says and spoolpos advanced by the length modulo 32 |
| Eg.Credited | eg.c:442-446 | only the source's slot changes, to the capped sum |
| Eg.NextOctr | eg.c:278-282 | octr stays in 1..10 |
| Eg.Octr | eg.c:278-282 | (no ensures) octr after n outputs |
| Eg.OctrCycles | eg.c:278-282 | after n outputs octr is (octr + n - 1) mod 10 + 1 |
| Eg.SpoolTurn | eg.c:285 | exactly one output in ten takes the spool turn |
| Eg.RoutedMsgid | eg.c:285-292 | msgid changes on routing only when the tag goes to the spool and rekeys it |
| Eg.ToSpool | eg.c:285-292 | (no ensures) eg_do_output's destination test, with octr already stepped: not keyed, the ring full, or octr past EPOOL_OUTD - EPOOL_OUTN |
| Eg.Routed | eg.c:285-292 | (no ensures) the state after the tag is routed: to the spool (mixed in, rekeyed when due) with the ring as it was, or appended to the ring as far as there is room, with spool and key as they were |
| Eg.Emitted | eg.c:270-296 | (no ensures) eg_do_output after umac_final: octr steps, the tag lands as Routed says, and msgid advances mod 2^64 |
| Eg.Pool.constructor | eg.c:480-501 | EG_init: no sources, not keyed, zero credits, an all-zero key, an empty ring and a zero spool with slowthresh at its start value |
| Eg.Pool.Register | eg.c:49-66 | the next free slot and one more source, or -1 with nothing changed once all seven are taken |
| Eg.Pool.ZeroEstimates | eg.c:30-39 | every credit is zero |
| Eg.Pool.ComputeElevel | eg.c:306-326 | the level is the sum of the registered credits less the largest credit of all slots |
| Eg.Pool.OutputReady | eg.c:328-335 | ready exactly when the level exceeds 64 |
| Eg.Pool.EntropyLevel | eg.c:337-355 | 1 while the pool is keyed and holds output, else the level over 64 |
| Eg.Pool.RekeyWithSpool | eg.c:69-79 | the key is the spool's first bytes, msgid the next eight read little-endian, spoolpos and slowcount restart and UMAC starts afresh |
| Eg.Pool.CheckSpoolRekey | eg.c:82-94 | rekeys exactly when slowcount has reached slowthresh, doubling slowthresh up to 1024, and otherwise changes nothing |
| Eg.Pool.OutSpool | eg.c:96-113 | the spool becomes SpoolOut of the data, with a rekey exactly when one is due |
| Eg.Pool.DoOutput | eg.c:270-296 | the UMAC tag under msgid goes where Emitted says, the credits are cleared and msgid advances |
| Eg.Pool.Emit | eg.c:276-294 | octr steps, the tag lands in the spool or the ring, the credits are cleared and msgid advances modulo 2^64 |
| Eg.Pool.Route | eg.c:285-292 | the tag goes to the spool iff the pool is not keyed, the ring is full or octr is 10, else it is appended to the ring |
| Eg.Pool.AddEntropy | eg.c:424-455 | -1 with nothing changed for a slot outside 0..6; before keying the sample only feeds the startup hash; afterwards it is credited and mixed; otherwise 1 |
| Eg.Pool.Mix | eg.c:442-452 | the credit is capped, the sample fed to UMAC, and a tag output exactly when the new level exceeds 64 |
| Eg.Pool.StartupDone | eg.c:396-422 | the digest's first min(keyLen, 20) bytes become the key, the rest overwrite msgid's low bytes, and the pool is keyed |
| Eg.Pool.Output | eg.c:239-268 | nothing unless keyed and holding bytes, else the first min(howmuch, unread) unread bytes in order; a blocking call gets all howmuch |
| Prng.CtrBytes | prng.c:189 | AES encrypts a 16-byte block made of the two counter limbs |
| Prng.MemBytes | prng.c:189 | the eight bytes of a uint64 as they lie in memory, by the host's byte order: always eight |
| Prng.LimbPortable | prng.c:121-149 | a limb stored through long_long_swap lies in memory least significant byte first, in both byte orders |
| Prng.CtrBytesPortable | prng.c:186-189 | the block AES encrypts is each counter limb least significant byte first, whatever the machine's byte order |
| Prng.LoadPortable | prng.c:75-80 | a uint64 read from memory and then through long_long_swap is its bytes read little-endian, in both byte orders |
| Prng.MemLoad | prng.c:77-79 | (no ensures) the uint64 the host reads from eight bytes of memory, by its byte order |
| Prng.Or64 | prng.c:87 | (no ensures) the C operator `|` on two uint64 values, byte by byte |
| Prng.Or8 | prng.c:87 | bytewise OR of two eight-byte strings: eight bytes |
| Prng.Xor64 | prng.c:79 | (no ensures) the C operator `^` on two uint64 values, byte by byte |
| Prng.Limbs | prng.c:121-124 | (no ensures) two native words as the 128-bit number long_long_swap reads from them, the first one high |
| Prng.OrSwappedOneIsOdd | prng.c:87 | ORing long_long_swap(1) into the low step limb makes that limb odd as a number, in both byte orders |
| Prng.AddLimbs | prng.c:127-143 | the low limbs added modulo 2^64 with the carry into the high limbs, and the high limbs modulo 2^64, are addition modulo 2^128 |
| Prng.Carry | prng.c:133-141 | (no ensures) the carry out of the low limb: the sum wrapped past 2^64 |
| Prng.Blocks | prng.c:184-206 | n keystream blocks are 16n bytes |
| Prng.BlocksFor | prng.c:184-206 | the loop makes just enough blocks to cover what the pending bytes do not, and not one more |
| Prng.SplitDraw | prng.c:164-215 | the pending bytes taken, then the first bytes of the fresh blocks, are the first howmuch bytes of the stream, and what stays pending is the rest of it |
| Prng.BlocksForShift | prng.c:164-183 | past the pending bytes the block count depends only on the bytes still wanted |
| Prng.BlocksForUnique | prng.c:184-206 | only one block count meets those bounds |
| Prng.AdvAdd | prng.c:186 | stepping the counter a + b times is stepping it a times, then b |
| Prng.Adv | prng.c:186 | (no ensures) the counter after n increments by the step, modulo 2^128 |
| Prng.BlocksAdd | prng.c:184-206 | a + b blocks are the first a followed by b more from the counter where those left it |
| Prng.Contiguous | prng.c:164-215 | consecutive calls hand out the stream with no byte skipped or repeated |
| Prng.ReachedStays | prng.c:98-99 | once the target time is reached every later poll finds it reached, as nothing moves the target after a rekey |
| Prng.Target | prng.c:354-361 | the target is now plus the interval, with one carry from microseconds into seconds |
| Prng.Reached | prng.c:98-99 | (no ensures) poll_rekey's comparison: now is at or past the target, seconds first, then microseconds |
| Prng.TargetNormal | prng.c:357-361 | the target's microseconds stay below a million when both summands do |
| Prng.TargetNeedsSmallUsec | prng.c:357-361 | with an interval of two million microseconds or more one carry leaves tv_usec out of range |
| Prng.RekeyRequest | prng.c:265 | PRNG_output asks the gateway for at least the bytes PRNG_rekey reads |
| Prng.SeedLen | prng.c:60-80 | (no ensures) the seed bytes PRNG_rekey reads: 2·keylen for the key loop, then 16 for the step |
| Prng.KeySeedBytes | prng.c:64-68 | the bytes XORed into the key are seed[1], seed[3], ..., one per key byte |
| Prng.DrawOf | prng.c:164-206 | a draw of h bytes is h bytes |
| Prng.FirstDraw | prng.c:316-341 | a freshly set-up generator's first key draw is keylen bytes |
| Prng.MixKey | prng.c:60-68 | the key loop XORs the drawn key with the odd-indexed seed bytes |
| Prng.MixStep | prng.c:75-80 | the step loop XORs each drawn word with the machine word at the seed's next eight bytes, from 2 keylen on |
| Prng.DestroySeedTooShort | prng.c:369-371 | PRNG_destroy's seed is shorter than the keylen + 16 bytes PRNG_rekey's comment asks for, which is shorter than what it reads |
| Prng.DestroySeed | prng.c:369 | (no ensures) the seed PRNG_destroy passes as written: UMAC_KEY_LEN zero bytes |
| Prng.ZeroSeed | prng.c:369 | the corrected all-zero seed has every byte PRNG_rekey reads, and XORs nothing into the key |
| Prng.LimbsOdd | prng.c:87 | forcing the low limb's last bit makes the 128-bit step odd |
| Prng.SeededStepOdd | prng.c:75-87 | whatever was drawn and whatever the seed holds, PRNG_rekey's step is odd |
| Prng.DrawnStep | prng.c:40-46 | (no ensures) the step self_reseed stores: the 16 drawn bytes loaded as two native 64-bit words |
| Prng.SeededStep | prng.c:73-87 | (no ensures) the step PRNG_rekey stores: the drawn words XORed with the seed words at 2·keylen and 2·keylen + 8, the low limb ORed with long_long_swap(1) |
| Prng.Produced | prng.c:164-215 | before the count: h bytes, with key, step and count unchanged |
| Prng.OutputBytes | prng.c:155-227 | internal_output_bytes hands out h bytes and counts the call, resetting the count at MAXBLOCKRESEED |
| Prng.Reseeded | prng.c:28-47 | self_reseed counts its two draws and leaves the counter at zero |
| Prng.Rekeyed | prng.c:52-88 | PRNG_rekey counts its two draws and leaves the counter at zero |
| Prng.Gated | prng.c:254-261 | PRNG_output's loop and last call write exactly size bytes |
| Prng.OutputBytesQuiet | prng.c:164-225 | a call that does not reach MAXBLOCKRESEED hands out the next h bytes of the stream and keeps key and step |
| Prng.ReseededQuiet | prng.c:28-47 | away from MAXBLOCKRESEED the new key is the next keylen stream bytes and the new step the 16 bytes drawn under it after them |
| Prng.RekeyedKey | prng.c:62-68 | away from MAXBLOCKRESEED PRNG_rekey's key is the next keylen stream bytes XORed with the odd-indexed seed bytes |
| Prng.RekeyedOdd | prng.c:82-87 | PRNG_rekey always leaves an odd step, so the counter visits all 2^128 values before repeating |
| Prng.GatedFirst | prng.c:254-260 | the first piece continues the stream the generator stood at, and the bytes after it come from a reseeded state with its counter at zero |
| Prng.ProducedOb | prng.c:164-215 | producing bytes ignores outputblocks and keeps it |
| Prng.ReseedRecursesIff | prng.c:220-225 | a self_reseed entered with the count at 0 reseeds again, without end, exactly when MAXBLOCKRESEED is below 3 |
| Prng.AfterOutput | prng.c:220-225 | (no ensures) outputblocks after one internal_output_bytes call, and whether that call reseeds: at MAXBLOCKRESEED the count restarts at 0 and self_reseed runs |
| Prng.NextCount | prng.c:220-225 | (no ensures) outputblocks after the increment: one more, or 2 after the self_reseed that reaching MAXBLOCKRESEED sets off |
| Prng.Generator.Pending | prng.c:164-183 | the pending bytes are num_left bytes |
| Prng.Generator.CounterInMemory | prng.c:189 | the bytes AES reads from ectr are the counter's block |
| Prng.Generator.SwapWords | prng.c:118-124 | every word of ectr and step goes through long_long_swap |
| Prng.Generator.AddStepWords | prng.c:127-143 | the low word gets its step modulo 2^64 and the high word its step plus the low word's carry, modulo 2^64 |
| Prng.Generator.IncrementCounter | prng.c:111-153 | the counter advances by the step modulo 2^128 and the step is unchanged |
| Prng.Generator.TakePending | prng.c:164-183 | as many pending bytes as are wanted are handed out in order and the rest stay pending |
| Prng.Generator.GenerateBlocks | prng.c:184-206 | the loop writes the first howmuch bytes of the next blocks and advances the counter once per block |
| Prng.Generator.KeepTail | prng.c:209-215 | the unused last bytes of the last block become the pending bytes |
| Prng.Generator.Produce | prng.c:164-215 | the output is the next howmuch bytes of the stream, the counter advanced past the blocks used, and the rest of the last block pending |
| Prng.Generator.CountOutput | prng.c:220-225 | one more call counted; the one reaching MAXBLOCKRESEED resets the count and reseeds, and otherwise nothing else changes |
| Prng.Generator.InternalOutput | prng.c:155-227 | the output and the new state are OutputBytes of the old state |
| Prng.Generator.StoreStep | prng.c:82-86 | each counter word zeroed and each step word stored |
| Prng.Generator.SelfReseed | prng.c:28-47 | the new state is Reseeded of the old, with the counter at zero |
| Prng.Generator.RekeyDraws | prng.c:62-73 | the key drawn and XORed with the odd-indexed seed bytes, then the step bytes drawn under it |
| Prng.Generator.Rekey | prng.c:52-88 | the new state is Rekeyed of the old and the seed, with the counter at zero and the step odd |
| Prng.Generator.ForkCheck | prng.c:245-250 | a new process id reseeds once before any output and is recorded; the same one changes nothing |
| Prng.Generator.Gate | prng.c:255-259 | one loop round hands out GATE_SIZE bytes of the stream and reseeds |
| Prng.Generator.GatePieces | prng.c:254-260 | the loop leaves at most GATE_SIZE bytes to write, and its pieces followed by what Gated still owes are Gated's output |
| Prng.Generator.PollRekey | prng.c:90-104 | (no ensures) poll_rekey: an entropy gateway is installed and the clock has reached the target |
| Prng.Generator.Output | prng.c:229-280 | size bytes, which are Gated from the state after the fork check; then a rekey exactly when poll_rekey says so and the gateway returns bytes |
| Prng.Generator.Reset | prng.c:311-351 | the all-zero key, nothing counted, counter 0, step 1, nothing pending, the interval and the process id recorded |
| Prng.Generator.Init | prng.c:292-364 | the state is Rekeyed of the initial state and the seed, the key is the first draw XORed with the odd-indexed seed bytes, and the target is Target of now and the interval |
| Prng.Initial | prng.c:314-341 | (no ensures) the state PRNG_init starts from: the all-zero key, nothing pending, counter 0, step 1, no output counted |
| Prng.Generator.constructor | prng.c:292-364 | a generator set up by PRNG_init from the seed |
| Prng.Generator.Destroy | prng.c:366-372 | PRNG_init again with a zero seed and interval: the key is a zero-keyed generator's first draw, and the target is now |
| Popen.Lex | popen.c:45-74 | reading the characters yields at most one token per character |
| Popen.Words | popen.c:17-78 | (no ensures) the words to_words splits its argument into; Popen.WordsWellFormed, Popen.SplitJoinedRoundTrip and Popen.ToWords state their properties |
| Popen.Feed | popen.c:45-74 | (no ensures) one character of the second pass: a character extends the current word, an unquoted space ends it unless it is empty |
| Popen.GroupFrom | popen.c:45-74 | (no ensures) the second pass over a sequence of characters |
| Popen.Finish | popen.c:75-76 | the word being built when the input ends is always the last word |
| Popen.GroupKeepsNonEmpty | popen.c:56-61 | an unquoted space finishes a word only when it is non-empty |
| Popen.WordsWellFormed | popen.c:17-78 | to_words returns at least one word, and only the last may be empty |
| Popen.WordsEmpty | popen.c:44-76 | the empty string gives a single empty word |
| Popen.GroupCount | popen.c:56-61 | only unquoted spaces finish words |
| Popen.LexSeps | popen.c:50-62 | every word break comes from a space |
| Popen.WordsCount | popen.c:29-44 | the words never outnumber the first pass's nw, so the nw + 1 slots of arr hold them and the NULL |
| Popen.GroupBound | popen.c:45-74 | no word grows longer than the current word plus the tokens still to come |
| Popen.WordsFit | popen.c:45-74 | every word is at most as long as the argument |
| Popen.LexEscape | popen.c:63-68 | a backslash copies the next character literally, in or out of quotes |
| Popen.GroupChars | popen.c:69-72 | copied characters extend the current word |
| Popen.SplitJoinedRoundTrip | popen.c:17-78 | escaping every character of non-empty words and joining them with spaces gives a line that to_words splits back into exactly those words |
| Popen.SlmTooSmall | popen.c:32-43 | for a word with no space or quote the first pass sizes its buffer at one byte, too small for the word and its NUL |
| Popen.SlmQuotedTooSmall | popen.c:32-58 | the quoted phrase "a b" becomes one three-character word but gets a three-byte buffer |
| Popen.ScanSizes | popen.c:29-39 | the first pass as written: nw is one more than the quotes and spaces, slm the longest run ending at one of them |
| Popen.Slm | popen.c:29-39 | (no ensures) the first pass's slm as written: the longest run ending at a quote or a space, that character included; the run after the last one is not measured |
| Popen.Seps | popen.c:32-39 | (no ensures) the quotes and spaces of the argument: what the first pass adds to nw |
| Popen.ScanSizesFixed | popen.c:29-43 | the corrected first pass: nw as before, slm the argument's length, and every word fits with its NUL |
| Popen.ToWords | popen.c:17-78 | to_words returns exactly Words of the argument, well formed, within nw + 1 slots, every word within its buffer |
| Popen.RunCmdFlags | popen.c:222-229 | P_READ is added when neither direction is set, P_PRIVD is cleared, and every other bit is kept |
| Popen.PrivRunCmdFlags | popen.c:231-238 | the same direction rule, P_PRIVD set, every other bit kept |
| Popen.FlagsDifferInPrivileged | popen.c:222-238 | the two entry points differ only in P_PRIVD |
| Popen.FlagsIdempotent | popen.c:222-238 | normalising the flags twice changes nothing |
| ProcOut.CharStream.Getc | procout.c:14 | fgetc returns the next character and consumes it, or EOF at the end |
| ProcOut.SplitLine | procout.c:14-21 | the line is free of '\n' and is either followed by the consumed '\n' or is the rest of the input |
| ProcOut.SplitLineUnique | procout.c:14-21 | a line and what follows it determine each other |
| ProcOut.LeadingLines | procout.c:42-48 | the lines read_lines returns are non-empty and free of '\n' |
| ProcOut.AfterLeadingLines | procout.c:42-48 | (no ensures) what the input is left with once read_line returns NULL |
| ProcOut.LeadingStep | procout.c:42 | a non-empty line is kept and reading goes on after it |
| ProcOut.LeadingLinesRoundTrip | procout.c:33-59 | non-empty, newline-free lines written one per line, then an empty line or the end, are read back exactly, and reading stops right after the empty line |
| ProcOut.Push | procout.c:16-20 | each store is inside the allocation, and the allocation grows exactly when it is full |
| ProcOut.Room | procout.c:12-20 | (no ensures) the allocation after n characters: BUFSIZ + 1 to start, BUFSIZ more at every multiple of BUFSIZ |
| ProcOut.ReadLine | procout.c:5-31 | read_line returns the next line without its '\n', or NULL for an empty line or at EOF, consuming the line and its '\n' |
| ProcOut.ReadSoFarStart | procout.c:42 | the first read_line starts the account of lines read |
| ProcOut.ReadSoFarStep | procout.c:42-48 | one more kept line keeps the account |
| ProcOut.ReadSoFarEnd | procout.c:42 | when read_line returns NULL the lines read are all the leading lines |
| ProcOut.ReadLines | procout.c:33-59 | read_lines returns the leading non-empty lines followed by NULL, sets *x to their number, and leaves the input just after the line that stopped it |
| LineDiff.Compare | linux/ps.c:38 | strcmp's sign on NUL-free strings is 0 exactly for equal strings |
| LineDiff.CompareAntisym | linux/ps.c:38 | swapping strcmp's arguments negates its result |
| LineDiff.CompareTrans | linux/ps.c:38 | strcmp orders strings transitively, strictly when either step is strict |
| LineDiff.CompareAppend | linux/ps.c:73 | when neither string is a prefix of the other, whatever follows them cannot change strcmp's verdict |
| LineDiff.Prefix | linux/ps.c:73 | where strncmp stops: the first n characters, or the whole string when shorter |
| LineDiff.StrNCmp | linux/ps.c:73 | (no ensures) the sign of strncmp on NUL-free strings: strcmp of the first n characters of each |
| LineDiff.Min | linux/ps.c:73 | (no ensures) the min of processes_same's two lengths |
| LineDiff.StrNCmpAntisym | linux/ps.c:73 | swapping strncmp's arguments negates its result |
| LineDiff.SpaceFrom | linux/ps.c:26 | the first space at or after p, or the NUL when there is none |
| LineDiff.NonSpaceFrom | linux/ps.c:27-28 | the first character other than a space at or after p |
| LineDiff.ScanStep | linux/ps.c:26-28 | one step of either scan |
| LineDiff.SpaceAfterWord | linux/ps.c:26 | the first space after a column is the one that ends it |
| LineDiff.NonSpaceAfterGap | linux/ps.c:27-28 | skipping spaces stops at the end of the gap |
| LineDiff.SkipOne | linux/ps.c:26-28 | skipping a column and its spaces ends after them, inside the line |
| LineDiff.SkipFielded | linux/ps.c:26-31 | skipping the columns of a line that starts with them ends where they end |
| LineDiff.ToSpace | linux/ps.c:26 | the loop stops at the next space |
| LineDiff.SkipSpaces | linux/ps.c:27-28 | the loop stops at the first character that is not a space |
| LineDiff.SkipFieldLoops | linux/ps.c:26-28 | the two loops skip one column and the spaces after it |
| LineDiff.SkipField | linux/ps.c:26-28 | (no ensures) where the two loops stop: past the first space from p and the spaces after it |
| LineDiff.FieldsFrom | linux/ps.c:26-31 | (no ensures) where n such pairs of loops stop |
| LineDiff.AfterFields | linux/ps.c:26-31 | (no ensures) the text after the first n columns and their spaces |
| LineDiff.IncWraps | linux/ps.c:94 | incrementing the unsigned char e keeps it the count modulo 256 |
| LineDiff.Inc | linux/ps.c:94 | (no ensures) `e++` on an unsigned char: e + 1, wrapping at 256 |
| LineDiff.SkipFieldsLoops | darwin/df.c:21-36 | the unrolled loop pairs leave p after the first n columns |
| LineDiff.AfterFieldsOf | darwin/df.c:21-36 | a line of n columns with their gaps followed by rest keeps exactly rest after them |
| LineDiff.CountEnd | linux/ps.c:105-113 | when one list is exhausted the rest of the other is counted line by line |
| LineDiff.CountStep | linux/ps.c:87-104 | one merge step: equal keys count a change of text, otherwise the smaller line is counted and passed |
| LineDiff.Count | linux/ps.c:84-113 | (no ensures) the merge of diff_ps_for_entropy and diff_df_for_entropy over the integers: equal keys count 1 when the lines differ and advance both, otherwise the smaller line counts and is passed, and once a list ends every line left in the other counts; LineDiff.CountByKey states what it counts |
| LineDiff.CountSelf | linux/ps.c:76-118 | identical snapshots count nothing |
| LineDiff.CountBounds | linux/ps.c:87-113 | the count lies between the difference and the sum of the list lengths |
| LineDiff.CountSymmetric | linux/ps.c:87-113 | with an antisymmetric comparator the count does not depend on which snapshot is the older |
| LineDiff.AgainstEmpty | linux/ps.c:109-113 | against an empty list every line is unmatched and none changed |
| LineDiff.DropOther | linux/ps.c:97-103 | a line whose key the other list lacks changes nothing in that list's counts |
| LineDiff.HeadKeyUnique | linux/ps.c:163 | in a strictly sorted list no later line has the head's key |
| LineDiff.BelowHead | linux/ps.c:97-99 | a key below the head of a strictly sorted list is absent from it |
| LineDiff.CountByKey | linux/ps.c:76-118 | on lists strictly sorted by a key that the comparator orders by, the merge counts the lines that went, the lines that came and the lines whose text changed under the same key |
| LineDiff.Insert | linux/ps.c:163 | inserting a line into a sorted list keeps it sorted and adds exactly that line |
| LineDiff.SortLines | linux/ps.c:163 | qsort's result is a permutation of the lines, sorted by the key |
| Ps.Cmp | linux/ps.c:18-39 | ps_cmp is strcmp of what follows the first two columns |
| Ps.Key | linux/ps.c:26-31 | (no ensures) the text ps_cmp compares: what follows the first two columns and their spaces |
| Ps.KeyStart | linux/ps.c:49-54 | (no ensures) where the comparison starts: after the F and S columns and their spaces |
| Ps.UidEnd | linux/ps.c:61-63 | (no ensures) where the UID column ends, after the first two loops |
| Ps.PidStart | linux/ps.c:64 | (no ensures) where the PID column starts, after the third loop |
| Ps.PidEnd | linux/ps.c:65-66 | (no ensures) the space after the PID column, where the fourth loop stops |
| Ps.SpanLen | linux/ps.c:61-66 | (no ensures) l1: the length of the UID PID span |
| Ps.Span | linux/ps.c:73 | (no ensures) the UID PID span: the first l1 characters of the key |
| Ps.Same | linux/ps.c:43-74 | (no ensures) processes_same: strncmp of the two keys over the shorter UID-and-PID span |
| Ps.SpanLoops | linux/ps.c:61-72 | the four index loops measure the span up to the end of the PID column |
| Ps.ProcessesSame | linux/ps.c:43-74 | processes_same is Same of the two lines |
| Ps.DiffForEntropy | linux/ps.c:76-118 | e is the merge count modulo 256, the credit is e / 5, and the walk takes at most as many steps as there are lines |
| Ps.Sampler.constructor | linux/ps.c:41 | last and cur start NULL |
| Ps.Sampler.CallPs | linux/ps.c:120-187 | every line after the header is fed with estimate 0; the first snapshot is only stored; after that cur becomes last, the new sorted snapshot becomes cur and the diff is credited |
| Ps.KeyOfColumns | linux/ps.c:26-31 | ps_cmp compares whatever follows the first two columns and their spaces |
| Ps.SpanFits | linux/ps.c:61-66 | (no ensures) the four loops of processes_same find what they look for before the NUL |
| Ps.Line | linux/ps.c:26-66 | (no ensures) a line ps_cmp and processes_same scan without reading past its NUL |
| Ps.SpanFrom | linux/ps.c:61-72 | the four loops stay inside the line and stop at the space after the PID column |
| Ps.SpanOfColumns | linux/ps.c:49-72 | on a line of at least four columns the span is the UID column, its spaces and the PID column |
| Ps.SpanInKey | linux/ps.c:49-72 | the span lies inside the key |
| Ps.SameComparesSpans | linux/ps.c:73 | processes_same compares only the spans up to the shorter one, so it reports the same process exactly when one span is a prefix of the other (PID 34 and PID 345 of one user match) |
| Ps.SameAntisym | linux/ps.c:43-74 | processes_same is antisymmetric |
| Ps.SameOrdersSpans | linux/ps.c:73 | spans that are equal or apart are ordered by processes_same as by strcmp |
| Ps.SortedBySpan | linux/ps.c:163 | lines sorted by ps_cmp whose spans are pairwise apart are strictly sorted by span |
| Ps.NoChangeNoCredit | linux/ps.c:76-118 | identical snapshots give e = 0 |
| Ps.CountOrderFree | linux/ps.c:76-118 | the count does not depend on which snapshot is the older |
| Ps.CountsProcessChanges | linux/ps.c:76-118 | e counts the processes that ended, those that started and those whose line changed |
| Df.Cmp | darwin/df.c:15-94 | df_cmp and df_processes_same are strcmp of what follows the first eight columns |
| Df.Key | darwin/df.c:15-53 | (no ensures) the text df_cmp compares: what follows the first eight columns |
| Df.Same | darwin/df.c:58-94 | (no ensures) df_processes_same, the same code as df_cmp: strcmp of the two keys |
| Df.DiffForEntropy | darwin/df.c:96-127 | e is the merge count modulo 256, the credit is e / 8, and the walk takes at most as many steps as there are lines |
| Df.Sampler.constructor | darwin/df.c:56 | last and cur start NULL |
| Df.Sampler.CallDf | darwin/df.c:129-176 | every line after the header is fed with estimate 0; the first snapshot is only stored; after that cur becomes last, the new sorted snapshot becomes cur and the diff is credited |
| Df.KeyOfColumns | darwin/df.c:21-36 | the comparators see whatever follows the first eight columns and their spaces |
| Df.Line | darwin/df.c:21-36 | (no ensures) a line the df_cmp loops scan without reading past its NUL: a space after each of the eight columns |
| Df.NoChangeNoCredit | darwin/df.c:96-127 | identical snapshots give e = 0 |
| Df.CountOrderFree | darwin/df.c:96-127 | the count does not depend on which snapshot is the older |
| Df.DistinctSorted | darwin/df.c:155 | sorted lines whose mount points differ are strictly sorted |
| Df.CountsMountChanges | darwin/df.c:96-127 | e counts the file systems unmounted, those mounted and those whose line changed |
| Prng.Generator.CtrZero | prng.c:82-86 | a zeroed ectr is the counter value 0 |
| Prng.Generator.StepOdd | prng.c:87 | PRNG_rekey's last statement leaves the step odd |
| Popen.SplitJoined | popen.c:45-76 | splitting escaped words joined by spaces, after words already finished, finishes exactly those words as well |

## Left out

- Concurrency: the pool's mutex and condition variable, the cleanup handlers, and the generator's liblock and pthread_atfork are not modelled; each public call is one atomic step.
- Eg.Pool.Output: a blocking call is modelled as a single fill and requires that howmuch bytes are already unread, which is never true for more than the 248 bytes the ring holds. The source serves larger blocking requests over several waits on entready (eg.c:254-264), and that path is not modelled.
- Eg.Pool.DoOutput: msgid goes to umac_final as the bytes of a uint64 in host byte order; the model takes the little-endian layout. Eg.Pool.RekeyWithSpool and Eg.Pool.StartupDone read and overwrite msgid's bytes in the same layout, so big-endian hosts are not modelled.
- Eg.Credited: estimates and their sum are unbounded integers, so a C int overflow from extreme est values (EG_add_entropy places no bound on est) is not modelled. The same holds for Eg.Sum, Eg.Elevel and Eg.Pool.ComputeElevel.
- Eg.Pool.StartupDone: SHA-1 is not part of this model (sha1.h is an interface only); the digest function is a parameter.
- Eg.Pool: EG_save_state and EG_restore_state are file I/O on umackey and are not modelled; nor is the commented-out LFSR mixer.
- Eg.Pool.EntropyLevel: the double division is modelled on reals, without floating-point rounding.
- Uhash.UhashCtx.Update: msg_len is a UINT32 in the source and is modelled unbounded. Messages of 2^32 bytes or more, where the wrapped msg_len would send uhash_update and uhash_final down the wrong branch, are not modelled. The number of poly_hash steps is unbounded in the model for the same reason.
- Uhash: only the build the source compiles is modelled (WORD_LEN 4, two streams, no HASH_ONLY). The WORD_LEN 2 code (nh_aux_4, poly32, the ramped poly_hash, the p19 inner product) is left out.
- Umac.UmacCtx: memory management is left out: the ALLOC_BOUNDARY alignment in umac_new, umac_delete, uhash_alloc and uhash_free. So are the self-test and timing code after the UMAC section.
- Nh: zero_pad's alignment loop is modelled by its effect only, zeroing the bytes.
- Prng.Generator: the nonce field (prng.c:187, 312) is written and never read, so it is not modelled.
- Prng.Generator: the cipher is a parameter, any function from key and block to block, rather than the Aes model; aes_setup on a new key is folded into it.
- Prng.Generator: the interval sec and usec, and the process id, come in as parameters; gettimeofday and getpid become arguments.
- Prng.Generator: mlock/VirtualLock and the alignment of rectr are left out.
- Prng.Generator.Output: the fork check modelled is the getpid one (prng.c:245-250). The THREAD_USES_NEWPID variant, which compares fork and seed times, is left out.
- Prng.Generator.Output: the gateway's reply is an argument (None for a NULL return). Its egfree is left out.
- Prng.Generator: MAXBLOCKRESEED, GATE_SIZE and UMAC_KEY_LEN come from a header that is not part of this model; they are fields, with MAXBLOCKRESEED at least 3 (see Findings) and GATE_SIZE positive.
- Popen.ToWords: C chars are modelled as Dafny chars, and an embedded NUL is not modelled as ending the string. Malloc failure and the buffer overruns of the as-written sizing are not modelled as memory; the sizing is a Finding instead.
- Popen.RunCmdFlags: raw_pipe_open, fork/exec, pipes and the privilege handling behind run_cmd and priv_run_cmd are not modelled, only the flags they pass on.
- ProcOut.ReadLines: the stream is a sequence of chars, with the same char/byte and NUL caveat as to_words. EGADS_ALLOC/REALLOC failure is not modelled.
- Ps.Sampler.CallPs: the ps | grep | grep pipeline is the character stream passed in. The EG_add_entropy calls are returned as the lines fed and the credit, rather than made on a pool. The gettimeofday sample that carries the credit is left out.
- Df.Sampler.CallDf: the same for df -i.
- Ps.Cmp: requires lines with at least two space-ended columns. Ps.ProcessesSame and Ps.DiffForEntropy require lines that processes_same's loops can scan, and Df.Cmp requires eight columns. On other lines the C loops read past the string's NUL, which has no defined result.
- LineDiff.SortLines: qsort is not stable; the model sorts by insertion, so lines with equal keys may come out in another order than qsort's.

## Findings

| source | as written | input that shows it | evidently intended | confidence | as-written member | corrected member |
|---|---|---|---|---|---|---|
| eg.c:155-180 | with ohead ahead of otail the copy limit is ohead itself, so otail can land on ohead and the recursive call writes over unread bytes | 245 unread bytes with ohead at offset 3 and otail wrapped to the start, then one 8-byte tag: only the last five tag bytes are unread afterwards | stop one byte short of ohead, appending only as far as there is room | not executed | EgRing.OutBufAsWritten, EgRing.OutBufOverwrites | EgRing.Ring.Append |
| eg.c:254-264 | the threaded EG_output calls eg_fill_entropy without checking entropy_available when block is 0; on an empty ring the copy limit is oend | an empty ring (ohead = otail = 0) and a request for 8 bytes: eight stale bytes are handed out and 240 stale bytes look unread | hand out nothing from an empty ring, as the NO_THREADS path does (eg.c:246-252) | not executed | EgRing.FillAsWritten, EgRing.FillEmptyRing | EgRing.Ring.Fill, Eg.Pool.Output |
| eg.c:221-224 | eg_fill_entropy moves otail from oend to the start even when nothing was read | a full ring with ohead at the start and otail on oend, and a zero-byte request: all 248 unread bytes are dropped | move otail only when bytes were taken | not executed | EgRing.FillAsWritten, EgRing.FillNothingEmptiesFullRing | EgRing.Ring.TakeSpan, EgRing.Ring.Fill |
| prng.c:369-371 | PRNG_destroy passes a UMAC_KEY_LEN-byte seed, while PRNG_rekey reads 2 keylen + 16 bytes from it (prng.c:64-80), more than the keylen + blocklen its comment asks for | keylen 16: PRNG_rekey reads 48 bytes of a 16-byte array | a zero seed as long as PRNG_rekey reads | not executed | Prng.DestroySeed, Prng.DestroySeedTooShort | Prng.ZeroSeed, Prng.Generator.Destroy |
| popen.c:32-43 | slm measures only runs that end at a space or a quote, and every word buffer is slm + 1 bytes | the argument abc gets a one-byte buffer for abc and its NUL; the quoted phrase "a b" gets three bytes for a b and its NUL | buffers of the argument's length plus one, which every word fits | not executed | Popen.Slm, Popen.ScanSizes, Popen.SlmTooSmall, Popen.SlmQuotedTooSmall | Popen.ScanSizesFixed, Popen.ToWords |
| prng.c:220-225 | self_reseed's two internal_output_bytes calls are counted too; with MAXBLOCKRESEED at 1 or 2 one of them reaches it and reseeds again from a count of 0, without end | MAXBLOCKRESEED 2: a self_reseed entered at count 0 reseeds again at count 0 | MAXBLOCKRESEED of at least 3; its value is in a header that is not part of this model | not executed | Prng.AfterOutput, Prng.ReseedRecursesIff | Prng.OutputBytes, Prng.Reseeded |
| umac.c:1567-1608 | ip_short and ip_long give stream i the keys at ip_keys + i, while uhash_init lays stream i's four keys at ip_keys + 4i (umac.c:1803-1805); stream 1 reads keys 1 to 4, and keys 5 to 7 are never read | keys with only key 4 set and the word 1 in stream 1: the as-written result differs from the one with stream 1's own keys | each stream reads its own four keys at ip_keys + 4i | not executed | Ip.IpOutAsWritten, Ip.IpBytesAsWritten, Ip.IpKeysUnread, Ip.IpKeysMisread, Uhash.UhashOf | Ip.IpOut, Ip.IpBytes, Ip.IpOwnKeys, Uhash.UhashOfIntended, Uhash.UhashIsIntendedOnReadKeys |

For the umac.c:1567-1608 row the rest of the model keeps the code's reading. UHASH, the UMAC tag and the tags the pool routes are built on Ip.IpBytesAsWritten, because those bytes are what the program produces. The corrected layer and Uhash.UhashOfIntended are proved beside it, and Uhash.UhashIsIntendedOnReadKeys says exactly how the two differ.

=== FILE: aes.dfy ===
/**
 * AES as the UMAC engine uses it: the key schedule `aes_setup` and the
 * block encryption `aes`, both of FIPS 197 (sections 5.2 and 5.1).  The
 * source computes rounds with four 256-entry T-tables; each entry is
 * modelled by its defining formula over the S-box (T1[x] = 2·S[x], S[x],
 * S[x], 3·S[x] and its byte rotations), so the last round's T1[x][1] is S[x].
 */
module Aes {
  import opened Bytes

  /** The S-box of section 5.1.1 of FIPS 197, row x / 16, column x % 16. */
  const S: seq<seq<Byte>> := [
    [0x63, 0x7c, 0x77, 0x7b, 0xf2, 0x6b, 0x6f, 0xc5, 0x30, 0x01, 0x67, 0x2b, 0xfe, 0xd7, 0xab, 0x76],
    [0xca, 0x82, 0xc9, 0x7d, 0xfa, 0x59, 0x47, 0xf0, 0xad, 0xd4, 0xa2, 0xaf, 0x9c, 0xa4, 0x72, 0xc0],
    [0xb7, 0xfd, 0x93, 0x26, 0x36, 0x3f, 0xf7, 0xcc, 0x34, 0xa5, 0xe5, 0xf1, 0x71, 0xd8, 0x31, 0x15],
    [0x04, 0xc7, 0x23, 0xc3, 0x18, 0x96, 0x05, 0x9a, 0x07, 0x12, 0x80, 0xe2, 0xeb, 0x27, 0xb2, 0x75],
    [0x09, 0x83, 0x2c, 0x1a, 0x1b, 0x6e, 0x5a, 0xa0, 0x52, 0x3b, 0xd6, 0xb3, 0x29, 0xe3, 0x2f, 0x84],
    [0x53, 0xd1, 0x00, 0xed, 0x20, 0xfc, 0xb1, 0x5b, 0x6a, 0xcb, 0xbe, 0x39, 0x4a, 0x4c, 0x58, 0xcf],
    [0xd0, 0xef, 0xaa, 0xfb, 0x43, 0x4d, 0x33, 0x85, 0x45, 0xf9, 0x02, 0x7f, 0x50, 0x3c, 0x9f, 0xa8],
    [0x51, 0xa3, 0x40, 0x8f, 0x92, 0x9d, 0x38, 0xf5, 0xbc, 0xb6, 0xda, 0x21, 0x10, 0xff, 0xf3, 0xd2],
    [0xcd, 0x0c, 0x13, 0xec, 0x5f, 0x97, 0x44, 0x17, 0xc4, 0xa7, 0x7e, 0x3d, 0x64, 0x5d, 0x19, 0x73],
    [0x60, 0x81, 0x4f, 0xdc, 0x22, 0x2a, 0x90, 0x88, 0x46, 0xee, 0xb8, 0x14, 0xde, 0x5e, 0x0b, 0xdb],
    [0xe0, 0x32, 0x3a, 0x0a, 0x49, 0x06, 0x24, 0x5c, 0xc2, 0xd3, 0xac, 0x62, 0x91, 0x95, 0xe4, 0x79],
    [0xe7, 0xc8, 0x37, 0x6d, 0x8d, 0xd5, 0x4e, 0xa9, 0x6c, 0x56, 0xf4, 0xea, 0x65, 0x7a, 0xae, 0x08],
    [0xba, 0x78, 0x25, 0x2e, 0x1c, 0xa6, 0xb4, 0xc6, 0xe8, 0xdd, 0x74, 0x1f, 0x4b, 0xbd, 0x8b, 0x8a],
    [0x70, 0x3e, 0xb5, 0x66, 0x48, 0x03, 0xf6, 0x0e, 0x61, 0x35, 0x57, 0xb9, 0x86, 0xc1, 0x1d, 0x9e],
    [0xe1, 0xf8, 0x98, 0x11, 0x69, 0xd9, 0x8e, 0x94, 0x9b, 0x1e, 0x87, 0xe9, 0xce, 0x55, 0x28, 0xdf],
    [0x8c, 0xa1, 0x89, 0x0d, 0xbf, 0xe6, 0x42, 0x68, 0x41, 0x99, 0x2d, 0x0f, 0xb0, 0x54, 0xbb, 0x16]
  ]

  /**
   * The 30 round constants of the source, in rows of ten; entry g is x^g in
   * GF(2^8), the first byte of Rcon[g + 1] in section 5.2 of FIPS 197.
   */
  const RconTable: seq<seq<Byte>> := [
    [0x01, 0x02, 0x04, 0x08, 0x10, 0x20, 0x40, 0x80, 0x1b, 0x36],
    [0x6c, 0xd8, 0xab, 0x4d, 0x9a, 0x2f, 0x5e, 0xbc, 0x63, 0xc6],
    [0x97, 0x35, 0x6a, 0xd4, 0xb3, 0x7d, 0xfa, 0xef, 0xc5, 0x91]
  ]

  function Rcon(g: nat): Byte
    requires g < 30
  {
    RconTable[g / 10][g % 10]
  }

  /** Key lengths of FIPS 197 in bytes; the MAC uses 16 or 32. */
  predicate ValidKeyLen(len: nat) { len == 16 || len == 24 || len == 32 }

  /** ROUNDS = key length / 4 + 6. */
  function Rounds(keyLen: nat): (r: nat)
    requires ValidKeyLen(keyLen)
    ensures r == 10 || r == 12 || r == 14
  {
    keyLen / 4 + 6
  }

  function SubByte(x: Byte): Byte { S[(x >> 4) as int][(x & 15) as int] }

  /** Multiplication by x in GF(2^8), section 4.2.1 of FIPS 197. */
  function XTime(x: Byte): Byte
  {
    if x & 0x80 == 0 then x << 1 else (x << 1) ^ 0x1b
  }

  function Mul3(x: Byte): Byte { XTime(x) ^ x }

  // ---------------------------------------------------------------------
  // The cipher as FIPS 197 states it.  A block is 16 bytes; byte 4c + r is
  // row r of column c.

  function SubBytes(s: seq<Byte>): (r: seq<Byte>)
    requires |s| == 16
    ensures |r| == 16
  {
    [SubByte(s[0]), SubByte(s[1]), SubByte(s[2]), SubByte(s[3]),
     SubByte(s[4]), SubByte(s[5]), SubByte(s[6]), SubByte(s[7]),
     SubByte(s[8]), SubByte(s[9]), SubByte(s[10]), SubByte(s[11]),
     SubByte(s[12]), SubByte(s[13]), SubByte(s[14]), SubByte(s[15])]
  }

  /**
   * Row r of the result is row r of the input rotated left by r columns:
   * byte 4c + r is taken from byte 4((c + r) mod 4) + r.
   */
  function ShiftRows(s: seq<Byte>): (r: seq<Byte>)
    requires |s| == 16
    ensures |r| == 16
  {
    [s[0], s[5], s[10], s[15], s[4], s[9], s[14], s[3],
     s[8], s[13], s[2], s[7], s[12], s[1], s[6], s[11]]
  }

  /**
   * MixColumns of section 5.1.3 of FIPS 197: row r of a column (a, b, c, d)
   * becomes MixRow_r(a, b, c, d).
   */
  /** One column after MixColumns. */
  function MixWord(a: Byte, b: Byte, c: Byte, d: Byte): Word
  {
    Word(MixRow0(a, b, c, d), MixRow1(a, b, c, d), MixRow2(a, b, c, d), MixRow3(a, b, c, d))
  }

  function MixRow0(a: Byte, b: Byte, c: Byte, d: Byte): Byte { Xor4Bytes(XTime(a), Mul3(b), c, d) }
  function MixRow1(a: Byte, b: Byte, c: Byte, d: Byte): Byte { Xor4Bytes(a, XTime(b), Mul3(c), d) }
  function MixRow2(a: Byte, b: Byte, c: Byte, d: Byte): Byte { Xor4Bytes(a, b, XTime(c), Mul3(d)) }
  function MixRow3(a: Byte, b: Byte, c: Byte, d: Byte): Byte { Xor4Bytes(Mul3(a), b, c, XTime(d)) }

  /** a ^ b ^ c ^ d, the sum of four terms in GF(2^8). */
  function Xor4Bytes(a: Byte, b: Byte, c: Byte, d: Byte): Byte { a ^ b ^ c ^ d }

  function MixColumns(s: seq<Byte>): (r: seq<Byte>)
    requires |s| == 16
    ensures |r| == 16
  {
    [MixRow0(s[0], s[1], s[2], s[3]), MixRow1(s[0], s[1], s[2], s[3]),
     MixRow2(s[0], s[1], s[2], s[3]), MixRow3(s[0], s[1], s[2], s[3]),
     MixRow0(s[4], s[5], s[6], s[7]), MixRow1(s[4], s[5], s[6], s[7]),
     MixRow2(s[4], s[5], s[6], s[7]), MixRow3(s[4], s[5], s[6], s[7]),
     MixRow0(s[8], s[9], s[10], s[11]), MixRow1(s[8], s[9], s[10], s[11]),
     MixRow2(s[8], s[9], s[10], s[11]), MixRow3(s[8], s[9], s[10], s[11]),
     MixRow0(s[12], s[13], s[14], s[15]), MixRow1(s[12], s[13], s[14], s[15]),
     MixRow2(s[12], s[13], s[14], s[15]), MixRow3(s[12], s[13], s[14], s[15])]
  }

  /** AddRoundKey of section 5.1.4 of FIPS 197: the byte-wise XOR of two blocks. */
  function XorBlock(a: seq<Byte>, b: seq<Byte>): (r: seq<Byte>)
    requires |a| == 16 && |b| == 16
    ensures |r| == 16
  {
    [a[0] ^ b[0], a[1] ^ b[1], a[2] ^ b[2], a[3] ^ b[3],
     a[4] ^ b[4], a[5] ^ b[5], a[6] ^ b[6], a[7] ^ b[7],
     a[8] ^ b[8], a[9] ^ b[9], a[10] ^ b[10], a[11] ^ b[11],
     a[12] ^ b[12], a[13] ^ b[13], a[14] ^ b[14], a[15] ^ b[15]]
  }

  /** A four-byte word of the key schedule, bytes in memory order. */
  datatype Word = Word(b0: Byte, b1: Byte, b2: Byte, b3: Byte)
  {
    function At(k: nat): Byte
      requires k < 4
    {
      if k == 0 then b0 else if k == 1 then b1 else if k == 2 then b2 else b3
    }
  }

  function XorWord(a: Word, b: Word): Word
  {
    Word(a.b0 ^ b.b0, a.b1 ^ b.b1, a.b2 ^ b.b2, a.b3 ^ b.b3)
  }

  function SubWord(w: Word): Word
  {
    Word(SubByte(w.b0), SubByte(w.b1), SubByte(w.b2), SubByte(w.b3))
  }

  function RotWord(w: Word): Word
  {
    Word(w.b1, w.b2, w.b3, w.b0)
  }

  /**
   * Word j of key group g, computed from group g - 1 (tk): the first word
   * takes SubWord(RotWord(·)) of the previous group's last word and the
   * round constant, a 256-bit key also applies SubWord before its fifth
   * word, and every other word is chained by XOR.
   */
  function NextWord(tk: seq<Word>, g: nat, j: nat): Word
    requires |tk| == 4 || |tk| == 6 || |tk| == 8
    requires 1 <= g <= 30 && j < |tk|
  {
    if j == 0 then XorWord(tk[0], XorWord(SubWord(RotWord(tk[|tk| - 1])), Word(Rcon(g - 1), 0, 0, 0)))
    else if |tk| > 6 && j == 4 then XorWord(tk[4], SubWord(NextWord(tk, g, 3)))
    else XorWord(tk[j], NextWord(tk, g, j - 1))
  }

  function NextGroup(tk: seq<Word>, g: nat): (r: seq<Word>)
    requires |tk| == 4 || |tk| == 6 || |tk| == 8
    requires 1 <= g <= 30
    ensures |r| == |tk|
  {
    seq(|tk|, k requires 0 <= k < |tk| => NextWord(tk, g, k))
  }

  /** The key split into Nk words. */
  function KeyWords(key: seq<Byte>): (tk: seq<Word>)
    requires ValidKeyLen(|key|)
    ensures |tk| == |key| / 4
  {
    seq(|key| / 4, k requires 0 <= k < |key| / 4 => Word(key[4 * k], key[4 * k + 1], key[4 * k + 2], key[4 * k + 3]))
  }

  /**
   * Group g of the expanded key of KeyExpansion (section 5.2 of FIPS 197):
   * words g·Nk .. g·Nk + Nk - 1.  Group 0 is the key itself.
   */
  function KeyGroup(key: seq<Byte>, g: nat): (tk: seq<Word>)
    requires ValidKeyLen(|key|) && g <= 30
    ensures |tk| == |key| / 4
  {
    if g == 0 then KeyWords(key) else NextGroup(KeyGroup(key, g - 1), g)
  }

  /** Where group g starts in the expanded key: word g·Nk. */
  function GroupStart(key: seq<Byte>, g: nat): nat
    requires ValidKeyLen(|key|)
  {
    if |key| == 16 then 4 * g else if |key| == 24 then 6 * g else 8 * g
  }

  /** Groups 0 .. n - 1 of the key schedule, one after the other. */
  function Schedule(key: seq<Byte>, n: nat): (ws: seq<Word>)
    requires ValidKeyLen(|key|) && n <= 30
    ensures |ws| == GroupStart(key, n)
  {
    if n == 0 then [] else Schedule(key, n - 1) + KeyGroup(key, n - 1)
  }

  lemma {:induction false} ScheduleAt(key: seq<Byte>, n: nat, g: nat, j: nat)
    requires ValidKeyLen(|key|) && g < n <= 30 && j < |key| / 4
    ensures GroupStart(key, g) + j < GroupStart(key, n)
    ensures Schedule(key, n)[GroupStart(key, g) + j] == KeyGroup(key, g)[j]
  {
    if g < n - 1 {
      ScheduleAt(key, n - 1, g, j);
    }
  }

  /** The number of key groups that cover the 4 * (Nr + 1) words of the schedule. */
  function Groups(keyLen: nat): nat
    requires ValidKeyLen(keyLen)
  {
    if keyLen == 16 then 11 else if keyLen == 24 then 9 else 8
  }

  /** Word v of a byte sequence: bytes 4v .. 4v + 3. */
  function WordAt(s: seq<Byte>, v: nat): Word
    requires 4 * v + 4 <= |s|
  {
    Word(s[4 * v], s[4 * v + 1], s[4 * v + 2], s[4 * v + 3])
  }

  /** The words laid out byte after byte, as they sit in memory. */
  function WordsBytes(ws: seq<Word>): (r: seq<Byte>)
    ensures |r| == 4 * |ws|
  {
    seq(4 * |ws|, i requires 0 <= i < 4 * |ws| => ws[i / 4].At(i % 4))
  }

  lemma WordsBytesAt(ws: seq<Word>, v: nat, k: nat)
    requires v < |ws| && k < 4
    ensures WordsBytes(ws)[4 * v + k] == ws[v].At(k)
  {
    DivFour(v, k);
  }

  /** The 4 * (Nr + 1) words w[0 .. 4Nr + 3] of KeyExpansion (section 5.2 of FIPS 197). */
  function ExpandedWords(key: seq<Byte>): (ws: seq<Word>)
    requires ValidKeyLen(|key|)
    ensures |ws| == 4 * (Rounds(|key|) + 1)
  {
    Schedule(key, Groups(|key|))[..4 * (Rounds(|key|) + 1)]
  }

  /** Word j of group g is word GroupStart(g) + j of the expanded key. */
  lemma ExpandedWordInGroup(key: seq<Byte>, g: nat, j: nat)
    requires ValidKeyLen(|key|) && j < |key| / 4 && GroupStart(key, g) + j < 4 * (Rounds(|key|) + 1)
    ensures g <= 30 && ExpandedWords(key)[GroupStart(key, g) + j] == KeyGroup(key, g)[j]
  {
    ScheduleAt(key, Groups(|key|), g, j);
  }

  /** The round keys laid out as `aes_int_key`: byte k of word v of the schedule at 4v + k. */
  function RoundKeys(key: seq<Byte>): (rk: seq<Byte>)
    requires ValidKeyLen(|key|)
    ensures |rk| == 16 * (Rounds(|key|) + 1)
  {
    WordsBytes(ExpandedWords(key))
  }

  /** Byte k of word v of the round keys is byte k of expanded-key word v. */
  lemma RoundKeysAt(key: seq<Byte>, v: nat, k: nat)
    requires ValidKeyLen(|key|) && v < 4 * (Rounds(|key|) + 1) && k < 4
    ensures RoundKeys(key)[4 * v + k] == ExpandedWords(key)[v].At(k)
  {
    WordsBytesAt(ExpandedWords(key), v, k);
  }

  /** Two sequences of whole words that agree word by word are equal. */
  lemma WordsEqual(s: seq<Byte>, t: seq<Byte>, n: nat)
    requires |s| == |t| == 4 * n
    requires forall v :: 0 <= v < n ==> WordAt(s, v) == WordAt(t, v)
    ensures s == t
  {
    forall i | 0 <= i < |s| ensures s[i] == t[i] {
      var v := i / 4;
      assert WordAt(s, v) == WordAt(t, v);
    }
  }

  /** A byte array whose every word is the expanded key holds the round keys. */
  lemma FilledIsRoundKeys(key: seq<Byte>, s: seq<Byte>)
    requires ValidKeyLen(|key|) && |s| == 16 * (Rounds(|key|) + 1)
    requires forall v :: 0 <= v < 4 * (Rounds(|key|) + 1) ==> WordAt(s, v) == ExpandedWords(key)[v]
    ensures s == RoundKeys(key)
  {
    var rk := RoundKeys(key);
    var n := 4 * (Rounds(|key|) + 1);
    forall v | 0 <= v < n ensures WordAt(s, v) == WordAt(rk, v) {
      RoundKeysWord(key, v);
    }
    WordsEqual(s, rk, n);
  }

  /** The round keys hold the expanded key word by word. */
  lemma RoundKeysWord(key: seq<Byte>, v: nat)
    requires ValidKeyLen(|key|) && v < 4 * (Rounds(|key|) + 1)
    ensures WordAt(RoundKeys(key), v) == ExpandedWords(key)[v]
  {
    WordsBytesWord(ExpandedWords(key), v);
  }

  /** Word v of the byte layout of ws is ws[v]. */
  lemma WordsBytesWord(ws: seq<Word>, v: nat)
    requires v < |ws|
    ensures WordAt(WordsBytes(ws), v) == ws[v]
  {
    WordsBytesAt(ws, v, 0);
    WordsBytesAt(ws, v, 1);
    WordsBytesAt(ws, v, 2);
    WordsBytesAt(ws, v, 3);
  }

  /** The 16 bytes of four key-schedule words: one round key. */
  function GroupBytes(tk: seq<Word>): (r: seq<Byte>)
    requires |tk| == 4
    ensures |r| == 16
  {
    [tk[0].b0, tk[0].b1, tk[0].b2, tk[0].b3, tk[1].b0, tk[1].b1, tk[1].b2, tk[1].b3,
     tk[2].b0, tk[2].b1, tk[2].b2, tk[2].b3, tk[3].b0, tk[3].b1, tk[3].b2, tk[3].b3]
  }

  lemma DivFour(q: nat, m: nat)
    requires m < 4
    ensures (4 * q + m) / 4 == q && (4 * q + m) % 4 == m
  {}

  /** Sixteen bytes that agree with four words byte by byte are those words' bytes. */
  lemma GroupBytesOf(b: seq<Byte>, tk: seq<Word>)
    requires |b| == 16 && |tk| == 4
    requires forall t, k :: 0 <= t < 4 && 0 <= k < 4 ==> b[4 * t + k] == tk[t].At(k)
    ensures b == GroupBytes(tk)
  {
    assert b[0] == tk[0].At(0);
    assert b[1] == tk[0].At(1);
    assert b[2] == tk[0].At(2);
    assert b[3] == tk[0].At(3);
    assert b[4] == tk[1].At(0);
    assert b[5] == tk[1].At(1);
    assert b[6] == tk[1].At(2);
    assert b[7] == tk[1].At(3);
    assert b[8] == tk[2].At(0);
    assert b[9] == tk[2].At(1);
    assert b[10] == tk[2].At(2);
    assert b[11] == tk[2].At(3);
    assert b[12] == tk[3].At(0);
    assert b[13] == tk[3].At(1);
    assert b[14] == tk[3].At(2);
    assert b[15] == tk[3].At(3);
  }

  /** Round key r of a word layout is the bytes of words 4r .. 4r + 3. */
  lemma WordsBytesRound(ws: seq<Word>, r: nat)
    requires 4 * r + 4 <= |ws|
    ensures RoundKey(WordsBytes(ws), r) == GroupBytes(ws[4 * r .. 4 * r + 4])
  {
    var b := RoundKey(WordsBytes(ws), r);
    var tk := ws[4 * r .. 4 * r + 4];
    forall t, k | 0 <= t < 4 && 0 <= k < 4 ensures b[4 * t + k] == tk[t].At(k) {
      WordsBytesAt(ws, 4 * r + t, k);
    }
    GroupBytesOf(b, tk);
  }

  /** Round key r of a word layout whose words 4r .. 4r + 3 are tk is the bytes of tk. */
  lemma RoundOfWords(ws: seq<Word>, tk: seq<Word>, r: nat)
    requires 4 * r + 4 <= |ws| && |tk| == 4
    requires forall t :: 0 <= t < 4 ==> ws[4 * r + t] == tk[t]
    ensures RoundKey(WordsBytes(ws), r) == GroupBytes(tk)
  {
    WordsBytesRound(ws, r);
    assert ws[4 * r .. 4 * r + 4] == tk;
  }

  /** With a 16-byte key, round key r is key-schedule group r. */
  lemma RoundKeyIsGroup(key: seq<Byte>, r: nat)
    requires |key| == 16 && r <= 10
    ensures RoundKey(RoundKeys(key), r) == GroupBytes(KeyGroup(key, r))
  {
    forall t | 0 <= t < 4 ensures ExpandedWords(key)[4 * r + t] == KeyGroup(key, r)[t] {
      ExpandedWordInGroup(key, r, t);
    }
    RoundOfWords(ExpandedWords(key), KeyGroup(key, r), r);
  }

  function RoundKey(rk: seq<Byte>, r: nat): (k: seq<Byte>)
    requires 16 * (r + 1) <= |rk|
    ensures |k| == 16
  {
    rk[16 * r .. 16 * r + 16]
  }

  /** The state after AddRoundKey of round r (rounds 0 .. nr-1 of the Cipher of section 5.1). */
  function State(rk: seq<Byte>, input: seq<Byte>, r: nat): (s: seq<Byte>)
    requires |input| == 16 && 16 * (r + 1) <= |rk|
    ensures |s| == 16
  {
    if r == 0 then XorBlock(input, RoundKey(rk, 0))
    else XorBlock(MixColumns(ShiftRows(SubBytes(State(rk, input, r - 1)))), RoundKey(rk, r))
  }

  /** Cipher(in, w) of section 5.1 of FIPS 197 with nr rounds. */
  function Cipher(rk: seq<Byte>, nr: nat, input: seq<Byte>): (out: seq<Byte>)
    requires |input| == 16 && nr >= 1 && |rk| == 16 * (nr + 1)
    ensures |out| == 16
  {
    XorBlock(ShiftRows(SubBytes(State(rk, input, nr - 1))), RoundKey(rk, nr))
  }

  /** AES encryption of one block under key. */
  function Encrypt(key: seq<Byte>, input: seq<Byte>): (out: seq<Byte>)
    requires ValidKeyLen(|key|) && |input| == 16
    ensures |out| == 16
  {
    Cipher(RoundKeys(key), Rounds(|key|), input)
  }

  /** A function that maps every 16-byte block to a 16-byte block. */
  ghost predicate IsBlockCipher(E: seq<Byte> -> seq<Byte>)
  {
    forall x :: |x| == 16 ==> |E(x)| == 16
  }

  /**
   * E is AES under key.  The equation is only used where an Encrypt term
   * is already present, so reasoning that merely applies E never unfolds AES.
   */
  ghost predicate Computes(E: seq<Byte> -> seq<Byte>, key: seq<Byte>)
  {
    ValidKeyLen(|key|) && IsBlockCipher(E) &&
    forall x {:trigger Encrypt(key, x)} :: |x| == 16 ==> E(x) == Encrypt(key, x)
  }

  /**
   * AES under key as a block function; the layers built on it are stated
   * over such a function, so that their proofs need not look inside AES.
   */
  function AesOf(key: seq<Byte>): (E: seq<Byte> -> seq<Byte>)
    requires ValidKeyLen(|key|)
    ensures Computes(E, key)
  {
    x => if |x| == 16 then Encrypt(key, x) else x
  }

  // ---------------------------------------------------------------------
  // The source's table-driven rounds.

  /** Entry x of the source's table T1 is Col1(S[x]): the MixColumns column of S[x] in row 0. */
  function Col1(s: Byte): Word { Word(XTime(s), s, s, Mul3(s)) }
  /** T2 places S[x] in row 1. */
  function Col2(s: Byte): Word { Word(Mul3(s), XTime(s), s, s) }
  /** T3 places S[x] in row 2. */
  function Col3(s: Byte): Word { Word(s, Mul3(s), XTime(s), s) }
  /** T4 places S[x] in row 3. */
  function Col4(s: Byte): Word { Word(s, s, Mul3(s), XTime(s)) }

  function T1(x: Byte): Word { Col1(SubByte(x)) }
  function T2(x: Byte): Word { Col2(SubByte(x)) }
  function T3(x: Byte): Word { Col3(SubByte(x)) }
  function T4(x: Byte): Word { Col4(SubByte(x)) }

  /** The XOR of four 32-bit words, byte by byte. */
  function Xor4(w1: Word, w2: Word, w3: Word, w4: Word): Word
  {
    Word(Xor4Bytes(w1.b0, w2.b0, w3.b0, w4.b0), Xor4Bytes(w1.b1, w2.b1, w3.b1, w4.b1),
         Xor4Bytes(w1.b2, w2.b2, w3.b2, w4.b2), Xor4Bytes(w1.b3, w2.b3, w3.b3, w4.b3))
  }

  /** One output column of a table round: T1[a] ^ T2[b] ^ T3[c] ^ T4[d]. */
  function TColumn(a: Byte, b: Byte, c: Byte, d: Byte): Word
  {
    Xor4(T1(a), T2(b), T3(c), T4(d))
  }

  /** The XOR of the four shifted table columns, as the source's round adds them. */
  function ColumnSum(p: Byte, q: Byte, r: Byte, s: Byte): Word
  {
    Xor4(Col1(p), Col2(q), Col3(r), Col4(s))
  }

  /** The four shifted table columns add up to the MixColumns column of section 5.1.3 of FIPS 197. */
  lemma ColumnsAreMixColumn(p: Byte, q: Byte, r: Byte, s: Byte)
    ensures ColumnSum(p, q, r, s) == MixWord(p, q, r, s)
  {
    RowZero(p, q, r, s);
    RowOne(p, q, r, s);
    RowTwo(p, q, r, s);
    RowThree(p, q, r, s);
    SumIsWord(Col1(p), Col2(q), Col3(r), Col4(s), MixWord(p, q, r, s));
  }

  /** Four words whose byte-wise XORs are the bytes of m add up to m. */
  lemma SumIsWord(w1: Word, w2: Word, w3: Word, w4: Word, m: Word)
    requires Xor4Bytes(w1.b0, w2.b0, w3.b0, w4.b0) == m.b0 && Xor4Bytes(w1.b1, w2.b1, w3.b1, w4.b1) == m.b1
    requires Xor4Bytes(w1.b2, w2.b2, w3.b2, w4.b2) == m.b2 && Xor4Bytes(w1.b3, w2.b3, w3.b3, w4.b3) == m.b3
    ensures Xor4(w1, w2, w3, w4) == m
  {}

  lemma RowZero(p: Byte, q: Byte, r: Byte, s: Byte)
    ensures Xor4Bytes(Col1(p).b0, Col2(q).b0, Col3(r).b0, Col4(s).b0) == MixRow0(p, q, r, s)
  {}

  lemma RowOne(p: Byte, q: Byte, r: Byte, s: Byte)
    ensures Xor4Bytes(Col1(p).b1, Col2(q).b1, Col3(r).b1, Col4(s).b1) == MixRow1(p, q, r, s)
  {}

  lemma RowTwo(p: Byte, q: Byte, r: Byte, s: Byte)
    ensures Xor4Bytes(Col1(p).b2, Col2(q).b2, Col3(r).b2, Col4(s).b2) == MixRow2(p, q, r, s)
  {}

  lemma RowThree(p: Byte, q: Byte, r: Byte, s: Byte)
    ensures Xor4Bytes(Col1(p).b3, Col2(q).b3, Col3(r).b3, Col4(s).b3) == MixRow3(p, q, r, s)
  {}

  /** A full table round over the state t, each column drawing from the diagonal ShiftRows selects. */
  function TRound(t: seq<Byte>): (r: seq<Byte>)
    requires |t| == 16
    ensures |r| == 16
  {
    GroupBytes([TColumn(t[0], t[5], t[10], t[15]), TColumn(t[4], t[9], t[14], t[3]),
                TColumn(t[8], t[13], t[2], t[7]), TColumn(t[12], t[1], t[6], t[11])])
  }

  /** One table column is the MixColumns column of four S-box outputs. */
  lemma TColumnIsMixColumn(a: Byte, b: Byte, c: Byte, d: Byte)
    ensures var p, q, r, s := SubByte(a), SubByte(b), SubByte(c), SubByte(d);
      TColumn(a, b, c, d) == MixWord(p, q, r, s)
  {
    ColumnsAreMixColumn(SubByte(a), SubByte(b), SubByte(c), SubByte(d));
  }

  /** A table round is SubBytes, ShiftRows and MixColumns of FIPS 197. */
  lemma TRoundIsRound(t: seq<Byte>)
    requires |t| == 16
    ensures TRound(t) == MixColumns(ShiftRows(SubBytes(t)))
  {
    var u := ShiftRows(SubBytes(t));
    assert u == [SubByte(t[0]), SubByte(t[5]), SubByte(t[10]), SubByte(t[15]),
                 SubByte(t[4]), SubByte(t[9]), SubByte(t[14]), SubByte(t[3]),
                 SubByte(t[8]), SubByte(t[13]), SubByte(t[2]), SubByte(t[7]),
                 SubByte(t[12]), SubByte(t[1]), SubByte(t[6]), SubByte(t[11])];
    TColumnIsMixColumn(t[0], t[5], t[10], t[15]);
    TColumnIsMixColumn(t[4], t[9], t[14], t[3]);
    TColumnIsMixColumn(t[8], t[13], t[2], t[7]);
    TColumnIsMixColumn(t[12], t[1], t[6], t[11]);
    MixColumnsOfWords(u, TColumn(t[0], t[5], t[10], t[15]), TColumn(t[4], t[9], t[14], t[3]),
      TColumn(t[8], t[13], t[2], t[7]), TColumn(t[12], t[1], t[6], t[11]));
  }

  /** MixColumns of a state is the bytes of its four mixed columns. */
  lemma MixColumnsOfWords(s: seq<Byte>, w0: Word, w1: Word, w2: Word, w3: Word)
    requires |s| == 16
    requires w0 == MixWord(s[0], s[1], s[2], s[3]) && w1 == MixWord(s[4], s[5], s[6], s[7])
    requires w2 == MixWord(s[8], s[9], s[10], s[11]) && w3 == MixWord(s[12], s[13], s[14], s[15])
    ensures MixColumns(s) == GroupBytes([w0, w1, w2, w3])
  {}

  /** The last round reads byte 1 of T1, which is the S-box entry. */
  lemma LastRoundTable(x: Byte)
    ensures T1(x).b1 == SubByte(x)
  {
  }

  // ---------------------------------------------------------------------
  // The source's block encryption, in place on the output block.

  /** The last round of the source: byte 1 of T1 at each ShiftRows position. */
  function LastTableRound(t: seq<Byte>): (r: seq<Byte>)
    requires |t| == 16
    ensures |r| == 16
  {
    [T1(t[0]).b1, T1(t[5]).b1, T1(t[10]).b1, T1(t[15]).b1,
     T1(t[4]).b1, T1(t[9]).b1, T1(t[14]).b1, T1(t[3]).b1,
     T1(t[8]).b1, T1(t[13]).b1, T1(t[2]).b1, T1(t[7]).b1,
     T1(t[12]).b1, T1(t[1]).b1, T1(t[6]).b1, T1(t[11]).b1]
  }

  /** The last round is SubBytes and ShiftRows of FIPS 197, without MixColumns. */
  lemma LastTableRoundIsFinal(t: seq<Byte>)
    requires |t| == 16
    ensures LastTableRound(t) == ShiftRows(SubBytes(t))
  {
  }

  /** Copies a computed block into b, as the source's 32-bit stores do. */
  method StoreBlock(b: array<Byte>, s: seq<Byte>)
    requires b.Length == |s|
    modifies b
    ensures b[..] == s
  {
    for i := 0 to |s|
      invariant b[..i] == s[..i]
    {
      b[i] := s[i];
    }
  }

  /** Key addition and one table round on b: the body of the round loop of `aes`. */
  method TableRound(b: array<Byte>, rk: array<Byte>, r: nat)
    requires b.Length == 16 && b != rk && 16 * (r + 1) <= rk.Length
    modifies b
    ensures b[..] == MixColumns(ShiftRows(SubBytes(XorBlock(old(b[..]), RoundKey(rk[..], r)))))
  {
    var temp := XorBlock(b[..], RoundKey(rk[..], r));
    TRoundIsRound(temp);
    StoreBlock(b, TRound(temp));
  }

  /** The last round of `aes`: key addition, the S-box bytes of T1, the final key. */
  method LastRound(b: array<Byte>, rk: array<Byte>, rounds: nat)
    requires b.Length == 16 && b != rk && rounds >= 1 && rk.Length == 16 * (rounds + 1)
    modifies b
    ensures b[..] == XorBlock(ShiftRows(SubBytes(XorBlock(old(b[..]), RoundKey(rk[..], rounds - 1)))), RoundKey(rk[..], rounds))
  {
    var temp := XorBlock(b[..], RoundKey(rk[..], rounds - 1));
    LastTableRoundIsFinal(temp);
    StoreBlock(b, LastTableRound(temp));
    StoreBlock(b, XorBlock(b[..], RoundKey(rk[..], rounds)));
  }

  /** The opening of `aes`: round key 0 added to a, then a table round into b. */
  method FirstRound(a: array<Byte>, b: array<Byte>, rk: array<Byte>)
    requires a.Length == 16 && b.Length == 16 && b != rk && 32 <= rk.Length
    modifies b
    ensures b[..] == MixColumns(ShiftRows(SubBytes(State(rk[..], old(a[..]), 0))))
  {
    var temp := XorBlock(a[..], RoundKey(rk[..], 0));
    TRoundIsRound(temp);
    StoreBlock(b, TRound(temp));
  }

  /** The round loop of `aes`: rounds 1 .. rounds - 2 through the tables. */
  method MiddleRounds(b: array<Byte>, rk: array<Byte>, rounds: nat, ghost input: seq<Byte>)
    requires b.Length == 16 && b != rk && |input| == 16
    requires rounds >= 2 && rk.Length == 16 * (rounds + 1)
    requires b[..] == MixColumns(ShiftRows(SubBytes(State(rk[..], input, 0))))
    modifies b
    ensures b[..] == MixColumns(ShiftRows(SubBytes(State(rk[..], input, rounds - 2))))
  {
    var r := 1;
    while r < rounds - 1
      invariant 1 <= r <= rounds - 1
      invariant b[..] == MixColumns(ShiftRows(SubBytes(State(rk[..], input, r - 1))))
    {
      TableRound(b, rk, r);
      r := r + 1;
    }
    assert r - 1 == rounds - 2;
  }

  /**
   * `aes`: encrypts the block a into b under the expanded key rk of a
   * cipher with the given number of rounds.  The first rounds - 1 rounds go
   * through the tables, the last one through the S-box alone.  a may be b.
   */
  method EncryptBlock(a: array<Byte>, b: array<Byte>, rk: array<Byte>, rounds: nat)
    requires a.Length == 16 && b.Length == 16 && b != rk
    requires rounds >= 2 && rk.Length == 16 * (rounds + 1)
    modifies b
    ensures b[..] == Cipher(rk[..], rounds, old(a[..]))
  {
    ghost var input := a[..];
    FirstRound(a, b, rk);
    MiddleRounds(b, rk, rounds, input);
    LastRound(b, rk, rounds);
  }

  // ---------------------------------------------------------------------
  // The source's key schedule, filling the round-key array in place.

  /**
   * The "calculate new values" step of `aes_setup`: tk becomes group g of the
   * expanded key from group g - 1, in place, word by word.
   */
  method UpdateGroup(tk: array<Word>, g: nat)
    requires tk.Length == 4 || tk.Length == 6 || tk.Length == 8
    requires 1 <= g <= 30
    modifies tk
    ensures tk[..] == NextGroup(old(tk[..]), g)
  {
    ghost var prev := tk[..];
    var kc := tk.Length;
    tk[0] := XorWord(tk[0], XorWord(SubWord(RotWord(tk[kc - 1])), Word(Rcon(g - 1), 0, 0, 0)));
    var j := 1;
    while j < kc
      invariant 1 <= j <= kc
      invariant forall i :: 0 <= i < j ==> tk[i] == NextWord(prev, g, i)
      invariant forall i :: j <= i < kc ==> tk[i] == prev[i]
    {
      if kc == 8 && j == 4 {
        tk[4] := XorWord(tk[4], SubWord(tk[3]));
      } else {
        tk[j] := XorWord(tk[j], tk[j - 1]);
      }
      j := j + 1;
    }
  }

  /** One 32-bit store into W: word u becomes x, every other word is unchanged. */
  method StoreWord(w: array<Byte>, u: nat, x: Word)
    requires 4 * u + 4 <= w.Length
    modifies w
    ensures WordAt(w[..], u) == x
    ensures forall v: nat :: 4 * v + 4 <= w.Length && v != u ==> WordAt(w[..], v) == WordAt(old(w[..]), v)
  {
    w[4 * u], w[4 * u + 1], w[4 * u + 2], w[4 * u + 3] := x.b0, x.b1, x.b2, x.b3;
    forall v: nat | 4 * v + 4 <= w.Length && v != u
      ensures WordAt(w[..], v) == WordAt(old(w[..]), v)
    {
      assert 4 * v + 3 < 4 * u || 4 * u + 3 < 4 * v;
    }
  }

  /**
   * The copy loop of `aes_setup`: the words of tk go to W word by word from
   * round r, column t, until tk is used up or W is full.  Returns the next
   * free round and column.
   */
  method CopyWords(tk: seq<Word>, w: array<Byte>, r: nat, t: nat, rounds: nat) returns (r': nat, t': nat)
    requires w.Length == 16 * (rounds + 1) && t < 4 && r <= rounds
    modifies w
    ensures r' <= rounds + 1 && t' < 4 && (r' == rounds + 1 ==> t' == 0)
    ensures 4 * r' + t' == if 4 * r + t + |tk| < 4 * (rounds + 1) then 4 * r + t + |tk| else 4 * (rounds + 1)
    ensures forall v :: 0 <= v < 4 * (rounds + 1) ==>
      WordAt(w[..], v) == if 4 * r + t <= v < 4 * r' + t' then tk[v - (4 * r + t)] else WordAt(old(w[..]), v)
  {
    ghost var n := 4 * r + t;
    r', t' := r, t;
    var j := 0;
    while j < |tk| && r' < rounds + 1
      invariant 0 <= j <= |tk| && t' < 4 && r' <= rounds + 1 && (r' == rounds + 1 ==> t' == 0)
      invariant 4 * r' + t' == n + j
      invariant forall v :: 0 <= v < 4 * (rounds + 1) ==>
        WordAt(w[..], v) == if n <= v < n + j then tk[v - n] else WordAt(old(w[..]), v)
      decreases |tk| - j
    {
      ghost var j0 := j;
      while j < |tk| && t' < 4
        invariant j0 <= j <= |tk| && t' <= 4 && r' < rounds + 1
        invariant 4 * r' + t' == n + j
        invariant j == j0 ==> t' < 4
        invariant forall v :: 0 <= v < 4 * (rounds + 1) ==>
          WordAt(w[..], v) == if n <= v < n + j then tk[v - n] else WordAt(old(w[..]), v)
        decreases |tk| - j
      {
        ghost var before := w[..];
        StoreWord(w, 4 * r' + t', tk[j]);
        forall v | 0 <= v < 4 * (rounds + 1)
          ensures WordAt(w[..], v) == if n <= v < n + j + 1 then tk[v - n] else WordAt(old(w[..]), v)
        {
          if v != n + j {
            assert WordAt(w[..], v) == WordAt(before, v);
          }
        }
        j, t' := j + 1, t' + 1;
      }
      if t' == 4 {
        r', t' := r' + 1, 0;
      }
    }
  }

  /** The first group of the key schedule: the key itself, as Nk words. */
  method LoadKey(key: seq<Byte>) returns (tk: array<Word>)
    requires ValidKeyLen(|key|)
    ensures fresh(tk) && tk[..] == KeyWords(key)
  {
    tk := new Word[|key| / 4];
    for i := 0 to tk.Length
      invariant forall m :: 0 <= m < i ==> tk[m] == KeyWords(key)[m]
    {
      tk[i] := Word(key[4 * i], key[4 * i + 1], key[4 * i + 2], key[4 * i + 3]);
    }
  }

  /**
   * One pass of the outer loop of `aes_setup`: group g - 1 in tk becomes
   * group g, and its words are copied to W from word GroupStart(g) on.
   */
  method ExpandGroup(key: seq<Byte>, tk: array<Word>, w: array<Byte>, g: nat, r: nat, t: nat)
    returns (r': nat, t': nat)
    requires ValidKeyLen(|key|) && w.Length == 16 * (Rounds(|key|) + 1) && tk as object != w as object
    requires 1 <= g <= 30
    requires tk.Length == |key| / 4 && tk[..] == KeyGroup(key, g - 1)
    requires r < Rounds(|key|) + 1 && t < 4 && 4 * r + t == GroupStart(key, g)
    requires forall v :: 0 <= v < 4 * r + t ==> WordAt(w[..], v) == ExpandedWords(key)[v]
    modifies tk, w
    ensures tk[..] == KeyGroup(key, g)
    ensures r' <= Rounds(|key|) + 1 && t' < 4 && (r' == Rounds(|key|) + 1 ==> t' == 0)
    ensures r' < Rounds(|key|) + 1 ==> 4 * r' + t' == GroupStart(key, g + 1)
    ensures 4 * r' + t' > 4 * r + t
    ensures forall v :: 0 <= v < 4 * r' + t' ==> WordAt(w[..], v) == ExpandedWords(key)[v]
  {
    UpdateGroup(tk, g);
    r', t' := CopyWords(tk[..], w, r, t, Rounds(|key|));
    ExpandStep(key, w[..], g, 4 * r' + t');
  }

  /** Writing group g at its place extends a correct prefix of the expanded key. */
  lemma ExpandStep(key: seq<Byte>, s: seq<Byte>, g: nat, lim: nat)
    requires ValidKeyLen(|key|) && g <= 30 && |s| == 16 * (Rounds(|key|) + 1)
    requires GroupStart(key, g) <= lim <= GroupStart(key, g) + |key| / 4 && lim <= 4 * (Rounds(|key|) + 1)
    requires forall v :: 0 <= v < GroupStart(key, g) ==> WordAt(s, v) == ExpandedWords(key)[v]
    requires forall v :: GroupStart(key, g) <= v < lim ==> WordAt(s, v) == KeyGroup(key, g)[v - GroupStart(key, g)]
    ensures forall v :: 0 <= v < lim ==> WordAt(s, v) == ExpandedWords(key)[v]
  {
    GroupInExpanded(key, g);
    Extended(s, ExpandedWords(key), KeyGroup(key, g), GroupStart(key, g), lim);
  }

  /** Group g of the key schedule sits at word GroupStart(key, g) of the expanded key. */
  lemma GroupInExpanded(key: seq<Byte>, g: nat)
    requires ValidKeyLen(|key|) && g <= 30
    ensures forall j :: 0 <= j < |KeyGroup(key, g)| && GroupStart(key, g) + j < |ExpandedWords(key)| ==>
      ExpandedWords(key)[GroupStart(key, g) + j] == KeyGroup(key, g)[j]
  {
    forall j | 0 <= j < |KeyGroup(key, g)| && GroupStart(key, g) + j < |ExpandedWords(key)|
      ensures ExpandedWords(key)[GroupStart(key, g) + j] == KeyGroup(key, g)[j]
    {
      ExpandedWordInGroup(key, g, j);
    }
  }

  /**
   * A byte layout that holds ws below base and tk from base up to lim, where
   * tk is what ws holds from base on, holds ws below lim.
   */
  lemma Extended(s: seq<Byte>, ws: seq<Word>, tk: seq<Word>, base: nat, lim: nat)
    requires 4 * lim <= |s| && lim <= |ws| && base <= lim <= base + |tk|
    requires forall v :: 0 <= v < base ==> WordAt(s, v) == ws[v]
    requires forall v :: base <= v < lim ==> WordAt(s, v) == tk[v - base]
    requires forall j :: 0 <= j < |tk| && base + j < |ws| ==> ws[base + j] == tk[j]
    ensures forall v :: 0 <= v < lim ==> WordAt(s, v) == ws[v]
  {
    forall v | base <= v < lim ensures WordAt(s, v) == ws[v] {
      assert ws[base + (v - base)] == tk[v - base];
    }
  }

  /**
   * `aes_setup`: expands key into the round-key array W, one key-length
   * group of words at a time, and fills W with exactly the round keys of
   * FIPS 197.
   */
  method Setup(key: seq<Byte>, w: array<Byte>)
    requires ValidKeyLen(|key|) && w.Length == 16 * (Rounds(|key|) + 1)
    modifies w
    ensures w[..] == RoundKeys(key)
  {
    var kc := |key| / 4;
    var rounds := Rounds(|key|);
    var tk := LoadKey(key);
    assert KeyGroup(key, 0) == KeyWords(key);
    var r, t := CopyWords(tk[..], w, 0, 0, rounds);
    ExpandStep(key, w[..], 0, 4 * r + t);
    var g := 0;
    while r < rounds + 1
      invariant r <= rounds + 1 && t < 4 && (r == rounds + 1 ==> t == 0)
      invariant g <= 14 && GroupStart(key, g) >= 4 * g
      invariant tk.Length == kc && tk[..] == KeyGroup(key, g)
      invariant r < rounds + 1 ==> 4 * r + t == GroupStart(key, g + 1)
      invariant forall v :: 0 <= v < 4 * r + t ==> WordAt(w[..], v) == ExpandedWords(key)[v]
      decreases 4 * (rounds + 1) - (4 * r + t)
    {
      g := g + 1;
      r, t := ExpandGroup(key, tk, w, g, r, t);
    }
    FilledIsRoundKeys(key, w[..]);
  }

  /** The cipher an expanded key of |rk| bytes computes: |rk| / 16 - 1 rounds. */
  ghost function CipherOf(rk: seq<Byte>, x: seq<Byte>): (y: seq<Byte>)
    requires |rk| % 16 == 0 && |rk| >= 48 && |x| == 16
    ensures |y| == 16
  {
    Cipher(rk, |rk| / 16 - 1, x)
  }

  /**
   * Encrypting with the expanded key rk computes the block function E.
   * The layers above know an expanded key only through this predicate,
   * whose equation is only used where a CipherOf term is already present.
   */
  ghost predicate Keyed(rk: array<Byte>, E: seq<Byte> -> seq<Byte>)
    reads rk
  {
    rk.Length % 16 == 0 && rk.Length >= 48 && IsBlockCipher(E) &&
    forall x {:trigger CipherOf(rk[..], x)} :: |x| == 16 ==> E(x) == CipherOf(rk[..], x)
  }

  lemma CipherOfRounds(r: seq<Byte>, rounds: nat, x: seq<Byte>)
    requires |r| % 16 == 0 && |r| >= 48 && |x| == 16 && rounds == |r| / 16 - 1
    ensures CipherOf(r, x) == Cipher(r, rounds, x)
  {
  }

  /** After aes_setup(key, rk), rk computes AES under key. */
  lemma KeyedAes(rk: array<Byte>, key: seq<Byte>)
    requires ValidKeyLen(|key|) && rk.Length == 16 * (Rounds(|key|) + 1) && rk[..] == RoundKeys(key)
    ensures Keyed(rk, AesOf(key))
  {
    var r := rk[..];
    assert |r| / 16 - 1 == Rounds(|key|);
    forall x | |x| == 16 ensures AesOf(key)(x) == CipherOf(r, x) {
      assert AesOf(key)(x) == Encrypt(key, x);
      CipherOfRounds(r, Rounds(|key|), x);
    }
  }

  /** aes_setup(key, rk), stated as: rk computes AES under key. */
  method SetupKeyed(key: seq<Byte>, rk: array<Byte>)
    requires ValidKeyLen(|key|) && rk.Length == 16 * (Rounds(|key|) + 1)
    modifies rk
    ensures Keyed(rk, AesOf(key))
  {
    Setup(key, rk);
    KeyedAes(rk, key);
  }

  /** An expanded key of key computes AES under key. */
  lemma KeyedIsAes(rk: array<Byte>, key: seq<Byte>, E: seq<Byte> -> seq<Byte>)
    requires ValidKeyLen(|key|) && Keyed(rk, E) && rk[..] == RoundKeys(key)
    ensures forall x :: |x| == 16 ==> E(x) == Encrypt(key, x)
  {
    var r := rk[..];
    assert |r| / 16 - 1 == Rounds(|key|);
    forall x | |x| == 16 ensures E(x) == Encrypt(key, x) {
      assert E(x) == CipherOf(r, x);
      CipherOfRounds(r, Rounds(|key|), x);
    }
  }

  /** aes(a, b, rk) stated through CipherOf. */
  method CipherBlock(a: array<Byte>, b: array<Byte>, rk: array<Byte>)
    requires rk.Length % 16 == 0 && rk.Length >= 48 && a.Length == 16 && b.Length == 16 && b != rk
    modifies b
    ensures b[..] == CipherOf(rk[..], old(a[..]))
  {
    ghost var x, r := a[..], rk[..];
    var rounds := rk.Length / 16 - 1;
    EncryptBlock(a, b, rk, rounds);
    assert rk[..] == r;
    assert b[..] == Cipher(r, rounds, x);
    CipherOfRounds(r, rounds, x);
  }

  /** aes(a, b, rk): b becomes the encryption of a under rk. */
  method AesBlock(a: array<Byte>, b: array<Byte>, rk: array<Byte>, ghost E: seq<Byte> -> seq<Byte>)
    requires Keyed(rk, E) && a.Length == 16 && b.Length == 16 && b != rk
    modifies b
    ensures b[..] == E(old(a[..]))
  {
    ghost var x, r := a[..], rk[..];
    ghost var y := E(x);
    assert y == CipherOf(r, x);
    CipherBlock(a, b, rk);
    assert rk[..] == r;
    assert b[..] == y;
  }
}

=== FILE: aes_kat.dfy ===
/**
 * The known-answer vector of the self test in umac.c: AES-128 under the
 * all-zero key maps 80 00 .. 00 to 3AD78E726C1EC02B7EBFE92B23D9EC34.  The
 * lemmas walk the key schedule word by word and the cipher step by step,
 * each on concrete bytes.
 */
module AesKnownAnswer {
  import opened Bytes
  import opened Aes

  lemma NextGroup1(tk: seq<Word>)
    requires tk == [Word(0x00, 0x00, 0x00, 0x00), Word(0x00, 0x00, 0x00, 0x00), Word(0x00, 0x00, 0x00, 0x00), Word(0x00, 0x00, 0x00, 0x00)]
    ensures NextGroup(tk, 1) == [Word(0x62, 0x63, 0x63, 0x63), Word(0x62, 0x63, 0x63, 0x63), Word(0x62, 0x63, 0x63, 0x63), Word(0x62, 0x63, 0x63, 0x63)]
  {
    assert SubWord(RotWord(tk[3])) == Word(0x63, 0x63, 0x63, 0x63);
    assert Rcon(0) == 0x01;
    assert NextWord(tk, 1, 0) == Word(0x62, 0x63, 0x63, 0x63);
    assert NextWord(tk, 1, 1) == Word(0x62, 0x63, 0x63, 0x63);
    assert NextWord(tk, 1, 2) == Word(0x62, 0x63, 0x63, 0x63);
    assert NextWord(tk, 1, 3) == Word(0x62, 0x63, 0x63, 0x63);
  }

  lemma Group1(key: seq<Byte>)
    requires |key| == 16 && KeyGroup(key, 0) == [Word(0x00, 0x00, 0x00, 0x00), Word(0x00, 0x00, 0x00, 0x00), Word(0x00, 0x00, 0x00, 0x00), Word(0x00, 0x00, 0x00, 0x00)]
    ensures KeyGroup(key, 1) == [Word(0x62, 0x63, 0x63, 0x63), Word(0x62, 0x63, 0x63, 0x63), Word(0x62, 0x63, 0x63, 0x63), Word(0x62, 0x63, 0x63, 0x63)]
  {
    assert KeyGroup(key, 1) == NextGroup(KeyGroup(key, 0), 1);
    NextGroup1(KeyGroup(key, 0));
  }

  lemma NextGroup2(tk: seq<Word>)
    requires tk == [Word(0x62, 0x63, 0x63, 0x63), Word(0x62, 0x63, 0x63, 0x63), Word(0x62, 0x63, 0x63, 0x63), Word(0x62, 0x63, 0x63, 0x63)]
    ensures NextGroup(tk, 2) == [Word(0x9b, 0x98, 0x98, 0xc9), Word(0xf9, 0xfb, 0xfb, 0xaa), Word(0x9b, 0x98, 0x98, 0xc9), Word(0xf9, 0xfb, 0xfb, 0xaa)]
  {
    assert SubWord(RotWord(tk[3])) == Word(0xfb, 0xfb, 0xfb, 0xaa);
    assert Rcon(1) == 0x02;
    assert NextWord(tk, 2, 0) == Word(0x9b, 0x98, 0x98, 0xc9);
    assert NextWord(tk, 2, 1) == Word(0xf9, 0xfb, 0xfb, 0xaa);
    assert NextWord(tk, 2, 2) == Word(0x9b, 0x98, 0x98, 0xc9);
    assert NextWord(tk, 2, 3) == Word(0xf9, 0xfb, 0xfb, 0xaa);
  }

  lemma Group2(key: seq<Byte>)
    requires |key| == 16 && KeyGroup(key, 1) == [Word(0x62, 0x63, 0x63, 0x63), Word(0x62, 0x63, 0x63, 0x63), Word(0x62, 0x63, 0x63, 0x63), Word(0x62, 0x63, 0x63, 0x63)]
    ensures KeyGroup(key, 2) == [Word(0x9b, 0x98, 0x98, 0xc9), Word(0xf9, 0xfb, 0xfb, 0xaa), Word(0x9b, 0x98, 0x98, 0xc9), Word(0xf9, 0xfb, 0xfb, 0xaa)]
  {
    assert KeyGroup(key, 2) == NextGroup(KeyGroup(key, 1), 2);
    NextGroup2(KeyGroup(key, 1));
  }

  lemma NextGroup3(tk: seq<Word>)
    requires tk == [Word(0x9b, 0x98, 0x98, 0xc9), Word(0xf9, 0xfb, 0xfb, 0xaa), Word(0x9b, 0x98, 0x98, 0xc9), Word(0xf9, 0xfb, 0xfb, 0xaa)]
    ensures NextGroup(tk, 3) == [Word(0x90, 0x97, 0x34, 0x50), Word(0x69, 0x6c, 0xcf, 0xfa), Word(0xf2, 0xf4, 0x57, 0x33), Word(0x0b, 0x0f, 0xac, 0x99)]
  {
    assert SubWord(RotWord(tk[3])) == Word(0x0f, 0x0f, 0xac, 0x99);
    assert Rcon(2) == 0x04;
    assert NextWord(tk, 3, 0) == Word(0x90, 0x97, 0x34, 0x50);
    assert NextWord(tk, 3, 1) == Word(0x69, 0x6c, 0xcf, 0xfa);
    assert NextWord(tk, 3, 2) == Word(0xf2, 0xf4, 0x57, 0x33);
    assert NextWord(tk, 3, 3) == Word(0x0b, 0x0f, 0xac, 0x99);
  }

  lemma Group3(key: seq<Byte>)
    requires |key| == 16 && KeyGroup(key, 2) == [Word(0x9b, 0x98, 0x98, 0xc9), Word(0xf9, 0xfb, 0xfb, 0xaa), Word(0x9b, 0x98, 0x98, 0xc9), Word(0xf9, 0xfb, 0xfb, 0xaa)]
    ensures KeyGroup(key, 3) == [Word(0x90, 0x97, 0x34, 0x50), Word(0x69, 0x6c, 0xcf, 0xfa), Word(0xf2, 0xf4, 0x57, 0x33), Word(0x0b, 0x0f, 0xac, 0x99)]
  {
    assert KeyGroup(key, 3) == NextGroup(KeyGroup(key, 2), 3);
    NextGroup3(KeyGroup(key, 2));
  }

  lemma NextGroup4(tk: seq<Word>)
    requires tk == [Word(0x90, 0x97, 0x34, 0x50), Word(0x69, 0x6c, 0xcf, 0xfa), Word(0xf2, 0xf4, 0x57, 0x33), Word(0x0b, 0x0f, 0xac, 0x99)]
    ensures NextGroup(tk, 4) == [Word(0xee, 0x06, 0xda, 0x7b), Word(0x87, 0x6a, 0x15, 0x81), Word(0x75, 0x9e, 0x42, 0xb2), Word(0x7e, 0x91, 0xee, 0x2b)]
  {
    assert SubWord(RotWord(tk[3])) == Word(0x76, 0x91, 0xee, 0x2b);
    assert Rcon(3) == 0x08;
    assert NextWord(tk, 4, 0) == Word(0xee, 0x06, 0xda, 0x7b);
    assert NextWord(tk, 4, 1) == Word(0x87, 0x6a, 0x15, 0x81);
    assert NextWord(tk, 4, 2) == Word(0x75, 0x9e, 0x42, 0xb2);
    assert NextWord(tk, 4, 3) == Word(0x7e, 0x91, 0xee, 0x2b);
  }

  lemma Group4(key: seq<Byte>)
    requires |key| == 16 && KeyGroup(key, 3) == [Word(0x90, 0x97, 0x34, 0x50), Word(0x69, 0x6c, 0xcf, 0xfa), Word(0xf2, 0xf4, 0x57, 0x33), Word(0x0b, 0x0f, 0xac, 0x99)]
    ensures KeyGroup(key, 4) == [Word(0xee, 0x06, 0xda, 0x7b), Word(0x87, 0x6a, 0x15, 0x81), Word(0x75, 0x9e, 0x42, 0xb2), Word(0x7e, 0x91, 0xee, 0x2b)]
  {
    assert KeyGroup(key, 4) == NextGroup(KeyGroup(key, 3), 4);
    NextGroup4(KeyGroup(key, 3));
  }

  lemma NextGroup5(tk: seq<Word>)
    requires tk == [Word(0xee, 0x06, 0xda, 0x7b), Word(0x87, 0x6a, 0x15, 0x81), Word(0x75, 0x9e, 0x42, 0xb2), Word(0x7e, 0x91, 0xee, 0x2b)]
    ensures NextGroup(tk, 5) == [Word(0x7f, 0x2e, 0x2b, 0x88), Word(0xf8, 0x44, 0x3e, 0x09), Word(0x8d, 0xda, 0x7c, 0xbb), Word(0xf3, 0x4b, 0x92, 0x90)]
  {
    assert SubWord(RotWord(tk[3])) == Word(0x81, 0x28, 0xf1, 0xf3);
    assert Rcon(4) == 0x10;
    assert NextWord(tk, 5, 0) == Word(0x7f, 0x2e, 0x2b, 0x88);
    assert NextWord(tk, 5, 1) == Word(0xf8, 0x44, 0x3e, 0x09);
    assert NextWord(tk, 5, 2) == Word(0x8d, 0xda, 0x7c, 0xbb);
    assert NextWord(tk, 5, 3) == Word(0xf3, 0x4b, 0x92, 0x90);
  }

  lemma Group5(key: seq<Byte>)
    requires |key| == 16 && KeyGroup(key, 4) == [Word(0xee, 0x06, 0xda, 0x7b), Word(0x87, 0x6a, 0x15, 0x81), Word(0x75, 0x9e, 0x42, 0xb2), Word(0x7e, 0x91, 0xee, 0x2b)]
    ensures KeyGroup(key, 5) == [Word(0x7f, 0x2e, 0x2b, 0x88), Word(0xf8, 0x44, 0x3e, 0x09), Word(0x8d, 0xda, 0x7c, 0xbb), Word(0xf3, 0x4b, 0x92, 0x90)]
  {
    assert KeyGroup(key, 5) == NextGroup(KeyGroup(key, 4), 5);
    NextGroup5(KeyGroup(key, 4));
  }

  lemma NextGroup6(tk: seq<Word>)
    requires tk == [Word(0x7f, 0x2e, 0x2b, 0x88), Word(0xf8, 0x44, 0x3e, 0x09), Word(0x8d, 0xda, 0x7c, 0xbb), Word(0xf3, 0x4b, 0x92, 0x90)]
    ensures NextGroup(tk, 6) == [Word(0xec, 0x61, 0x4b, 0x85), Word(0x14, 0x25, 0x75, 0x8c), Word(0x99, 0xff, 0x09, 0x37), Word(0x6a, 0xb4, 0x9b, 0xa7)]
  {
    assert SubWord(RotWord(tk[3])) == Word(0xb3, 0x4f, 0x60, 0x0d);
    assert Rcon(5) == 0x20;
    assert NextWord(tk, 6, 0) == Word(0xec, 0x61, 0x4b, 0x85);
    assert NextWord(tk, 6, 1) == Word(0x14, 0x25, 0x75, 0x8c);
    assert NextWord(tk, 6, 2) == Word(0x99, 0xff, 0x09, 0x37);
    assert NextWord(tk, 6, 3) == Word(0x6a, 0xb4, 0x9b, 0xa7);
  }

  lemma Group6(key: seq<Byte>)
    requires |key| == 16 && KeyGroup(key, 5) == [Word(0x7f, 0x2e, 0x2b, 0x88), Word(0xf8, 0x44, 0x3e, 0x09), Word(0x8d, 0xda, 0x7c, 0xbb), Word(0xf3, 0x4b, 0x92, 0x90)]
    ensures KeyGroup(key, 6) == [Word(0xec, 0x61, 0x4b, 0x85), Word(0x14, 0x25, 0x75, 0x8c), Word(0x99, 0xff, 0x09, 0x37), Word(0x6a, 0xb4, 0x9b, 0xa7)]
  {
    assert KeyGroup(key, 6) == NextGroup(KeyGroup(key, 5), 6);
    NextGroup6(KeyGroup(key, 5));
  }

  lemma NextGroup7(tk: seq<Word>)
    requires tk == [Word(0xec, 0x61, 0x4b, 0x85), Word(0x14, 0x25, 0x75, 0x8c), Word(0x99, 0xff, 0x09, 0x37), Word(0x6a, 0xb4, 0x9b, 0xa7)]
    ensures NextGroup(tk, 7) == [Word(0x21, 0x75, 0x17, 0x87), Word(0x35, 0x50, 0x62, 0x0b), Word(0xac, 0xaf, 0x6b, 0x3c), Word(0xc6, 0x1b, 0xf0, 0x9b)]
  {
    assert SubWord(RotWord(tk[3])) == Word(0x8d, 0x14, 0x5c, 0x02);
    assert Rcon(6) == 0x40;
    assert NextWord(tk, 7, 0) == Word(0x21, 0x75, 0x17, 0x87);
    assert NextWord(tk, 7, 1) == Word(0x35, 0x50, 0x62, 0x0b);
    assert NextWord(tk, 7, 2) == Word(0xac, 0xaf, 0x6b, 0x3c);
    assert NextWord(tk, 7, 3) == Word(0xc6, 0x1b, 0xf0, 0x9b);
  }

  lemma Group7(key: seq<Byte>)
    requires |key| == 16 && KeyGroup(key, 6) == [Word(0xec, 0x61, 0x4b, 0x85), Word(0x14, 0x25, 0x75, 0x8c), Word(0x99, 0xff, 0x09, 0x37), Word(0x6a, 0xb4, 0x9b, 0xa7)]
    ensures KeyGroup(key, 7) == [Word(0x21, 0x75, 0x17, 0x87), Word(0x35, 0x50, 0x62, 0x0b), Word(0xac, 0xaf, 0x6b, 0x3c), Word(0xc6, 0x1b, 0xf0, 0x9b)]
  {
    assert KeyGroup(key, 7) == NextGroup(KeyGroup(key, 6), 7);
    NextGroup7(KeyGroup(key, 6));
  }

  lemma NextGroup8(tk: seq<Word>)
    requires tk == [Word(0x21, 0x75, 0x17, 0x87), Word(0x35, 0x50, 0x62, 0x0b), Word(0xac, 0xaf, 0x6b, 0x3c), Word(0xc6, 0x1b, 0xf0, 0x9b)]
    ensures NextGroup(tk, 8) == [Word(0x0e, 0xf9, 0x03, 0x33), Word(0x3b, 0xa9, 0x61, 0x38), Word(0x97, 0x06, 0x0a, 0x04), Word(0x51, 0x1d, 0xfa, 0x9f)]
  {
    assert SubWord(RotWord(tk[3])) == Word(0xaf, 0x8c, 0x14, 0xb4);
    assert Rcon(7) == 0x80;
    assert NextWord(tk, 8, 0) == Word(0x0e, 0xf9, 0x03, 0x33);
    assert NextWord(tk, 8, 1) == Word(0x3b, 0xa9, 0x61, 0x38);
    assert NextWord(tk, 8, 2) == Word(0x97, 0x06, 0x0a, 0x04);
    assert NextWord(tk, 8, 3) == Word(0x51, 0x1d, 0xfa, 0x9f);
  }

  lemma Group8(key: seq<Byte>)
    requires |key| == 16 && KeyGroup(key, 7) == [Word(0x21, 0x75, 0x17, 0x87), Word(0x35, 0x50, 0x62, 0x0b), Word(0xac, 0xaf, 0x6b, 0x3c), Word(0xc6, 0x1b, 0xf0, 0x9b)]
    ensures KeyGroup(key, 8) == [Word(0x0e, 0xf9, 0x03, 0x33), Word(0x3b, 0xa9, 0x61, 0x38), Word(0x97, 0x06, 0x0a, 0x04), Word(0x51, 0x1d, 0xfa, 0x9f)]
  {
    assert KeyGroup(key, 8) == NextGroup(KeyGroup(key, 7), 8);
    NextGroup8(KeyGroup(key, 7));
  }

  lemma NextGroup9(tk: seq<Word>)
    requires tk == [Word(0x0e, 0xf9, 0x03, 0x33), Word(0x3b, 0xa9, 0x61, 0x38), Word(0x97, 0x06, 0x0a, 0x04), Word(0x51, 0x1d, 0xfa, 0x9f)]
    ensures NextGroup(tk, 9) == [Word(0xb1, 0xd4, 0xd8, 0xe2), Word(0x8a, 0x7d, 0xb9, 0xda), Word(0x1d, 0x7b, 0xb3, 0xde), Word(0x4c, 0x66, 0x49, 0x41)]
  {
    assert SubWord(RotWord(tk[3])) == Word(0xa4, 0x2d, 0xdb, 0xd1);
    assert Rcon(8) == 0x1b;
    assert NextWord(tk, 9, 0) == Word(0xb1, 0xd4, 0xd8, 0xe2);
    assert NextWord(tk, 9, 1) == Word(0x8a, 0x7d, 0xb9, 0xda);
    assert NextWord(tk, 9, 2) == Word(0x1d, 0x7b, 0xb3, 0xde);
    assert NextWord(tk, 9, 3) == Word(0x4c, 0x66, 0x49, 0x41);
  }

  lemma Group9(key: seq<Byte>)
    requires |key| == 16 && KeyGroup(key, 8) == [Word(0x0e, 0xf9, 0x03, 0x33), Word(0x3b, 0xa9, 0x61, 0x38), Word(0x97, 0x06, 0x0a, 0x04), Word(0x51, 0x1d, 0xfa, 0x9f)]
    ensures KeyGroup(key, 9) == [Word(0xb1, 0xd4, 0xd8, 0xe2), Word(0x8a, 0x7d, 0xb9, 0xda), Word(0x1d, 0x7b, 0xb3, 0xde), Word(0x4c, 0x66, 0x49, 0x41)]
  {
    assert KeyGroup(key, 9) == NextGroup(KeyGroup(key, 8), 9);
    NextGroup9(KeyGroup(key, 8));
  }

  lemma NextGroup10(tk: seq<Word>)
    requires tk == [Word(0xb1, 0xd4, 0xd8, 0xe2), Word(0x8a, 0x7d, 0xb9, 0xda), Word(0x1d, 0x7b, 0xb3, 0xde), Word(0x4c, 0x66, 0x49, 0x41)]
    ensures NextGroup(tk, 10) == [Word(0xb4, 0xef, 0x5b, 0xcb), Word(0x3e, 0x92, 0xe2, 0x11), Word(0x23, 0xe9, 0x51, 0xcf), Word(0x6f, 0x8f, 0x18, 0x8e)]
  {
    assert SubWord(RotWord(tk[3])) == Word(0x33, 0x3b, 0x83, 0x29);
    assert Rcon(9) == 0x36;
    assert NextWord(tk, 10, 0) == Word(0xb4, 0xef, 0x5b, 0xcb);
    assert NextWord(tk, 10, 1) == Word(0x3e, 0x92, 0xe2, 0x11);
    assert NextWord(tk, 10, 2) == Word(0x23, 0xe9, 0x51, 0xcf);
    assert NextWord(tk, 10, 3) == Word(0x6f, 0x8f, 0x18, 0x8e);
  }

  lemma Group10(key: seq<Byte>)
    requires |key| == 16 && KeyGroup(key, 9) == [Word(0xb1, 0xd4, 0xd8, 0xe2), Word(0x8a, 0x7d, 0xb9, 0xda), Word(0x1d, 0x7b, 0xb3, 0xde), Word(0x4c, 0x66, 0x49, 0x41)]
    ensures KeyGroup(key, 10) == [Word(0xb4, 0xef, 0x5b, 0xcb), Word(0x3e, 0x92, 0xe2, 0x11), Word(0x23, 0xe9, 0x51, 0xcf), Word(0x6f, 0x8f, 0x18, 0x8e)]
  {
    assert KeyGroup(key, 10) == NextGroup(KeyGroup(key, 9), 10);
    NextGroup10(KeyGroup(key, 9));
  }

  lemma Sub1(s: seq<Byte>)
    requires s == [0x80, 0x00, 0x00, 0x00, 0x00, 0x00, 0x00, 0x00, 0x00, 0x00, 0x00, 0x00, 0x00, 0x00, 0x00, 0x00]
    ensures SubBytes(s) == [0xcd, 0x63, 0x63, 0x63, 0x63, 0x63, 0x63, 0x63, 0x63, 0x63, 0x63, 0x63, 0x63, 0x63, 0x63, 0x63]
  {
  }

  lemma Shift1(s: seq<Byte>)
    requires s == [0xcd, 0x63, 0x63, 0x63, 0x63, 0x63, 0x63, 0x63, 0x63, 0x63, 0x63, 0x63, 0x63, 0x63, 0x63, 0x63]
    ensures ShiftRows(s) == [0xcd, 0x63, 0x63, 0x63, 0x63, 0x63, 0x63, 0x63, 0x63, 0x63, 0x63, 0x63, 0x63, 0x63, 0x63, 0x63]
  {
  }

  lemma Mix1(s: seq<Byte>)
    requires s == [0xcd, 0x63, 0x63, 0x63, 0x63, 0x63, 0x63, 0x63, 0x63, 0x63, 0x63, 0x63, 0x63, 0x63, 0x63, 0x63]
    ensures MixColumns(s) == [0x24, 0xcd, 0xcd, 0x8a, 0x63, 0x63, 0x63, 0x63, 0x63, 0x63, 0x63, 0x63, 0x63, 0x63, 0x63, 0x63]
  {
  }

  lemma AddKey1(s: seq<Byte>, k: seq<Byte>)
    requires s == [0x24, 0xcd, 0xcd, 0x8a, 0x63, 0x63, 0x63, 0x63, 0x63, 0x63, 0x63, 0x63, 0x63, 0x63, 0x63, 0x63] && k == [0x62, 0x63, 0x63, 0x63, 0x62, 0x63, 0x63, 0x63, 0x62, 0x63, 0x63, 0x63, 0x62, 0x63, 0x63, 0x63]
    ensures XorBlock(s, k) == [0x46, 0xae, 0xae, 0xe9, 0x01, 0x00, 0x00, 0x00, 0x01, 0x00, 0x00, 0x00, 0x01, 0x00, 0x00, 0x00]
  {
  }

  lemma Round1(rk: seq<Byte>, input: seq<Byte>)
    requires |input| == 16 && |rk| == 176 && RoundKey(rk, 1) == [0x62, 0x63, 0x63, 0x63, 0x62, 0x63, 0x63, 0x63, 0x62, 0x63, 0x63, 0x63, 0x62, 0x63, 0x63, 0x63]
    requires State(rk, input, 0) == [0x80, 0x00, 0x00, 0x00, 0x00, 0x00, 0x00, 0x00, 0x00, 0x00, 0x00, 0x00, 0x00, 0x00, 0x00, 0x00]
    ensures State(rk, input, 1) == [0x46, 0xae, 0xae, 0xe9, 0x01, 0x00, 0x00, 0x00, 0x01, 0x00, 0x00, 0x00, 0x01, 0x00, 0x00, 0x00]
  {
    var s := State(rk, input, 0);
    Sub1(s);
    Shift1(SubBytes(s));
    Mix1(ShiftRows(SubBytes(s)));
    AddKey1(MixColumns(ShiftRows(SubBytes(s))), RoundKey(rk, 1));
  }

  lemma Sub2(s: seq<Byte>)
    requires s == [0x46, 0xae, 0xae, 0xe9, 0x01, 0x00, 0x00, 0x00, 0x01, 0x00, 0x00, 0x00, 0x01, 0x00, 0x00, 0x00]
    ensures SubBytes(s) == [0x5a, 0xe4, 0xe4, 0x1e, 0x7c, 0x63, 0x63, 0x63, 0x7c, 0x63, 0x63, 0x63, 0x7c, 0x63, 0x63, 0x63]
  {
  }

  lemma Shift2(s: seq<Byte>)
    requires s == [0x5a, 0xe4, 0xe4, 0x1e, 0x7c, 0x63, 0x63, 0x63, 0x7c, 0x63, 0x63, 0x63, 0x7c, 0x63, 0x63, 0x63]
    ensures ShiftRows(s) == [0x5a, 0x63, 0x63, 0x63, 0x7c, 0x63, 0x63, 0x1e, 0x7c, 0x63, 0xe4, 0x63, 0x7c, 0xe4, 0x63, 0x63]
  {
  }

  lemma Mix2(s: seq<Byte>)
    requires s == [0x5a, 0x63, 0x63, 0x63, 0x7c, 0x63, 0x63, 0x1e, 0x7c, 0x63, 0xe4, 0x63, 0x7c, 0xe4, 0x63, 0x63]
    ensures MixColumns(s) == [0x11, 0x5a, 0x5a, 0x28, 0x20, 0x01, 0xfb, 0xb8, 0xda, 0xee, 0x69, 0xc5, 0xcf, 0x69, 0xfb, 0xc5]
  {
  }

  lemma AddKey2(s: seq<Byte>, k: seq<Byte>)
    requires s == [0x11, 0x5a, 0x5a, 0x28, 0x20, 0x01, 0xfb, 0xb8, 0xda, 0xee, 0x69, 0xc5, 0xcf, 0x69, 0xfb, 0xc5] && k == [0x9b, 0x98, 0x98, 0xc9, 0xf9, 0xfb, 0xfb, 0xaa, 0x9b, 0x98, 0x98, 0xc9, 0xf9, 0xfb, 0xfb, 0xaa]
    ensures XorBlock(s, k) == [0x8a, 0xc2, 0xc2, 0xe1, 0xd9, 0xfa, 0x00, 0x12, 0x41, 0x76, 0xf1, 0x0c, 0x36, 0x92, 0x00, 0x6f]
  {
  }

  lemma Round2(rk: seq<Byte>, input: seq<Byte>)
    requires |input| == 16 && |rk| == 176 && RoundKey(rk, 2) == [0x9b, 0x98, 0x98, 0xc9, 0xf9, 0xfb, 0xfb, 0xaa, 0x9b, 0x98, 0x98, 0xc9, 0xf9, 0xfb, 0xfb, 0xaa]
    requires State(rk, input, 1) == [0x46, 0xae, 0xae, 0xe9, 0x01, 0x00, 0x00, 0x00, 0x01, 0x00, 0x00, 0x00, 0x01, 0x00, 0x00, 0x00]
    ensures State(rk, input, 2) == [0x8a, 0xc2, 0xc2, 0xe1, 0xd9, 0xfa, 0x00, 0x12, 0x41, 0x76, 0xf1, 0x0c, 0x36, 0x92, 0x00, 0x6f]
  {
    var s := State(rk, input, 1);
    Sub2(s);
    Shift2(SubBytes(s));
    Mix2(ShiftRows(SubBytes(s)));
    AddKey2(MixColumns(ShiftRows(SubBytes(s))), RoundKey(rk, 2));
  }

  lemma Sub3(s: seq<Byte>)
    requires s == [0x8a, 0xc2, 0xc2, 0xe1, 0xd9, 0xfa, 0x00, 0x12, 0x41, 0x76, 0xf1, 0x0c, 0x36, 0x92, 0x00, 0x6f]
    ensures SubBytes(s) == [0x7e, 0x25, 0x25, 0xf8, 0x35, 0x2d, 0x63, 0xc9, 0x83, 0x38, 0xa1, 0xfe, 0x05, 0x4f, 0x63, 0xa8]
  {
  }

  lemma Shift3(s: seq<Byte>)
    requires s == [0x7e, 0x25, 0x25, 0xf8, 0x35, 0x2d, 0x63, 0xc9, 0x83, 0x38, 0xa1, 0xfe, 0x05, 0x4f, 0x63, 0xa8]
    ensures ShiftRows(s) == [0x7e, 0x2d, 0xa1, 0xa8, 0x35, 0x38, 0x63, 0xf8, 0x83, 0x4f, 0x25, 0xc9, 0x05, 0x25, 0x63, 0xfe]
  {
  }

  lemma Mix3(s: seq<Byte>)
    requires s == [0x7e, 0x2d, 0xa1, 0xa8, 0x35, 0x38, 0x63, 0xf8, 0x83, 0x4f, 0x25, 0xc9, 0x05, 0x25, 0x63, 0xfe]
    ensures MixColumns(s) == [0x82, 0x74, 0xe9, 0x45, 0xb9, 0x18, 0xd8, 0xef, 0x20, 0xbb, 0xc6, 0x7d, 0xf8, 0x14, 0xff, 0xae]
  {
  }

  lemma AddKey3(s: seq<Byte>, k: seq<Byte>)
    requires s == [0x82, 0x74, 0xe9, 0x45, 0xb9, 0x18, 0xd8, 0xef, 0x20, 0xbb, 0xc6, 0x7d, 0xf8, 0x14, 0xff, 0xae] && k == [0x90, 0x97, 0x34, 0x50, 0x69, 0x6c, 0xcf, 0xfa, 0xf2, 0xf4, 0x57, 0x33, 0x0b, 0x0f, 0xac, 0x99]
    ensures XorBlock(s, k) == [0x12, 0xe3, 0xdd, 0x15, 0xd0, 0x74, 0x17, 0x15, 0xd2, 0x4f, 0x91, 0x4e, 0xf3, 0x1b, 0x53, 0x37]
  {
  }

  lemma Round3(rk: seq<Byte>, input: seq<Byte>)
    requires |input| == 16 && |rk| == 176 && RoundKey(rk, 3) == [0x90, 0x97, 0x34, 0x50, 0x69, 0x6c, 0xcf, 0xfa, 0xf2, 0xf4, 0x57, 0x33, 0x0b, 0x0f, 0xac, 0x99]
    requires State(rk, input, 2) == [0x8a, 0xc2, 0xc2, 0xe1, 0xd9, 0xfa, 0x00, 0x12, 0x41, 0x76, 0xf1, 0x0c, 0x36, 0x92, 0x00, 0x6f]
    ensures State(rk, input, 3) == [0x12, 0xe3, 0xdd, 0x15, 0xd0, 0x74, 0x17, 0x15, 0xd2, 0x4f, 0x91, 0x4e, 0xf3, 0x1b, 0x53, 0x37]
  {
    var s := State(rk, input, 2);
    Sub3(s);
    Shift3(SubBytes(s));
    Mix3(ShiftRows(SubBytes(s)));
    AddKey3(MixColumns(ShiftRows(SubBytes(s))), RoundKey(rk, 3));
  }

  lemma Sub4(s: seq<Byte>)
    requires s == [0x12, 0xe3, 0xdd, 0x15, 0xd0, 0x74, 0x17, 0x15, 0xd2, 0x4f, 0x91, 0x4e, 0xf3, 0x1b, 0x53, 0x37]
    ensures SubBytes(s) == [0xc9, 0x11, 0xc1, 0x59, 0x70, 0x92, 0xf0, 0x59, 0xb5, 0x84, 0x81, 0x2f, 0x0d, 0xaf, 0xed, 0x9a]
  {
  }

  lemma Shift4(s: seq<Byte>)
    requires s == [0xc9, 0x11, 0xc1, 0x59, 0x70, 0x92, 0xf0, 0x59, 0xb5, 0x84, 0x81, 0x2f, 0x0d, 0xaf, 0xed, 0x9a]
    ensures ShiftRows(s) == [0xc9, 0x92, 0x81, 0x9a, 0x70, 0x84, 0xed, 0x59, 0xb5, 0xaf, 0xc1, 0x59, 0x0d, 0x11, 0xf0, 0x2f]
  {
  }

  lemma Mix4(s: seq<Byte>)
    requires s == [0xc9, 0x92, 0x81, 0x9a, 0x70, 0x84, 0xed, 0x59, 0xb5, 0xaf, 0xc1, 0x59, 0x0d, 0x11, 0xf0, 0x2f]
    ensures MixColumns(s) == [0x3f, 0xf4, 0xf7, 0x7c, 0xc3, 0x16, 0xde, 0x4b, 0x03, 0xf1, 0x68, 0x18, 0xf6, 0x0b, 0x96, 0xa8]
  {
  }

  lemma AddKey4(s: seq<Byte>, k: seq<Byte>)
    requires s == [0x3f, 0xf4, 0xf7, 0x7c, 0xc3, 0x16, 0xde, 0x4b, 0x03, 0xf1, 0x68, 0x18, 0xf6, 0x0b, 0x96, 0xa8] && k == [0xee, 0x06, 0xda, 0x7b, 0x87, 0x6a, 0x15, 0x81, 0x75, 0x9e, 0x42, 0xb2, 0x7e, 0x91, 0xee, 0x2b]
    ensures XorBlock(s, k) == [0xd1, 0xf2, 0x2d, 0x07, 0x44, 0x7c, 0xcb, 0xca, 0x76, 0x6f, 0x2a, 0xaa, 0x88, 0x9a, 0x78, 0x83]
  {
  }

  lemma Round4(rk: seq<Byte>, input: seq<Byte>)
    requires |input| == 16 && |rk| == 176 && RoundKey(rk, 4) == [0xee, 0x06, 0xda, 0x7b, 0x87, 0x6a, 0x15, 0x81, 0x75, 0x9e, 0x42, 0xb2, 0x7e, 0x91, 0xee, 0x2b]
    requires State(rk, input, 3) == [0x12, 0xe3, 0xdd, 0x15, 0xd0, 0x74, 0x17, 0x15, 0xd2, 0x4f, 0x91, 0x4e, 0xf3, 0x1b, 0x53, 0x37]
    ensures State(rk, input, 4) == [0xd1, 0xf2, 0x2d, 0x07, 0x44, 0x7c, 0xcb, 0xca, 0x76, 0x6f, 0x2a, 0xaa, 0x88, 0x9a, 0x78, 0x83]
  {
    var s := State(rk, input, 3);
    Sub4(s);
    Shift4(SubBytes(s));
    Mix4(ShiftRows(SubBytes(s)));
    AddKey4(MixColumns(ShiftRows(SubBytes(s))), RoundKey(rk, 4));
  }

  lemma Sub5(s: seq<Byte>)
    requires s == [0xd1, 0xf2, 0x2d, 0x07, 0x44, 0x7c, 0xcb, 0xca, 0x76, 0x6f, 0x2a, 0xaa, 0x88, 0x9a, 0x78, 0x83]
    ensures SubBytes(s) == [0x3e, 0x89, 0xd8, 0xc5, 0x1b, 0x10, 0x1f, 0x74, 0x38, 0xa8, 0xe5, 0xac, 0xc4, 0xb8, 0xbc, 0xec]
  {
  }

  lemma Shift5(s: seq<Byte>)
    requires s == [0x3e, 0x89, 0xd8, 0xc5, 0x1b, 0x10, 0x1f, 0x74, 0x38, 0xa8, 0xe5, 0xac, 0xc4, 0xb8, 0xbc, 0xec]
    ensures ShiftRows(s) == [0x3e, 0x10, 0xe5, 0xec, 0x1b, 0xa8, 0xbc, 0xc5, 0x38, 0xb8, 0xd8, 0x74, 0xc4, 0x89, 0x1f, 0xac]
  {
  }

  lemma Mix5(s: seq<Byte>)
    requires s == [0x3e, 0x10, 0xe5, 0xec, 0x1b, 0xa8, 0xbc, 0xc5, 0x38, 0xb8, 0xd8, 0x74, 0xc4, 0x89, 0x1f, 0xac]
    ensures MixColumns(s) == [0x45, 0xc6, 0xd0, 0x74, 0xac, 0x4a, 0x84, 0xa8, 0x0f, 0x54, 0xb7, 0xc0, 0xa0, 0x40, 0x9c, 0x82]
  {
  }

  lemma AddKey5(s: seq<Byte>, k: seq<Byte>)
    requires s == [0x45, 0xc6, 0xd0, 0x74, 0xac, 0x4a, 0x84, 0xa8, 0x0f, 0x54, 0xb7, 0xc0, 0xa0, 0x40, 0x9c, 0x82] && k == [0x7f, 0x2e, 0x2b, 0x88, 0xf8, 0x44, 0x3e, 0x09, 0x8d, 0xda, 0x7c, 0xbb, 0xf3, 0x4b, 0x92, 0x90]
    ensures XorBlock(s, k) == [0x3a, 0xe8, 0xfb, 0xfc, 0x54, 0x0e, 0xba, 0xa1, 0x82, 0x8e, 0xcb, 0x7b, 0x53, 0x0b, 0x0e, 0x12]
  {
  }

  lemma Round5(rk: seq<Byte>, input: seq<Byte>)
    requires |input| == 16 && |rk| == 176 && RoundKey(rk, 5) == [0x7f, 0x2e, 0x2b, 0x88, 0xf8, 0x44, 0x3e, 0x09, 0x8d, 0xda, 0x7c, 0xbb, 0xf3, 0x4b, 0x92, 0x90]
    requires State(rk, input, 4) == [0xd1, 0xf2, 0x2d, 0x07, 0x44, 0x7c, 0xcb, 0xca, 0x76, 0x6f, 0x2a, 0xaa, 0x88, 0x9a, 0x78, 0x83]
    ensures State(rk, input, 5) == [0x3a, 0xe8, 0xfb, 0xfc, 0x54, 0x0e, 0xba, 0xa1, 0x82, 0x8e, 0xcb, 0x7b, 0x53, 0x0b, 0x0e, 0x12]
  {
    var s := State(rk, input, 4);
    Sub5(s);
    Shift5(SubBytes(s));
    Mix5(ShiftRows(SubBytes(s)));
    AddKey5(MixColumns(ShiftRows(SubBytes(s))), RoundKey(rk, 5));
  }

  lemma Sub6(s: seq<Byte>)
    requires s == [0x3a, 0xe8, 0xfb, 0xfc, 0x54, 0x0e, 0xba, 0xa1, 0x82, 0x8e, 0xcb, 0x7b, 0x53, 0x0b, 0x0e, 0x12]
    ensures SubBytes(s) == [0x80, 0x9b, 0x0f, 0xb0, 0x20, 0xab, 0xf4, 0x32, 0x13, 0x19, 0x1f, 0x21, 0xed, 0x2b, 0xab, 0xc9]
  {
  }

  lemma Shift6(s: seq<Byte>)
    requires s == [0x80, 0x9b, 0x0f, 0xb0, 0x20, 0xab, 0xf4, 0x32, 0x13, 0x19, 0x1f, 0x21, 0xed, 0x2b, 0xab, 0xc9]
    ensures ShiftRows(s) == [0x80, 0xab, 0x1f, 0xc9, 0x20, 0x19, 0xab, 0xb0, 0x13, 0x2b, 0x0f, 0x32, 0xed, 0x9b, 0xf4, 0x21]
  {
  }

  lemma Mix6(s: seq<Byte>)
    requires s == [0x80, 0xab, 0x1f, 0xc9, 0x20, 0x19, 0xab, 0xb0, 0x13, 0x2b, 0x0f, 0x32, 0xed, 0x9b, 0xf4, 0x21]
    ensures MixColumns(s) == [0x2b, 0x25, 0x55, 0xa6, 0x70, 0x44, 0xbf, 0xa9, 0x66, 0x66, 0x70, 0x75, 0xa2, 0xe6, 0xe6, 0x01]
  {
  }

  lemma AddKey6(s: seq<Byte>, k: seq<Byte>)
    requires s == [0x2b, 0x25, 0x55, 0xa6, 0x70, 0x44, 0xbf, 0xa9, 0x66, 0x66, 0x70, 0x75, 0xa2, 0xe6, 0xe6, 0x01] && k == [0xec, 0x61, 0x4b, 0x85, 0x14, 0x25, 0x75, 0x8c, 0x99, 0xff, 0x09, 0x37, 0x6a, 0xb4, 0x9b, 0xa7]
    ensures XorBlock(s, k) == [0xc7, 0x44, 0x1e, 0x23, 0x64, 0x61, 0xca, 0x25, 0xff, 0x99, 0x79, 0x42, 0xc8, 0x52, 0x7d, 0xa6]
  {
  }

  lemma Round6(rk: seq<Byte>, input: seq<Byte>)
    requires |input| == 16 && |rk| == 176 && RoundKey(rk, 6) == [0xec, 0x61, 0x4b, 0x85, 0x14, 0x25, 0x75, 0x8c, 0x99, 0xff, 0x09, 0x37, 0x6a, 0xb4, 0x9b, 0xa7]
    requires State(rk, input, 5) == [0x3a, 0xe8, 0xfb, 0xfc, 0x54, 0x0e, 0xba, 0xa1, 0x82, 0x8e, 0xcb, 0x7b, 0x53, 0x0b, 0x0e, 0x12]
    ensures State(rk, input, 6) == [0xc7, 0x44, 0x1e, 0x23, 0x64, 0x61, 0xca, 0x25, 0xff, 0x99, 0x79, 0x42, 0xc8, 0x52, 0x7d, 0xa6]
  {
    var s := State(rk, input, 5);
    Sub6(s);
    Shift6(SubBytes(s));
    Mix6(ShiftRows(SubBytes(s)));
    AddKey6(MixColumns(ShiftRows(SubBytes(s))), RoundKey(rk, 6));
  }

  lemma Sub7(s: seq<Byte>)
    requires s == [0xc7, 0x44, 0x1e, 0x23, 0x64, 0x61, 0xca, 0x25, 0xff, 0x99, 0x79, 0x42, 0xc8, 0x52, 0x7d, 0xa6]
    ensures SubBytes(s) == [0xc6, 0x1b, 0x72, 0x26, 0x43, 0xef, 0x74, 0x3f, 0x16, 0xee, 0xb6, 0x2c, 0xe8, 0x00, 0xff, 0x24]
  {
  }

  lemma Shift7(s: seq<Byte>)
    requires s == [0xc6, 0x1b, 0x72, 0x26, 0x43, 0xef, 0x74, 0x3f, 0x16, 0xee, 0xb6, 0x2c, 0xe8, 0x00, 0xff, 0x24]
    ensures ShiftRows(s) == [0xc6, 0xef, 0xb6, 0x24, 0x43, 0xee, 0xff, 0x26, 0x16, 0x00, 0x72, 0x3f, 0xe8, 0x1b, 0x74, 0x2c]
  {
  }

  lemma Mix7(s: seq<Byte>)
    requires s == [0xc6, 0xef, 0xb6, 0x24, 0x43, 0xee, 0xff, 0x26, 0x16, 0x00, 0x72, 0x3f, 0xe8, 0x1b, 0x74, 0x2c]
    ensures MixColumns(s) == [0x2f, 0xe6, 0x32, 0x40, 0x76, 0xb8, 0x22, 0x98, 0x61, 0xbf, 0xb3, 0x36, 0xbe, 0x6e, 0x6f, 0x14]
  {
  }

  lemma AddKey7(s: seq<Byte>, k: seq<Byte>)
    requires s == [0x2f, 0xe6, 0x32, 0x40, 0x76, 0xb8, 0x22, 0x98, 0x61, 0xbf, 0xb3, 0x36, 0xbe, 0x6e, 0x6f, 0x14] && k == [0x21, 0x75, 0x17, 0x87, 0x35, 0x50, 0x62, 0x0b, 0xac, 0xaf, 0x6b, 0x3c, 0xc6, 0x1b, 0xf0, 0x9b]
    ensures XorBlock(s, k) == [0x0e, 0x93, 0x25, 0xc7, 0x43, 0xe8, 0x40, 0x93, 0xcd, 0x10, 0xd8, 0x0a, 0x78, 0x75, 0x9f, 0x8f]
  {
  }

  lemma Round7(rk: seq<Byte>, input: seq<Byte>)
    requires |input| == 16 && |rk| == 176 && RoundKey(rk, 7) == [0x21, 0x75, 0x17, 0x87, 0x35, 0x50, 0x62, 0x0b, 0xac, 0xaf, 0x6b, 0x3c, 0xc6, 0x1b, 0xf0, 0x9b]
    requires State(rk, input, 6) == [0xc7, 0x44, 0x1e, 0x23, 0x64, 0x61, 0xca, 0x25, 0xff, 0x99, 0x79, 0x42, 0xc8, 0x52, 0x7d, 0xa6]
    ensures State(rk, input, 7) == [0x0e, 0x93, 0x25, 0xc7, 0x43, 0xe8, 0x40, 0x93, 0xcd, 0x10, 0xd8, 0x0a, 0x78, 0x75, 0x9f, 0x8f]
  {
    var s := State(rk, input, 6);
    Sub7(s);
    Shift7(SubBytes(s));
    Mix7(ShiftRows(SubBytes(s)));
    AddKey7(MixColumns(ShiftRows(SubBytes(s))), RoundKey(rk, 7));
  }

  lemma Sub8(s: seq<Byte>)
    requires s == [0x0e, 0x93, 0x25, 0xc7, 0x43, 0xe8, 0x40, 0x93, 0xcd, 0x10, 0xd8, 0x0a, 0x78, 0x75, 0x9f, 0x8f]
    ensures SubBytes(s) == [0xab, 0xdc, 0x3f, 0xc6, 0x1a, 0x9b, 0x09, 0xdc, 0xbd, 0xca, 0x61, 0x67, 0xbc, 0x9d, 0xdb, 0x73]
  {
  }

  lemma Shift8(s: seq<Byte>)
    requires s == [0xab, 0xdc, 0x3f, 0xc6, 0x1a, 0x9b, 0x09, 0xdc, 0xbd, 0xca, 0x61, 0x67, 0xbc, 0x9d, 0xdb, 0x73]
    ensures ShiftRows(s) == [0xab, 0x9b, 0x61, 0x73, 0x1a, 0xca, 0xdb, 0xc6, 0xbd, 0x9d, 0x3f, 0xdc, 0xbc, 0xdc, 0x09, 0x67]
  {
  }

  lemma Mix8(s: seq<Byte>)
    requires s == [0xab, 0x9b, 0x61, 0x73, 0x1a, 0xca, 0xdb, 0xc6, 0xbd, 0x9d, 0x3f, 0xdc, 0xbc, 0xdc, 0x09, 0x67]
    ensures MixColumns(s) == [0xe9, 0x56, 0x67, 0xfa, 0x6c, 0x25, 0x2c, 0xa8, 0x3e, 0x01, 0x21, 0xdd, 0x72, 0x63, 0xdb, 0xc4]
  {
  }

  lemma AddKey8(s: seq<Byte>, k: seq<Byte>)
    requires s == [0xe9, 0x56, 0x67, 0xfa, 0x6c, 0x25, 0x2c, 0xa8, 0x3e, 0x01, 0x21, 0xdd, 0x72, 0x63, 0xdb, 0xc4] && k == [0x0e, 0xf9, 0x03, 0x33, 0x3b, 0xa9, 0x61, 0x38, 0x97, 0x06, 0x0a, 0x04, 0x51, 0x1d, 0xfa, 0x9f]
    ensures XorBlock(s, k) == [0xe7, 0xaf, 0x64, 0xc9, 0x57, 0x8c, 0x4d, 0x90, 0xa9, 0x07, 0x2b, 0xd9, 0x23, 0x7e, 0x21, 0x5b]
  {
  }

  lemma Round8(rk: seq<Byte>, input: seq<Byte>)
    requires |input| == 16 && |rk| == 176 && RoundKey(rk, 8) == [0x0e, 0xf9, 0x03, 0x33, 0x3b, 0xa9, 0x61, 0x38, 0x97, 0x06, 0x0a, 0x04, 0x51, 0x1d, 0xfa, 0x9f]
    requires State(rk, input, 7) == [0x0e, 0x93, 0x25, 0xc7, 0x43, 0xe8, 0x40, 0x93, 0xcd, 0x10, 0xd8, 0x0a, 0x78, 0x75, 0x9f, 0x8f]
    ensures State(rk, input, 8) == [0xe7, 0xaf, 0x64, 0xc9, 0x57, 0x8c, 0x4d, 0x90, 0xa9, 0x07, 0x2b, 0xd9, 0x23, 0x7e, 0x21, 0x5b]
  {
    var s := State(rk, input, 7);
    Sub8(s);
    Shift8(SubBytes(s));
    Mix8(ShiftRows(SubBytes(s)));
    AddKey8(MixColumns(ShiftRows(SubBytes(s))), RoundKey(rk, 8));
  }

  lemma Sub9(s: seq<Byte>)
    requires s == [0xe7, 0xaf, 0x64, 0xc9, 0x57, 0x8c, 0x4d, 0x90, 0xa9, 0x07, 0x2b, 0xd9, 0x23, 0x7e, 0x21, 0x5b]
    ensures SubBytes(s) == [0x94, 0x79, 0x43, 0xdd, 0x5b, 0x64, 0xe3, 0x60, 0xd3, 0xc5, 0xf1, 0x35, 0x26, 0xf3, 0xfd, 0x39]
  {
  }

  lemma Shift9(s: seq<Byte>)
    requires s == [0x94, 0x79, 0x43, 0xdd, 0x5b, 0x64, 0xe3, 0x60, 0xd3, 0xc5, 0xf1, 0x35, 0x26, 0xf3, 0xfd, 0x39]
    ensures ShiftRows(s) == [0x94, 0x64, 0xf1, 0x39, 0x5b, 0xc5, 0xfd, 0xdd, 0xd3, 0xf3, 0x43, 0x60, 0x26, 0x79, 0xe3, 0x35]
  {
  }

  lemma Mix9(s: seq<Byte>)
    requires s == [0x94, 0x64, 0xf1, 0x39, 0x5b, 0xc5, 0xfd, 0xdd, 0xd3, 0xf3, 0x43, 0x60, 0x26, 0x79, 0xe3, 0x35]
    ensures MixColumns(s) == [0x57, 0x6d, 0x42, 0x40, 0xc2, 0x0b, 0x03, 0x74, 0x90, 0x8b, 0x06, 0x1e, 0x11, 0xdf, 0xdd, 0x9a]
  {
  }

  lemma AddKey9(s: seq<Byte>, k: seq<Byte>)
    requires s == [0x57, 0x6d, 0x42, 0x40, 0xc2, 0x0b, 0x03, 0x74, 0x90, 0x8b, 0x06, 0x1e, 0x11, 0xdf, 0xdd, 0x9a] && k == [0xb1, 0xd4, 0xd8, 0xe2, 0x8a, 0x7d, 0xb9, 0xda, 0x1d, 0x7b, 0xb3, 0xde, 0x4c, 0x66, 0x49, 0x41]
    ensures XorBlock(s, k) == [0xe6, 0xb9, 0x9a, 0xa2, 0x48, 0x76, 0xba, 0xae, 0x8d, 0xf0, 0xb5, 0xc0, 0x5d, 0xb9, 0x94, 0xdb]
  {
  }

  lemma Round9(rk: seq<Byte>, input: seq<Byte>)
    requires |input| == 16 && |rk| == 176 && RoundKey(rk, 9) == [0xb1, 0xd4, 0xd8, 0xe2, 0x8a, 0x7d, 0xb9, 0xda, 0x1d, 0x7b, 0xb3, 0xde, 0x4c, 0x66, 0x49, 0x41]
    requires State(rk, input, 8) == [0xe7, 0xaf, 0x64, 0xc9, 0x57, 0x8c, 0x4d, 0x90, 0xa9, 0x07, 0x2b, 0xd9, 0x23, 0x7e, 0x21, 0x5b]
    ensures State(rk, input, 9) == [0xe6, 0xb9, 0x9a, 0xa2, 0x48, 0x76, 0xba, 0xae, 0x8d, 0xf0, 0xb5, 0xc0, 0x5d, 0xb9, 0x94, 0xdb]
  {
    var s := State(rk, input, 8);
    Sub9(s);
    Shift9(SubBytes(s));
    Mix9(ShiftRows(SubBytes(s)));
    AddKey9(MixColumns(ShiftRows(SubBytes(s))), RoundKey(rk, 9));
  }

  lemma Sub10(s: seq<Byte>)
    requires s == [0xe6, 0xb9, 0x9a, 0xa2, 0x48, 0x76, 0xba, 0xae, 0x8d, 0xf0, 0xb5, 0xc0, 0x5d, 0xb9, 0x94, 0xdb]
    ensures SubBytes(s) == [0x8e, 0x56, 0xb8, 0x3a, 0x52, 0x38, 0xf4, 0xe4, 0x5d, 0x8c, 0xd5, 0xba, 0x4c, 0x56, 0x22, 0xb9]
  {
  }

  lemma Shift10(s: seq<Byte>)
    requires s == [0x8e, 0x56, 0xb8, 0x3a, 0x52, 0x38, 0xf4, 0xe4, 0x5d, 0x8c, 0xd5, 0xba, 0x4c, 0x56, 0x22, 0xb9]
    ensures ShiftRows(s) == [0x8e, 0x38, 0xd5, 0xb9, 0x52, 0x8c, 0x22, 0x3a, 0x5d, 0x56, 0xb8, 0xe4, 0x4c, 0x56, 0xf4, 0xba]
  {
  }

  lemma AddKey10(s: seq<Byte>, k: seq<Byte>)
    requires s == [0x8e, 0x38, 0xd5, 0xb9, 0x52, 0x8c, 0x22, 0x3a, 0x5d, 0x56, 0xb8, 0xe4, 0x4c, 0x56, 0xf4, 0xba] && k == [0xb4, 0xef, 0x5b, 0xcb, 0x3e, 0x92, 0xe2, 0x11, 0x23, 0xe9, 0x51, 0xcf, 0x6f, 0x8f, 0x18, 0x8e]
    ensures XorBlock(s, k) == [0x3a, 0xd7, 0x8e, 0x72, 0x6c, 0x1e, 0xc0, 0x2b, 0x7e, 0xbf, 0xe9, 0x2b, 0x23, 0xd9, 0xec, 0x34]
  {
  }

  lemma AddKey0(s: seq<Byte>, k: seq<Byte>)
    requires s == [0x80, 0x00, 0x00, 0x00, 0x00, 0x00, 0x00, 0x00, 0x00, 0x00, 0x00, 0x00, 0x00, 0x00, 0x00, 0x00] && k == [0x00, 0x00, 0x00, 0x00, 0x00, 0x00, 0x00, 0x00, 0x00, 0x00, 0x00, 0x00, 0x00, 0x00, 0x00, 0x00]
    ensures XorBlock(s, k) == [0x80, 0x00, 0x00, 0x00, 0x00, 0x00, 0x00, 0x00, 0x00, 0x00, 0x00, 0x00, 0x00, 0x00, 0x00, 0x00]
  {
  }

  /** The key schedule of the all-zero 16-byte key, group by group. */
  lemma KeyGroupsZero(key: seq<Byte>)
    requires key == [0x00, 0x00, 0x00, 0x00, 0x00, 0x00, 0x00, 0x00, 0x00, 0x00, 0x00, 0x00, 0x00, 0x00, 0x00, 0x00]
    ensures KeyGroup(key, 0) == [Word(0x00, 0x00, 0x00, 0x00), Word(0x00, 0x00, 0x00, 0x00), Word(0x00, 0x00, 0x00, 0x00), Word(0x00, 0x00, 0x00, 0x00)]
    ensures KeyGroup(key, 1) == [Word(0x62, 0x63, 0x63, 0x63), Word(0x62, 0x63, 0x63, 0x63), Word(0x62, 0x63, 0x63, 0x63), Word(0x62, 0x63, 0x63, 0x63)]
    ensures KeyGroup(key, 2) == [Word(0x9b, 0x98, 0x98, 0xc9), Word(0xf9, 0xfb, 0xfb, 0xaa), Word(0x9b, 0x98, 0x98, 0xc9), Word(0xf9, 0xfb, 0xfb, 0xaa)]
    ensures KeyGroup(key, 3) == [Word(0x90, 0x97, 0x34, 0x50), Word(0x69, 0x6c, 0xcf, 0xfa), Word(0xf2, 0xf4, 0x57, 0x33), Word(0x0b, 0x0f, 0xac, 0x99)]
    ensures KeyGroup(key, 4) == [Word(0xee, 0x06, 0xda, 0x7b), Word(0x87, 0x6a, 0x15, 0x81), Word(0x75, 0x9e, 0x42, 0xb2), Word(0x7e, 0x91, 0xee, 0x2b)]
    ensures KeyGroup(key, 5) == [Word(0x7f, 0x2e, 0x2b, 0x88), Word(0xf8, 0x44, 0x3e, 0x09), Word(0x8d, 0xda, 0x7c, 0xbb), Word(0xf3, 0x4b, 0x92, 0x90)]
    ensures KeyGroup(key, 6) == [Word(0xec, 0x61, 0x4b, 0x85), Word(0x14, 0x25, 0x75, 0x8c), Word(0x99, 0xff, 0x09, 0x37), Word(0x6a, 0xb4, 0x9b, 0xa7)]
    ensures KeyGroup(key, 7) == [Word(0x21, 0x75, 0x17, 0x87), Word(0x35, 0x50, 0x62, 0x0b), Word(0xac, 0xaf, 0x6b, 0x3c), Word(0xc6, 0x1b, 0xf0, 0x9b)]
    ensures KeyGroup(key, 8) == [Word(0x0e, 0xf9, 0x03, 0x33), Word(0x3b, 0xa9, 0x61, 0x38), Word(0x97, 0x06, 0x0a, 0x04), Word(0x51, 0x1d, 0xfa, 0x9f)]
    ensures KeyGroup(key, 9) == [Word(0xb1, 0xd4, 0xd8, 0xe2), Word(0x8a, 0x7d, 0xb9, 0xda), Word(0x1d, 0x7b, 0xb3, 0xde), Word(0x4c, 0x66, 0x49, 0x41)]
    ensures KeyGroup(key, 10) == [Word(0xb4, 0xef, 0x5b, 0xcb), Word(0x3e, 0x92, 0xe2, 0x11), Word(0x23, 0xe9, 0x51, 0xcf), Word(0x6f, 0x8f, 0x18, 0x8e)]
  {
    assert KeyGroup(key, 0) == [Word(0x00, 0x00, 0x00, 0x00), Word(0x00, 0x00, 0x00, 0x00), Word(0x00, 0x00, 0x00, 0x00), Word(0x00, 0x00, 0x00, 0x00)];
    Group1(key);
    Group2(key);
    Group3(key);
    Group4(key);
    Group5(key);
    Group6(key);
    Group7(key);
    Group8(key);
    Group9(key);
    Group10(key);
  }

  /** The round keys of the all-zero 16-byte key. */
  lemma RoundKeysZero(key: seq<Byte>)
    requires key == [0x00, 0x00, 0x00, 0x00, 0x00, 0x00, 0x00, 0x00, 0x00, 0x00, 0x00, 0x00, 0x00, 0x00, 0x00, 0x00]
    ensures RoundKey(RoundKeys(key), 0) == [0x00, 0x00, 0x00, 0x00, 0x00, 0x00, 0x00, 0x00, 0x00, 0x00, 0x00, 0x00, 0x00, 0x00, 0x00, 0x00]
    ensures RoundKey(RoundKeys(key), 1) == [0x62, 0x63, 0x63, 0x63, 0x62, 0x63, 0x63, 0x63, 0x62, 0x63, 0x63, 0x63, 0x62, 0x63, 0x63, 0x63]
    ensures RoundKey(RoundKeys(key), 2) == [0x9b, 0x98, 0x98, 0xc9, 0xf9, 0xfb, 0xfb, 0xaa, 0x9b, 0x98, 0x98, 0xc9, 0xf9, 0xfb, 0xfb, 0xaa]
    ensures RoundKey(RoundKeys(key), 3) == [0x90, 0x97, 0x34, 0x50, 0x69, 0x6c, 0xcf, 0xfa, 0xf2, 0xf4, 0x57, 0x33, 0x0b, 0x0f, 0xac, 0x99]
    ensures RoundKey(RoundKeys(key), 4) == [0xee, 0x06, 0xda, 0x7b, 0x87, 0x6a, 0x15, 0x81, 0x75, 0x9e, 0x42, 0xb2, 0x7e, 0x91, 0xee, 0x2b]
    ensures RoundKey(RoundKeys(key), 5) == [0x7f, 0x2e, 0x2b, 0x88, 0xf8, 0x44, 0x3e, 0x09, 0x8d, 0xda, 0x7c, 0xbb, 0xf3, 0x4b, 0x92, 0x90]
    ensures RoundKey(RoundKeys(key), 6) == [0xec, 0x61, 0x4b, 0x85, 0x14, 0x25, 0x75, 0x8c, 0x99, 0xff, 0x09, 0x37, 0x6a, 0xb4, 0x9b, 0xa7]
    ensures RoundKey(RoundKeys(key), 7) == [0x21, 0x75, 0x17, 0x87, 0x35, 0x50, 0x62, 0x0b, 0xac, 0xaf, 0x6b, 0x3c, 0xc6, 0x1b, 0xf0, 0x9b]
    ensures RoundKey(RoundKeys(key), 8) == [0x0e, 0xf9, 0x03, 0x33, 0x3b, 0xa9, 0x61, 0x38, 0x97, 0x06, 0x0a, 0x04, 0x51, 0x1d, 0xfa, 0x9f]
    ensures RoundKey(RoundKeys(key), 9) == [0xb1, 0xd4, 0xd8, 0xe2, 0x8a, 0x7d, 0xb9, 0xda, 0x1d, 0x7b, 0xb3, 0xde, 0x4c, 0x66, 0x49, 0x41]
    ensures RoundKey(RoundKeys(key), 10) == [0xb4, 0xef, 0x5b, 0xcb, 0x3e, 0x92, 0xe2, 0x11, 0x23, 0xe9, 0x51, 0xcf, 0x6f, 0x8f, 0x18, 0x8e]
  {
    KeyGroupsZero(key);
    RoundKeyIsGroup(key, 0);
    RoundKeyIsGroup(key, 1);
    RoundKeyIsGroup(key, 2);
    RoundKeyIsGroup(key, 3);
    RoundKeyIsGroup(key, 4);
    RoundKeyIsGroup(key, 5);
    RoundKeyIsGroup(key, 6);
    RoundKeyIsGroup(key, 7);
    RoundKeyIsGroup(key, 8);
    RoundKeyIsGroup(key, 9);
    RoundKeyIsGroup(key, 10);
  }

  /** Rounds 0 to 5 under the round keys of the all-zero key. */
  lemma FirstRoundsZeroKey(rk: seq<Byte>, input: seq<Byte>)
    requires |rk| == 176 && input == [0x80, 0x00, 0x00, 0x00, 0x00, 0x00, 0x00, 0x00, 0x00, 0x00, 0x00, 0x00, 0x00, 0x00, 0x00, 0x00]
    requires RoundKey(rk, 0) == [0x00, 0x00, 0x00, 0x00, 0x00, 0x00, 0x00, 0x00, 0x00, 0x00, 0x00, 0x00, 0x00, 0x00, 0x00, 0x00]
    requires RoundKey(rk, 1) == [0x62, 0x63, 0x63, 0x63, 0x62, 0x63, 0x63, 0x63, 0x62, 0x63, 0x63, 0x63, 0x62, 0x63, 0x63, 0x63]
    requires RoundKey(rk, 2) == [0x9b, 0x98, 0x98, 0xc9, 0xf9, 0xfb, 0xfb, 0xaa, 0x9b, 0x98, 0x98, 0xc9, 0xf9, 0xfb, 0xfb, 0xaa]
    requires RoundKey(rk, 3) == [0x90, 0x97, 0x34, 0x50, 0x69, 0x6c, 0xcf, 0xfa, 0xf2, 0xf4, 0x57, 0x33, 0x0b, 0x0f, 0xac, 0x99]
    requires RoundKey(rk, 4) == [0xee, 0x06, 0xda, 0x7b, 0x87, 0x6a, 0x15, 0x81, 0x75, 0x9e, 0x42, 0xb2, 0x7e, 0x91, 0xee, 0x2b]
    requires RoundKey(rk, 5) == [0x7f, 0x2e, 0x2b, 0x88, 0xf8, 0x44, 0x3e, 0x09, 0x8d, 0xda, 0x7c, 0xbb, 0xf3, 0x4b, 0x92, 0x90]
    ensures State(rk, input, 5) == [0x3a, 0xe8, 0xfb, 0xfc, 0x54, 0x0e, 0xba, 0xa1, 0x82, 0x8e, 0xcb, 0x7b, 0x53, 0x0b, 0x0e, 0x12]
  {
    AddKey0(input, RoundKey(rk, 0));
    Round1(rk, input);
    Round2(rk, input);
    Round3(rk, input);
    Round4(rk, input);
    Round5(rk, input);
  }

  /** Rounds 6 to 9 under the round keys of the all-zero key. */
  lemma LastRoundsZeroKey(rk: seq<Byte>, input: seq<Byte>)
    requires |rk| == 176 && |input| == 16 && State(rk, input, 5) == [0x3a, 0xe8, 0xfb, 0xfc, 0x54, 0x0e, 0xba, 0xa1, 0x82, 0x8e, 0xcb, 0x7b, 0x53, 0x0b, 0x0e, 0x12]
    requires RoundKey(rk, 6) == [0xec, 0x61, 0x4b, 0x85, 0x14, 0x25, 0x75, 0x8c, 0x99, 0xff, 0x09, 0x37, 0x6a, 0xb4, 0x9b, 0xa7]
    requires RoundKey(rk, 7) == [0x21, 0x75, 0x17, 0x87, 0x35, 0x50, 0x62, 0x0b, 0xac, 0xaf, 0x6b, 0x3c, 0xc6, 0x1b, 0xf0, 0x9b]
    requires RoundKey(rk, 8) == [0x0e, 0xf9, 0x03, 0x33, 0x3b, 0xa9, 0x61, 0x38, 0x97, 0x06, 0x0a, 0x04, 0x51, 0x1d, 0xfa, 0x9f]
    requires RoundKey(rk, 9) == [0xb1, 0xd4, 0xd8, 0xe2, 0x8a, 0x7d, 0xb9, 0xda, 0x1d, 0x7b, 0xb3, 0xde, 0x4c, 0x66, 0x49, 0x41]
    ensures State(rk, input, 9) == [0xe6, 0xb9, 0x9a, 0xa2, 0x48, 0x76, 0xba, 0xae, 0x8d, 0xf0, 0xb5, 0xc0, 0x5d, 0xb9, 0x94, 0xdb]
  {
    Round6(rk, input);
    Round7(rk, input);
    Round8(rk, input);
    Round9(rk, input);
  }

  /** The ten rounds under the round keys of the all-zero key. */
  lemma CipherZeroKey(rk: seq<Byte>, input: seq<Byte>)
    requires |rk| == 176 && input == [0x80, 0x00, 0x00, 0x00, 0x00, 0x00, 0x00, 0x00, 0x00, 0x00, 0x00, 0x00, 0x00, 0x00, 0x00, 0x00]
    requires RoundKey(rk, 0) == [0x00, 0x00, 0x00, 0x00, 0x00, 0x00, 0x00, 0x00, 0x00, 0x00, 0x00, 0x00, 0x00, 0x00, 0x00, 0x00]
    requires RoundKey(rk, 1) == [0x62, 0x63, 0x63, 0x63, 0x62, 0x63, 0x63, 0x63, 0x62, 0x63, 0x63, 0x63, 0x62, 0x63, 0x63, 0x63]
    requires RoundKey(rk, 2) == [0x9b, 0x98, 0x98, 0xc9, 0xf9, 0xfb, 0xfb, 0xaa, 0x9b, 0x98, 0x98, 0xc9, 0xf9, 0xfb, 0xfb, 0xaa]
    requires RoundKey(rk, 3) == [0x90, 0x97, 0x34, 0x50, 0x69, 0x6c, 0xcf, 0xfa, 0xf2, 0xf4, 0x57, 0x33, 0x0b, 0x0f, 0xac, 0x99]
    requires RoundKey(rk, 4) == [0xee, 0x06, 0xda, 0x7b, 0x87, 0x6a, 0x15, 0x81, 0x75, 0x9e, 0x42, 0xb2, 0x7e, 0x91, 0xee, 0x2b]
    requires RoundKey(rk, 5) == [0x7f, 0x2e, 0x2b, 0x88, 0xf8, 0x44, 0x3e, 0x09, 0x8d, 0xda, 0x7c, 0xbb, 0xf3, 0x4b, 0x92, 0x90]
    requires RoundKey(rk, 6) == [0xec, 0x61, 0x4b, 0x85, 0x14, 0x25, 0x75, 0x8c, 0x99, 0xff, 0x09, 0x37, 0x6a, 0xb4, 0x9b, 0xa7]
    requires RoundKey(rk, 7) == [0x21, 0x75, 0x17, 0x87, 0x35, 0x50, 0x62, 0x0b, 0xac, 0xaf, 0x6b, 0x3c, 0xc6, 0x1b, 0xf0, 0x9b]
    requires RoundKey(rk, 8) == [0x0e, 0xf9, 0x03, 0x33, 0x3b, 0xa9, 0x61, 0x38, 0x97, 0x06, 0x0a, 0x04, 0x51, 0x1d, 0xfa, 0x9f]
    requires RoundKey(rk, 9) == [0xb1, 0xd4, 0xd8, 0xe2, 0x8a, 0x7d, 0xb9, 0xda, 0x1d, 0x7b, 0xb3, 0xde, 0x4c, 0x66, 0x49, 0x41]
    requires RoundKey(rk, 10) == [0xb4, 0xef, 0x5b, 0xcb, 0x3e, 0x92, 0xe2, 0x11, 0x23, 0xe9, 0x51, 0xcf, 0x6f, 0x8f, 0x18, 0x8e]
    ensures Cipher(rk, 10, input) == [0x3a, 0xd7, 0x8e, 0x72, 0x6c, 0x1e, 0xc0, 0x2b, 0x7e, 0xbf, 0xe9, 0x2b, 0x23, 0xd9, 0xec, 0x34]
  {
    FirstRoundsZeroKey(rk, input);
    LastRoundsZeroKey(rk, input);
    var s := State(rk, input, 9);
    Sub10(s);
    Shift10(SubBytes(s));
    AddKey10(ShiftRows(SubBytes(s)), RoundKey(rk, 10));
  }

  /** The self-test vector of umac.c for a 16-byte key. */
  lemma KnownAnswer128(key: seq<Byte>, input: seq<Byte>)
    requires key == [0x00, 0x00, 0x00, 0x00, 0x00, 0x00, 0x00, 0x00, 0x00, 0x00, 0x00, 0x00, 0x00, 0x00, 0x00, 0x00]
    requires input == [0x80, 0x00, 0x00, 0x00, 0x00, 0x00, 0x00, 0x00, 0x00, 0x00, 0x00, 0x00, 0x00, 0x00, 0x00, 0x00]
    ensures Encrypt(key, input) == [0x3a, 0xd7, 0x8e, 0x72, 0x6c, 0x1e, 0xc0, 0x2b, 0x7e, 0xbf, 0xe9, 0x2b, 0x23, 0xd9, 0xec, 0x34]
  {
    RoundKeysZero(key);
    CipherZeroKey(RoundKeys(key), input);
  }
}

=== FILE: bytes.dfy ===
/**
 * Byte strings and the fixed-width words of the C source.
 *
 * Bytes are 8-bit bit-vectors so that XOR is native; 32- and 64-bit
 * machine words are naturals below 2^32 / 2^64 with every wrap-around
 * written as an explicit `%`.
 */
module Bytes {

  type Byte = bv8

  const TWO32: nat := 0x1_0000_0000
  const TWO64: nat := 0x1_0000_0000_0000_0000

  type U32 = x: nat | x < TWO32
  type U64 = x: nat | x < TWO64

  /** n zero bytes, the result of `memset(p, 0, n)`. */
  function Zeros(n: nat): (r: seq<Byte>)
    ensures |r| == n && forall i :: 0 <= i < n ==> r[i] == 0
  {
    seq(n, _ => 0)
  }

  /** Byte-wise exclusive or of two equally long strings. */
  function Xor(a: seq<Byte>, b: seq<Byte>): (r: seq<Byte>)
    requires |a| == |b|
    ensures |r| == |a| && forall i :: 0 <= i < |a| ==> r[i] == a[i] ^ b[i]
  {
    seq(|a|, i requires 0 <= i < |a| => a[i] ^ b[i])
  }

  lemma XorInvolution(a: seq<Byte>, b: seq<Byte>)
    requires |a| == |b|
    ensures Xor(Xor(a, b), b) == a
  {
    assert forall i :: 0 <= i < |a| ==> (a[i] ^ b[i]) ^ b[i] == a[i];
  }

  /** The numeric value of a byte. */
  function Val(b: Byte): (r: nat)
    ensures r < 256
  {
    b as nat
  }

  /** Appending a byte to a value below bound gives a value below 256 * bound. */
  lemma AppendByte(h: nat, l: nat, bound: nat)
    requires h < bound && l < 256
    ensures h * 256 + l < bound * 256
  {
  }

  /** The value of four bytes read most significant first (a big-endian load). */
  function BE32(b: seq<Byte>): (r: U32)
    requires |b| == 4
  {
    var h1 := Val(b[0]) * 256 + Val(b[1]);
    AppendByte(Val(b[0]), Val(b[1]), 256);
    var h2 := h1 * 256 + Val(b[2]);
    AppendByte(h1, Val(b[2]), 0x1_0000);
    AppendByte(h2, Val(b[3]), 0x100_0000);
    h2 * 256 + Val(b[3])
  }

  /** The value of four bytes read least significant first (a little-endian load). */
  function LE32(b: seq<Byte>): (r: U32)
    requires |b| == 4
  {
    BE32([b[3], b[2], b[1], b[0]])
  }

  /** The value of eight bytes read most significant first. */
  function BE64(b: seq<Byte>): (r: U64)
    requires |b| == 8
  {
    BE32(b[..4]) * TWO32 + BE32(b[4..])
  }

  /** The value of eight bytes read least significant first. */
  function LE64(b: seq<Byte>): (r: U64)
    requires |b| == 8
  {
    LE32(b[4..]) * TWO32 + LE32(b[..4])
  }

  lemma Increment(b: Byte)
    requires b < 255
    ensures Val(b + 1) == Val(b) + 1
  {
  }

  /** The byte whose value is n, counted up from zero. */
  function ToByte(n: nat): (r: Byte)
    requires n < 256
    ensures Val(r) == n
  {
    if n == 0 then 0
    else
      var p := ToByte(n - 1);
      Increment(p);
      p + 1
  }

  /** The four bytes of a 32-bit word, most significant first (a big-endian store). */
  function StoreBE32(x: U32): (r: seq<Byte>)
    ensures |r| == 4 && BE32(r) == x
  {
    var x1 := x / 256;
    var x2 := x1 / 256;
    [ToByte(x2 / 256), ToByte(x2 % 256), ToByte(x1 % 256), ToByte(x % 256)]
  }

  /** The eight bytes of a 64-bit word, most significant first. */
  function StoreBE64(x: U64): (r: seq<Byte>)
    ensures |r| == 8 && BE64(r) == x
  {
    var r := StoreBE32(x / TWO32) + StoreBE32(x % TWO32);
    assert r[..4] == StoreBE32(x / TWO32) && r[4..] == StoreBE32(x % TWO32);
    r
  }

  /** The eight bytes of a 64-bit word, least significant first (a little-endian store). */
  function StoreLE64(x: U64): (r: seq<Byte>)
    ensures |r| == 8 && LE64(r) == x
  {
    var lo := StoreBE32(x % TWO32);
    var hi := StoreBE32(x / TWO32);
    var r := [lo[3], lo[2], lo[1], lo[0], hi[3], hi[2], hi[1], hi[0]];
    var rl, rh := r[..4], r[4..];
    assert [rl[3], rl[2], rl[1], rl[0]] == lo;
    assert [rh[3], rh[2], rh[1], rh[0]] == hi;
    r
  }

  /** A fresh array holding s. */
  method FromSeq(s: seq<Byte>) returns (a: array<Byte>)
    ensures fresh(a) && a[..] == s
  {
    a := new Byte[|s|](i requires 0 <= i < |s| => s[i]);
  }

  /** memcpy(dst + off, src, |src|): the bytes of src land at off, nothing else changes. */
  method Store(dst: array<Byte>, off: nat, src: seq<Byte>)
    requires off + |src| <= dst.Length
    modifies dst
    ensures forall k :: 0 <= k < dst.Length ==>
      dst[k] == if off <= k < off + |src| then src[k - off] else old(dst[k])
    ensures dst[..off] == old(dst[..off]) && dst[off .. off + |src|] == src
    ensures dst[off + |src| ..] == old(dst[off + |src| ..])
  {
    for i := 0 to |src|
      invariant forall k :: 0 <= k < dst.Length ==>
        dst[k] == if off <= k < off + i then src[k - off] else old(dst[k])
    {
      dst[off + i] := src[i];
    }
  }

  /** dst ^= src, byte by byte. */
  method XorInto(dst: array<Byte>, src: seq<Byte>)
    requires dst.Length == |src|
    modifies dst
    ensures dst[..] == Xor(old(dst[..]), src)
  {
    for i := 0 to |src|
      invariant forall k :: 0 <= k < dst.Length ==> dst[k] == if k < i then old(dst[k]) ^ src[k] else old(dst[k])
    {
      dst[i] := dst[i] ^ src[i];
    }
  }
}

=== FILE: byteswap.dfy ===
/**
 * long_long_swap from byteswap.h on the number a uint64 holds.  With
 * WORDS_BIGENDIAN the macro masks out each of the eight bytes and shifts
 * it to the mirror position, so the byte of weight 256^k moves to weight
 * 256^(7-k); otherwise the function is the identity.  The configuration
 * is the parameter bigEndian.
 */
module ByteSwap {
  import opened Bytes

  /** Eight bytes in the opposite order. */
  function Rev8(b: seq<Byte>): (r: seq<Byte>)
    requires |b| == 8
    ensures |r| == 8 && forall k :: 0 <= k < 8 ==> r[k] == b[7 - k]
  {
    [b[7], b[6], b[5], b[4], b[3], b[2], b[1], b[0]]
  }

  /**
   * The WORDS_BIGENDIAN macro: the bytes of x, most significant first,
   * put back together least significant first.
   */
  function SwapBytes(x: U64): U64
  {
    LE64(StoreBE64(x))
  }

  /** long_long_swap, in either configuration. */
  function LongLongSwap(x: U64, bigEndian: bool): (r: U64)
    ensures !bigEndian ==> r == x
  {
    if bigEndian then SwapBytes(x) else x
  }

  /** A byte is determined by its value. */
  lemma ValInjective(a: Byte, b: Byte)
    requires Val(a) == Val(b)
    ensures a == b
  {
  }

  /** A value below 256 * bound splits uniquely into a high part and a low byte. */
  lemma SplitByte(h: nat, l: nat, x: nat)
    requires l < 256 && x == h * 256 + l
    ensures x / 256 == h && x % 256 == l
  {
  }

  /** Storing a big-endian load gives the four bytes back. */
  lemma StoreLoadBE32(b: seq<Byte>)
    requires |b| == 4
    ensures StoreBE32(BE32(b)) == b
  {
    var v0, v1, v2, v3 := Val(b[0]), Val(b[1]), Val(b[2]), Val(b[3]);
    var x := BE32(b);
    var h1 := v0 * 256 + v1;
    var h2 := h1 * 256 + v2;
    assert x == h2 * 256 + v3;
    SplitByte(h2, v3, x);
    SplitByte(h1, v2, h2);
    SplitByte(v0, v1, h1);
    var r := StoreBE32(x);
    assert Val(r[0]) == v0 && Val(r[1]) == v1 && Val(r[2]) == v2 && Val(r[3]) == v3;
    ValInjective(r[0], b[0]);
    ValInjective(r[1], b[1]);
    ValInjective(r[2], b[2]);
    ValInjective(r[3], b[3]);
  }

  /** Storing a big-endian load gives the eight bytes back. */
  lemma StoreLoadBE64(b: seq<Byte>)
    requires |b| == 8
    ensures StoreBE64(BE64(b)) == b
  {
    var hi, lo := BE32(b[..4]), BE32(b[4..]);
    assert BE64(b) == hi * TWO32 + lo;
    assert BE64(b) / TWO32 == hi && BE64(b) % TWO32 == lo;
    StoreLoadBE32(b[..4]);
    StoreLoadBE32(b[4..]);
  }

  /** A little-endian load is a big-endian load of the reversed bytes. */
  lemma LoadLE64Reversed(b: seq<Byte>)
    requires |b| == 8
    ensures LE64(b) == BE64(Rev8(b))
  {
    var r := Rev8(b);
    assert r[..4] == [b[4..][3], b[4..][2], b[4..][1], b[4..][0]];
    assert r[4..] == [b[..4][3], b[..4][2], b[..4][1], b[..4][0]];
  }

  /** With WORDS_BIGENDIAN the byte of weight 256^k moves to weight 256^(7-k). */
  lemma SwapMirrors(x: U64)
    ensures StoreBE64(SwapBytes(x)) == Rev8(StoreBE64(x))
  {
    var s := StoreBE64(x);
    LoadLE64Reversed(s);
    StoreLoadBE64(Rev8(s));
  }

  /** Swapping twice gives the word back, in both configurations. */
  lemma SwapInvolution(x: U64, bigEndian: bool)
    ensures LongLongSwap(LongLongSwap(x, bigEndian), bigEndian) == x
  {
    if bigEndian {
      var s := StoreBE64(x);
      SwapMirrors(x);
      LoadLE64Reversed(Rev8(s));
      assert Rev8(Rev8(s)) == s;
    }
  }

  /** A word below 256 is stored as three zero bytes and then its value. */
  lemma StoreBE32Small(x: U32)
    requires x < 256
    ensures var r := StoreBE32(x); Val(r[0]) == 0 && Val(r[1]) == 0 && Val(r[2]) == 0 && Val(r[3]) == x
  {
    assert x / 256 == 0;
  }

  /** The values of the bytes of 1 stored most significant first. */
  lemma StoreOne()
    ensures var b := StoreBE64(1);
      Val(b[7]) == 1 && Val(b[6]) == 0 && Val(b[5]) == 0 && Val(b[4]) == 0 &&
      Val(b[3]) == 0 && Val(b[2]) == 0 && Val(b[1]) == 0 && Val(b[0]) == 0
  {
    assert StoreBE64(1) == StoreBE32(0) + StoreBE32(1);
    StoreBE32Small(0);
    StoreBE32Small(1);
  }

  /** The big-endian swap of 1, the value PRNG_rekey ORs into the step's low limb. */
  lemma SwapOne()
    ensures LongLongSwap(1, true) == 0x0100_0000_0000_0000
  {
    var b := StoreBE64(1);
    StoreOne();
    assert BE32([b[7], b[6], b[5], b[4]]) == 0x0100_0000;
    assert BE32([b[3], b[2], b[1], b[0]]) == 0;
    assert b[4..][3] == b[7] && b[4..][0] == b[4] && b[..4][3] == b[3] && b[..4][0] == b[0];
  }

  /** Zero is its own swap: the value PRNG_init and self_reseed store in ectr. */
  lemma SwapZero(bigEndian: bool)
    ensures LongLongSwap(0, bigEndian) == 0
  {
    var b := StoreBE64(0);
    assert b == StoreBE32(0) + StoreBE32(0);
    StoreBE32Small(0);
    assert BE32([b[7], b[6], b[5], b[4]]) == 0;
    assert BE32([b[3], b[2], b[1], b[0]]) == 0;
    assert b[4..][3] == b[7] && b[4..][0] == b[4] && b[..4][3] == b[3] && b[..4][0] == b[0];
  }
}

=== FILE: df.dfy ===
/**
 * The Darwin `df -i` entropy gatherer: df_cmp, df_processes_same,
 * diff_df_for_entropy and the rotation of the static last/cur snapshots
 * in call_df.  The columns of `df -i` are Filesystem 512-blocks Used
 * Available Capacity iused ifree %iused Mounted-on; both comparators
 * skip the first eight and compare the rest, the mount point, with
 * strcmp, so a line stands for its mounted file system.
 */
module Df {
  import opened LineDiff
  import ProcOut

  /** The columns skipped before the comparison. */
  const Skipped: nat := 8

  /** The text df_cmp and df_processes_same compare. */
  function Key(s: string): string
  {
    AfterFields(s, Skipped)
  }

  /** A line the C loops scan without reading past its NUL: a space after each of the eight columns. */
  predicate Line(s: string)
  {
    HasFields(s, Skipped, 0)
  }

  predicate Lines(ls: seq<string>)
  {
    forall l | l in ls :: Line(l)
  }

  /** df_cmp and df_processes_same, which have the same code. */
  function Same(a: string, b: string): int
  {
    Compare(Key(a), Key(b))
  }

  /** df_cmp / df_processes_same: the loops skip eight columns on each line, then strcmp. */
  method Cmp(s1: string, s2: string) returns (c: int)
    requires Line(s1) && Line(s2)
    ensures c == Same(s1, s2)
  {
    var p1 := SkipFieldsLoops(s1, Skipped);
    var p2 := SkipFieldsLoops(s2, Skipped);
    c := Compare(s1[p1..], s2[p2..]);
  }

  /**
   * diff_df_for_entropy: the merge walk over the sorted snapshots.  e is
   * an unsigned char, so it wraps at 256; the estimate credited with the
   * timestamp is e / 8.  steps counts the iterations of the main loop.
   */
  method DiffForEntropy(last: seq<string>, cur: seq<string>) returns (e: nat, credit: nat, ghost steps: nat)
    requires Lines(last) && Lines(cur)
    ensures e < 256 && e == Count(last, cur, Same) % 256 && credit == e / 8
    ensures steps <= |last| + |cur|
  {
    hide Count, Same, Compare, Inc, Line;
    var i: nat, j: nat := 0, 0;
    e := 0;
    ghost var total: nat := 0;
    steps := 0;
    while i < |last| && j < |cur|
      invariant i <= |last| && j <= |cur| && e < 256 && e == total % 256
      invariant total + Count(last[i..], cur[j..], Same) == Count(last, cur, Same)
      invariant steps <= i + j
      decreases |last| - i + |cur| - j
    {
      assert last[i..][0] == last[i] && last[i..][1..] == last[i + 1..];
      assert cur[j..][0] == cur[j] && cur[j..][1..] == cur[j + 1..];
      CountStep(last[i..], cur[j..], Same);
      var c := Cmp(last[i], cur[j]);
      IncWraps(e, total);
      if c == 0 {
        if Compare(last[i], cur[j]) != 0 {
          e, total := Inc(e), total + 1;
        }
        i, j := i + 1, j + 1;
      } else if c < 1 {
        e, total, i := Inc(e), total + 1, i + 1;
      } else {
        e, total, j := Inc(e), total + 1, j + 1;
      }
      steps := steps + 1;
    }
    CountEnd(last[i..], cur[j..], Same);
    if i == |last| {
      while j < |cur|
        invariant j <= |cur| && e < 256 && e == total % 256
        invariant total + (|cur| - j) == Count(last, cur, Same)
      {
        IncWraps(e, total);
        e, total, j := Inc(e), total + 1, j + 1;
      }
    } else {
      while i < |last|
        invariant i <= |last| && e < 256 && e == total % 256
        invariant total + (|last| - i) == Count(last, cur, Same)
      {
        IncWraps(e, total);
        e, total, i := Inc(e), total + 1, i + 1;
      }
    }
    credit := e / 8;
  }

  /** A snapshot of the lines read: the header first, the other lines sorted by df_cmp. */
  predicate Snapshot(read: seq<string>, s: seq<string>)
  {
    read != [] && |s| == |read| && s[0] == read[0] &&
    multiset(s[1..]) == multiset(read[1..]) && SortedBy(s[1..], Key)
  }

  /** The static last and cur of call_df. */
  class Sampler {
    var last: ProcOut.Option<seq<string>>
    var cur: ProcOut.Option<seq<string>>

    predicate Valid()
      reads this
    {
      (last.Some? ==> Lines(last.value)) && (cur.Some? ==> Lines(cur.value))
    }

    /** Both statics start NULL. */
    constructor ()
      ensures Valid() && last.None? && cur.None?
    {
      last, cur := ProcOut.None, ProcOut.None;
    }

    /**
     * call_df over the output of `df -i` in f.  Every line but the
     * header is fed with estimate 0 (fed); the lines after the header
     * are sorted.  The first snapshot is only stored.  Afterwards the
     * older snapshot is released, cur becomes last, the new snapshot
     * becomes cur, and the diff credits its estimate.  No lines: nothing
     * changes.
     */
    method CallDf(f: ProcOut.CharStream) returns (fed: seq<string>, credit: ProcOut.Option<nat>)
      requires Valid() && Lines(ProcOut.LeadingLines(f.rest))
      modifies this, f
      ensures Valid() && f.rest == ProcOut.AfterLeadingLines(old(f.rest))
      ensures var read := ProcOut.LeadingLines(old(f.rest));
        if read == [] then fed == [] && credit.None? && last == old(last) && cur == old(cur)
        else
          fed == read[1..] && cur.Some? && Snapshot(read, cur.value) &&
          if old(cur).None? then last == old(last) && credit.None?
          else last == old(cur) && credit == ProcOut.Some(Count(last.value, cur.value, Same) % 256 / 8)
    {
      hide Count, Same, Key, Line, ProcOut.LeadingLines, ProcOut.AfterLeadingLines;
      ghost var read := ProcOut.LeadingLines(f.rest);
      var ret, n := ProcOut.ReadLines(f);
      fed, credit := [], ProcOut.None;
      if n == 0 {
        return;
      }
      var lines := seq(n, i requires 0 <= i < n && i < |ret| => ret[i].value);
      assert lines == read;
      for i := 1 to n
        invariant fed == lines[1 .. i]
      {
        fed := fed + [lines[i]];
      }
      var sorted := SortLines(lines[1..], Key);
      forall x | x in sorted
        ensures Line(x)
      {
        assert x in multiset(lines[1..]);
      }
      lines := [lines[0]] + sorted;
      assert lines[1..] == sorted;
      if cur.None? {
        cur := ProcOut.Some(lines);
        return;
      }
      last := cur;
      cur := ProcOut.Some(lines);
      var e, c, _ := DiffForEntropy(last.value, lines);
      credit := ProcOut.Some(c);
    }
  }

  // ---------------------------------------------------------------
  // What the comparison and the count mean
  // ---------------------------------------------------------------

  /** The comparators see whatever follows the first eight columns and their spaces. */
  lemma KeyOfColumns(ws: seq<string>, gs: seq<string>, rest: string)
    requires |ws| == Skipped && |gs| == Skipped
    requires forall i | 0 <= i < Skipped :: Word(ws[i]) && Gap(gs[i])
    requires rest == [] || rest[0] != ' '
    ensures Line(Fielded(ws, gs) + rest) && Key(Fielded(ws, gs) + rest) == rest
  {
    AfterFieldsOf(ws, gs, rest);
  }

  /** Identical snapshots give e = 0. */
  lemma NoChangeNoCredit(ls: seq<string>)
    ensures Count(ls, ls, Same) == 0
  {
    forall x | x in ls
      ensures Same(x, x) == 0
    {
    }
    CountSelf(ls, Same);
  }

  /** The count does not depend on which of two snapshots is the older one. */
  lemma CountOrderFree(a: seq<string>, b: seq<string>)
    ensures Count(a, b, Same) == Count(b, a, Same)
  {
    forall x, y | x in a && y in b
      ensures Same(y, x) == -Same(x, y)
    {
      CompareAntisym(Key(x), Key(y));
    }
    CountSymmetric(a, b, Same);
  }

  /** Sorted lines whose mount points differ are strictly sorted. */
  lemma DistinctSorted(ls: seq<string>)
    requires SortedBy(ls, Key)
    requires forall i, j | 0 <= i < j < |ls| :: Key(ls[i]) != Key(ls[j])
    ensures StrictlySorted(ls, Key)
  {
  }

  /**
   * Two snapshots with the same header, each mounting a file system at
   * most once: e counts the file systems unmounted, the ones mounted, and
   * the ones whose line changed.
   */
  lemma CountsMountChanges(last: seq<string>, cur: seq<string>)
    requires last != [] && cur != [] && last[0] == cur[0]
    requires SortedBy(last[1..], Key) && SortedBy(cur[1..], Key)
    requires forall i, j | 1 <= i < j < |last| :: Key(last[i]) != Key(last[j])
    requires forall i, j | 1 <= i < j < |cur| :: Key(cur[i]) != Key(cur[j])
    ensures Count(last, cur, Same) ==
      Unmatched(last[1..], cur[1..], Key) + Unmatched(cur[1..], last[1..], Key) +
      Changed(last[1..], cur[1..], Key)
  {
    hide Key, Compare;
    var a, b := last[1..], cur[1..];
    assert Count(last, cur, Same) == Count(a, b, Same);
    DistinctSorted(a);
    DistinctSorted(b);
    CountByKey(a, b, Same, Key);
  }
}

=== FILE: eg.dfy ===
/**
 * The entropy pool of EGADS.  Sources register for one of seven slots
 * and add samples with an estimate of the entropy they carry.  Before
 * the pool is keyed, samples only go into a SHA-1 startup hash, whose
 * digest then keys the UMAC context.  Afterwards samples are fed to UMAC
 * and their estimates credited to the source; once the credits of the
 * registered sources, less the largest credit, exceed 64 bits, a UMAC
 * tag is taken and goes either to the output ring, from which clients
 * read, or to the spool, which periodically rekeys UMAC.
 *
 * The pool's statics are the fields of one Pool object, UMAC_KEY_LEN is
 * its keyLen, and SHA-1 is a function given to StartupDone.  The UMAC
 * context is held as the message fed to it since its last reset; it is
 * always keyed with umackey, so its tag is Umac.KeyTag of the two.  msgid
 * is stored and loaded as its bytes on a little-endian host.
 */
module Eg {
  import opened Bytes
  import Aes
  import Umac
  import opened EgRing

  /** NUM_SOURCES. */
  const NumSources: nat := 7
  /** The most a source can be credited. */
  const CreditCap: int := 70
  /** UMAC_OUTPUT_LEN, and the credit needed for one output, UMAC_OUTPUT_LEN * 8 bits. */
  const TagLen: nat := 8
  const OutputBits: int := 64
  /** SPOOL_SIZE, SPOOL_THRESH_START and SPOOL_THRESH_MAX. */
  const SpoolSize: nat := 32
  const ThreshStart: nat := 8
  const ThreshMax: nat := 1024
  /** EPOOL_OUTD and EPOOL_OUTN: of every ten tags, one goes to the spool. */
  const OutD: nat := 10
  const OutN: nat := 1
  /** The SHA-1 digest length. */
  const DigestLen: nat := 20

  /** e[0] + ... + e[n - 1]. */
  function Sum(e: seq<int>, n: nat): int
    requires n <= |e|
  {
    if n == 0 then 0 else Sum(e, n - 1) + e[n - 1]
  }

  /** The largest of e[0 .. n]. */
  function MaxOf(e: seq<int>, n: nat): int
    requires 0 < n <= |e|
  {
    if n == 1 then e[0] else if e[n - 1] > MaxOf(e, n - 1) then e[n - 1] else MaxOf(e, n - 1)
  }

  /** MaxOf is an upper bound of the slots and one of them. */
  lemma {:induction false} MaxOfIsMax(e: seq<int>, n: nat)
    requires 0 < n <= |e|
    ensures forall i :: 0 <= i < n ==> e[i] <= MaxOf(e, n)
    ensures exists i :: 0 <= i < n && e[i] == MaxOf(e, n)
  {
    if n > 1 {
      MaxOfIsMax(e, n - 1);
    } else {
      assert e[0] == MaxOf(e, n);
    }
  }

  /**
   * eg_compute_elevel: the credits of the registered sources less the
   * largest credit of all seven slots (estcpy[0] after the descending
   * qsort; NUM_COMP_SRCS is 1).
   */
  function Elevel(e: seq<int>, sources: nat): int
    requires |e| == NumSources && sources <= NumSources
  {
    Sum(e, sources) - MaxOf(e, NumSources)
  }

  /** Slots at n and beyond do not enter Sum(e, n). */
  lemma {:induction false} SumPrefix(e: seq<int>, e': seq<int>, n: nat)
    requires n <= |e| && n <= |e'| && e[.. n] == e'[.. n]
    ensures Sum(e, n) == Sum(e', n)
  {
    if n > 0 {
      assert e[.. n - 1] == e[.. n][.. n - 1];
      assert e'[.. n - 1] == e'[.. n][.. n - 1];
      assert e[n - 1] == e[.. n][n - 1];
      assert e'[n - 1] == e'[.. n][n - 1];
      SumPrefix(e, e', n - 1);
    }
  }

  /** With no negative credit, a sum is no more than its one non-zero slot. */
  lemma {:induction false} SumLone(e: seq<int>, n: nat, i: nat)
    requires n <= |e| && i < |e|
    requires forall j :: 0 <= j < |e| && j != i ==> e[j] == 0
    ensures Sum(e, n) == if i < n then e[i] else 0
  {
    if n > 0 {
      SumLone(e, n - 1, i);
    }
  }

  /**
   * One source alone never makes the pool output: with every other slot
   * at zero, the level is at most zero.
   */
  lemma LoneSourceNeverReady(e: seq<int>, sources: nat, i: nat)
    requires |e| == NumSources && sources <= NumSources && i < NumSources
    requires forall j :: 0 <= j < NumSources && j != i ==> e[j] == 0
    ensures Elevel(e, sources) <= 0
  {
    SumLone(e, sources, i);
    MaxOfIsMax(e, NumSources);
    assert e[i] <= MaxOf(e, NumSources);
    assert 0 <= MaxOf(e, NumSources) by {
      var j := if i == 0 then 1 else 0;
      assert e[j] == 0;
    }
  }

  /**
   * Credit to a slot no registered source owns (EG_add_entropy accepts
   * any slot below NUM_SOURCES) never raises the level: it can only raise
   * the largest credit.
   */
  lemma UnregisteredCreditNeverRaises(e: seq<int>, sources: nat, i: nat, v: int)
    requires |e| == NumSources && sources <= i < NumSources && e[i] <= v
    ensures Elevel(e[i := v], sources) <= Elevel(e, sources)
  {
    var e' := e[i := v];
    assert e[.. sources] == e'[.. sources];
    SumPrefix(e, e', sources);
    MaxOfIsMax(e, NumSources);
    MaxOfIsMax(e', NumSources);
    var k :| 0 <= k < NumSources && e[k] == MaxOf(e, NumSources);
    assert e[k] <= e'[k];
  }

  /** EG_add_entropy's cap on a source's credit; there is no lower bound. */
  function Cap(v: int): (r: int)
    ensures r <= CreditCap && r <= v
  {
    if v > CreditCap then CreditCap else v
  }

  /** eg_out_spool's loop: data XORed into spool s byte by byte from pos on, wrapping at the end. */
  function SpoolXor(s: seq<Byte>, pos: nat, data: seq<Byte>): (r: seq<Byte>)
    requires |s| == SpoolSize && pos < SpoolSize
    ensures |r| == SpoolSize
    decreases |data|
  {
    if data == [] then s else SpoolXor(s[pos := s[pos] ^ data[0]], (pos + 1) % SpoolSize, data[1 ..])
  }

  /** One step of SpoolXor: the first byte goes in at pos. */
  lemma SpoolXorStep(s: seq<Byte>, pos: nat, data: seq<Byte>)
    requires |s| == SpoolSize && pos < SpoolSize && data != []
    ensures SpoolXor(s, pos, data) == SpoolXor(s[pos := s[pos] ^ data[0]], (pos + 1) % SpoolSize, data[1 ..])
  {
  }

  /** No data leaves the spool as it is. */
  lemma SpoolXorNil(s: seq<Byte>, pos: nat)
    requires |s| == SpoolSize && pos < SpoolSize
    ensures SpoolXor(s, pos, []) == s
  {
  }

  /** spoolpos steps round the spool. */
  lemma SpoolPosStep(n: nat)
    ensures (if n % SpoolSize + 1 >= SpoolSize then 0 else n % SpoolSize + 1) == (n + 1) % SpoolSize
  {
  }

  /** How far slot k lies after pos, going forward round the spool. */
  function Dist(pos: nat, k: nat): (d: nat)
    requires pos < SpoolSize && k < SpoolSize
    ensures d < SpoolSize && (pos + d) % SpoolSize == k
  {
    if k >= pos then k - pos else k + SpoolSize - pos
  }

  /** At most a spool's worth of data changes each slot at most once: slot k gets the byte Dist(pos, k) into data. */
  lemma {:induction false} SpoolXorAt(s: seq<Byte>, pos: nat, data: seq<Byte>, k: nat)
    requires |s| == SpoolSize && pos < SpoolSize && |data| <= SpoolSize && k < SpoolSize
    ensures SpoolXor(s, pos, data)[k] == if Dist(pos, k) < |data| then s[k] ^ data[Dist(pos, k)] else s[k]
    decreases |data|
  {
    if data != [] {
      var s', pos' := s[pos := s[pos] ^ data[0]], (pos + 1) % SpoolSize;
      SpoolXorAt(s', pos', data[1 ..], k);
      if k == pos {
        assert Dist(pos', k) == SpoolSize - 1;
      } else {
        assert Dist(pos', k) == Dist(pos, k) - 1;
        if Dist(pos, k) < |data| {
          assert data[1 ..][Dist(pos', k)] == data[Dist(pos, k)];
        }
      }
    }
  }

  /** Mixing the same data in twice from the same position gives the spool back. */
  lemma SpoolXorTwice(s: seq<Byte>, pos: nat, data: seq<Byte>)
    requires |s| == SpoolSize && pos < SpoolSize && |data| <= SpoolSize
    ensures SpoolXor(SpoolXor(s, pos, data), pos, data) == s
  {
    var r := SpoolXor(s, pos, data);
    forall k | 0 <= k < SpoolSize
      ensures SpoolXor(r, pos, data)[k] == s[k]
    {
      SpoolXorAt(s, pos, data, k);
      SpoolXorAt(r, pos, data, k);
      if Dist(pos, k) < |data| {
        XorByteTwice(s[k], data[Dist(pos, k)]);
      }
    }
  }

  lemma XorByteTwice(a: Byte, b: Byte)
    ensures a ^ b ^ b == a
  {
  }

  /** The spool's bookkeeping: its bytes, spoolpos, slowthresh and slowcount. */
  datatype SpoolState = SpoolState(bytes: seq<Byte>, pos: nat, thresh: nat, count: nat)
  {
    predicate Ok()
    {
      |bytes| == SpoolSize && pos < SpoolSize && ThreshStart <= thresh <= ThreshMax && count <= thresh
    }
  }

  /** Whether eg_out_spool's check_spool_rekey rekeys: slowcount has reached slowthresh. */
  predicate Rekeys(s: SpoolState)
  {
    s.count >= s.thresh
  }

  /**
   * eg_out_spool on the spool: data mixed in; on a rekey spoolpos and
   * slowcount restart (slowcount is 1 after the count of this call) and
   * slowthresh doubles up to SPOOL_THRESH_MAX.  The spool bytes are kept.
   */
  function SpoolOut(s: SpoolState, data: seq<Byte>): (r: SpoolState)
    requires s.Ok()
    ensures r.Ok()
  {
    var mixed := SpoolXor(s.bytes, s.pos, data);
    if Rekeys(s) then SpoolState(mixed, 0, if 2 * s.thresh > ThreshMax then ThreshMax else 2 * s.thresh, 1)
    else SpoolState(mixed, (s.pos + |data|) % SpoolSize, s.thresh, s.count + 1)
  }

  /** A run of writes to the spool. */
  function SpoolRun(s: SpoolState, ds: seq<seq<Byte>>): (r: SpoolState)
    requires s.Ok()
    ensures r.Ok()
    decreases |ds|
  {
    if ds == [] then s else SpoolRun(SpoolOut(s, ds[0]), ds[1 ..])
  }

  /**
   * Between rekeys writes only count: as long as slowcount stays at or
   * below slowthresh, none of them rekeys, and the one after them does.
   * After a rekey (slowcount 1) the next rekey is thus the slowthresh-th
   * write; from the start (slowcount 0, slowthresh 8) it is the ninth.
   */
  lemma {:induction false} WritesUntilRekey(s: SpoolState, ds: seq<seq<Byte>>)
    requires s.Ok() && s.count + |ds| <= s.thresh
    ensures SpoolRun(s, ds).count == s.count + |ds| && SpoolRun(s, ds).thresh == s.thresh
    ensures Rekeys(SpoolRun(s, ds)) <==> s.count + |ds| == s.thresh
    decreases |ds|
  {
    if ds != [] {
      WritesUntilRekey(SpoolOut(s, ds[0]), ds[1 ..]);
    }
  }

  /** eg_out_spool's loop: data XORed into the spool from pos on, wrapping at its end. */
  method MixSpool(spool: array<Byte>, pos: nat, data: seq<Byte>) returns (newpos: nat)
    requires spool.Length == SpoolSize && pos < SpoolSize
    modifies spool
    ensures spool[..] == SpoolXor(old(spool[..]), pos, data)
    ensures newpos == (pos + |data|) % SpoolSize
  {
    hide SpoolXor;
    newpos := pos;
    for i := 0 to |data|
      invariant newpos == (pos + i) % SpoolSize
      invariant SpoolXor(spool[..], newpos, data[i ..]) == SpoolXor(old(spool[..]), pos, data)
    {
      ghost var before, p := spool[..], newpos;
      assert data[i ..][1 ..] == data[i + 1 ..];
      spool[newpos] := spool[newpos] ^ data[i];
      assert spool[..] == before[p := before[p] ^ data[i]];
      newpos := newpos + 1;
      if newpos >= SpoolSize {
        newpos := 0;
      }
      SpoolPosStep(pos + i);
      SpoolXorStep(before, p, data[i ..]);
    }
    assert data[|data| ..] == [];
    SpoolXorNil(spool[..], newpos);
  }

  datatype Counters = Counters(sources: nat, octr: nat, keyed: bool, msgid: nat, spoolpos: nat, slowthresh: nat, slowcount: nat)

  /** EG_add_entropy's credit: slot src gains est, capped at CREDIT_CAP and with no lower bound. */
  function Credited(e: seq<int>, src: nat, est: int): (r: seq<int>)
    requires src < |e|
    ensures |r| == |e| && r[src] == Cap(e[src] + est)
    ensures forall i :: 0 <= i < |e| && i != src ==> r[i] == e[i]
  {
    e[src := Cap(e[src] + est)]
  }

  /**
   * eg_do_output's choice of destination, with octr already stepped: the
   * spool before keying, when the ring is full, and on the last EPOOL_OUTN
   * of every EPOOL_OUTD outputs; the ring otherwise.
   */
  predicate ToSpool(keyed: bool, head: nat, tail: nat, octr: nat)
  {
    !keyed || IsFull(head, tail) || octr > OutD - OutN
  }

  /** eg_do_output's step of octr. */
  function NextOctr(octr: nat): (r: nat)
    ensures 1 <= r <= OutD
  {
    if octr + 1 > OutD then 1 else octr + 1
  }

  /** octr after n outputs. */
  function Octr(octr: nat, n: nat): nat
  {
    if n == 0 then octr else NextOctr(Octr(octr, n - 1))
  }

  /**
   * octr counts round 1, 2, ..., 10 from wherever it starts: after n > 0
   * outputs it is (octr + n - 1) mod 10 + 1.
   */
  lemma {:induction false} OctrCycles(octr: nat, n: nat)
    requires octr <= OutD && n > 0
    ensures Octr(octr, n) == (octr + n - 1) % OutD + 1
  {
    if n > 1 {
      OctrCycles(octr, n - 1);
    }
  }

  /**
   * Of every ten consecutive outputs exactly one takes the spool turn:
   * the n-th output after octr does iff octr + n is a multiple of ten.
   */
  lemma SpoolTurn(octr: nat, n: nat)
    requires octr <= OutD && n > 0
    ensures Octr(octr, n) > OutD - OutN <==> (octr + n) % OutD == 0
  {
    OctrCycles(octr, n);
  }

  /**
   * Where eg_do_output's tag lands: mixed into the spool (which may rekey,
   * replacing the key by the spool's first bytes) with the ring as it
   * was, or appended to the ring, as far as there is room, with spool and
   * key as they were.
   */
  ghost predicate Routed(toSpool: bool, sp: SpoolState, room: nat, unread: seq<Byte>, key: seq<Byte>,
                         sp': SpoolState, unread': seq<Byte>, key': seq<Byte>, tag: seq<Byte>)
    requires sp.Ok() && |key| <= SpoolSize
  {
    if toSpool then
      sp' == SpoolOut(sp, tag) && unread' == unread && key' == if Rekeys(sp) then sp'.bytes[.. |key|] else key
    else
      sp' == sp && unread' == unread + tag[.. Min(|tag|, room)] && key' == key
  }

  /** msgid once the tag has landed: a rekey loads it from the spool bytes after the key. */
  function RoutedMsgid(toSpool: bool, sp: SpoolState, keyLen: nat, msgid: U64, tag: seq<Byte>): (r: U64)
    requires sp.Ok() && keyLen + 8 <= SpoolSize
    ensures !(toSpool && Rekeys(sp)) ==> r == msgid
  {
    if toSpool && Rekeys(sp) then LE64(SpoolOut(sp, tag).bytes[keyLen .. keyLen + 8]) else msgid
  }

  /**
   * What eg_do_output does after umac_final, on the abstract state: octr
   * steps, the tag lands as Routed says for ToSpool, and msgid then
   * advances modulo 2^64.
   */
  ghost predicate Emitted(c: Counters, sp: SpoolState, head: nat, tail: nat, unread: seq<Byte>, key: seq<Byte>,
                          c': Counters, sp': SpoolState, unread': seq<Byte>, key': seq<Byte>, tag: seq<Byte>)
    requires head < OEnd && tail <= OEnd && sp.Ok() && |key| + 8 <= SpoolSize && c.msgid < TWO64
  {
    var octr := NextOctr(c.octr);
    var toSpool := ToSpool(c.keyed, head, tail, octr);
    c'.sources == c.sources && c'.keyed == c.keyed && c'.octr == octr &&
    Routed(toSpool, sp, Free(head, tail), unread, key, sp', unread', key', tag) &&
    c'.msgid == (RoutedMsgid(toSpool, sp, |key|, c.msgid, tag) + 1) % TWO64
  }

  class Pool {
    /** UMAC_KEY_LEN. */
    const keyLen: nat
    const estimates: array<int>
    const umackey: array<Byte>
    /** outbuf with ohead and otail. */
    const ring: Ring
    const spool: array<Byte>
    var sources: nat
    var octr: nat
    var keyed: bool
    /** eg_umac_ctx: the message fed since its last reset. */
    var macFed: seq<Byte>
    /** A uint64. */
    var msgid: nat
    var spoolpos: nat
    var slowthresh: nat
    var slowcount: nat
    /** The SHA-1 context, as the bytes fed to it. */
    var shaFed: seq<Byte>

    ghost function Scalars(): Counters
      reads this
    {
      Counters(sources, octr, keyed, msgid, spoolpos, slowthresh, slowcount)
    }

    ghost function Spool(): SpoolState
      reads this, spool
    {
      SpoolState(spool[..], spoolpos, slowthresh, slowcount)
    }

    ghost predicate Valid()
      reads this, estimates, umackey, spool, ring, ring.buf
    {
      Aes.ValidKeyLen(keyLen) && keyLen + 8 <= SpoolSize &&
      estimates.Length == NumSources && umackey.Length == keyLen && spool.Length == SpoolSize &&
      ring.Valid() && Spool().Ok() && (!keyed ==> ring.head == ring.tail) &&
      sources <= NumSources && octr <= OutD && msgid < TWO64 &&
      (forall i :: 0 <= i < NumSources ==> estimates[i] <= CreditCap) &&
      {estimates as object} !! {umackey as object, spool, ring.buf} &&
      umackey != spool && ring.buf != umackey && ring.buf != spool
    }

    /**
     * The statics, then EG_init: no sources, not keyed, no credit, UMAC
     * keyed with the all-zero umackey, an empty ring, a zero spool with
     * slowthresh at SPOOL_THRESH_START.
     */
    constructor (keyLen: nat)
      requires Aes.ValidKeyLen(keyLen) && keyLen + 8 <= SpoolSize
      ensures this.keyLen == keyLen && fresh(estimates) && fresh(umackey) && fresh(spool) && fresh(ring) && fresh(ring.buf)
      ensures Scalars() == Counters(0, 0, false, 0, 0, ThreshStart, 0) && shaFed == [] && macFed == []
      ensures estimates.Length == NumSources && forall i :: 0 <= i < NumSources ==> estimates[i] == 0
      ensures umackey[..] == Zeros(keyLen) && spool[..] == Zeros(SpoolSize)
      ensures ring.Valid() && ring.Unread() == []
      ensures Valid()
    {
      this.keyLen := keyLen;
      estimates := new int[NumSources](_ => 0);
      umackey := new Byte[keyLen](_ => 0);
      ring := new Ring();
      spool := new Byte[SpoolSize](_ => 0);
      msgid, octr, spoolpos := 0, 0, 0;
      shaFed, macFed := [], [];
      sources, keyed := 0, false;
      slowthresh, slowcount := ThreshStart, 0;
    }

    /** EG_register_source: the next free slot, or -1 once all seven are taken. */
    method Register() returns (r: int)
      requires Valid()
      modifies this
      ensures shaFed == old(shaFed) && macFed == old(macFed)
      ensures old(sources) < NumSources ==> r == old(sources) && Scalars() == old(Scalars()).(sources := r + 1)
      ensures old(sources) >= NumSources ==> r == -1 && Scalars() == old(Scalars())
      ensures Valid()
    {
      if sources >= NumSources {
        r := -1;
      } else {
        r := sources;
        sources := sources + 1;
      }
    }

    /** eg_zero_estimates. */
    method ZeroEstimates()
      requires estimates.Length == NumSources
      modifies estimates
      ensures forall i :: 0 <= i < NumSources ==> estimates[i] == 0
    {
      for i := 0 to NumSources
        invariant forall j :: 0 <= j < i ==> estimates[j] == 0
      {
        estimates[i] := 0;
      }
    }

    /**
     * eg_compute_elevel; the copy sorted in descending order is only used
     * for its first element, the largest credit.
     */
    method ComputeElevel() returns (totale: int)
      requires Valid()
      ensures totale == Elevel(estimates[..], sources)
    {
      var top := estimates[0];
      for i := 1 to NumSources
        invariant top == MaxOf(estimates[..], i)
      {
        if estimates[i] > top {
          top := estimates[i];
        }
      }
      totale := 0;
      for i := 0 to sources
        invariant totale == Sum(estimates[..], i)
      {
        totale := totale + estimates[i];
      }
      totale := totale - top;
    }

    /** eg_output_ready: more than 64 bits credited. */
    method OutputReady() returns (ready: bool)
      requires Valid()
      ensures ready <==> Elevel(estimates[..], sources) > OutputBits
    {
      var totale := ComputeElevel();
      ready := totale > OutputBits;
    }

    /** EG_entropy_level: 1 while there is output to read, else the credit level in units of 64 bits. */
    method EntropyLevel() returns (level: real)
      requires Valid()
      ensures level == if keyed && ring.Unread() != [] then 1.0 else Elevel(estimates[..], sources) as real / OutputBits as real
    {
      if keyed && ring.head != ring.tail {
        level := 1.0;
      } else {
        var totale := ComputeElevel();
        level := totale as real / OutputBits as real;
      }
    }

    /**
     * eg_rekey_with_spool: umackey from the start of the spool, msgid from
     * the eight bytes after it, and a new UMAC context under that key.
     */
    method RekeyWithSpool()
      requires Valid()
      modifies this, umackey
      ensures umackey[..] == spool[.. keyLen] && msgid == LE64(spool[keyLen .. keyLen + 8])
      ensures macFed == [] && spoolpos == 0 && slowcount == 0
      ensures Scalars() == old(Scalars()).(msgid := msgid, spoolpos := 0, slowcount := 0) && shaFed == old(shaFed)
      ensures Valid()
    {
      var key, id := spool[.. keyLen], LE64(spool[keyLen .. keyLen + 8]);
      Store(umackey, 0, key);
      msgid, macFed, spoolpos, slowcount := id, [], 0, 0;
    }

    /** check_spool_rekey: rekey once slowcount has reached slowthresh, then double slowthresh up to its maximum. */
    method CheckSpoolRekey()
      requires Valid()
      modifies this, umackey
      ensures shaFed == old(shaFed) && spool[..] == old(spool[..])
      ensures Rekeys(old(Spool())) ==>
        macFed == [] && umackey[..] == spool[.. keyLen] && msgid == LE64(spool[keyLen .. keyLen + 8]) &&
        Scalars() == old(Scalars()).(msgid := msgid, spoolpos := 0, slowcount := 0,
                                     slowthresh := if 2 * old(slowthresh) > ThreshMax then ThreshMax else 2 * old(slowthresh))
      ensures !Rekeys(old(Spool())) ==> macFed == old(macFed) && umackey[..] == old(umackey[..]) && Scalars() == old(Scalars())
      ensures Valid()
    {
      if slowthresh > slowcount {
        return;
      }
      RekeyWithSpool();
      slowthresh := slowthresh * 2;
      if slowthresh > ThreshMax {
        slowthresh := ThreshMax;
      }
    }

    /**
     * eg_out_spool: data is mixed into the spool from spoolpos on, the
     * spool rekeys UMAC when due, and the write is counted.
     */
    method OutSpool(data: seq<Byte>)
      requires Valid()
      modifies this, spool, umackey
      ensures shaFed == old(shaFed) && Spool() == SpoolOut(old(Spool()), data)
      ensures sources == old(sources) && octr == old(octr) && keyed == old(keyed)
      ensures Rekeys(old(Spool())) ==>
        macFed == [] && umackey[..] == spool[.. keyLen] && msgid == LE64(spool[keyLen .. keyLen + 8])
      ensures !Rekeys(old(Spool())) ==> macFed == old(macFed) && umackey[..] == old(umackey[..]) && msgid == old(msgid)
      ensures Valid()
    {
      spoolpos := MixSpool(spool, spoolpos, data);
      CheckSpoolRekey();
      slowcount := slowcount + 1;
    }

    /**
     * eg_do_output: the UMAC tag of the samples since the last output,
     * with msgid's bytes as nonce, which Emit passes on.
     */
    method DoOutput() returns (ghost tag: seq<Byte>)
      requires Valid()
      modifies this, estimates, spool, umackey, ring, ring.buf
      ensures Valid()
      ensures Emitted(old(Scalars()), old(Spool()), old(ring.head), old(ring.tail), old(ring.Unread()), old(umackey[..]),
                      Scalars(), Spool(), ring.Unread(), umackey[..], tag)
      ensures shaFed == old(shaFed) && macFed == []
      ensures forall i :: 0 <= i < NumSources ==> estimates[i] == 0
      ensures tag == Umac.KeyTag(old(umackey[..]), old(macFed), StoreLE64(old(msgid)))
    {
      hide Umac.KeyTag;
      var umacout := Umac.KeyTag(umackey[..], macFed, StoreLE64(msgid));
      tag := umacout;
      Emit(umacout);
    }

    /**
     * The rest of eg_do_output: UMAC is reset, octr steps round 1..10, the tag goes to
     * the spool or the ring as ToSpool says, credits are cleared and msgid
     * advances modulo 2^64.
     */
    method Emit(umacout: seq<Byte>)
      requires Valid() && |umacout| == TagLen
      modifies this, estimates, spool, umackey, ring, ring.buf
      ensures Valid()
      ensures Emitted(old(Scalars()), old(Spool()), old(ring.head), old(ring.tail), old(ring.Unread()), old(umackey[..]),
                      Scalars(), Spool(), ring.Unread(), umackey[..], umacout)
      ensures shaFed == old(shaFed) && macFed == []
      ensures forall i :: 0 <= i < NumSources ==> estimates[i] == 0
    {
      macFed := [];
      octr := octr + 1;
      if octr > OutD {
        octr := 1;
      }
      Route(umacout);
      ZeroEstimates();
      msgid := (msgid + 1) % TWO64;
    }

    /** The branch of eg_do_output that sends the tag to the spool or to the ring. */
    method Route(umacout: seq<Byte>)
      requires Valid() && |umacout| == TagLen && macFed == []
      modifies this, spool, umackey, ring, ring.buf
      ensures shaFed == old(shaFed) && macFed == [] && ring.Valid()
      ensures sources == old(sources) && octr == old(octr) && keyed == old(keyed)
      ensures Routed(ToSpool(keyed, old(ring.head), old(ring.tail), octr), old(Spool()), old(ring.Room()),
                     old(ring.Unread()), old(umackey[..]), Spool(), ring.Unread(), umackey[..], umacout)
      ensures msgid == RoutedMsgid(ToSpool(keyed, old(ring.head), old(ring.tail), octr), old(Spool()), keyLen, old(msgid), umacout)
      ensures Valid()
    {
      var full := ring.Full();
      if !keyed || full || octr > OutD - OutN {
        OutSpool(umacout);
      } else {
        ring.Append(umacout);
      }
    }



    /**
     * EG_add_entropy: -1 for a source number outside 0..6, which changes
     * nothing.  Before EG_startup_done the sample only goes to SHA-1;
     * afterwards Mix credits and feeds it.  Otherwise 1.
     */
    method AddEntropy(src: int, data: seq<Byte>, est: int) returns (r: int, ghost ready: bool, ghost tag: seq<Byte>)
      requires Valid()
      modifies this, estimates, spool, umackey, ring, ring.buf
      ensures Valid()
      ensures r == (if 0 <= src < NumSources then 1 else -1)
      ensures !(0 <= src < NumSources) ==> !ready && unchanged(this, estimates, spool, umackey, ring) && ring.buf[..] == old(ring.buf[..])
      ensures 0 <= src < NumSources && !old(keyed) ==>
        !ready && shaFed == old(shaFed) + data && macFed == old(macFed) && Scalars() == old(Scalars()) &&
        unchanged(estimates, spool, umackey, ring) && ring.buf[..] == old(ring.buf[..])
      ensures 0 <= src < NumSources && old(keyed) ==>
        shaFed == old(shaFed) &&
        (ready <==> Elevel(Credited(old(estimates[..]), src, est), old(sources)) > OutputBits)
      ensures 0 <= src < NumSources && old(keyed) && !ready ==>
        estimates[..] == Credited(old(estimates[..]), src, est) && macFed == old(macFed) + data &&
        Scalars() == old(Scalars()) && unchanged(spool, umackey, ring) && ring.buf[..] == old(ring.buf[..])
      ensures 0 <= src < NumSources && old(keyed) && ready ==>
        Emitted(old(Scalars()), old(Spool()), old(ring.head), old(ring.tail), old(ring.Unread()), old(umackey[..]),
                Scalars(), Spool(), ring.Unread(), umackey[..], tag) &&
        macFed == [] && (forall i :: 0 <= i < NumSources ==> estimates[i] == 0)
      ensures 0 <= src < NumSources && old(keyed) && ready ==>
        tag == Umac.KeyTag(old(umackey[..]), old(macFed) + data, StoreLE64(old(msgid)))
    {
      hide Umac.KeyTag;
      ready, tag := false, [];
      if src < 0 || src >= NumSources {
        return -1, ready, tag;
      }
      if !keyed {
        shaFed := shaFed + data;
        return 1, ready, tag;
      }
      ready, tag := Mix(src, data, est);
      r := 1;
    }

    /**
     * EG_add_entropy once keyed: the source's credit grows by est, capped
     * at CreditCap but not bounded below, the sample is fed to UMAC, and
     * a tag is output when more than 64 bits are credited.
     */
    method Mix(src: nat, data: seq<Byte>, est: int) returns (ready: bool, ghost tag: seq<Byte>)
      requires Valid() && src < NumSources
      modifies this, estimates, spool, umackey, ring, ring.buf
      ensures Valid()
      ensures shaFed == old(shaFed)
      ensures ready <==> Elevel(Credited(old(estimates[..]), src, est), old(sources)) > OutputBits
      ensures !ready ==>
        estimates[..] == Credited(old(estimates[..]), src, est) && macFed == old(macFed) + data &&
        Scalars() == old(Scalars()) && unchanged(spool, umackey, ring) && ring.buf[..] == old(ring.buf[..])
      ensures ready ==>
        Emitted(old(Scalars()), old(Spool()), old(ring.head), old(ring.tail), old(ring.Unread()), old(umackey[..]),
                Scalars(), Spool(), ring.Unread(), umackey[..], tag) &&
        macFed == [] && (forall i :: 0 <= i < NumSources ==> estimates[i] == 0)
      ensures ready ==> tag == Umac.KeyTag(old(umackey[..]), old(macFed) + data, StoreLE64(old(msgid)))
    {
      hide Umac.KeyTag;
      estimates[src] := Cap(estimates[src] + est);
      assert estimates[..] == Credited(old(estimates[..]), src, est);
      macFed := macFed + data;
      ready := OutputReady();
      if ready {
        tag := DoOutput();
      } else {
        tag := [];
      }
    }

    /**
     * EG_startup_done: SHA-1 over everything fed since EG_init followed by
     * umackey gives a 20-byte digest.  Its first min(keyLen, 20) bytes
     * become umackey; for a key shorter than the digest the remaining
     * bytes overwrite the low-order bytes of msgid, which is stored little
     * endian.  UMAC is keyed afresh and the pool is keyed.  The hash is a
     * parameter: sha maps the bytes fed to the digest.
     */
    method StartupDone(sha: seq<Byte> -> seq<Byte>)
      requires Valid() && forall m :: |sha(m)| == DigestLen
      modifies this, umackey
      ensures Valid()
      ensures shaFed == old(shaFed) + old(umackey[..]) && keyed && macFed == []
      ensures sources == old(sources) && octr == old(octr) && Spool() == old(Spool())
      ensures keyLen <= DigestLen ==>
        umackey[..] == sha(shaFed)[.. keyLen] &&
        msgid == LE64(sha(shaFed)[keyLen ..] + StoreLE64(old(msgid))[DigestLen - keyLen ..])
      ensures keyLen > DigestLen ==> umackey[..] == sha(shaFed) + old(umackey[DigestLen ..]) && msgid == old(msgid)
    {
      shaFed := shaFed + umackey[..];
      var shaout := sha(shaFed);
      if keyLen > DigestLen {
        Store(umackey, 0, shaout);
      } else {
        Store(umackey, 0, shaout[.. keyLen]);
        msgid := LE64(shaout[keyLen ..] + StoreLE64(msgid)[DigestLen - keyLen ..]);
      }
      macFed := [];
      keyed := true;
    }

    /**
     * EG_output.  Without blocking: nothing unless the pool is keyed and
     * the ring holds bytes, else the first min(howmuch, unread) unread
     * bytes.  With blocking the caller waits on entready until bytes are
     * there; the wait is modelled by requiring that howmuch bytes are
     * unread, so the first pass copies them all and the loop ends.
     */
    method Output(out: array<Byte>, howmuch: nat, block: bool) returns (copied: nat)
      requires Valid() && howmuch <= out.Length && out !in {ring.buf, umackey, spool} && out as object != estimates
      requires block ==> keyed && 0 < howmuch <= |ring.Unread()|
      modifies ring, out
      ensures Valid()
      ensures copied == if keyed && old(ring.Unread()) != [] then Min(howmuch, |old(ring.Unread())|) else 0
      ensures block ==> copied == howmuch
      ensures out[.. copied] == old(ring.Unread())[.. copied] && out[copied ..] == old(out[copied ..])
      ensures ring.Unread() == old(ring.Unread())[copied ..]
    {
      if keyed && ring.head != ring.tail {
        copied := ring.Fill(out, 0, howmuch);
      } else {
        copied := 0;
      }
    }
  }
}

=== FILE: eg_ring.dfy ===
/**
 * The output ring of the entropy pool: outbuf with its positions ohead
 * (next byte to hand out) and otail (next byte to write), both kept as
 * offsets into outbuf.  oend is offset OEnd = BUFSZ * UMAC_OUTPUT_LEN;
 * outbuf has one byte more, which is never written.  The unread bytes
 * run from ohead to otail, wrapping from oend back to the start.
 *
 * The class Ring is the corrected ring; OutBufAsWritten and
 * FillAsWritten are eg_out_buf and eg_fill_entropy exactly as the source
 * has them, with the inputs on which they lose bytes.
 */
module EgRing {
  import opened Bytes

  /** BUFSZ * UMAC_OUTPUT_LEN: 31 tags of 8 bytes. */
  const OEnd: nat := 248

  function Min(a: nat, b: nat): (r: nat)
    ensures r <= a && r <= b && (r == a || r == b)
  {
    if a <= b then a else b
  }

  /** ohead never rests on oend (eg_fill_entropy wraps it), otail may. */
  predicate RingOk(buf: seq<Byte>, head: nat, tail: nat)
  {
    |buf| == OEnd + 1 && head < OEnd && tail <= OEnd
  }

  /** The unread bytes, oldest first. */
  function Contents(buf: seq<Byte>, head: nat, tail: nat): (c: seq<Byte>)
    requires RingOk(buf, head, tail)
    ensures |c| <= OEnd
    ensures c == [] <==> head == tail
  {
    if head <= tail then buf[head .. tail] else buf[head .. OEnd] + buf[.. tail]
  }

  /** eg_buf_full: the slot after otail, wrapping past oend, is ohead. */
  predicate IsFull(head: nat, tail: nat)
  {
    (if tail + 1 > OEnd then 0 else tail + 1) == head
  }

  /** How many bytes can still be written before otail would reach ohead. */
  function Free(head: nat, tail: nat): (n: nat)
    requires head < OEnd && tail <= OEnd
  {
    if head <= tail then OEnd - tail + (if head > 0 then head - 1 else 0) else head - tail - 1
  }

  /** Unread plus free bytes: the whole ring less one slot, or all of it while ohead is at the start. */
  lemma Capacity(buf: seq<Byte>, head: nat, tail: nat)
    requires RingOk(buf, head, tail)
    ensures |Contents(buf, head, tail)| + Free(head, tail) == if head == 0 then OEnd else OEnd - 1
  {
  }

  /**
   * eg_buf_full reports no room exactly when there is none, except with
   * ohead one past the start and otail on oend, where the ring has no
   * room but is not reported full.
   */
  lemma FullIffNoRoom(head: nat, tail: nat)
    requires head < OEnd && tail <= OEnd
    ensures IsFull(head, tail) ==> Free(head, tail) == 0
    ensures Free(head, tail) == 0 && !IsFull(head, tail) <==> head == 1 && tail == OEnd
  {
  }

  /** otail on oend and at the start of outbuf are the same position while ohead is not at the start. */
  lemma WrapTail(buf: seq<Byte>, head: nat)
    requires RingOk(buf, head, OEnd) && head > 0
    ensures Contents(buf, head, 0) == Contents(buf, head, OEnd) && Free(head, 0) == Free(head, OEnd)
  {
  }

  /** Writing data at otail, without passing the copy limit, appends it to the contents. */
  lemma {:induction false} AppendSpan(buf: seq<Byte>, head: nat, tail: nat, data: seq<Byte>)
    requires RingOk(buf, head, tail) && tail < OEnd
    requires tail + |data| <= if head > tail then head - 1 else OEnd
    ensures RingOk(buf[.. tail] + data + buf[tail + |data| ..], head, tail + |data|)
    ensures Contents(buf[.. tail] + data + buf[tail + |data| ..], head, tail + |data|) == Contents(buf, head, tail) + data
    ensures Free(head, tail + |data|) == Free(head, tail) - |data|
  {
    var b := buf[.. tail] + data + buf[tail + |data| ..];
    var t := tail + |data|;
    assert |b| == |buf| && b[.. tail] == buf[.. tail] && b[tail .. t] == data by {
      assert b == (buf[.. tail] + data) + buf[tail + |data| ..];
    }
    if head <= tail {
      assert b[head .. t] == buf[head .. tail] + data by {
        assert b[head .. t] == b[head .. tail] + b[tail .. t];
        assert b[head .. tail] == b[.. tail][head ..] == buf[.. tail][head ..];
      }
    } else {
      assert b[head .. OEnd] == buf[head .. OEnd] by {
        assert b[t ..] == buf[t ..];
        assert b[head .. OEnd] == b[t ..][head - t .. OEnd - t];
      }
      assert b[.. t] == buf[.. tail] + data by {
        assert b[.. t] == b[.. tail] + b[tail .. t];
      }
    }
  }

  /** Where eg_fill_entropy stops a copy: at otail when it lies ahead of ohead, else at oend. */
  function FillLim(head: nat, tail: nat): (lim: nat)
  {
    if tail > head && tail <= OEnd then tail else OEnd
  }

  /**
   * Reading n bytes from ohead, up to the copy limit, takes the first n
   * unread bytes and leaves the rest; ohead and otail are then wrapped.
   */
  lemma {:induction false} FillSpan(buf: seq<Byte>, head: nat, tail: nat, n: nat, head': nat, tail': nat)
    requires RingOk(buf, head, tail) && head != tail && head + n <= FillLim(head, tail)
    requires head' == (if head + n >= OEnd then 0 else head + n)
    requires tail' == (if tail >= OEnd && n > 0 then 0 else tail)
    ensures RingOk(buf, head', tail')
    ensures n <= |Contents(buf, head, tail)| && buf[head .. head + n] == Contents(buf, head, tail)[.. n]
    ensures Contents(buf, head', tail') == Contents(buf, head, tail)[n ..]
  {
    var c := Contents(buf, head, tail);
    if head < tail {
      assert c == buf[head .. tail];
      assert c[.. n] == buf[head .. head + n];
      assert c[n ..] == buf[head + n .. tail];
    } else {
      assert c == buf[head .. OEnd] + buf[.. tail];
      assert c[.. n] == buf[head .. OEnd][.. n] == buf[head .. head + n];
      if head + n < OEnd {
        assert c[n ..] == buf[head + n .. OEnd] + buf[.. tail];
      } else {
        assert c[n ..] == buf[.. tail];
      }
    }
  }

  /**
   * Two copies, the second written after the first without touching it,
   * hold the first n + m bytes of c0 in a row.
   */
  lemma Joined(o1: seq<Byte>, o2: seq<Byte>, c0: seq<Byte>, off: nat, n: nat, m: nat)
    requires off + n + m <= |o1| == |o2| && n + m <= |c0|
    requires o1[off .. off + n] == c0[.. n]
    requires o2[.. off + n] == o1[.. off + n]
    requires o2[off + n .. off + n + m] == c0[n ..][.. m]
    ensures o2[off .. off + n + m] == c0[.. n + m]
  {
    assert o2[off .. off + n] == o2[.. off + n][off ..];
    assert o2[off .. off + n + m] == o2[off .. off + n] + o2[off + n .. off + n + m];
    assert c0[.. n + m] == c0[.. n] + c0[n ..][.. m];
  }

  /** A sequence is its three slices at i and j. */
  lemma Split3(a: seq<Byte>, i: nat, j: nat)
    requires i <= j <= |a|
    ensures a == a[.. i] + a[i .. j] + a[j ..]
  {
  }

  /** The output ring, corrected (see OutBufAsWritten and FillAsWritten). */
  class Ring {
    /** outbuf, ohead and otail. */
    const buf: array<Byte>
    var head: nat
    var tail: nat

    ghost predicate Valid()
      reads this
    {
      buf.Length == OEnd + 1 && head < OEnd && tail <= OEnd
    }

    /** The unread bytes, oldest first. */
    ghost function Unread(): seq<Byte>
      reads this, buf
      requires Valid()
    {
      Contents(buf[..], head, tail)
    }

    /** The bytes that can still be appended. */
    ghost function Room(): nat
      reads this
      requires Valid()
    {
      Free(head, tail)
    }

    /** The static outbuf, and EG_init pointing ohead and otail at its start: an empty ring. */
    constructor ()
      ensures Valid() && Unread() == [] && Room() == OEnd && fresh(buf)
    {
      buf := new Byte[OEnd + 1](_ => 0);
      head, tail := 0, 0;
    }

    /** eg_buf_full. */
    method Full() returns (full: bool)
      requires Valid()
      ensures full == IsFull(head, tail)
      ensures full ==> Room() == 0
    {
      FullIffNoRoom(head, tail);
      var ftmp := tail + 1;
      if ftmp > OEnd {
        ftmp := 0;
      }
      full := ftmp == head;
    }

    /**
     * One copy of eg_out_buf, with the copy limit one short of ohead: as
     * many bytes of data as fit before the limit are appended.
     */
    method CopySpan(data: seq<Byte>) returns (n: nat)
      requires Valid() && !IsFull(head, tail)
      modifies this, buf
      ensures Valid()
      ensures n <= |data| && n <= old(Room())
      ensures Unread() == old(Unread()) + data[.. n] && Room() == old(Room()) - n
      ensures n == 0 && |data| > 0 ==> IsFull(head, tail)
    {
      hide Contents, Free;
      if tail == OEnd {
        WrapTail(buf[..], head);
        tail := 0;
      }
      ghost var b := buf[..];
      var lim := if head > tail then head - 1 else OEnd;
      n := lim - tail;
      if n > |data| {
        n := |data|;
      }
      AppendSpan(b, head, tail, data[.. n]);
      Store(buf, tail, data[.. n]);
      Split3(buf[..], tail, tail + n);
      assert buf[.. tail] == b[.. tail] && buf[tail + n ..] == b[tail + n ..];
      tail := tail + n;
    }

    /**
     * eg_out_buf, corrected: data is appended as far as there is room and
     * never overwrites an unread byte.
     */
    method Append(data: seq<Byte>)
      requires Valid()
      modifies this, buf
      ensures Valid()
      ensures Unread() == old(Unread()) + data[.. Min(|data|, old(Room()))]
      ensures Room() == old(Room()) - Min(|data|, old(Room()))
      decreases |data|
    {
      hide Contents, Free;
      var full := Full();
      if full {
        return;
      }
      var n := CopySpan(data);
      full := Full();
      if !full && |data| - n > 0 {
        Append(data[n ..]);
        assert data[.. n] + data[n ..][.. Min(|data| - n, old(Room()) - n)] == data[.. Min(|data|, old(Room()))];
      }
    }

    /**
     * One copy of eg_fill_entropy: the unread bytes from ohead up to the
     * copy limit, at most howmuch of them, go to out[off ..]; ohead is
     * wrapped, and otail moved from oend to the start only when something
     * was read.
     */
    method TakeSpan(out: array<Byte>, off: nat, howmuch: nat) returns (n: nat)
      requires Valid() && head != tail && off + howmuch <= out.Length && out != buf
      modifies this, out
      ensures Valid() && buf[..] == old(buf[..])
      ensures n <= howmuch && n <= |old(Unread())|
      ensures n < howmuch && head != tail ==> n == FillLim(old(head), old(tail)) - old(head)
      ensures out[off .. off + n] == old(Unread())[.. n]
      ensures out[.. off] == old(out[.. off]) && out[off + n ..] == old(out[off + n ..])
      ensures Unread() == old(Unread())[n ..]
    {
      hide Contents, Free;
      var lim := if tail > head && tail <= OEnd then tail else OEnd;
      n := lim - head;
      if n > howmuch {
        n := howmuch;
      }
      ghost var b, h, t := buf[..], head, tail;
      Store(out, off, buf[head .. head + n]);
      head := head + n;
      if head >= OEnd {
        head := 0;
      }
      if tail >= OEnd && n > 0 {
        tail := 0;
      }
      FillSpan(b, h, t, n, head, tail);
    }

    /**
     * eg_fill_entropy on a ring that is not empty, corrected as in
     * TakeSpan: the first min(howmuch, |Unread()|) unread bytes go to
     * out[off ..], in order, and are no longer unread.
     */
    method Fill(out: array<Byte>, off: nat, howmuch: nat) returns (ret: nat)
      requires Valid() && head != tail && off + howmuch <= out.Length && out != buf
      modifies this, out
      ensures Valid() && buf[..] == old(buf[..])
      ensures ret == Min(howmuch, |old(Unread())|)
      ensures out[off .. off + ret] == old(Unread())[.. ret]
      ensures out[.. off] == old(out[.. off]) && out[off + ret ..] == old(out[off + ret ..])
      ensures Unread() == old(Unread())[ret ..]
      decreases howmuch
    {
      hide Contents, Free;
      ghost var c0 := Unread();
      ret := TakeSpan(out, off, howmuch);
      if head != tail && howmuch - ret > 0 {
        ghost var o1, c1 := out[..], Unread();
        var more := Fill(out, off + ret, howmuch - ret);
        Joined(o1, out[..], c0, off, ret, more);
        ret := ret + more;
      }
    }
  }

  /**
   * eg_out_buf as written: with ohead ahead of otail the copy limit is
   * ohead itself, so otail can land on ohead, which reads as an empty ring.
   */
  function OutBufAsWritten(buf: seq<Byte>, head: nat, tail: nat, data: seq<Byte>): (r: (seq<Byte>, nat, nat))
    requires RingOk(buf, head, tail)
    ensures RingOk(r.0, r.1, r.2)
    decreases |data|
  {
    if IsFull(head, tail) then (buf, head, tail)
    else
      var t := if tail == OEnd then 0 else tail;
      var lim := if head > t then head else OEnd;
      var n := Min(lim - t, |data|);
      var buf' := buf[.. t] + data[.. n] + buf[t + n ..];
      if !IsFull(head, t + n) && |data| - n > 0 then OutBufAsWritten(buf', head, t + n, data[n ..])
      else (buf', head, t + n)
  }

  /**
   * A ring holding 245 unread bytes (ohead at offset 3, otail wrapped to
   * the start) receives one 8-byte tag: afterwards only the last five tag
   * bytes are unread; the 245 bytes and the first three tag bytes are lost.
   */
  lemma OutBufOverwrites()
    ensures var buf, data := Zeros(OEnd + 1), [1, 2, 3, 4, 5, 6, 7, 8];
      var r := OutBufAsWritten(buf, 3, 0, data);
      |Contents(buf, 3, 0)| == 245 && Free(3, 0) == 2 && Contents(r.0, r.1, r.2) == data[3 ..]
  {
    var buf, data := Zeros(OEnd + 1), [1, 2, 3, 4, 5, 6, 7, 8];
    var b1 := buf[.. 0] + data[.. 3] + buf[3 ..];
    assert OutBufAsWritten(buf, 3, 0, data) == OutBufAsWritten(b1, 3, 3, data[3 ..]);
    assert data[3 ..][.. 5] == data[3 ..];
    var b2 := b1[.. 3] + data[3 ..] + b1[8 ..];
    assert OutBufAsWritten(b1, 3, 3, data[3 ..]) == (b2, 3, 8);
    assert b2[3 .. 8] == data[3 ..];
  }

  /**
   * eg_fill_entropy as written, for any ring, returning the bytes copied
   * and the new ohead and otail.
   */
  function FillAsWritten(buf: seq<Byte>, head: nat, tail: nat, howmuch: nat): (r: (seq<Byte>, nat, nat))
    requires RingOk(buf, head, tail)
    ensures RingOk(buf, r.1, r.2)
    decreases howmuch
  {
    var n := Min(FillLim(head, tail) - head, howmuch);
    var h := if head + n >= OEnd then 0 else head + n;
    var t := if tail >= OEnd then 0 else tail;
    if h != t && howmuch - n > 0 then
      var rest := FillAsWritten(buf, h, t, howmuch - n);
      (buf[head .. head + n] + rest.0, rest.1, rest.2)
    else (buf[head .. head + n], h, t)
  }

  /**
   * The threaded EG_output with block == 0 calls eg_fill_entropy without
   * asking whether anything is unread: on an empty ring it hands out
   * eight stale bytes and leaves 240 stale bytes looking unread.
   */
  lemma FillEmptyRing()
    ensures var buf := Zeros(OEnd + 1);
      var r := FillAsWritten(buf, 5, 5, 8);
      Contents(buf, 5, 5) == [] && |r.0| == 8 && |Contents(buf, r.1, r.2)| == 240
  {
  }

  /**
   * A zero-byte read of a full ring with ohead at the start moves otail
   * from oend to the start, onto ohead: all 248 unread bytes are dropped.
   */
  lemma FillNothingEmptiesFullRing()
    ensures var buf := Zeros(OEnd + 1);
      var r := FillAsWritten(buf, 0, OEnd, 0);
      |Contents(buf, 0, OEnd)| == OEnd && r.0 == [] && Contents(buf, r.1, r.2) == []
  {
  }
}

=== FILE: endian.dfy ===
/**
 * Key endianness in UMAC.  The keys derived by kdf are big-endian words;
 * on a little-endian host `endian_convert` reverses each word in memory
 * once, at key setup, so that later native loads read the big-endian
 * values.  The model fixes a little-endian host, whose native loads are
 * LE32 and LE64.
 */
module Endian {
  import opened Bytes

  /** The bytes of s in reverse order. */
  function Reverse(s: seq<Byte>): (r: seq<Byte>)
    ensures |r| == |s| && forall i :: 0 <= i < |s| ==> r[i] == s[|s| - 1 - i]
  {
    seq(|s|, i requires 0 <= i < |s| => s[|s| - 1 - i])
  }

  /** s with each of its whole w-byte words reversed in place (a shorter tail is kept). */
  function SwapGroups(s: seq<Byte>, w: nat): (r: seq<Byte>)
    requires w > 0
    ensures |r| == |s|
    decreases |s|
  {
    if |s| < w then s else Reverse(s[..w]) + SwapGroups(s[w..], w)
  }

  /** A 4-byte word reversed, written out. */
  lemma Reverse4(g: seq<Byte>)
    requires |g| == 4
    ensures Reverse(g) == [g[3], g[2], g[1], g[0]]
  {
  }

  /** An 8-byte word reversed, written out. */
  lemma Reverse8(g: seq<Byte>)
    requires |g| == 8
    ensures Reverse(g) == [g[7], g[6], g[5], g[4], g[3], g[2], g[1], g[0]]
  {
  }

  /** Reversing twice restores the bytes. */
  lemma ReverseInvolution(s: seq<Byte>)
    ensures Reverse(Reverse(s)) == s
  {
    assert forall i :: 0 <= i < |s| ==> Reverse(Reverse(s))[i] == s[i];
  }

  /** Converting twice restores the buffer: endian_convert is its own inverse. */
  lemma {:induction false} SwapGroupsInvolution(s: seq<Byte>, w: nat)
    requires w > 0
    ensures SwapGroups(SwapGroups(s, w), w) == s
    decreases |s|
  {
    if |s| >= w {
      var r, a, b := SwapGroups(s, w), Reverse(s[..w]), SwapGroups(s[w..], w);
      assert r == a + b;
      assert r[..w] == a && r[w..] == b;
      ReverseInvolution(s[..w]);
      SwapGroupsInvolution(s[w..], w);
      assert SwapGroups(r, w) == Reverse(a) + SwapGroups(b, w);
      assert s == s[..w] + s[w..];
    }
  }

  /** Converting a buffer with one more word appended converts that word on its own. */
  lemma {:induction false} SwapGroupsSnoc(a: seq<Byte>, g: seq<Byte>, w: nat, n: nat)
    requires w > 0 && |a| == n * w && |g| == w
    ensures SwapGroups(a + g, w) == SwapGroups(a, w) + Reverse(g)
  {
    if n == 0 {
      assert a + g == g && g[..w] == g && g[w..] == [];
    } else {
      assert (a + g)[..w] == a[..w] && (a + g)[w..] == a[w..] + g;
      assert |a[w..]| == (n - 1) * w;
      SwapGroupsSnoc(a[w..], g, w, n - 1);
    }
  }

  /** Word k of a converted buffer is word k of the original, reversed. */
  lemma {:induction false} SwapGroupsAt(s: seq<Byte>, w: nat, p: nat, k: nat)
    requires w > 0 && p == k * w && p + w <= |s|
    ensures SwapGroups(s, w)[p .. p + w] == Reverse(s[p .. p + w])
    decreases k
  {
    var h, t := Reverse(s[..w]), SwapGroups(s[w..], w);
    assert SwapGroups(s, w) == h + t;
    if k > 0 {
      assert p - w == (k - 1) * w;
      SwapGroupsAt(s[w..], w, p - w, k - 1);
      assert s[w..][p - w .. p] == s[p .. p + w];
      SliceOfRight(h, t, p, w);
    } else {
      assert (h + t)[..w] == h;
    }
  }

  /** A slice of a + b that starts after a is a slice of b. */
  lemma SliceOfRight(a: seq<Byte>, b: seq<Byte>, p: nat, n: nat)
    requires |a| <= p && p + n <= |a| + |b|
    ensures (a + b)[p .. p + n] == b[p - |a| .. p - |a| + n]
  {
  }

  /** A little-endian load of a reversed word reads it big-endian. */
  lemma LoadReversed32(b: seq<Byte>)
    requires |b| == 4
    ensures LE32(Reverse(b)) == BE32(b)
  {
    var r := Reverse(b);
    assert [r[3], r[2], r[1], r[0]] == b;
  }

  /** The same for 64-bit words. */
  lemma LoadReversed64(b: seq<Byte>)
    requires |b| == 8
    ensures LE64(Reverse(b)) == BE64(b)
  {
    var r, hi, lo := Reverse(b), b[..4], b[4..];
    assert r[4..] == Reverse(hi) by {
      forall i | 0 <= i < 4 ensures r[4..][i] == Reverse(hi)[i] { }
    }
    assert r[..4] == Reverse(lo) by {
      forall i | 0 <= i < 4 ensures r[..4][i] == Reverse(lo)[i] { }
    }
    LoadReversed32(hi);
    LoadReversed32(lo);
    assert LE64(r) == LE32(r[4..]) * TWO32 + LE32(r[..4]);
    assert BE64(b) == BE32(hi) * TWO32 + BE32(lo);
  }

  /**
   * endian_convert(buf, bpw, buf.Length) for the word sizes UMAC uses with
   * WORD_LEN 4: bpw 4 (NH key, translation keys) and bpw 8 (polynomial and
   * inner-product keys).  Its do-while loop needs one word at least.
   */
  method EndianConvert(buf: array<Byte>, bpw: nat)
    requires bpw == 4 || bpw == 8
    requires buf.Length >= bpw && buf.Length % bpw == 0
    modifies buf
    ensures buf[..] == SwapGroups(old(buf[..]), bpw)
  {
    if bpw == 4 {
      ConvertWords(buf);
    } else {
      ConvertDoubleWords(buf);
    }
  }

  /**
   * One turn of endian_convert's loop: with the words before p converted
   * and the rest untouched, reversing the word at p extends the converted
   * prefix by one word.
   */
  lemma {:induction false} ConvertStep(s: seq<Byte>, before: seq<Byte>, after: seq<Byte>, p: nat, w: nat, n: nat)
    requires w > 0 && p == n * w && p + w <= |s| == |before| == |after|
    requires before[..p] == SwapGroups(s[..p], w) && before[p..] == s[p..]
    requires after[..p] == before[..p] && after[p .. p + w] == Reverse(before[p .. p + w])
    requires after[p + w ..] == before[p + w ..]
    ensures after[..p + w] == SwapGroups(s[..p + w], w) && after[p + w ..] == s[p + w ..]
  {
    assert before[p .. p + w] == s[p .. p + w] by {
      assert before[p .. p + w] == before[p..][..w] && s[p .. p + w] == s[p..][..w];
    }
    assert before[p + w ..] == s[p + w ..] by {
      assert before[p + w ..] == before[p..][w..] && s[p + w ..] == s[p..][w..];
    }
    SwapGroupsSnoc(s[..p], s[p .. p + w], w, n);
    assert s[..p + w] == s[..p] + s[p .. p + w];
    assert after[..p + w] == after[..p] + after[p .. p + w];
  }

  /** *p = LOAD_UINT32_REVERSED(p): reverse the four bytes at p. */
  method ReverseWordAt(buf: array<Byte>, p: nat)
    requires p + 4 <= buf.Length
    modifies buf
    ensures buf[..p] == old(buf[..p]) && buf[p .. p + 4] == Reverse(old(buf[p .. p + 4]))
    ensures buf[p + 4 ..] == old(buf[p + 4 ..])
  {
    var b0, b1, b2, b3 := buf[p], buf[p + 1], buf[p + 2], buf[p + 3];
    Reverse4(buf[p .. p + 4]);
    Store(buf, p, [b3, b2, b1, b0]);
  }

  /** The two reversed half-word stores of the bpw 8 branch, which reverse the eight bytes at p. */
  method ReverseDoubleWordAt(buf: array<Byte>, p: nat)
    requires p + 8 <= buf.Length
    modifies buf
    ensures buf[..p] == old(buf[..p]) && buf[p .. p + 8] == Reverse(old(buf[p .. p + 8]))
    ensures buf[p + 8 ..] == old(buf[p + 8 ..])
  {
    var b0, b1, b2, b3 := buf[p], buf[p + 1], buf[p + 2], buf[p + 3];
    var b4, b5, b6, b7 := buf[p + 4], buf[p + 5], buf[p + 6], buf[p + 7];
    Reverse8(buf[p .. p + 8]);
    Store(buf, p, [b7, b6, b5, b4, b3, b2, b1, b0]);
  }

  /** The bpw 4 branch of endian_convert: reverse each 32-bit word. */
  method ConvertWords(buf: array<Byte>)
    requires buf.Length >= 4 && buf.Length % 4 == 0
    modifies buf
    ensures buf[..] == SwapGroups(old(buf[..]), 4)
  {
    ghost var s := buf[..];
    var iters: nat := buf.Length / 4;
    var p := 0;
    ghost var n: nat := 0;
    while iters > 0
      invariant p == n * 4 && p + iters * 4 == buf.Length
      invariant buf[..p] == SwapGroups(s[..p], 4) && buf[p..] == s[p..]
    {
      ghost var before := buf[..];
      ReverseWordAt(buf, p);
      ConvertStep(s, before, buf[..], p, 4, n);
      p, iters, n := p + 4, iters - 1, n + 1;
    }
    assert buf[..] == buf[..p];
    assert s == s[..p];
  }

  /** The bpw 8 branch of endian_convert: reverse each 64-bit word. */
  method ConvertDoubleWords(buf: array<Byte>)
    requires buf.Length >= 8 && buf.Length % 8 == 0
    modifies buf
    ensures buf[..] == SwapGroups(old(buf[..]), 8)
  {
    ghost var s := buf[..];
    var iters: nat := buf.Length / 8;
    var p := 0;
    ghost var n: nat := 0;
    while iters > 0
      invariant p == n * 8 && p + iters * 8 == buf.Length
      invariant buf[..p] == SwapGroups(s[..p], 8) && buf[p..] == s[p..]
    {
      ghost var before := buf[..];
      ReverseDoubleWordAt(buf, p);
      ConvertStep(s, before, buf[..], p, 8, n);
      p, iters, n := p + 8, iters - 1, n + 1;
    }
    assert buf[..] == buf[..p];
    assert s == s[..p];
  }
}

=== FILE: ip.dfy ===
/**
 * The inner-product layer of UHASH with WORD_LEN 4: a 64-bit word is cut
 * into four 16-bit pieces, each multiplied by a key below
 * p36 = 2^36 - 5; the sum is reduced mod p36, cut to 32 bits and XORed
 * with a translation key.  This is the source's own form of the last
 * layer, not the L3-HASH of section 5.4 of RFC 4418, which hashes a
 * 16-byte input with eight keys per stream: here each stream hashes one
 * 64-bit word with four keys.
 *
 * uhash_init lays stream s's four keys at ip_keys[4s .. 4s + 3], but
 * ip_short and ip_long hand ip_aux ip_keys + s.  IpOutAsWritten models
 * that read, and UHASH is built on it; IpOut reads the keys where they
 * were laid, the layout the key derivation intends.
 */
module Ip {
  import opened Bytes

  /** p36 = 2^36 - 5. */
  const P36: nat := 0xF_FFFF_FFFB
  const TWO36: nat := 0x10_0000_0000

  /** Piece j of data, most significant first: (UINT16)(data >> 48), >> 32, >> 16, and data itself. */
  function Piece(data: U64, j: nat): (r: nat)
    requires j < 4
    ensures r < 0x1_0000
  {
    if j == 0 then data / 0x1_0000_0000_0000 % 0x1_0000
    else if j == 1 then data / TWO32 % 0x1_0000
    else if j == 2 then data / 0x1_0000 % 0x1_0000
    else data % 0x1_0000
  }

  /** The pieces put back together are the word. */
  lemma PiecesCompose(data: U64)
    ensures data == ((Piece(data, 0) * 0x1_0000 + Piece(data, 1)) * 0x1_0000 + Piece(data, 2)) * 0x1_0000 + Piece(data, 3)
  {
  }

  /** A product of naturals. */
  function Mul(a: nat, b: nat): (r: nat)
  {
    a * b
  }

  /** One line of ip_aux: t + key * piece, as a UINT64. */
  function MulAdd(t: U64, key: U64, piece: nat): (r: U64)
    requires piece < 0x1_0000
  {
    (t + Mul(key, piece)) % TWO64
  }

  /** ip_aux(t, k + o, data): the four key-piece products added to t, every UINT64 operation wrapping. */
  function IpAux(t: U64, k: seq<U64>, o: nat, data: U64): (r: U64)
    requires o + 4 <= |k|
  {
    var t1 := MulAdd(t, k[o], Piece(data, 0));
    var t2 := MulAdd(t1, k[o + 1], Piece(data, 1));
    var t3 := MulAdd(t2, k[o + 2], Piece(data, 2));
    MulAdd(t3, k[o + 3], Piece(data, 3))
  }

  /** The inner product of keys k[o .. o + 3] with the pieces of data, over the integers. */
  function IpSum(k: seq<U64>, o: nat, data: U64): (r: nat)
    requires o + 4 <= |k|
  {
    Mul(k[o], Piece(data, 0)) + Mul(k[o + 1], Piece(data, 1)) + Mul(k[o + 2], Piece(data, 2)) + Mul(k[o + 3], Piece(data, 3))
  }

  /** The keys a stream starting at o uses are all below p36. */
  predicate KeysBelow(k: seq<U64>, o: nat)
    requires o + 4 <= |k|
  {
    k[o] < P36 && k[o + 1] < P36 && k[o + 2] < P36 && k[o + 3] < P36
  }

  /** A key below p36 times a piece is below 2^52. */
  lemma ProductBound(key: nat, piece: nat)
    requires key < P36 && piece < 0x1_0000
    ensures Mul(key, piece) < 0x10_0000_0000_0000
  {
    assert key * piece <= key * 0xFFFF;
  }

  /** With keys below p36, ip_aux from 0 never wraps: it is the exact inner product, below 2^54. */
  lemma {:induction false} IpAuxExact(k: seq<U64>, o: nat, data: U64)
    requires o + 4 <= |k| && KeysBelow(k, o)
    ensures IpSum(k, o, data) < 0x40_0000_0000_0000
    ensures IpAux(0, k, o, data) == IpSum(k, o, data)
  {
    hide Mul;
    ProductBound(k[o], Piece(data, 0));
    ProductBound(k[o + 1], Piece(data, 1));
    ProductBound(k[o + 2], Piece(data, 2));
    ProductBound(k[o + 3], Piece(data, 3));
  }

  /** 2^36 is 5 modulo p36, so the high bits fold in times 5 without changing the residue. */
  lemma {:induction false} FoldHigh(t: U64)
    ensures t % TWO36 + 5 * (t / TWO36) < 2 * P36
    ensures t % P36 == (t % TWO36 + 5 * (t / TWO36)) % P36
  {
    var hi, lo := t / TWO36, t % TWO36;
    assert t == hi * P36 + (lo + 5 * hi);
  }

  /**
   * ip_reduce_p36: the divisionless reduction (low 36 bits plus five times
   * the rest, then one conditional subtraction), cut to the low 32 bits,
   * is t mod p36 mod 2^32 for every UINT64 t.
   */
  function IpReduceP36(t: U64): (r: U32)
    ensures r == t % P36 % TWO32
  {
    FoldHigh(t);
    var ret := t % TWO36 + 5 * (t / TWO36);
    var ret' := if ret >= P36 then ret - P36 else ret;
    ret' % TWO32
  }

  /**
   * The four result bytes of stream s for word v: the reduced inner
   * product of the word with the stream's own keys k[4s .. 4s + 3], XOR
   * ip_trans[s], stored big-endian (the bytes of an XOR are the XOR of
   * the bytes).
   */
  function IpOut(k: seq<U64>, trans: seq<U32>, s: nat, v: U64): (r: seq<Byte>)
    requires 4 * s + 4 <= |k| && s < |trans|
    ensures |r| == 4
  {
    Xor(StoreBE32(IpReduceP36(IpAux(0, k, 4 * s, v))), StoreBE32(trans[s]))
  }

  /** The result bytes for the two streams' words vs. */
  function IpBytes(k: seq<U64>, trans: seq<U32>, vs: seq<U64>): (r: seq<Byte>)
    requires |k| == 8 && |trans| == 2 && |vs| == 2
    ensures |r| == 8
  {
    IpOut(k, trans, 0, vs[0]) + IpOut(k, trans, 1, vs[1])
  }

  /** Stream s as ip_short and ip_long compute it: ip_aux given ip_keys + s. */
  function IpOutAsWritten(k: seq<U64>, trans: seq<U32>, s: nat, v: U64): (r: seq<Byte>)
    requires s + 4 <= |k| && s < |trans|
    ensures |r| == 4
  {
    Xor(StoreBE32(IpReduceP36(IpAux(0, k, s, v))), StoreBE32(trans[s]))
  }

  /** The result bytes as ip_short and ip_long compute them. */
  function IpBytesAsWritten(k: seq<U64>, trans: seq<U32>, vs: seq<U64>): (r: seq<Byte>)
    requires |k| == 8 && |trans| == 2 && |vs| == 2
    ensures |r| == 8
  {
    IpOutAsWritten(k, trans, 0, vs[0]) + IpOutAsWritten(k, trans, 1, vs[1])
  }

  /**
   * As written, the last three of the eight keys uhash_init derives are
   * never read: two key arrays that agree on their first five keys give
   * the same result bytes.
   */
  lemma IpKeysUnread(k: seq<U64>, k': seq<U64>, trans: seq<U32>, vs: seq<U64>)
    requires |k| == |k'| == 8 && |trans| == 2 && |vs| == 2 && k[.. 5] == k'[.. 5]
    ensures IpBytesAsWritten(k, trans, vs) == IpBytesAsWritten(k', trans, vs)
  {
    assert forall i | 0 <= i < 5 :: k[i] == k[.. 5][i] == k'[i];
  }

  /**
   * As written, stream 1 multiplies by stream 0's keys: with only key 4
   * set and the word 1 in stream 1, the code's result differs from the
   * one with each stream's keys where uhash_init put them.
   */
  lemma IpKeysMisread()
    ensures IpBytesAsWritten([0, 0, 0, 0, 1, 0, 0, 0], [0, 0], [0, 1]) != IpBytes([0, 0, 0, 0, 1, 0, 0, 0], [0, 0], [0, 1])
  {
    hide IpReduceP36;
    var k: seq<U64> := [0, 0, 0, 0, 1, 0, 0, 0];
    PiecesOfOne();
    assert IpAux(0, k, 1, 1) == 1;
    assert IpAux(0, k, 4, 1) == 0;
    NoTranslation(1);
    NoTranslation(0);
    ReduceSmall(1);
    ReduceSmall(0);
    hide IpAux, Xor, StoreBE32, BE32;
    var asWritten, intended := IpBytesAsWritten(k, [0, 0], [0, 1]), IpBytes(k, [0, 0], [0, 1]);
    assert asWritten[4 ..] == IpOutAsWritten(k, [0, 0], 1, 1) == StoreBE32(1);
    assert intended[4 ..] == IpOut(k, [0, 0], 1, 1) == StoreBE32(0);
  }

  /** A sum below 2^32 is its own reduction. */
  lemma ReduceSmall(t: U64)
    requires t < TWO32
    ensures IpReduceP36(t) == t
  {
    hide IpReduceP36;
    assert t % P36 == t;
    assert t % TWO32 == t;
  }

  /** The pieces of the word 1: three zero pieces and a last piece of 1. */
  lemma PiecesOfOne()
    ensures Piece(1, 0) == 0 && Piece(1, 1) == 0 && Piece(1, 2) == 0 && Piece(1, 3) == 1
  {
  }

  /** A zero translation key leaves the reduced inner product as it is. */
  lemma NoTranslation(x: U32)
    ensures Xor(StoreBE32(x), StoreBE32(0)) == StoreBE32(x)
  {
    var z := StoreBE32(0);
    assert z == [0, 0, 0, 0];
    var r := Xor(StoreBE32(x), z);
    assert forall i | 0 <= i < 4 :: r[i] == StoreBE32(x)[i];
  }

  /** Read where they were laid, each stream depends on its own four keys and on no other. */
  lemma IpOwnKeys(k: seq<U64>, k': seq<U64>, trans: seq<U32>, s: nat, v: U64)
    requires |k| == |k'| && 4 * s + 4 <= |k| && s < |trans| && k[4 * s .. 4 * s + 4] == k'[4 * s .. 4 * s + 4]
    ensures IpOut(k, trans, s, v) == IpOut(k', trans, s, v)
  {
    var w := k[4 * s .. 4 * s + 4];
    assert k[4 * s] == w[0] && k[4 * s + 1] == w[1] && k[4 * s + 2] == w[2] && k[4 * s + 3] == w[3];
    assert k'[4 * s] == w[0] && k'[4 * s + 1] == w[1] && k'[4 * s + 2] == w[2] && k'[4 * s + 3] == w[3];
  }

  /**
   * The same layer stated over the integers: the inner product of keys
   * k[o .. o + 3] with the 16-bit pieces, mod p36, mod 2^32, XOR the
   * translation key of stream s, big-endian.
   */
  function IpRef(k: seq<U64>, trans: seq<U32>, s: nat, o: nat, v: U64): (r: seq<Byte>)
    requires o + 4 <= |k| && s < |trans|
  {
    Xor(StoreBE32(IpSum(k, o, v) % P36 % TWO32), StoreBE32(trans[s]))
  }

  /** With keys below p36, each stream's output is that exact reduction over keys 4s .. 4s + 3, with no 64-bit wrap-around on the way. */
  lemma {:induction false} IpOutIsRef(k: seq<U64>, trans: seq<U32>, s: nat, v: U64)
    requires 4 * s + 4 <= |k| && s < |trans| && KeysBelow(k, 4 * s)
    ensures IpOut(k, trans, s, v) == IpRef(k, trans, s, 4 * s, v)
  {
    IpAuxExact(k, 4 * s, v);
  }

  /** As written, stream s's output is the exact reduction over keys s .. s + 3. */
  lemma {:induction false} IpOutAsWrittenIsRef(k: seq<U64>, trans: seq<U32>, s: nat, v: U64)
    requires s + 4 <= |k| && s < |trans| && KeysBelow(k, s)
    ensures IpOutAsWritten(k, trans, s, v) == IpRef(k, trans, s, s, v)
  {
    IpAuxExact(k, s, v);
  }

  /**
   * The keys as the code reads them, laid out where the intended layer
   * looks for them: stream 0's keys k[0 .. 3], then stream 1's k[1 .. 4].
   */
  function ReadLayout(k: seq<U64>): (r: seq<U64>)
    requires |k| == 8
    ensures |r| == 8
    ensures forall j | 0 <= j < 4 :: r[j] == k[j]
    ensures forall j | 4 <= j < 8 :: r[j] == k[j - 3]
  {
    k[0 .. 4] + k[1 .. 5]
  }

  /** The code's layer is the intended layer run on the keys it actually reads. */
  lemma {:induction false} AsWrittenIsReadLayout(k: seq<U64>, trans: seq<U32>, vs: seq<U64>)
    requires |k| == 8 && |trans| == 2 && |vs| == 2
    ensures IpBytesAsWritten(k, trans, vs) == IpBytes(ReadLayout(k), trans, vs)
  {
    var k' := ReadLayout(k);
    assert IpAux(0, k, 0, vs[0]) == IpAux(0, k', 0, vs[0]);
    assert IpAux(0, k, 1, vs[1]) == IpAux(0, k', 4, vs[1]);
  }
}

=== FILE: kdf.dfy ===
/**
 * The UMAC key-derivation function `kdf` (section 3 of RFC 4418, in the
 * output-feedback form of the draft the source follows): AES is applied
 * to the chain block 0^15 || index, then to its own output, again and
 * again, and the outputs are concatenated.
 */
module Kdf {
  import opened Bytes
  import opened Aes

  /** The initial chain block: fifteen zero bytes, then the index. */
  function Chain(index: Byte): (c: seq<Byte>)
    ensures |c| == 16 && c[15] == index && forall i :: 0 <= i < 15 ==> c[i] == 0
  {
    Zeros(15) + [index]
  }

  /** Output block i: the block cipher E applied i + 1 times to the chain block. */
  function KdfBlock(E: seq<Byte> -> seq<Byte>, index: Byte, i: nat): (b: seq<Byte>)
    requires IsBlockCipher(E)
    ensures |b| == 16
  {
    if i == 0 then E(Chain(index)) else E(KdfBlock(E, index, i - 1))
  }

  /** The first k output blocks, concatenated. */
  function KdfStream(E: seq<Byte> -> seq<Byte>, index: Byte, k: nat): (s: seq<Byte>)
    requires IsBlockCipher(E)
    ensures |s| == 16 * k
  {
    if k == 0 then [] else KdfStream(E, index, k - 1) + KdfBlock(E, index, k - 1)
  }

  /** The n bytes `kdf(buf, key, index, n)` writes. */
  function KdfBytes(E: seq<Byte> -> seq<Byte>, index: Byte, n: nat): (r: seq<Byte>)
    requires IsBlockCipher(E)
    ensures |r| == n
  {
    KdfStream(E, index, (n + 15) / 16)[..n]
  }

  /** A shorter stream is a prefix of a longer one. */
  lemma {:induction false} StreamPrefix(E: seq<Byte> -> seq<Byte>, index: Byte, j: nat, k: nat)
    requires IsBlockCipher(E) && j <= k
    ensures KdfStream(E, index, j) == KdfStream(E, index, k)[..16 * j]
    decreases k
  {
    if j < k {
      StreamPrefix(E, index, j, k - 1);
      assert KdfStream(E, index, k)[..16 * (k - 1)] == KdfStream(E, index, k - 1);
    }
  }

  /** Asking kdf for fewer bytes yields a prefix of what a longer request yields. */
  lemma KdfPrefix(E: seq<Byte> -> seq<Byte>, index: Byte, n: nat, m: nat)
    requires IsBlockCipher(E) && n <= m
    ensures KdfBytes(E, index, n) == KdfBytes(E, index, m)[..n]
  {
    StreamPrefix(E, index, (n + 15) / 16, (m + 15) / 16);
  }

  /** Two block functions that agree on every 16-byte block. */
  ghost predicate SameCipher(E: seq<Byte> -> seq<Byte>, F: seq<Byte> -> seq<Byte>)
  {
    forall x :: |x| == 16 ==> E(x) == F(x)
  }

  /** Two functions computing AES under one key are the same block function. */
  lemma ComputesSame(E: seq<Byte> -> seq<Byte>, F: seq<Byte> -> seq<Byte>, key: seq<Byte>)
    requires Computes(E, key) && Computes(F, key)
    ensures SameCipher(E, F)
  {
    forall x | |x| == 16 ensures E(x) == F(x) {
      assert E(x) == Encrypt(key, x);
    }
  }

  /** Every output block depends on the block function only through its values on blocks. */
  lemma {:induction false} BlockAgree(E: seq<Byte> -> seq<Byte>, F: seq<Byte> -> seq<Byte>, index: Byte, i: nat)
    requires IsBlockCipher(E) && IsBlockCipher(F) && SameCipher(E, F)
    ensures KdfBlock(E, index, i) == KdfBlock(F, index, i)
  {
    var x := if i == 0 then Chain(index) else KdfBlock(E, index, i - 1);
    if i > 0 {
      BlockAgree(E, F, index, i - 1);
    }
    assert |x| == 16;
    assert E(x) == F(x);
  }

  /** So does the stream. */
  lemma {:induction false} StreamAgree(E: seq<Byte> -> seq<Byte>, F: seq<Byte> -> seq<Byte>, index: Byte, k: nat)
    requires IsBlockCipher(E) && IsBlockCipher(F) && SameCipher(E, F)
    ensures KdfStream(E, index, k) == KdfStream(F, index, k)
  {
    hide KdfBlock;
    if k > 0 {
      StreamAgree(E, F, index, k - 1);
      BlockAgree(E, F, index, k - 1);
    }
  }

  /** So the derived bytes are the same too. */
  lemma KdfAgree(E: seq<Byte> -> seq<Byte>, F: seq<Byte> -> seq<Byte>, index: Byte, n: nat)
    requires IsBlockCipher(E) && IsBlockCipher(F) && SameCipher(E, F)
    ensures KdfBytes(E, index, n) == KdfBytes(F, index, n)
  {
    StreamAgree(E, F, index, (n + 15) / 16);
  }

  /** Block i of the stream sits at bytes 16i .. 16i + 15. */
  lemma StreamBlock(E: seq<Byte> -> seq<Byte>, index: Byte, i: nat, k: nat)
    requires IsBlockCipher(E) && i < k
    ensures KdfStream(E, index, k)[16 * i .. 16 * i + 16] == KdfBlock(E, index, i)
  {
    StreamPrefix(E, index, i + 1, k);
    assert KdfStream(E, index, i + 1)[16 * i ..] == KdfBlock(E, index, i);
  }

  /** The n bytes for a whole number k of blocks are the stream itself. */
  lemma WholeBlocks(E: seq<Byte> -> seq<Byte>, index: Byte, k: nat, n: nat)
    requires IsBlockCipher(E) && n == 16 * k
    ensures KdfBytes(E, index, n) == KdfStream(E, index, k)
  {
    assert (n + 15) / 16 == k;
  }

  /** With r bytes past k whole blocks, the head of block k follows the stream. */
  lemma PartialBlock(E: seq<Byte> -> seq<Byte>, index: Byte, k: nat, r: nat, n: nat)
    requires IsBlockCipher(E) && 0 < r < 16 && n == 16 * k + r
    ensures KdfBytes(E, index, n) == KdfStream(E, index, k) + KdfBlock(E, index, k)[..r]
  {
    assert (n + 15) / 16 == k + 1;
  }

  /** Writing b at pos after a prefix a gives the prefix a + b. */
  lemma Appended(s: seq<Byte>, pos: nat, a: seq<Byte>, b: seq<Byte>)
    requires pos + |b| <= |s| && s[..pos] == a && s[pos .. pos + |b|] == b
    ensures s[..pos + |b|] == a + b
  {
    assert s[..pos + |b|] == s[..pos] + s[pos .. pos + |b|];
  }

  /** One turn of kdf: encrypt the chain block in place and copy its first n bytes to buf at pos. */
  method NextBlock(buf: array<Byte>, pos: nat, chain: array<Byte>, rk: array<Byte>,
                   ghost E: seq<Byte> -> seq<Byte>, index: Byte, ghost k: nat, n: nat)
    requires Keyed(rk, E)
    requires buf != rk && chain != rk && chain != buf && chain.Length == 16
    requires pos == 16 * k && 0 < n <= 16 && pos + n <= buf.Length
    requires buf[..pos] == KdfStream(E, index, k)
    requires chain[..] == if k == 0 then Chain(index) else KdfBlock(E, index, k - 1)
    modifies buf, chain
    ensures chain[..] == KdfBlock(E, index, k)
    ensures buf[..pos + n] == KdfStream(E, index, k) + KdfBlock(E, index, k)[..n]
  {
    AesBlock(chain, chain, rk, E);
    Store(buf, pos, chain[..n]);
    Appended(buf[..], pos, KdfStream(E, index, k), KdfBlock(E, index, k)[..n]);
  }

  /**
   * kdf: fill buf with the derivation stream for index under the block
   * function E that the expanded key rk computes.  Whole blocks are copied while at least 16 bytes remain,
   * then the head of one more block.
   */
  method Derive(buf: array<Byte>, rk: array<Byte>, ghost E: seq<Byte> -> seq<Byte>, index: Byte)
    requires Keyed(rk, E) && buf != rk
    modifies buf
    ensures buf[..] == KdfBytes(E, index, buf.Length)
  {
    var chain := FromSeq(Chain(index));
    var pos: nat, nbytes: nat := 0, buf.Length;
    ghost var k: nat := 0;
    while nbytes >= 16
      invariant pos == 16 * k && pos + nbytes == buf.Length
      invariant buf[..pos] == KdfStream(E, index, k)
      invariant chain[..] == if k == 0 then Chain(index) else KdfBlock(E, index, k - 1)
    {
      NextBlock(buf, pos, chain, rk, E, index, k, 16);
      assert KdfBlock(E, index, k)[..16] == KdfBlock(E, index, k);
      pos, nbytes, k := pos + 16, nbytes - 16, k + 1;
    }
    if nbytes > 0 {
      NextBlock(buf, pos, chain, rk, E, index, k, nbytes);
      assert buf[..] == buf[..pos + nbytes];
      PartialBlock(E, index, k, nbytes, buf.Length);
    } else {
      assert buf[..] == buf[..pos];
      WholeBlocks(E, index, k, buf.Length);
    }
  }
}

=== FILE: linediff.dfy ===
/**
 * What the ps and df entropy gatherers share: the C string functions they
 * call (strcmp, strncmp), the loops that skip a space-delimited
 * field, the sorted-merge count that diff_ps_for_entropy and
 * diff_df_for_entropy compute, and the ordering qsort establishes.
 *
 * A line is a NUL-free string; reading index |s| reads its terminating
 * NUL.  Scanning functions are total so that they can be passed around,
 * but the methods that mirror the C loops require the line to have the
 * spaces the loops look for, since the C loops read past the NUL
 * otherwise.
 */
module LineDiff {

  function Min(x: nat, y: nat): nat
  {
    if x < y then x else y
  }

  /**
   * strcmp on NUL-free strings, reduced to its sign: the first differing
   * character decides, a proper prefix is smaller.
   */
  function Compare(a: string, b: string): (r: int)
    ensures -1 <= r <= 1
    ensures r == 0 <==> a == b
  {
    if a == [] then (if b == [] then 0 else -1)
    else if b == [] then 1
    else if a[0] < b[0] then -1
    else if b[0] < a[0] then 1
    else
      var r := Compare(a[1..], b[1..]);
      assert a == [a[0]] + a[1..] && b == [b[0]] + b[1..];
      r
  }

  /** Swapping the arguments of strcmp negates the result. */
  lemma {:induction false} CompareAntisym(a: string, b: string)
    ensures Compare(b, a) == -Compare(a, b)
  {
    if a != [] && b != [] && a[0] == b[0] {
      CompareAntisym(a[1..], b[1..]);
    }
  }

  /** strcmp is a total order: it is transitive, strictly so when either step is strict. */
  lemma {:induction false} CompareTrans(a: string, b: string, c: string)
    requires Compare(a, b) <= 0 && Compare(b, c) <= 0
    ensures Compare(a, c) <= 0
    ensures Compare(a, b) < 0 || Compare(b, c) < 0 ==> Compare(a, c) < 0
  {
    if a != [] && b != [] && c != [] && a[0] == b[0] && b[0] == c[0] {
      CompareTrans(a[1..], b[1..], c[1..]);
    }
    if Compare(a, c) == 0 {
      CompareAntisym(a, b);
    }
  }

  /** u is a prefix of v. */
  predicate IsPrefix(u: string, v: string)
  {
    |u| <= |v| && u == v[.. |u|]
  }

  /**
   * When neither of u and v is a prefix of the other they differ inside
   * both, so whatever follows them cannot change strcmp's verdict.
   */
  lemma {:induction false} CompareAppend(u: string, v: string, x: string, y: string)
    requires !IsPrefix(u, v) && !IsPrefix(v, u)
    ensures Compare(u + x, v + y) == Compare(u, v)
  {
    assert u != [] && v != [];
    assert (u + x)[0] == u[0] && (v + y)[0] == v[0];
    if u[0] == v[0] {
      assert (u + x)[1..] == u[1..] + x && (v + y)[1..] == v[1..] + y;
      PrefixTail(u, v);
      PrefixTail(v, u);
      CompareAppend(u[1..], v[1..], x, y);
    }
  }

  /** Dropping an equal first character keeps the prefix relation. */
  lemma PrefixTail(u: string, v: string)
    requires u != [] && v != [] && u[0] == v[0]
    ensures IsPrefix(u[1..], v[1..]) <==> IsPrefix(u, v)
  {
    if |u| <= |v| {
      assert v[1..][.. |u| - 1] == v[.. |u|][1..];
      assert u == [u[0]] + u[1..] && v[.. |u|] == [v[0]] + v[.. |u|][1..];
    }
  }

  /** The first n characters of t, or all of t when it is shorter: where strncmp stops. */
  function Prefix(t: string, n: nat): (r: string)
    ensures IsPrefix(r, t) && |r| == Min(n, |t|)
  {
    if n <= |t| then t[.. n] else t
  }

  /** t from index k on; empty when k is past the end. */
  function Drop(t: string, k: nat): (r: string)
    ensures |r| == |t| - Min(k, |t|)
    ensures forall i | 0 <= i < |r| :: r[i] == t[k + i]
  {
    if k <= |t| then t[k..] else []
  }

  /** strncmp on NUL-free strings, reduced to its sign: at most n characters of each compared. */
  function StrNCmp(a: string, b: string, n: nat): int
  {
    Compare(Prefix(a, n), Prefix(b, n))
  }

  /** strncmp with its arguments swapped gives the negated result. */
  lemma StrNCmpAntisym(a: string, b: string, n: nat)
    ensures StrNCmp(b, a, n) == -StrNCmp(a, b, n)
  {
    CompareAntisym(Prefix(a, n), Prefix(b, n));
  }

  /**
   * Index of the first ' ' at or after p, or |s| (the NUL) when there is
   * none; p itself when p is past the NUL.
   */
  function SpaceFrom(s: string, p: nat): (r: nat)
    ensures p <= r && (p <= |s| ==> r <= |s|) && (p > |s| ==> r == p)
    ensures r < |s| ==> s[r] == ' '
    ensures forall i | p <= i < r && i < |s| :: s[i] != ' '
    decreases |s| - p
  {
    if p >= |s| || s[p] == ' ' then p else SpaceFrom(s, p + 1)
  }

  /**
   * Index of the first character other than ' ' at or after p, |s| when
   * only spaces follow; p itself when p is past the NUL.
   */
  function NonSpaceFrom(s: string, p: nat): (r: nat)
    ensures p <= r && (p <= |s| ==> r <= |s|) && (p > |s| ==> r == p)
    ensures r < |s| ==> s[r] != ' '
    ensures forall i | p <= i < r && i < |s| :: s[i] == ' '
    decreases |s| - p
  {
    if p >= |s| || s[p] != ' ' then p else NonSpaceFrom(s, p + 1)
  }

  /** One step of either scan. */
  lemma ScanStep(s: string, q: nat)
    requires q < |s|
    ensures s[q] == ' ' ==> SpaceFrom(s, q) == q && NonSpaceFrom(s, q) == NonSpaceFrom(s, q + 1)
    ensures s[q] != ' ' ==> NonSpaceFrom(s, q) == q && SpaceFrom(s, q) == SpaceFrom(s, q + 1)
  {
  }

  /**
   * `while (*p++ != ' '); while (*p == ' ') p++;`: past the next space
   * and the spaces after it.
   */
  function SkipField(s: string, p: nat): nat
  {
    NonSpaceFrom(s, SpaceFrom(s, p) + 1)
  }

  /** n fields can be skipped from p without reading past the NUL: each has a ' ' after it. */
  predicate HasFields(s: string, n: nat, p: nat)
    decreases n
  {
    n == 0 || (SpaceFrom(s, p) < |s| && HasFields(s, n - 1, SkipField(s, p)))
  }

  /** Where p stands after skipping n fields from p. */
  function FieldsFrom(s: string, n: nat, p: nat): nat
    decreases n
  {
    if n == 0 then p else FieldsFrom(s, n - 1, SkipField(s, p))
  }

  /** A field: non-empty and without spaces. */
  predicate Word(w: string)
  {
    w != [] && ' ' !in w
  }

  /** The gap after a field: one or more spaces. */
  predicate Gap(g: string)
  {
    g != [] && forall i | 0 <= i < |g| :: g[i] == ' '
  }

  /** Fields, each followed by its gap. */
  function Fielded(ws: seq<string>, gs: seq<string>): string
    requires |ws| == |gs|
  {
    if ws == [] then [] else ws[0] + gs[0] + Fielded(ws[1..], gs[1..])
  }

  /** The first space after a field is the one that ends it. */
  lemma SpaceAfterWord(s: string, p: nat, w: string)
    requires Word(w) && p + |w| < |s| && s[p .. p + |w|] == w && s[p + |w|] == ' '
    ensures SpaceFrom(s, p) == p + |w|
  {
    assert forall i | p <= i < p + |w| :: s[i] == w[i - p];
  }

  /** Skipping spaces stops at the end of the gap. */
  lemma NonSpaceAfterGap(s: string, p: nat, g: string)
    requires p + |g| <= |s| && s[p .. p + |g|] == g && (forall i | 0 <= i < |g| :: g[i] == ' ')
    requires p + |g| == |s| || s[p + |g|] != ' '
    ensures NonSpaceFrom(s, p) == p + |g|
  {
    assert forall i | p <= i < p + |g| :: s[i] == g[i - p];
  }

  /** The first space from p is at q when none comes between. */
  lemma SpaceAt(s: string, p: nat, q: nat)
    requires p <= q < |s| && s[q] == ' ' && forall i | p <= i < q :: s[i] != ' '
    ensures SpaceFrom(s, p) == q
  {
  }

  /** The first non-space from p is at q (or the NUL at q) when only spaces come between. */
  lemma NonSpaceAt(s: string, p: nat, q: nat)
    requires p <= q <= |s| && (q == |s| || s[q] != ' ') && forall i | p <= i < q :: s[i] == ' '
    ensures NonSpaceFrom(s, p) == q
  {
  }

  /** A piece of a slice of s is a slice of s. */
  lemma Within(s: string, p: nat, t: string, i: nat, j: nat)
    requires p + |t| <= |s| && s[p .. p + |t|] == t && i <= j <= |t|
    ensures s[p + i .. p + j] == t[i .. j]
  {
    assert forall k | p <= k < p + |t| :: s[k] == t[k - p];
  }

  /** One field and its gap, unfolded. */
  lemma FieldedCons(ws: seq<string>, gs: seq<string>)
    requires |ws| == |gs|
    ensures ws == [] ==> Fielded(ws, gs) == []
    ensures ws != [] ==> Fielded(ws, gs) == ws[0] + gs[0] + Fielded(ws[1..], gs[1..])
    ensures ws != [] ==> |Fielded(ws, gs)| == |ws[0] + gs[0]| + |Fielded(ws[1..], gs[1..])|
  {
  }

  /** Skipping a field that starts at p ends after its gap, within the line. */
  lemma SkipOne(s: string, p: nat, w: string, g: string)
    requires Word(w) && Gap(g) && p + |w + g| <= |s| && s[p .. p + |w + g|] == w + g
    requires p + |w + g| == |s| || s[p + |w + g|] != ' '
    ensures SpaceFrom(s, p) < |s| && SkipField(s, p) == p + |w + g|
  {
    var q := p + |w|;
    Within(s, p, w + g, 0, |w|);
    assert (w + g)[|w|] == g[0];
    SpaceAfterWord(s, p, w);
    Within(s, p, w + g, |w| + 1, |w + g|);
    assert (w + g)[|w| + 1 ..] == g[1..];
    NonSpaceAfterGap(s, q + 1, g[1..]);
  }

  /**
   * Skipping the fields of a line that starts, at p, with those fields
   * and their gaps stays within the line and ends where the fields end,
   * provided what follows is not a space.
   */
  lemma {:induction false} SkipFielded(s: string, p: nat, ws: seq<string>, gs: seq<string>)
    requires |ws| == |gs| && (forall i | 0 <= i < |ws| :: Word(ws[i]) && Gap(gs[i]))
    requires p + |Fielded(ws, gs)| <= |s| && s[p .. p + |Fielded(ws, gs)|] == Fielded(ws, gs)
    requires p + |Fielded(ws, gs)| == |s| || s[p + |Fielded(ws, gs)|] != ' '
    ensures HasFields(s, |ws|, p) && FieldsFrom(s, |ws|, p) == p + |Fielded(ws, gs)|
    decreases |ws|
  {
    hide Fielded, SpaceFrom, NonSpaceFrom, SkipField;
    FieldedCons(ws, gs);
    if ws != [] {
      var w, g, more := ws[0], gs[0], Fielded(ws[1..], gs[1..]);
      var f := Fielded(ws, gs);
      var e := p + |w + g|;
      assert s[p .. e] == w + g && s[e .. p + |f|] == more && (e == |s| || s[e] != ' ') by {
        Within(s, p, f, 0, |w + g|);
        Within(s, p, f, |w + g|, |f|);
        FieldedCons(ws[1..], gs[1..]);
        if ws[1..] != [] {
          assert ws[1..][0] != [] && ws[1..][0][0] != ' ';
          assert s[e] == more[0] == ws[1..][0][0];
        }
      }
      SkipOne(s, p, w, g);
      var q := SkipField(s, p);
      SkipFielded(s, q, ws[1..], gs[1..]);
      assert HasFields(s, |ws[1..]|, q) && FieldsFrom(s, |ws[1..]|, q) == p + |f|;
      assert |ws| == |ws[1..]| + 1;
    }
  }

  /** `while (s[q] != ' ') q++;`: on to the next space, which must come before the NUL. */
  method ToSpace(s: string, q0: nat) returns (q: nat)
    requires SpaceFrom(s, q0) < |s|
    ensures q == SpaceFrom(s, q0)
  {
    hide SpaceFrom, NonSpaceFrom;
    q := q0;
    while s[q] != ' '
      invariant q0 <= q <= SpaceFrom(s, q0) && SpaceFrom(s, q) == SpaceFrom(s, q0)
      decreases |s| - q
    {
      ScanStep(s, q);
      q := q + 1;
    }
    ScanStep(s, q);
  }

  /** `while (s[q] == ' ') q++;`: past the spaces at q; reading the NUL stops it. */
  method SkipSpaces(s: string, q0: nat) returns (q: nat)
    requires q0 <= |s|
    ensures q == NonSpaceFrom(s, q0)
  {
    hide SpaceFrom, NonSpaceFrom;
    q := q0;
    while q < |s| && s[q] == ' '
      invariant q0 <= q <= |s| && NonSpaceFrom(s, q) == NonSpaceFrom(s, q0)
      decreases |s| - q
    {
      ScanStep(s, q);
      q := q + 1;
    }
    if q < |s| {
      ScanStep(s, q);
    }
  }

  /**
   * The loops `while (*p++ != ' '); while (*p == ' ') p++;` that
   * skip one field.
   */
  method SkipFieldLoops(s: string, p0: nat) returns (p: nat)
    requires SpaceFrom(s, p0) < |s|
    ensures p == SkipField(s, p0) && p <= |s|
  {
    p := ToSpace(s, p0);
    p := SkipSpaces(s, p + 1);
  }

  /** An unsigned char incremented: e + 1, wrapping at 256. */
  function Inc(e: nat): nat
  {
    (e + 1) % 256
  }

  /** Incrementing the unsigned char keeps it the count modulo 256. */
  lemma IncWraps(e: nat, total: nat)
    requires e == total % 256
    ensures Inc(e) == (total + 1) % 256 && Inc(e) < 256
  {
  }

  /** Where p stands after the first n fields of s, as the unrolled loop pairs leave it. */
  method SkipFieldsLoops(s: string, n: nat) returns (p: nat)
    requires HasFields(s, n, 0)
    ensures p == FieldsFrom(s, n, 0) && p <= |s|
  {
    p := 0;
    for f := 0 to n
      invariant p <= |s| && HasFields(s, n - f, p) && FieldsFrom(s, n - f, p) == FieldsFrom(s, n, 0)
    {
      p := SkipFieldLoops(s, p);
    }
  }

  /** The text after the first n fields and the spaces that follow them. */
  function AfterFields(s: string, n: nat): string
  {
    Drop(s, FieldsFrom(s, n, 0))
  }

  /** A line made of n fields with their gaps and then rest keeps exactly rest after them. */
  lemma AfterFieldsOf(ws: seq<string>, gs: seq<string>, rest: string)
    requires |ws| == |gs| && (forall i | 0 <= i < |ws| :: Word(ws[i]) && Gap(gs[i]))
    requires rest == [] || rest[0] != ' '
    ensures HasFields(Fielded(ws, gs) + rest, |ws|, 0)
    ensures FieldsFrom(Fielded(ws, gs) + rest, |ws|, 0) == |Fielded(ws, gs)|
    ensures AfterFields(Fielded(ws, gs) + rest, |ws|) == rest
  {
    var s := Fielded(ws, gs) + rest;
    assert s[0 .. |Fielded(ws, gs)|] == Fielded(ws, gs);
    SkipFielded(s, 0, ws, gs);
  }

  // ---------------------------------------------------------------
  // The sorted merge of diff_ps_for_entropy / diff_df_for_entropy
  // ---------------------------------------------------------------

  /**
   * The number of changes the merge walk counts over the NULL-terminated
   * lists a and b, before the reduction to an unsigned char.  same is the
   * "same process" comparator: 0 pairs the heads, which count when the
   * whole lines differ; a negative result means a's head is gone, a
   * positive one that b's head is new; once a list ends, every line left
   * in the other counts.
   */
  function Count(a: seq<string>, b: seq<string>, same: (string, string) -> int): nat
    decreases |a| + |b|
  {
    if a == [] then |b|
    else if b == [] then |a|
    else
      var c := same(a[0], b[0]);
      if c == 0 then (if Compare(a[0], b[0]) != 0 then 1 else 0) + Count(a[1..], b[1..], same)
      else if c < 1 then 1 + Count(a[1..], b, same)
      else 1 + Count(a, b[1..], same)
  }

  /** The merge with an empty list on either side counts the other list. */
  lemma CountEnd(a: seq<string>, b: seq<string>, same: (string, string) -> int)
    requires a == [] || b == []
    ensures Count(a, b, same) == if a == [] then |b| else |a|
  {
  }

  /** One step of the merge. */
  lemma CountStep(a: seq<string>, b: seq<string>, same: (string, string) -> int)
    requires a != [] && b != []
    ensures var c := same(a[0], b[0]);
      Count(a, b, same) ==
        if c == 0 then (if Compare(a[0], b[0]) != 0 then 1 else 0) + Count(a[1..], b[1..], same)
        else if c < 1 then 1 + Count(a[1..], b, same)
        else 1 + Count(a, b[1..], same)
  {
  }

  /** Identical snapshots give no change when every line is the same process as itself. */
  lemma {:induction false} CountSelf(a: seq<string>, same: (string, string) -> int)
    requires forall x | x in a :: same(x, x) == 0
    ensures Count(a, a, same) == 0
    decreases |a|
  {
    if a != [] {
      CountSelf(a[1..], same);
    }
  }

  /**
   * Each merge step consumes at least one line and counts at most one, so
   * the count lies between the difference and the sum of the list lengths.
   */
  lemma {:induction false} CountBounds(a: seq<string>, b: seq<string>, same: (string, string) -> int)
    ensures Count(a, b, same) <= |a| + |b|
    ensures |a| - |b| <= Count(a, b, same) && |b| - |a| <= Count(a, b, same)
    decreases |a| + |b|
  {
    if a != [] && b != [] {
      var c := same(a[0], b[0]);
      if c == 0 {
        CountBounds(a[1..], b[1..], same);
      } else if c < 1 {
        CountBounds(a[1..], b, same);
      } else {
        CountBounds(a, b[1..], same);
      }
    }
  }

  /** With an antisymmetric comparator the count does not depend on which snapshot is the older. */
  lemma {:induction false} CountSymmetric(a: seq<string>, b: seq<string>, same: (string, string) -> int)
    requires forall x, y | x in a && y in b :: same(y, x) == -same(x, y)
    ensures Count(a, b, same) == Count(b, a, same)
    decreases |a| + |b|
  {
    if a != [] && b != [] {
      var c := same(a[0], b[0]);
      assert same(b[0], a[0]) == -c;
      CompareAntisym(a[0], b[0]);
      if c == 0 {
        CountSymmetric(a[1..], b[1..], same);
      } else if c < 1 {
        CountSymmetric(a[1..], b, same);
      } else {
        CountSymmetric(a, b[1..], same);
      }
    }
  }

  /** Sorted by key, as qsort leaves the lines: non-decreasing under strcmp. */
  predicate SortedBy(a: seq<string>, key: string -> string)
  {
    forall i, j | 0 <= i < j < |a| :: Compare(key(a[i]), key(a[j])) <= 0
  }

  /** Sorted by key with no key repeated. */
  predicate StrictlySorted(a: seq<string>, key: string -> string)
  {
    forall i, j | 0 <= i < j < |a| :: Compare(key(a[i]), key(a[j])) < 0
  }

  /** Some line of b has key k. */
  predicate HasKey(b: seq<string>, k: string, key: string -> string)
  {
    exists y :: y in b && key(y) == k
  }

  /** Some line of b has the key of x but differs from x. */
  predicate ChangedIn(b: seq<string>, x: string, key: string -> string)
  {
    exists y :: y in b && key(y) == key(x) && y != x
  }

  /** The lines of a whose key no line of b has. */
  function Unmatched(a: seq<string>, b: seq<string>, key: string -> string): nat
  {
    if a == [] then 0 else (if HasKey(b, key(a[0]), key) then 0 else 1) + Unmatched(a[1..], b, key)
  }

  /** The lines of a that b holds under the same key but changed. */
  function Changed(a: seq<string>, b: seq<string>, key: string -> string): nat
  {
    if a == [] then 0 else (if ChangedIn(b, a[0], key) then 1 else 0) + Changed(a[1..], b, key)
  }

  /** Against an empty list every line is unmatched and none changed. */
  lemma {:induction false} AgainstEmpty(a: seq<string>, key: string -> string)
    ensures Unmatched(a, [], key) == |a| && Changed(a, [], key) == 0
  {
    if a != [] {
      AgainstEmpty(a[1..], key);
    }
  }

  /** A line of b whose key no line of a has makes no difference to a's counts. */
  lemma {:induction false} DropOther(a: seq<string>, w: string, b: seq<string>, key: string -> string)
    requires forall z | z in a :: key(z) != key(w)
    ensures Unmatched(a, [w] + b, key) == Unmatched(a, b, key)
    ensures Changed(a, [w] + b, key) == Changed(a, b, key)
  {
    if a != [] {
      var x := a[0];
      assert HasKey([w] + b, key(x), key) == HasKey(b, key(x), key) by {
        if HasKey([w] + b, key(x), key) {
          var y :| y in [w] + b && key(y) == key(x);
          assert y in b;
        }
      }
      assert ChangedIn([w] + b, x, key) == ChangedIn(b, x, key) by {
        if ChangedIn([w] + b, x, key) {
          var y :| y in [w] + b && key(y) == key(x) && y != x;
          assert y in b;
        }
      }
      DropOther(a[1..], w, b, key);
    }
  }

  /** The lines after the head of a strictly sorted list have keys other than the head's. */
  lemma HeadKeyUnique(a: seq<string>, key: string -> string)
    requires a != [] && StrictlySorted(a, key)
    ensures StrictlySorted(a[1..], key)
    ensures forall z | z in a[1..] :: key(z) != key(a[0])
  {
    forall z | z in a[1..]
      ensures key(z) != key(a[0])
    {
      var i :| 0 <= i < |a[1..]| && a[1..][i] == z;
      assert Compare(key(a[0]), key(a[i + 1])) < 0;
    }
  }

  /** A key below the head of a strictly sorted list is below every key of the list. */
  lemma BelowHead(k: string, a: seq<string>, key: string -> string)
    requires a != [] && StrictlySorted(a, key) && Compare(k, key(a[0])) < 0
    ensures forall z | z in a :: key(z) != k
  {
    forall z | z in a
      ensures key(z) != k
    {
      var i :| 0 <= i < |a| && a[i] == z;
      if i > 0 {
        assert Compare(key(a[0]), key(a[i])) < 0;
        CompareTrans(k, key(a[0]), key(a[i]));
      }
    }
  }

  /**
   * When the comparator orders lines by a key and both lists are strictly
   * sorted by it, the merge counts exactly the lines that disappeared,
   * the lines that appeared, and the lines whose key stayed but whose
   * text changed.
   */
  lemma {:induction false} CountByKey(a: seq<string>, b: seq<string>, same: (string, string) -> int, key: string -> string)
    requires forall x, y | x in a && y in b :: same(x, y) == Compare(key(x), key(y))
    requires StrictlySorted(a, key) && StrictlySorted(b, key)
    ensures Count(a, b, same) == Unmatched(a, b, key) + Unmatched(b, a, key) + Changed(a, b, key)
    decreases |a| + |b|
  {
    if a == [] {
      AgainstEmpty(b, key);
    } else if b == [] {
      AgainstEmpty(a, key);
    } else {
      var x, y := a[0], b[0];
      var a', b' := a[1..], b[1..];
      assert a == [x] + a' && b == [y] + b';
      HeadKeyUnique(a, key);
      HeadKeyUnique(b, key);
      var c := same(x, y);
      if c == 0 {
        assert key(x) == key(y);
        CountByKey(a', b', same, key);
        assert HasKey(b, key(x), key) && HasKey(a, key(y), key);
        DropOther(a', y, b', key);
        DropOther(b', x, a', key);
        assert ChangedIn(b, x, key) == (x != y) by {
          if ChangedIn(b, x, key) {
            var z :| z in b && key(z) == key(x) && z != x;
            assert z == y;
          }
        }
      } else if c < 0 {
        CountByKey(a', b, same, key);
        BelowHead(key(x), b, key);
        assert !HasKey(b, key(x), key) && !ChangedIn(b, x, key);
        DropOther(b, x, a', key);
      } else {
        CountByKey(a, b', same, key);
        CompareAntisym(key(x), key(y));
        BelowHead(key(y), a, key);
        assert !HasKey(a, key(y), key);
        DropOther(a, y, b', key);
      }
    }
  }

  // ---------------------------------------------------------------
  // qsort of the lines after the header
  // ---------------------------------------------------------------

  /** x put before the first line of the sorted list a whose key is above its own. */
  function Insert(a: seq<string>, x: string, key: string -> string): (r: seq<string>)
    requires SortedBy(a, key)
    ensures SortedBy(r, key) && multiset(r) == multiset(a) + multiset{x}
  {
    if a == [] then [x]
    else if Compare(key(x), key(a[0])) <= 0 then
      InsertFront(a, x, key);
      [x] + a
    else
      var t := Insert(a[1..], x, key);
      InsertAfter(a, x, t, key);
      assert a == [a[0]] + a[1..];
      [a[0]] + t
  }

  /** Putting x first keeps the order when its key is not above the head's. */
  lemma InsertFront(a: seq<string>, x: string, key: string -> string)
    requires a != [] && SortedBy(a, key) && Compare(key(x), key(a[0])) <= 0
    ensures SortedBy([x] + a, key)
  {
    var r := [x] + a;
    forall i, j | 0 <= i < j < |r|
      ensures Compare(key(r[i]), key(r[j])) <= 0
    {
      if i == 0 && j > 1 {
        CompareTrans(key(x), key(a[0]), key(a[j - 1]));
      }
    }
  }

  /** Keeping the head in front keeps the order when x goes behind it. */
  lemma InsertAfter(a: seq<string>, x: string, t: seq<string>, key: string -> string)
    requires a != [] && SortedBy(a, key) && Compare(key(x), key(a[0])) > 0
    requires SortedBy(t, key) && multiset(t) == multiset(a[1..]) + multiset{x}
    ensures SortedBy([a[0]] + t, key)
  {
    var r := [a[0]] + t;
    forall i, j | 0 <= i < j < |r|
      ensures Compare(key(r[i]), key(r[j])) <= 0
    {
      if i == 0 {
        var z := t[j - 1];
        assert z in multiset(t);
        if z == x {
          CompareAntisym(key(x), key(a[0]));
        } else {
          assert z in multiset(a[1..]);
          var k :| 0 <= k < |a[1..]| && a[1..][k] == z;
          assert a[k + 1] == z;
        }
      }
    }
  }

  /**
   * qsort of the lines by key: a permutation of them, sorted.  qsort is
   * not stable; lines with equal keys may come out in another order than
   * this insertion sort gives them.
   */
  method SortLines(a: seq<string>, key: string -> string) returns (r: seq<string>)
    ensures multiset(r) == multiset(a) && SortedBy(r, key)
  {
    r := [];
    for i := 0 to |a|
      invariant multiset(r) == multiset(a[.. i]) && SortedBy(r, key)
    {
      assert a[.. i + 1] == a[.. i] + [a[i]];
      r := Insert(r, a[i], key);
    }
    assert a[.. |a|] == a;
  }
}

=== FILE: nh.dfy ===
/**
 * NH, the first layer of UHASH (section 5.2.1 of RFC 4418), as the source
 * computes it for WORD_LEN 4 and two streams (UMAC_OUTPUT_LEN 8).
 *
 * The key is a sequence of 32-bit words K (the nh_key bytes read as words
 * after endian conversion).  A message of 32-byte chunks is hashed by
 * stream s starting at key word ko + 4s: chunk c contributes
 *   sum_{j<4} (K[o+j] + m[j]) * (K[o+j+4] + m[j+4])   with o = ko + 4s + 8c,
 * where m are the chunk's little-endian 32-bit words, each sum inside the
 * parentheses is taken mod 2^32 and the total mod 2^64.
 */
module Nh {
  import opened Bytes
  import opened Endian
  import Aes
  import Kdf

  const L1KeyLen: nat := 1024
  const HashBufBytes: nat := 128
  const PadBoundary: nat := 32
  /** nh_key holds L1_KEY_LEN + 16 bytes (the second stream's key is shifted 16 bytes): 260 words. */
  const KeyBytes: nat := 1040
  const KeyWords: nat := 260

  /** 32-bit addition with wrap-around (UINT32 +). */
  function Add32(a: U32, b: U32): (r: U32)
  {
    if a + b < TWO32 then a + b else a + b - TWO32
  }

  /** Add32 is addition mod 2^32. */
  lemma Add32IsMod(a: U32, b: U32)
    ensures Add32(a, b) == (a + b) % TWO32
  {
  }

  /** Message word k of M: its bytes 4k .. 4k + 3, little-endian (LOAD_UINT32_LITTLE). */
  function Word(M: seq<Byte>, k: nat): U32
    requires 4 * k + 4 <= |M|
  {
    LE32(M[4 * k .. 4 * k + 4])
  }

  /** The n little-endian 32-bit words of M. */
  function Words(M: seq<Byte>, n: nat): (W: seq<U32>)
    requires |M| == 4 * n
    ensures |W| == n
  {
    seq(n, k requires 0 <= k < n => Word(M, k))
  }

  /** The words of A + B, for A of a whole number of words. */
  lemma WordsAppend(A: seq<Byte>, B: seq<Byte>, AB: seq<Byte>, na: nat, nb: nat, n: nat)
    requires |A| == 4 * na && |B| == 4 * nb && n == na + nb && AB == A + B
    ensures Words(AB, n) == Words(A, na) + Words(B, nb)
  {
    forall k | 0 <= k < n
      ensures Words(AB, n)[k] == (Words(A, na) + Words(B, nb))[k]
    {
      hide LE32;
      if k < na {
        assert AB[4 * k .. 4 * k + 4] == A[4 * k .. 4 * k + 4];
      } else {
        var j := k - na;
        assert 4 * k == 4 * na + 4 * j;
        assert AB[4 * k .. 4 * k + 4] == B[4 * j .. 4 * j + 4];
      }
    }
  }

  /** The 64-bit product of two 32-bit values (it cannot overflow), written as repeated addition. */
  function Product(a: nat, b: nat): nat
  {
    if b == 0 then 0 else a + Product(a, b - 1)
  }

  /** Product is multiplication. */
  lemma {:induction false} ProductIsMul(a: nat, b: nat)
    ensures Product(a, b) == a * b
  {
    if b > 0 {
      ProductIsMul(a, b - 1);
    }
  }

  /**
   * Product j of the chunk of W at word w under the key at word o:
   * (K[o + j] + W[w + j]) * (K[o + j + 4] + W[w + j + 4]), sums mod 2^32.
   */
  function Term(K: seq<U32>, o: nat, W: seq<U32>, w: nat, j: nat): nat
    requires o + j + 4 < |K| && w + j + 4 < |W|
  {
    Product(Add32(K[o + j], W[w + j]), Add32(K[o + j + 4], W[w + j + 4]))
  }

  /** How many words of W (and of K past ko) the first c chunks and j products of chunk c read. */
  function Reach(c: nat, j: nat): nat
  {
    if j == 0 then 8 * c else 8 * c + 8
  }

  /**
   * The NH sum (before reduction mod 2^64) of the first c 8-word chunks of
   * W and the first j products of chunk c, chunk i keyed from word ko + 8i:
   * the products in the order the source adds them.
   */
  function NhSum(K: seq<U32>, ko: nat, W: seq<U32>, c: nat, j: nat): nat
    requires j <= 4 && Reach(c, j) <= |W| && ko + Reach(c, j) <= |K|
    decreases c, j
  {
    if j == 0 then
      (if c == 0 then 0 else NhSum(K, ko, W, c - 1, 4))
    else
      NhSum(K, ko, W, c, j - 1) + Term(K, ko + 8 * c, W, 8 * c, j - 1)
  }

  /** Chunk c, keyed from word kp = ko + 8c, at word w = 8c, adds its four products. */
  lemma NhSumChunk(K: seq<U32>, ko: nat, W: seq<U32>, c: nat, kp: nat, w: nat)
    requires kp == ko + 8 * c && w == 8 * c && w + 8 <= |W| && kp + 8 <= |K|
    ensures NhSum(K, ko, W, c + 1, 0)
         == NhSum(K, ko, W, c, 0) + Term(K, kp, W, w, 0) + Term(K, kp, W, w, 1) + Term(K, kp, W, w, 2) + Term(K, kp, W, w, 3)
  {
    assert NhSum(K, ko, W, c + 1, 0) == NhSum(K, ko, W, c, 4);
    assert NhSum(K, ko, W, c, 4) == NhSum(K, ko, W, c, 3) + Term(K, kp, W, w, 3);
    assert NhSum(K, ko, W, c, 3) == NhSum(K, ko, W, c, 2) + Term(K, kp, W, w, 2);
    assert NhSum(K, ko, W, c, 2) == NhSum(K, ko, W, c, 1) + Term(K, kp, W, w, 1);
  }

  /** The first c chunks of W are those of any extension of W. */
  lemma {:induction false} NhSumPrefix(K: seq<U32>, ko: nat, A: seq<U32>, B: seq<U32>, c: nat)
    requires 8 * c <= |A| && ko + 8 * c <= |K|
    ensures NhSum(K, ko, A + B, c, 0) == NhSum(K, ko, A, c, 0)
  {
    if c > 0 {
      var w := 8 * (c - 1);
      NhSumPrefix(K, ko, A, B, c - 1);
      NhSumChunk(K, ko, A + B, c - 1, ko + w, w);
      NhSumChunk(K, ko, A, c - 1, ko + w, w);
    }
  }

  /** Hashing A (ca whole chunks) then B adds the sum of B keyed 8 ca words further on. */
  lemma {:induction false} NhSumAppend(K: seq<U32>, ko: nat, A: seq<U32>, B: seq<U32>, ca: nat, cb: nat)
    requires |A| == 8 * ca && 8 * cb <= |B| && ko + 8 * (ca + cb) <= |K|
    ensures NhSum(K, ko, A + B, ca + cb, 0) == NhSum(K, ko, A, ca, 0) + NhSum(K, ko + 8 * ca, B, cb, 0)
  {
    if cb == 0 {
      NhSumPrefix(K, ko, A, B, ca);
    } else {
      NhSumAppend(K, ko, A, B, ca, cb - 1);
      var w := 8 * (cb - 1);
      NhSumChunk(K, ko, A + B, ca + cb - 1, ko + |A| + w, |A| + w);
      NhSumChunk(K, ko + 8 * ca, B, cb - 1, ko + |A| + w, w);
    }
  }

  /**
   * nh_aux_16: hash the c 32-byte chunks of d into the two
   * accumulators of state h, the first keyed from word ko, the second from
   * word ko1 = ko + 4.  The source runs a do-while loop over |d| / 32
   * chunks, so it needs one chunk at least.
   */
  method NhAux(K: seq<U32>, ko: nat, ghost ko1: nat, d: seq<Byte>, ghost c: nat, h: array<U64>)
    requires h.Length == 2 && c > 0 && |d| == 32 * c && ko1 == ko + 4 && ko1 + 8 * c <= |K|
    modifies h
    ensures forall s | 0 <= s < 2 :: h[s] == Wrap64(old(h[s]) + NhSum(K, ko + 4 * s, Words(d, 8 * c), c, 0))
  {
    hide NhSum, Wrap64;
    var n := Quotient32(|d|, c);
    var h0, h1 := h[0], h[1];
    var s0, s1 := NhSums(K, ko, ko1, d, n);
    h[0], h[1] := (h0 + s0) % TWO64, (h1 + s1) % TWO64;
    WrapIsMod(h0 + s0);
    WrapIsMod(h1 + s1);
  }

  /** n / 32 for a multiple n of 32. */
  method Quotient32(n: nat, ghost q: nat) returns (r: nat)
    requires n == 32 * q
    ensures r == q
  {
    r := n / 32;
  }

  /**
   * The loop of nh_aux_16: the two streams' sums over the first c chunks of
   * d, added up exactly (the source adds them into the 64-bit accumulators
   * as it goes; the sum mod 2^64 is the same).
   */
  method NhSums(K: seq<U32>, ko: nat, ghost ko1: nat, d: seq<Byte>, c: nat) returns (s0: nat, s1: nat)
    requires c > 0 && |d| == 32 * c && ko1 == ko + 4 && ko1 + 8 * c <= |K|
    ensures s0 == NhSum(K, ko, Words(d, 8 * c), c, 0) && s1 == NhSum(K, ko1, Words(d, 8 * c), c, 0)
  {
    hide Term, Words;
    ghost var W := Words(d, 8 * c);
    s0, s1 := 0, 0;
    var n, kp, w := c, ko, 0;
    ghost var i: nat := 0;
    while n > 0
      invariant i + n == c && kp == ko + 8 * i && w == 8 * i
      invariant s0 == NhSum(K, ko, W, i, 0) && s1 == NhSum(K, ko1, W, i, 0)
    {
      var t0, t1 := ChunkPair(K, d, W, 8 * c, kp, w);
      NhSumChunk(K, ko, W, i, kp, w);
      NhSumChunk(K, ko1, W, i, kp + 4, w);
      s0, s1 := s0 + t0, s1 + t1;
      n, kp, w, i := n - 1, kp + 8, w + 8, i + 1;
    }
    assert i == c;
  }

  /**
   * One turn of nh_aux_16: the chunk of d at word w, read as eight
   * little-endian words, hashed under key words kp .. kp + 7 (first stream)
   * and kp + 4 .. kp + 11 (second stream).
   */
  method ChunkPair(K: seq<U32>, d: seq<Byte>, ghost W: seq<U32>, ghost nw: nat, kp: nat, w: nat) returns (t0: nat, t1: nat)
    requires |d| == 4 * nw && W == Words(d, nw) && w + 8 <= nw && kp + 12 <= |K|
    ensures t0 == Term(K, kp, W, w, 0) + Term(K, kp, W, w, 1) + Term(K, kp, W, w, 2) + Term(K, kp, W, w, 3)
    ensures t1 == Term(K, kp + 4, W, w, 0) + Term(K, kp + 4, W, w, 1) + Term(K, kp + 4, W, w, 2) + Term(K, kp + 4, W, w, 3)
  {
    var d0, d1, d2, d3, d4, d5, d6, d7 := LoadChunk(d, W, nw, w);
    var k0, k1, k2, k3 := K[kp], K[kp + 1], K[kp + 2], K[kp + 3];
    var k4, k5, k6, k7 := K[kp + 4], K[kp + 5], K[kp + 6], K[kp + 7];
    var k8, k9, k10, k11 := K[kp + 8], K[kp + 9], K[kp + 10], K[kp + 11];
    t0 := Product(Add32(k0, d0), Add32(k4, d4));
    t1 := Product(Add32(k4, d0), Add32(k8, d4));
    t0 := t0 + Product(Add32(k1, d1), Add32(k5, d5));
    t1 := t1 + Product(Add32(k5, d1), Add32(k9, d5));
    t0 := t0 + Product(Add32(k2, d2), Add32(k6, d6));
    t1 := t1 + Product(Add32(k6, d2), Add32(k10, d6));
    t0 := t0 + Product(Add32(k3, d3), Add32(k7, d7));
    t1 := t1 + Product(Add32(k7, d3), Add32(k11, d7));
  }

  /** The eight LOAD_UINT32_LITTLE reads of one chunk: words w .. w + 7 of d. */
  method LoadChunk(d: seq<Byte>, ghost W: seq<U32>, ghost nw: nat, w: nat) returns (d0: U32, d1: U32, d2: U32, d3: U32, d4: U32, d5: U32, d6: U32, d7: U32)
    requires |d| == 4 * nw && W == Words(d, nw) && w + 8 <= nw
    ensures d0 == W[w] && d1 == W[w + 1] && d2 == W[w + 2] && d3 == W[w + 3]
    ensures d4 == W[w + 4] && d5 == W[w + 5] && d6 == W[w + 6] && d7 == W[w + 7]
  {
    d0, d1, d2, d3 := Word(d, w), Word(d, w + 1), Word(d, w + 2), Word(d, w + 3);
    d4, d5, d6, d7 := Word(d, w + 4), Word(d, w + 5), Word(d, w + 6), Word(d, w + 7);
  }

  // ---------------------------------------------------------------------
  // The key as the hashing loop reads it.

  /** The n big-endian 32-bit words of s. */
  function BEWords(s: seq<Byte>, n: nat): (W: seq<U32>)
    requires |s| == 4 * n
    ensures |W| == n
  {
    seq(n, k requires 0 <= k < n => BE32(s[4 * k .. 4 * k + 4]))
  }

  /**
   * After endian_convert(buf, 4, n) on a little-endian host, the native
   * 32-bit loads of buf read the big-endian words of the original bytes.
   */
  lemma NativeKeyWords(s: seq<Byte>, n: nat)
    requires |s| == 4 * n
    ensures Words(SwapGroups(s, 4), n) == BEWords(s, n)
  {
    var r := SwapGroups(s, 4);
    forall k | 0 <= k < n
      ensures Words(r, n)[k] == BEWords(s, n)[k]
    {
      SwapGroupsAt(s, 4, 4 * k, k);
      LoadReversed32(s[4 * k .. 4 * k + 4]);
    }
  }

  // ---------------------------------------------------------------------
  // Reduction mod 2^64.

  /** x reduced mod 2^64, by repeated subtraction. */
  function Wrap64(x: nat): (r: U64)
    decreases x
  {
    if x < TWO64 then x else Wrap64(x - TWO64)
  }

  /** Wrap64 is the remainder mod 2^64, the UINT64 wrap-around. */
  lemma {:induction false} WrapIsMod(x: nat)
    ensures Wrap64(x) == x % TWO64
    decreases x
  {
    if x >= TWO64 {
      WrapIsMod(x - TWO64);
    }
  }

  /** Reducing the left operand first does not change a sum mod 2^64. */
  lemma ModAddLeft(x: nat, y: nat)
    ensures (x % TWO64 + y) % TWO64 == (x + y) % TWO64
  {
  }

  /** Wrapping an accumulator before adding y does not change the wrapped sum. */
  lemma WrapAdd(x: nat, y: nat)
    ensures Wrap64(Wrap64(x) + y) == Wrap64(x + y)
  {
    WrapIsMod(x);
    WrapIsMod(Wrap64(x) + y);
    WrapIsMod(x + y);
    ModAddLeft(x, y);
  }

  // ---------------------------------------------------------------------
  // The NH result of a whole message.

  /** The number of 32-byte chunks (L1_PAD_BOUNDARY) that n bytes fill, the last one partly. */
  function PadChunks(n: nat): (c: nat)
    ensures n <= 32 * c < n + 32
    decreases n
  {
    if n == 0 then 0 else if n <= 32 then 1 else 1 + PadChunks(n - 32)
  }

  /** PadChunks is the rounded-up quotient the source computes with a mask. */
  lemma PadChunksIsCeil(n: nat)
    ensures 32 * PadChunks(n) == (n + 31) / 32 * 32
  {
  }

  /** ca whole chunks more add ca to the count. */
  lemma {:induction false} PadChunksShift(n: nat, ca: nat)
    ensures PadChunks(n + 32 * ca) == ca + PadChunks(n)
  {
    if ca > 0 {
      PadChunksShift(n, ca - 1);
      assert PadChunks(n + 32 * ca) == 1 + PadChunks(n + 32 * (ca - 1));
    }
  }

  /** The message zero-padded to a whole number of 32-byte chunks (zero_pad up to L1_PAD_BOUNDARY). */
  function Pad32(M: seq<Byte>): (P: seq<Byte>)
    ensures |P| == 32 * PadChunks(|M|) && |M| <= |P| < |M| + 32 && P[..|M|] == M
    ensures forall i :: |M| <= i < |P| ==> P[i] == 0
  {
    M + Zeros(32 * PadChunks(|M|) - |M|)
  }

  /** A message of whole chunks needs no padding. */
  lemma PadWhole(M: seq<Byte>, c: nat)
    requires |M| == 32 * c
    ensures PadChunks(|M|) == c && Pad32(M) == M
  {
    PadChunksShift(0, c);
  }

  /** Padding after whole 32-byte chunks pads only the tail. */
  lemma PadAppend(A: seq<Byte>, B: seq<Byte>, ca: nat)
    requires |A| == 32 * ca
    ensures PadChunks(|A + B|) == ca + PadChunks(|B|) && Pad32(A + B) == A + Pad32(B)
  {
    PadChunksShift(|B|, ca);
  }

  /**
   * A 64-bit accumulator over the first c 8-word chunks of W with the key
   * from word ko: stream 0 uses ko = 0, stream 1 ko = 4 (L1_KEY_SHIFT
   * bytes further).
   */
  function AccW(K: seq<U32>, W: seq<U32>, c: nat, ko: nat): (h: U64)
    requires 8 * c <= |W| && ko + 8 * c <= |K|
  {
    Wrap64(NhSum(K, ko, W, c, 0))
  }

  /**
   * Hashing A (ca chunks) then cb chunks of B continues the accumulator of
   * A with the key kb = ko + 8ca words in: nh_transform's key offset.
   */
  lemma AccWAppend(K: seq<U32>, A: seq<U32>, B: seq<U32>, ca: nat, cb: nat, ko: nat, kb: nat, c: nat)
    requires |A| == 8 * ca && 8 * cb <= |B| && kb == ko + 8 * ca && c == ca + cb && ko + 8 * c <= |K|
    ensures AccW(K, A + B, c, ko) == Wrap64(AccW(K, A, ca, ko) + NhSum(K, kb, B, cb, 0))
  {
    NhSumAppend(K, ko, A, B, ca, cb);
    WrapAdd(NhSum(K, ko, A, ca, 0), NhSum(K, kb, B, cb, 0));
  }

  /**
   * One nh_transform step on the specification: an accumulator x over the
   * ch chunks H that adds the c chunks d under the key kw = ko + 8ch
   * words in holds the accumulator over H + d.
   */
  lemma AccumulateStep(K: seq<U32>, H: seq<Byte>, d: seq<Byte>, HD: seq<Byte>, ch: nat, c: nat, n: nat,
                       kw: nat, ko: nat, x: nat, y: nat)
    requires |K| == KeyWords && |H| == 32 * ch && |d| == 32 * c && n == ch + c && n <= 32
    requires kw == ko + 8 * ch && (ko == 0 || ko == 4) && HD == H + d
    requires x == AccW(K, Words(H, 8 * ch), ch, ko) && y == Wrap64(x + NhSum(K, kw, Words(d, 8 * c), c, 0))
    ensures y == AccW(K, Words(HD, 8 * n), n, ko)
  {
    hide AccW, NhSum, Wrap64;
    WordsAppendAt(H, d, HD, ch, c, n);
    AccWAppend(K, Words(H, 8 * ch), Words(d, 8 * c), ch, c, ko, kw, n);
  }

  /**
   * nh_transform's work on the accumulators h, which hold NH of the ch
   * chunks H: hashing the c chunks d under the key ko = 8ch words in makes
   * them hold NH of H + d.
   */
  method Accumulate(K: seq<U32>, ko: nat, d: seq<Byte>, ghost c: nat, h: array<U64>,
                    ghost H: seq<Byte>, ghost ch: nat, ghost HD: seq<Byte>, ghost n: nat)
    requires |K| == KeyWords && h.Length == 2 && |H| == 32 * ch && c > 0 && |d| == 32 * c
    requires HD == H + d && n == ch + c && n <= 32 && ko == 8 * ch
    requires forall s | 0 <= s < 2 :: h[s] == AccW(K, Words(H, 8 * ch), ch, 4 * s)
    modifies h
    ensures forall s | 0 <= s < 2 :: h[s] == AccW(K, Words(HD, 8 * n), n, 4 * s)
  {
    hide AccW, NhSum, Wrap64;
    NhAux(K, ko, ko + 4, d, c, h);
    forall s | 0 <= s < 2
      ensures h[s] == AccW(K, Words(HD, 8 * n), n, 4 * s)
    {
      AccumulateStep(K, H, d, HD, ch, c, n, ko + 4 * s, 4 * s, old(h[s]), h[s]);
    }
  }

  /** WordsAppend for ch and c whole chunks. */
  lemma WordsAppendAt(H: seq<Byte>, d: seq<Byte>, HD: seq<Byte>, ch: nat, c: nat, n: nat)
    requires |H| == 32 * ch && |d| == 32 * c && n == ch + c && HD == H + d
    ensures Words(HD, 8 * n) == Words(H, 8 * ch) + Words(d, 8 * c)
  {
    WordsAppend(H, d, HD, 8 * ch, 8 * c, 8 * n);
  }

  /** An accumulator started at v instead of 0 ends v further on, mod 2^64. */
  lemma WrapStart(x: nat, v: nat)
    ensures Wrap64(v + x) == Wrap64(Wrap64(x) + v)
  {
    WrapAdd(x, v);
    assert v + x == x + v;
  }

  /**
   * The two NH results for the c padded chunks P of a message: stream s's
   * sum of products (key from word 4s) plus the message's bit length
   * nbits, mod 2^64.
   */
  function NhOutput(K: seq<U32>, P: seq<Byte>, c: nat, nbits: U32): (r: seq<U64>)
    requires |K| == KeyWords && |P| == 32 * c && c <= 32
    ensures |r| == 2
  {
    var W := Words(P, 8 * c);
    [Wrap64(AccW(K, W, c, 0) + nbits), Wrap64(AccW(K, W, c, 4) + nbits)]
  }

  /** The NH result of message M (at most L1_KEY_LEN bytes): NH of M zero-padded to 32 bytes. */
  function NhResult(K: seq<U32>, M: seq<Byte>): (r: seq<U64>)
    requires |K| == KeyWords && |M| <= L1KeyLen
    ensures |r| == 2
  {
    NhOutput(K, Pad32(M), PadChunks(|M|), |M| * 8)
  }

  /**
   * Stream s of the NH result, written as section 5.2.1 of RFC 4418 has it
   * (with the source's key offset ko = 4s): the sum over the padded chunks
   * of the four products, plus 8 times the message length, reduced mod
   * 2^64 once (Wrap64 is that reduction, see WrapIsMod).
   */
  lemma NhResultIsSum(K: seq<U32>, M: seq<Byte>, s: nat, ko: nat)
    requires |K| == KeyWords && |M| <= L1KeyLen && s < 2 && ko == 4 * s
    ensures NhResult(K, M)[s] == Wrap64(NhSum(K, ko, Words(Pad32(M), 8 * PadChunks(|M|)), PadChunks(|M|), 0) + |M| * 8)
  {
    hide NhSum, AccW, Wrap64, Words, Pad32;
    NhOutputIsSum(K, Pad32(M), PadChunks(|M|), |M| * 8, s, ko);
  }

  /** Stream s of NhOutput, with the accumulator's reduction folded into the final one. */
  lemma NhOutputIsSum(K: seq<U32>, P: seq<Byte>, c: nat, nbits: U32, s: nat, ko: nat)
    requires |K| == KeyWords && |P| == 32 * c && c <= 32 && s < 2 && ko == 4 * s
    ensures NhOutput(K, P, c, nbits)[s] == Wrap64(NhSum(K, ko, Words(P, 8 * c), c, 0) + nbits)
  {
    hide NhSum, Wrap64, Words;
    WrapAdd(NhSum(K, ko, Words(P, 8 * c), c, 0), nbits);
  }

  /** A whole L1_KEY_LEN block, hashed by the all-in-one nh, has the NH result of the block. */
  lemma NhBlock(K: seq<U32>, M: seq<Byte>)
    requires |K| == KeyWords && |M| == L1KeyLen
    ensures NhResult(K, M) == NhOutput(K, M, 32, 8192)
  {
    PadWhole(M, 32);
  }

  /** A number below the modulus is its own residue. */
  lemma SmallMod(x: nat, m: nat)
    requires x < m
    ensures x % m == x
  {
  }

  /**
   * A message of at most L1_KEY_LEN bytes followed by zeros up to the next
   * 32-byte boundary, hashed by the all-in-one nh with the message's own
   * length, has the NH result of the message.
   */
  lemma PaddedBlock(K: seq<U32>, M: seq<Byte>, P: seq<Byte>, c: nat)
    requires |K| == KeyWords && |M| <= L1KeyLen && c == PadChunks(|M|) && P == M + Zeros(32 * c - |M|)
    ensures NhOutput(K, P, c, |M| * 8 % TWO32) == NhResult(K, M)
  {
    hide NhOutput, Words, AccW, Wrap64, PadChunks, Zeros;
    SmallMod(|M| * 8, TWO32);
    assert P == Pad32(M);
  }

  /** memset(p + off, 0, n), the effect of zero_pad. */
  method ZeroPad(p: array<Byte>, off: nat, n: nat)
    requires off + n <= p.Length
    modifies p
    ensures p[..off] == old(p[..off]) && p[off .. off + n] == Zeros(n) && p[off + n ..] == old(p[off + n ..])
  {
    Store(p, off, Zeros(n));
  }

  /** The nh_key words: kdf index 0, endian-converted, read natively. */
  method DeriveKey(rk: array<Byte>, ghost E: seq<Byte> -> seq<Byte>) returns (key: seq<U32>)
    requires Aes.Keyed(rk, E)
    ensures key == BEWords(Kdf.KdfBytes(E, 0, KeyBytes), KeyWords)
  {
    var buf := new Byte[KeyBytes];
    Kdf.Derive(buf, rk, E, 0);
    ghost var raw := buf[..];
    EndianConvert(buf, 4);
    NativeKeyWords(raw, KeyWords);
    key := Words(buf[..], KeyWords);
  }

  /** nh_final's nh_len: n rounded up to a multiple of L1_PAD_BOUNDARY. */
  method PadLength(n: nat) returns (len: nat, ghost c: nat)
    ensures c == PadChunks(n) && len == 32 * c
  {
    len := (n + 31) / 32 * 32;
    c := PadChunks(n);
    PadChunksIsCeil(n);
  }

  /**
   * Stream s of nh_final's result: the accumulator x over the padded
   * message plus its bit length, mod 2^64.
   */
  lemma FinalStream(K: seq<U32>, F: seq<Byte>, P: seq<Byte>, n: nat, x: nat, r: nat, s: nat, ko: nat)
    requires |K| == KeyWords && |F| <= L1KeyLen && P == Pad32(F) && n == PadChunks(|F|) && s < 2 && ko == 4 * s
    requires x == AccW(K, Words(P, 8 * n), n, ko) && r == Wrap64(x + |F| * 8)
    ensures r == NhResult(K, F)[s]
  {
    hide NhSum, AccW, Wrap64, Words, Pad32;
  }

  /** UINT64 addition. */
  method Add64(a: U64, b: U64) returns (r: U64)
    ensures r == Wrap64(a + b)
  {
    r := (a + b) % TWO64;
    WrapIsMod(a + b);
  }

  /** Stream s of the all-in-one nh: the accumulator starts at the bit length. */
  lemma OneShotStream(K: seq<U32>, P: seq<Byte>, c: nat, nbits: U32, r: nat, s: nat, ko: nat)
    requires |K| == KeyWords && |P| == 32 * c && c <= 32 && s < 2 && ko == 4 * s
    requires r == Wrap64(nbits + NhSum(K, ko, Words(P, 8 * c), c, 0))
    ensures r == NhOutput(K, P, c, nbits)[s]
  {
    hide NhSum, Wrap64, Words;
    WrapStart(NhSum(K, ko, Words(P, 8 * c), c, 0), nbits);
  }

  /** nh_update's bulk length: the whole 128-byte blocks of n bytes. */
  method BulkLength(n: nat) returns (i: nat, ghost c: nat)
    requires n >= HashBufBytes
    ensures i == 32 * c && c > 0 && i <= n < i + 128 && n - i < 128
    ensures exists k :: c == 4 * k
  {
    i := n - n % 128;
    c := i / 32;
    assert c == 4 * (n / 128);
  }

  /** The key offset in words of nh_transform's byte offset n. */
  method WordOffset(n: nat, ghost k: nat) returns (w: nat)
    requires n == 4 * k
    ensures w == k
  {
    w := n / 4;
  }

  // ---------------------------------------------------------------------
  // The NH context.

  class NhCtx {
    /** nh_key as the host's 32-bit loads read it. */
    const key: seq<U32>
    /** Incoming bytes not yet hashed. */
    const data: array<Byte>
    var nextDataEmpty: nat
    /** Bytes (of L1_KEY_LEN) hashed into state. */
    var bytesHashed: nat
    /** The two streams' accumulators. */
    const state: array<U64>
    /** The bytes hashed into state (chunks 32-byte chunks), and all bytes fed, since the last reset. */
    ghost var hashed: seq<Byte>
    ghost var chunks: nat
    ghost var fed: seq<Byte>

    /** The accumulators hold NH of the chunks hashed so far. */
    ghost predicate Accumulated()
      reads this, state
    {
      |key| == KeyWords && state.Length == 2 && |hashed| == 32 * chunks && chunks <= 32 &&
      forall s | 0 <= s < 2 :: state[s] == AccW(key, Words(hashed, 8 * chunks), chunks, 4 * s)
    }

    /** Between calls: the buffer holds what was fed past the bytes hashed. */
    ghost predicate Valid()
      reads this, data, state
    {
      Accumulated() && data.Length == HashBufBytes && data != state as object &&
      bytesHashed == |hashed| && nextDataEmpty < HashBufBytes &&
      fed == hashed + data[..nextDataEmpty] && |fed| <= L1KeyLen
    }

    /** A valid context holds at most one L1 block. */
    lemma ValidFed()
      requires Valid()
      ensures |fed| <= L1KeyLen && |key| == KeyWords
    {
    }

    /** nh_reset: nothing hashed, nothing buffered, both accumulators zero. */
    method Reset()
      requires |key| == KeyWords && data.Length == HashBufBytes && state.Length == 2 && data != state as object
      modifies this, state
      ensures Valid() && fed == []
    {
      bytesHashed := 0;
      nextDataEmpty := 0;
      state[0], state[1] := 0, 0;
      hashed, chunks, fed := [], 0, [];
      assert data[..0] == [];
    }

    /**
     * nh_init: the key is the first 1040 bytes of kdf index 0 under the
     * block function E that rk computes, read as big-endian words.
     */
    constructor (rk: array<Byte>, ghost E: seq<Byte> -> seq<Byte>)
      requires Aes.Keyed(rk, E)
      ensures Valid() && fed == [] && fresh(data) && fresh(state)
      ensures key == BEWords(Kdf.KdfBytes(E, 0, KeyBytes), KeyWords)
    {
      var k := DeriveKey(rk, E);
      key := k;
      data := new Byte[HashBufBytes];
      state := new U64[2];
      new;
      Reset();
    }

    /**
     * nh_transform: hash the c chunks d into state under the key shifted
     * past the bytes hashed so far.
     */
    method Transform(d: seq<Byte>, ghost c: nat)
      requires Accumulated() && bytesHashed == |hashed| && c > 0 && |d| == 32 * c && chunks + c <= 32
      modifies this, state
      ensures Accumulated() && hashed == old(hashed) + d && chunks == old(chunks) + c
      ensures nextDataEmpty == old(nextDataEmpty) && bytesHashed == old(bytesHashed) && fed == old(fed)
    {
      hide AccW, NhSum, Wrap64, Words;
      ghost var kw := 8 * chunks;
      var ko := WordOffset(bytesHashed, kw);
      Accumulate(key, ko, d, c, state, hashed, chunks, hashed + d, chunks + c);
      hashed, chunks := hashed + d, chunks + c;
    }

    /**
     * Part way through nh_update: F is everything fed so far and still to
     * come; the buffer holds j bytes not yet hashed, rest is the input left.
     */
    ghost predicate Staged(F: seq<Byte>, j: nat, rest: seq<Byte>)
      reads this, data, state
    {
      Accumulated() && data.Length == HashBufBytes && data != state as object &&
      bytesHashed == |hashed| && j < HashBufBytes && hashed + data[..j] + rest == F && |F| <= L1KeyLen
    }

    /**
     * nh_update: complete and hash a partly filled buffer, hash whole
     * 128-byte blocks straight from the input, and keep the rest.
     */
    method Update(buf: seq<Byte>)
      requires Valid() && |fed| + |buf| <= L1KeyLen
      modifies this, data, state
      ensures Valid() && fed == old(fed) + buf
    {
      ghost var F := fed + buf;
      var j := nextDataEmpty;
      var rest := buf;
      if j + |rest| >= HashBufBytes {
        if j > 0 {
          rest := FillAndHash(j, rest, F);
        } else {
          assert data[..0] == [];
        }
        if |rest| >= HashBufBytes {
          rest := HashWhole(rest, F);
        }
        j := 0;
      }
      BufferRest(j, rest, F);
    }

    /** The first branch of nh_update: fill the buffer from rest and hash it as one block. */
    method FillAndHash(j: nat, rest: seq<Byte>, ghost F: seq<Byte>) returns (rest': seq<Byte>)
      requires Staged(F, j, rest) && j > 0 && j + |rest| >= HashBufBytes
      modifies this, data, state
      ensures Staged(F, 0, rest') && rest' == rest[HashBufBytes - j ..]
      ensures nextDataEmpty == old(nextDataEmpty)
    {
      hide AccW, NhSum, Wrap64;
      var i := HashBufBytes - j;
      Store(data, j, rest[..i]);
      ghost var H, T := hashed, data[..];
      assert T == old(data[..j]) + rest[..i];
      Transform(data[..], 4);
      bytesHashed := bytesHashed + HashBufBytes;
      rest' := rest[i..];
      assert data[..0] == [];
      assert hashed + rest' == F by {
        assert rest == rest[..i] + rest';
        assert hashed == H + T;
      }
    }

    /** The second branch of nh_update: hash the whole 128-byte blocks of rest directly. */
    method HashWhole(rest: seq<Byte>, ghost F: seq<Byte>) returns (rest': seq<Byte>)
      requires Staged(F, 0, rest) && |rest| >= HashBufBytes
      modifies this, state
      ensures Staged(F, 0, rest') && |rest'| < HashBufBytes
      ensures nextDataEmpty == old(nextDataEmpty)
    {
      hide AccW, NhSum, Wrap64;
      var i, c := BulkLength(|rest|);
      ghost var H := hashed;
      Transform(rest[..i], c);
      bytesHashed := bytesHashed + i;
      rest' := rest[i..];
      assert hashed + data[..0] + rest' == F by {
        assert rest == rest[..i] + rest';
        assert data[..0] == [];
        assert H + data[..0] + rest == F;
      }
    }

    /** The tail of nh_update: copy the input left into the buffer after its j bytes. */
    method BufferRest(j: nat, rest: seq<Byte>, ghost F: seq<Byte>)
      requires Staged(F, j, rest) && j + |rest| < HashBufBytes
      modifies this, data
      ensures Valid() && fed == F
    {
      Store(data, j, rest);
      nextDataEmpty := j + |rest|;
      fed := F;
      assert data[..nextDataEmpty] == old(data[..j]) + rest;
    }

    /**
     * nh_final: zero-pad the buffered bytes to a 32-byte boundary and hash
     * them, then add the bit length of all bytes fed to each accumulator;
     * the result is NH of the bytes fed, and the context is reset.
     */
    method Final() returns (r0: U64, r1: U64)
      requires Valid()
      modifies this, data, state
      ensures Valid() && fed == []
      ensures [r0, r1] == NhResult(key, old(fed))
    {
      hide AccW, NhSum, Wrap64, NhResult;
      ghost var F := fed;
      PadTail();
      var nbits := bytesHashed * 8;
      r0 := Add64(state[0], nbits);
      r1 := Add64(state[1], nbits);
      FinalStream(key, F, hashed, chunks, state[0], r0, 0, 0);
      FinalStream(key, F, hashed, chunks, state[1], r1, 1, 4);
      Reset();
    }

    /**
     * The first part of nh_final: if bytes are buffered, pad them with
     * zeros to nh_len, hash them and count them in bytes_hashed.  The
     * accumulators then hold NH of the padded bytes fed.
     */
    method PadTail()
      requires Valid()
      modifies this, data, state
      ensures Accumulated() && hashed == Pad32(old(fed)) && chunks == PadChunks(|old(fed)|)
      ensures bytesHashed == |old(fed)| <= L1KeyLen && data.Length == HashBufBytes && data != state as object
    {
      hide AccW, NhSum, Wrap64;
      ghost var F, H, T := fed, hashed, data[..nextDataEmpty];
      PadAppend(H, T, chunks);
      if nextDataEmpty > 0 {
        var nhLen, c := PadLength(nextDataEmpty);
        ZeroPad(data, nextDataEmpty, nhLen - nextDataEmpty);
        assert data[..nhLen] == Pad32(T) by {
          assert data[..nhLen] == data[..nextDataEmpty] + data[nextDataEmpty .. nhLen];
        }
        Transform(data[..nhLen], c);
        bytesHashed := bytesHashed + nextDataEmpty;
      } else {
        assert Pad32(T) == [] && H + [] == H;
      }
    }

    /**
     * nh: the all-in-one NH of the padded bytes buf (padded_len = |buf|, c
     * chunks) of a message of unpaddedLen bytes, whose bit length is taken
     * as a UINT32.  The context is not changed.
     */
    method Nh(buf: seq<Byte>, unpaddedLen: nat, ghost c: nat) returns (r0: U64, r1: U64)
      requires |key| == KeyWords && |buf| == 32 * c && 0 < c <= 32
      ensures [r0, r1] == NhOutput(key, buf, c, unpaddedLen * 8 % TWO32)
    {
      hide NhSum, Wrap64, AccW, NhOutput, Words;
      var nbits: U32 := unpaddedLen * 8 % TWO32;
      var result := new U64[2];
      result[0], result[1] := nbits, nbits;
      NhAux(key, 0, 4, buf, c, result);
      r0, r1 := result[0], result[1];
      OneShotStream(key, buf, c, nbits, r0, 0, 0);
      OneShotStream(key, buf, c, nbits, r1, 1, 4);
    }
  }
}

=== FILE: pdf.dfy ===
/**
 * The pseudorandom pad of UMAC (`pdf_ctx`): the UHASH result is XORed with
 * eight bytes of an AES output block.  The block is AES(K', n') where n' is
 * the caller's 8-byte nonce with its lowest bit cleared, followed by eight
 * zero bytes; the low bit of the nonce chooses which half of the block is
 * used.  The last block is cached, so consecutive nonces 2k and 2k + 1 cost
 * one AES call between them.
 */
module Pdf {
  import opened Bytes
  import opened Aes
  import opened Kdf

  /** The derivation index for the pad key K'. */
  const PdfIndex: Byte := 128

  /** The AES input for nonce: its low bit cleared, then eight zero bytes. */
  function PadInput(nonce: seq<Byte>): (r: seq<Byte>)
    requires |nonce| == 8
    ensures |r| == 16 && r[..7] == nonce[..7] && r[7] == nonce[7] & 0xFE && r[8..] == Zeros(8)
  {
    nonce[..7] + [nonce[7] ^ (nonce[7] % 2)] + Zeros(8)
  }

  /** Which eight-byte half of the AES block the nonce uses: its low bit. */
  function Half(nonce: seq<Byte>): (h: nat)
    requires |nonce| == 8
    ensures h < 2 && (h == 1 <==> nonce[7] & 1 == 1)
  {
    if nonce[7] % 2 == 1 then 1 else 0
  }

  /** The eight pad bytes for nonce under the pad cipher E. */
  function Pad(E: seq<Byte> -> seq<Byte>, nonce: seq<Byte>): (r: seq<Byte>)
    requires IsBlockCipher(E) && |nonce| == 8
    ensures |r| == 8
  {
    E(PadInput(nonce))[8 * Half(nonce) .. 8 * Half(nonce) + 8]
  }

  /**
   * An even nonce and the odd one after it share one AES block: the even
   * nonce takes its first half, the odd one its second half.
   */
  lemma {:induction false} PairShareBlock(E: seq<Byte> -> seq<Byte>, even: seq<Byte>, odd: seq<Byte>)
    requires IsBlockCipher(E) && |even| == 8 && |odd| == 8
    requires even[..7] == odd[..7] && even[7] % 2 == 0 && odd[7] == even[7] + 1
    ensures PadInput(even) == PadInput(odd)
    ensures Pad(E, even) + Pad(E, odd) == E(PadInput(even))[..16]
  {
    assert odd[7] % 2 == 1 && odd[7] ^ 1 == even[7];
    assert PadInput(even) == PadInput(odd);
  }

  /** The first two lines of pdf_init: derive K' and expand it. */
  method PadKey(masterKey: array<Byte>, keyLen: nat, ghost ME: seq<Byte> -> seq<Byte>)
    returns (rk: array<Byte>, ghost key: seq<Byte>, ghost E: seq<Byte> -> seq<Byte>)
    requires Keyed(masterKey, ME) && ValidKeyLen(keyLen)
    ensures fresh(rk) && key == KdfBytes(ME, PdfIndex, keyLen) && ValidKeyLen(|key|)
    ensures Keyed(rk, E) && Computes(E, key)
  {
    var buf := new Byte[keyLen];
    Derive(buf, masterKey, ME, PdfIndex);
    var k := buf[..];
    rk := new Byte[16 * (Rounds(keyLen) + 1)];
    SetupKeyed(k, rk);
    key, E := k, AesOf(k);
  }

  /** The last two lines of pdf_init: a zero nonce block and its encryption. */
  method PrimeCache(rk: array<Byte>, ghost E: seq<Byte> -> seq<Byte>) returns (n: array<Byte>, c: array<Byte>)
    requires Keyed(rk, E)
    ensures fresh(n) && fresh(c) && n != c
    ensures n[..] == Zeros(16) && c[..] == E(Zeros(16))
  {
    n := FromSeq(Zeros(16));
    c := new Byte[16];
    AesBlock(n, c, rk, E);
  }

  class PdfCtx {
    /** The previous AES output. */
    const cache: array<Byte>
    /** The AES input that produced cache. */
    const nonce: array<Byte>
    /** The expanded pad key K'. */
    const prfKey: array<Byte>
    /** K' itself, and AES under it. */
    ghost var key: seq<Byte>
    ghost var E: seq<Byte> -> seq<Byte>

    /** The cache always holds AES of the stored nonce block, whose second half is zero. */
    ghost predicate Valid()
      reads this, cache, nonce, prfKey
    {
      cache.Length == 16 && nonce.Length == 16 &&
      cache != nonce && cache != prfKey && nonce != prfKey &&
      Keyed(prfKey, E) &&
      nonce[8..] == Zeros(8) && cache[..] == E(nonce[..])
    }

    /**
     * pdf_init: K' is the first |key| bytes of the derivation stream for
     * index 128 under the master key, and the cache is primed with
     * AES(K', 0^16).
     */
    constructor (masterKey: array<Byte>, keyLen: nat, ghost ME: seq<Byte> -> seq<Byte>)
      requires Keyed(masterKey, ME) && ValidKeyLen(keyLen) && masterKey.Length == 16 * (Rounds(keyLen) + 1)
      ensures Valid() && fresh(cache) && fresh(nonce) && fresh(prfKey)
      ensures key == KdfBytes(ME, PdfIndex, keyLen) && Computes(E, key)
      ensures nonce[..] == Zeros(16)
    {
      var rk, k, F := PadKey(masterKey, keyLen, ME);
      var n, c := PrimeCache(rk, F);
      key, E := k, F;
      cache, nonce, prfKey := c, n, rk;
    }

    /**
     * The cache test of pdf_gen_xor: recompute the block only when the
     * stored nonce differs from n with its low bit cleared.
     */
    method Refresh(n: seq<Byte>)
      requires Valid() && |n| == 8
      modifies nonce, cache
      ensures Valid() && nonce[..] == PadInput(n)
    {
      var lo := n[4..7] + [n[7] ^ (n[7] % 2)];
      if nonce[4..8] != lo || nonce[..4] != n[..4] {
        Store(nonce, 0, n[..4] + lo);
        assert nonce[..] == n[..4] + lo + nonce[8..];
        AesBlock(nonce, cache, prfKey, E);
      } else {
        assert nonce[..] == nonce[..4] + nonce[4..8] + nonce[8..];
      }
    }

    /** pdf_gen_xor: XOR the pad for nonce n into buf. */
    method GenXor(n: seq<Byte>, buf: array<Byte>)
      requires Valid() && |n| == 8 && buf.Length == 8
      requires buf != cache && buf != nonce && buf != prfKey
      modifies nonce, cache, buf
      ensures Valid()
      ensures buf[..] == Xor(old(buf[..]), Pad(E, n))
      ensures nonce[..] == PadInput(n)
    {
      Refresh(n);
      var h := if n[7] % 2 == 1 then 8 else 0;
      XorInto(buf, cache[h .. h + 8]);
    }
  }
}

=== FILE: poly.dfy ===
/**
 * The polynomial layer of UHASH with WORD_LEN 4: each NH output word is
 * folded into an accumulator by Horner's rule modulo the prime
 * p64 = 2^64 - 59 (section 5.3 of RFC 4418, without the ramp to p128).
 * The source keeps the accumulator in a UINT64 that need not be reduced;
 * its poly64 exploits keys whose 32-bit halves are below 2^25.
 */
module Poly {
  import opened Bytes

  /** p64 = 2^64 - 59. */
  const P64: nat := 0xFFFF_FFFF_FFFF_FFC5

  /** Words from here on (2^64 - 2^32) are fed as a marker then an offset value. */
  const MaxWordRange: nat := 0xFFFF_FFFF_0000_0000

  /** The AND with 0x01ffffff01ffffff: the low 25 bits of each 32-bit half. */
  function MaskKey(k: U64): (r: U64)
    ensures r / TWO32 < 0x200_0000 && r % TWO32 < 0x200_0000
    ensures r / TWO32 == k / TWO32 % 0x200_0000 && r % TWO32 == k % TWO32 % 0x200_0000
  {
    k / TWO32 % 0x200_0000 * TWO32 + k % TWO32 % 0x200_0000
  }

  /** The special key domain of poly64. */
  predicate KeyInDomain(k: U64)
  {
    k / TWO32 < 0x200_0000 && k % TWO32 < 0x200_0000
  }

  /** UINT64 addition. */
  function Add(a: U64, b: U64): (r: U64)
  {
    if a + b < TWO64 then a + b else a + b - TWO64
  }

  /** MUL64: the full product of two 32-bit words. */
  function Mul64(a: U32, b: U32): (r: U64)
  {
    MulBound(a, b, TWO32 - 1, TWO32 - 1);
    a * b
  }

  /** `res += b; if (res < b) res += 59;`: a carry out of the addition is added back as 59. */
  function CarryAdd(a: U64, b: U64): (r: U64)
  {
    var r := Add(a, b);
    if r < b then Add(r, 59) else r
  }

  /**
   * The first part of poly64: cur * key from the three partial products
   * of the 32-bit halves, with 2^64 folded in as 59.  Every UINT64
   * operation wraps.
   */
  function MulP64(cur: U64, key: U64): (r: U64)
  {
    var kh, kl := key / TWO32, key % TWO32;
    var ch, cl := cur / TWO32, cur % TWO32;
    var x := Add(Mul64(kh, cl), Mul64(ch, kl));
    var res := ((Mul64(kh, ch) + x / TWO32) * 59 + Mul64(kl, cl)) % TWO64;
    CarryAdd(res, x % TWO32 * TWO32)
  }

  /** poly64(cur, key, data): the product, then data added with the carry folded in. */
  function Poly64(cur: U64, key: U64, data: U64): (r: U64)
  {
    CarryAdd(MulP64(cur, key), data)
  }

  /** x and y differ by a multiple of p64. */
  lemma {:induction false} ModShift(x: int, y: int, q: int)
    requires x == y + q * P64
    ensures x % P64 == y % P64
  {
  }

  /** An addition with the carry added back as 59 is an addition mod p64. */
  lemma CarryFold(a: U64, b: U64)
    requires a + b < 2 * TWO64 - 59
    ensures CarryAdd(a, b) % P64 == (a + b) % P64
  {
    if a + b >= TWO64 {
      ModShift(a + b, a + b - P64, 1);
    }
  }

  /** A product of two bounded factors is bounded. */
  lemma MulBound(x: nat, y: nat, mx: nat, my: nat)
    requires x <= mx && y <= my
    ensures x * y <= mx * my
  {
  }

  /** The product cur * key split along the 32-bit halves. */
  lemma {:induction false} SplitProduct(ch: nat, cl: nat, kh: nat, kl: nat, x: nat, xh: nat, xl: nat)
    requires x == kh * cl + ch * kl && x == xh * TWO32 + xl
    ensures (ch * TWO32 + cl) * (kh * TWO32 + kl) == (kh * ch + xh) * TWO64 + xl * TWO32 + kl * cl
  {
    calc {
      (ch * TWO32 + cl) * (kh * TWO32 + kl);
      kh * ch * TWO64 + (kh * cl + ch * kl) * TWO32 + kl * cl;
      kh * ch * TWO64 + (xh * TWO32 + xl) * TWO32 + kl * cl;
      (kh * ch + xh) * TWO64 + xl * TWO32 + kl * cl;
    }
  }

  /** The partial products of halves of a domain key and any word. */
  lemma PartialBounds(kh: U32, kl: U32, ch: U32, cl: U32)
    requires kh < 0x200_0000 && kl < 0x200_0000
    ensures Mul64(kh, cl) + Mul64(ch, kl) < 0x400_0000 * TWO32
    ensures Mul64(kh, ch) < 0x200_0000 * TWO32 && Mul64(kl, cl) < 0x200_0000 * TWO32
  {
    MulBound(kh, cl, 0x1FF_FFFF, 0xFFFF_FFFF);
    MulBound(ch, kl, 0xFFFF_FFFF, 0x1FF_FFFF);
    MulBound(kh, ch, 0x1FF_FFFF, 0xFFFF_FFFF);
    MulBound(kl, cl, 0x1FF_FFFF, 0xFFFF_FFFF);
  }

  /** The folded high part cannot reach 2^64 - 2^32. */
  lemma FoldBound(m: nat, xh: nat, p: nat)
    requires m < 0x200_0000 * TWO32 && xh < 0x400_0000 && p < 0x200_0000 * TWO32
    ensures (m + xh) * 59 + p < TWO64 - TWO32
  {
  }

  /**
   * For a domain key the first part of poly64 adds T to the exact folded
   * product, with no other wrap.
   */
  lemma {:induction false} MulP64Exact(cur: U64, key: U64, kh: U32, kl: U32, ch: U32, cl: U32, x: nat, e: nat)
    requires KeyInDomain(key) && kh == key / TWO32 && kl == key % TWO32 && ch == cur / TWO32 && cl == cur % TWO32
    requires x == Mul64(kh, cl) + Mul64(ch, kl) && e == (Mul64(kh, ch) + x / TWO32) * 59 + Mul64(kl, cl)
    ensures x < TWO64 && e < TWO64 - TWO32
    ensures MulP64(cur, key) == CarryAdd(e, x % TWO32 * TWO32)
  {
    hide Mul64;
    PartialBounds(kh, kl, ch, cl);
    FoldBound(Mul64(kh, ch), x / TWO32, Mul64(kl, cl));
  }

  /**
   * With a key in the special domain, the first part of poly64 is
   * cur * key modulo p64: the partial products never wrap and the carry
   * out of adding T is the only one.
   */
  lemma {:induction false} MulP64Congruent(cur: U64, key: U64)
    requires KeyInDomain(key)
    ensures MulP64(cur, key) % P64 == (cur * key) % P64
  {
    var kh, kl, ch, cl := key / TWO32, key % TWO32, cur / TWO32, cur % TWO32;
    assert Mul64(kh, cl) == kh * cl && Mul64(ch, kl) == ch * kl;
    assert Mul64(kh, ch) == kh * ch && Mul64(kl, cl) == kl * cl;
    var x := Mul64(kh, cl) + Mul64(ch, kl);
    var xl, xh := x % TWO32, x / TWO32;
    var e := (Mul64(kh, ch) + xh) * 59 + Mul64(kl, cl);
    MulP64Exact(cur, key, kh, kl, ch, cl, x, e);
    var t := xl * TWO32;
    SplitProduct(ch, cl, kh, kl, x, xh, xl);
    ModShift(cur * key, e + t, Mul64(kh, ch) + xh);
    hide MulP64;
    CarryFold(e, t);
  }

  /**
   * With a key in the special domain and data below p64, poly64 computes
   * cur * key + data modulo p64.
   */
  lemma {:induction false} Poly64Congruent(cur: U64, key: U64, data: U64)
    requires KeyInDomain(key) && data < P64
    ensures Poly64(cur, key, data) % P64 == (cur * key + data) % P64
  {
    var m := MulP64(cur, key);
    MulP64Congruent(cur, key);
    CarryFold(m, data);
    ModShift(m + data, m % P64 + data, m / P64);
    ModShift(cur * key + data, (cur * key) % P64 + data, (cur * key) / P64);
  }

  /**
   * poly_hash for one stream: a word whose high half is 0xffffffff is fed
   * as the marker p64 - 1 followed by the word minus 59; any other word
   * is fed as it is.
   */
  function PolyStep(acc: U64, key: U64, data: U64): (r: U64)
  {
    if data / TWO32 == 0xFFFF_FFFF then
      Poly64(Poly64(acc, key, P64 - 1), key, data - 59)
    else
      Poly64(acc, key, data)
  }

  /**
   * One step of POLY as section 5.3 of RFC 4418 writes it, in Z_p64:
   * out-of-range words (at least 2^64 - 2^32) become the marker and the
   * offset word.
   */
  function PolyRef(key: nat, y: nat, m: U64): (r: nat)
    ensures r < P64
  {
    if m >= MaxWordRange then
      (((y * key + (P64 - 1)) % P64) * key + (m - 59)) % P64
    else
      (y * key + m) % P64
  }

  /** Whatever the word, every value poly_hash hands to poly64 is below p64. */
  lemma FedBelowP64(data: U64)
    ensures data / TWO32 == 0xFFFF_FFFF <==> data >= MaxWordRange
    ensures data / TWO32 == 0xFFFF_FFFF ==> data - 59 < P64
    ensures data / TWO32 != 0xFFFF_FFFF ==> data < P64
  {
  }

  /** A product mod p64 depends only on the left factor mod p64. */
  lemma {:induction false} MulModLeft(y: nat, k: nat, m: nat)
    ensures (y * k + m) % P64 == ((y % P64) * k + m) % P64
  {
    assert y * k == (y % P64) * k + (y / P64) * k * P64 by {
      assert y == (y % P64) + (y / P64) * P64;
    }
    ModShift(y * k + m, (y % P64) * k + m, (y / P64) * k);
  }

  /**
   * poly_hash's step on the UINT64 accumulator agrees modulo p64 with the
   * RFC step on the reduced accumulator.
   */
  lemma {:induction false} PolyStepCongruent(acc: U64, key: U64, data: U64)
    requires KeyInDomain(key)
    ensures PolyStep(acc, key, data) % P64 == PolyRef(key, acc % P64, data)
  {
    FedBelowP64(data);
    if data / TWO32 == 0xFFFF_FFFF {
      var a1 := Poly64(acc, key, P64 - 1);
      Poly64Congruent(acc, key, P64 - 1);
      Poly64Congruent(a1, key, data - 59);
      MulModLeft(acc, key, P64 - 1);
      MulModLeft(a1, key, data - 59);
    } else {
      Poly64Congruent(acc, key, data);
      MulModLeft(acc, key, data);
    }
  }

  /** ip_long's correction: one subtraction brings a UINT64 into Z_p64. */
  function Fix(a: U64): (r: U64)
    ensures r == a % P64
  {
    if a >= P64 then a - P64 else a
  }

  /** Horner's rule over the words ms with the source's UINT64 accumulator, which starts at 1. */
  function PolyFold(key: U64, ms: seq<U64>): (r: U64)
  {
    if ms == [] then 1 else PolyStep(PolyFold(key, ms[..|ms| - 1]), key, ms[|ms| - 1])
  }

  /** POLY over Z_p64 as section 5.3 of RFC 4418 computes it, starting at 1. */
  function PolyRefFold(key: nat, ms: seq<U64>): (r: nat)
    ensures r < P64
  {
    if ms == [] then 1 else PolyRef(key, PolyRefFold(key, ms[..|ms| - 1]), ms[|ms| - 1])
  }

  /**
   * The source's unreduced accumulation, corrected once at the end as
   * ip_long does, is the RFC's POLY value.
   */
  lemma {:induction false} PolyFoldIsPoly(key: U64, ms: seq<U64>)
    requires KeyInDomain(key)
    ensures Fix(PolyFold(key, ms)) == PolyRefFold(key, ms)
    decreases |ms|
  {
    if ms != [] {
      var pre := ms[..|ms| - 1];
      PolyFoldIsPoly(key, pre);
      PolyStepCongruent(PolyFold(key, pre), key, ms[|ms| - 1]);
    }
  }
}

=== FILE: popen.dfy ===
/**
 * The command-line splitter to_words of popen.c and the flag
 * normalisation of run_cmd and priv_run_cmd.
 *
 * A command string is the sequence of characters before its terminating
 * NUL; the array of words is the sequence of words before its NULL
 * terminator.  to_words is given here as a lexer (Lex: quotes toggle,
 * an unquoted space separates, a backslash takes the next character
 * literally) followed by a grouping of characters into words
 * (GroupFrom), and the C loop, ToWords, is proved to compute it.
 */
module Popen {

  /** What one step of to_words does with the input: copy a character, or separate words. */
  datatype Tok = Ch(c: char) | Sep

  /** The tokens of s when reading starts inside quotes (quote) or outside them. */
  function Lex(s: string, quote: bool): (r: seq<Tok>)
    ensures |r| <= |s|
    decreases |s|
  {
    if s == [] then []
    else if s[0] == '"' then Lex(s[1..], !quote)
    else if s[0] == ' ' then (if quote then [Ch(' ')] else [Sep]) + Lex(s[1..], quote)
    else if s[0] == '\\' && |s| > 1 then [Ch(s[1])] + Lex(s[2..], quote)
    else [Ch(s[0])] + Lex(s[1..], quote)
  }

  /** The finished words and the word being built. */
  type State = (seq<string>, string)

  /** One token: a character extends the current word; a separator ends it, unless it is empty. */
  function Feed(st: State, t: Tok): State
  {
    match t
    case Ch(c) => (st.0, st.1 + [c])
    case Sep => if st.1 == [] then st else (st.0 + [st.1], [])
  }

  function GroupFrom(st: State, toks: seq<Tok>): State
    decreases |toks|
  {
    if toks == [] then st else GroupFrom(Feed(st, toks[0]), toks[1..])
  }

  /** The end of to_words: the word being built is always the last one. */
  function Finish(st: State): (r: seq<string>)
    ensures |r| == |st.0| + 1 && r[|st.0|] == st.1
  {
    st.0 + [st.1]
  }

  /** The words to_words splits arg into. */
  function Words(arg: string): seq<string>
  {
    Finish(GroupFrom(([], []), Lex(arg, false)))
  }

  /** What to_words can return: at least one word, and only the last may be empty. */
  predicate WellFormed(ws: seq<string>)
  {
    |ws| >= 1 && forall i :: 0 <= i < |ws| - 1 ==> ws[i] != []
  }

  /** The number of quotes and spaces in s: what the first pass adds to nw. */
  function Seps(s: string): nat
  {
    if s == [] then 0 else (if s[0] == '"' || s[0] == ' ' then 1 else 0) + Seps(s[1..])
  }

  function SepCount(toks: seq<Tok>): nat
  {
    if toks == [] then 0 else (if toks[0] == Sep then 1 else 0) + SepCount(toks[1..])
  }

  /**
   * The first pass's slm as written: the largest run ending at a quote
   * or a space, that character included; the run after the last one is
   * not measured.  slc is the current run and slm the largest so far.
   */
  function Slm(s: string, slc: nat, slm: nat): nat
    decreases |s|
  {
    if s == [] then slm
    else if s[0] == '"' || s[0] == ' ' then Slm(s[1..], 0, if slm < slc + 1 then slc + 1 else slm)
    else Slm(s[1..], slc + 1, slm)
  }

  /** Grouping keeps finished words non-empty. */
  lemma {:induction false} GroupKeepsNonEmpty(st: State, toks: seq<Tok>)
    requires forall i :: 0 <= i < |st.0| ==> st.0[i] != []
    ensures var r := GroupFrom(st, toks); |r.0| >= |st.0| && forall i :: 0 <= i < |r.0| ==> r.0[i] != []
    decreases |toks|
  {
    if toks != [] {
      GroupKeepsNonEmpty(Feed(st, toks[0]), toks[1..]);
    }
  }

  /** Every result of to_words is well formed. */
  lemma WordsWellFormed(arg: string)
    ensures WellFormed(Words(arg))
  {
    GroupKeepsNonEmpty(([], []), Lex(arg, false));
  }

  /** Empty input gives one empty word. */
  lemma WordsEmpty()
    ensures Words([]) == [[]]
  {
  }

  /** Only separators finish words. */
  lemma {:induction false} GroupCount(st: State, toks: seq<Tok>)
    ensures |GroupFrom(st, toks).0| <= |st.0| + SepCount(toks)
    decreases |toks|
  {
    if toks != [] {
      GroupCount(Feed(st, toks[0]), toks[1..]);
    }
  }

  /** Every separator comes from a space. */
  lemma {:induction false} LexSeps(s: string, quote: bool)
    ensures SepCount(Lex(s, quote)) <= Seps(s)
    decreases |s|
  {
    if s == [] {
    } else if s[0] == '"' {
      LexSeps(s[1..], !quote);
    } else if s[0] == ' ' {
      LexSeps(s[1..], quote);
    } else if s[0] == '\\' && |s| > 1 {
      LexSeps(s[2..], quote);
      assert Seps(s) == Seps(s[1..]);
      if s[1] == '"' || s[1] == ' ' {
        assert Seps(s[1..]) == 1 + Seps(s[2..]);
      } else {
        assert Seps(s[1..]) == Seps(s[2..]);
      }
    } else {
      LexSeps(s[1..], quote);
    }
  }

  /** The word count never exceeds the first pass's nw, so the nw + 1 slots of arr hold the words and the NULL. */
  lemma WordsCount(arg: string)
    ensures |Words(arg)| <= Seps(arg) + 1
  {
    GroupCount(([], []), Lex(arg, false));
    LexSeps(arg, false);
  }

  /** No word grows beyond the current word plus the tokens still to come. */
  lemma {:induction false} GroupBound(st: State, toks: seq<Tok>, b: nat)
    requires (forall i :: 0 <= i < |st.0| ==> |st.0[i]| <= b) && |st.1| + |toks| <= b
    ensures var r := Finish(GroupFrom(st, toks)); forall i :: 0 <= i < |r| ==> |r[i]| <= b
    decreases |toks|
  {
    if toks != [] {
      var next := Feed(st, toks[0]);
      assert |next.1| + |toks[1..]| <= b && forall i :: 0 <= i < |next.0| ==> |next.0[i]| <= b;
      GroupBound(next, toks[1..], b);
      assert GroupFrom(st, toks) == GroupFrom(next, toks[1..]);
    } else {
      assert forall i :: 0 <= i < |st.0| ==> Finish(st)[i] == st.0[i];
    }
  }

  /** Every word is at most as long as the whole argument. */
  lemma WordsFit(arg: string)
    ensures forall i :: 0 <= i < |Words(arg)| ==> |Words(arg)[i]| <= |arg|
  {
    GroupBound(([], []), Lex(arg, false), |arg|);
    assert Words(arg) == Finish(GroupFrom(([], []), Lex(arg, false)));
  }

  /** A word spelt with a backslash before every character. */
  function Escape(w: string): (r: string)
    ensures |r| == 2 * |w|
  {
    if w == [] then [] else ['\\', w[0]] + Escape(w[1..])
  }

  /** Escaped words joined by single spaces. */
  function JoinEscaped(ws: seq<string>): string
    requires |ws| >= 1
  {
    if |ws| == 1 then Escape(ws[0]) else Escape(ws[0]) + [' '] + JoinEscaped(ws[1..])
  }

  function Chars(w: string): (r: seq<Tok>)
    ensures |r| == |w|
  {
    if w == [] then [] else [Ch(w[0])] + Chars(w[1..])
  }

  /** An escaped word lexes to its characters, in or out of quotes. */
  lemma {:induction false} LexEscape(w: string, rest: string, quote: bool)
    ensures Lex(Escape(w) + rest, quote) == Chars(w) + Lex(rest, quote)
    decreases |w|
  {
    if w != [] {
      var s := Escape(w) + rest;
      assert s == ['\\', w[0]] + (Escape(w[1..]) + rest);
      assert s[0] == '\\' && s[1] == w[0] && |s| > 1;
      assert s[2..] == Escape(w[1..]) + rest;
      assert Lex(s, quote) == [Ch(w[0])] + Lex(Escape(w[1..]) + rest, quote);
      LexEscape(w[1..], rest, quote);
      assert Chars(w) == [Ch(w[0])] + Chars(w[1..]);
      assert [Ch(w[0])] + (Chars(w[1..]) + Lex(rest, quote)) == Chars(w) + Lex(rest, quote);
    } else {
      assert Escape(w) + rest == rest && Chars(w) + Lex(rest, quote) == Lex(rest, quote);
    }
  }

  /** Characters extend the current word. */
  lemma {:induction false} GroupChars(st: State, w: string, rest: seq<Tok>)
    ensures GroupFrom(st, Chars(w) + rest) == GroupFrom((st.0, st.1 + w), rest)
    decreases |w|
  {
    if w == [] {
      assert st.1 + w == st.1 && Chars(w) + rest == rest;
    } else {
      assert (Chars(w) + rest)[1..] == Chars(w[1..]) + rest;
      GroupChars((st.0, st.1 + [w[0]]), w[1..], rest);
      assert st.1 + [w[0]] + w[1..] == st.1 + w;
    }
  }

  lemma {:induction false} SplitJoined(done: seq<string>, ws: seq<string>)
    requires WellFormed(ws)
    ensures Finish(GroupFrom((done, []), Lex(JoinEscaped(ws), false))) == done + ws
    decreases |ws|
  {
    var w := ws[0];
    if |ws| == 1 {
      LexEscape(w, [], false);
      assert Escape(w) + [] == Escape(w) && Chars(w) + [] == Chars(w);
      GroupChars((done, []), w, []);
      assert [] + w == w;
    } else {
      var tail := JoinEscaped(ws[1..]);
      assert JoinEscaped(ws) == Escape(w) + ([' '] + tail);
      LexEscape(w, [' '] + tail, false);
      assert ([' '] + tail)[1..] == tail;
      assert Lex([' '] + tail, false) == [Sep] + Lex(tail, false);
      GroupChars((done, []), w, [Sep] + Lex(tail, false));
      assert [] + w == w;
      assert ([Sep] + Lex(tail, false))[1..] == Lex(tail, false);
      SplitJoined(done + [w], ws[1..]);
      assert done + [w] + ws[1..] == done + ws;
    }
  }

  /**
   * Round trip: escaping each word and joining with spaces gives a
   * command line to_words splits back into exactly those words; together
   * with WordsWellFormed this says the well-formed lists are exactly the
   * possible results.
   */
  lemma SplitJoinedRoundTrip(ws: seq<string>)
    requires WellFormed(ws)
    ensures Words(JoinEscaped(ws)) == ws
  {
    SplitJoined([], ws);
  }

  /** A word without quotes, spaces or backslashes. */
  predicate Plain(w: string)
  {
    forall i :: 0 <= i < |w| ==> w[i] != '"' && w[i] != ' ' && w[i] != '\\'
  }

  lemma {:induction false} LexPlain(w: string, quote: bool)
    requires Plain(w)
    ensures Lex(w, quote) == Chars(w)
    decreases |w|
  {
    if w != [] {
      LexPlain(w[1..], quote);
    }
  }

  lemma {:induction false} SlmPlain(w: string, slc: nat, slm: nat)
    requires Plain(w)
    ensures Slm(w, slc, slm) == slm
    decreases |w|
  {
    if w != [] {
      SlmPlain(w[1..], slc + 1, slm);
    }
  }

  /**
   * The word buffers are slm + 1 bytes.  For a plain word the first pass
   * measures nothing, slm stays 0, and the single word with its NUL
   * overruns the one-byte buffer.
   */
  lemma SlmTooSmall(w: string)
    requires Plain(w) && w != []
    ensures Words(w) == [w] && Slm(w, 0, 0) == 0 && |Words(w)[0]| + 1 > Slm(w, 0, 0) + 1
  {
    LexPlain(w, false);
    GroupChars(([], []), w, []);
    assert Chars(w) + [] == Chars(w) && [] + w == w;
    SlmPlain(w, 0, 0);
  }

  /** A quoted phrase: the word "a b" needs four bytes, the first pass allows three. */
  lemma SlmQuotedTooSmall()
    ensures Words("\"a b\"") == ["a b"] && Slm("\"a b\"", 0, 0) == 2
  {
    var s := "\"a b\"";
    assert s[1..] == "a b\"" && s[1..][1..] == " b\"" && s[1..][1..][1..] == "b\"" && s[1..][1..][1..][1..] == "\"";
    assert Lex("\"", true) == [];
    assert Lex("b\"", true) == [Ch('b')];
    assert Lex(" b\"", true) == [Ch(' '), Ch('b')];
    assert Lex("a b\"", true) == [Ch('a'), Ch(' '), Ch('b')];
    assert Lex(s, false) == [Ch('a'), Ch(' '), Ch('b')];
    assert Slm("\"", 1, 2) == 2;
    assert Slm("b\"", 0, 2) == 2;
    assert Slm(" b\"", 1, 1) == 2;
    assert Slm("a b\"", 0, 1) == 2;
    GroupChars(([], []), "a b", []);
    assert [Ch('a'), Ch(' '), Ch('b')] == Chars("a b") + [];
    assert [] + "a b" == "a b";
    assert GroupFrom(([], []), Lex(s, false)) == ([], "a b");
    assert Slm(s, 0, 0) == Slm(s[1..], 0, 1);
  }

  /**
   * to_words' first pass as written: nw is one more than the number of
   * quotes and spaces, slm the largest run ending at one of them.
   */
  method ScanSizes(arg: string) returns (nw: nat, slm: nat)
    ensures nw == Seps(arg) + 1 && slm == Slm(arg, 0, 0)
  {
    nw := 1;
    var slc := 0;
    slm := 0;
    var p := 0;
    while p < |arg|
      invariant 0 <= p <= |arg|
      invariant nw + Seps(arg[p..]) == Seps(arg) + 1
      invariant Slm(arg[p..], slc, slm) == Slm(arg, 0, 0)
    {
      var c := arg[p];
      assert arg[p..][1..] == arg[p + 1..];
      p := p + 1;
      slc := slc + 1;
      if c == '"' || c == ' ' {
        nw := nw + 1;
        if slm < slc {
          slm := slc;
        }
        slc := 0;
      }
    }
  }

  /**
   * The first pass with the buffer size corrected to the length of the
   * argument, which every word fits in with its NUL.
   */
  method ScanSizesFixed(arg: string) returns (nw: nat, slm: nat)
    ensures nw == Seps(arg) + 1 && slm == |arg|
    ensures |Words(arg)| <= nw && forall i :: 0 <= i < |Words(arg)| ==> |Words(arg)[i]| <= slm
  {
    var sizes, unused := ScanSizes(arg);
    nw := sizes;
    slm := |arg|;
    WordsCount(arg);
    WordsFit(arg);
  }

  /**
   * to_words: the sizing pass, then one pass over the characters: a
   * quote toggles quoting and is dropped; a space inside quotes is
   * copied, outside quotes it ends a non-empty word and is otherwise
   * skipped; a backslash copies the character after it, or itself at
   * the end; anything else is copied.  The word being built at the end
   * is always kept.
   */
  method ToWords(arg: string) returns (arr: seq<string>)
    ensures arr == Words(arg) && WellFormed(arr)
    ensures |arr| <= Seps(arg) + 1 && forall i :: 0 <= i < |arr| ==> |arr[i]| <= |arg|
  {
    var nw, slm := ScanSizesFixed(arg);
    var quote := false;
    var words: seq<string> := [];
    var cur: string := [];
    var slc := 0;
    var p := 0;
    while p < |arg|
      invariant 0 <= p <= |arg| && slc == |cur|
      invariant GroupFrom((words, cur), Lex(arg[p..], quote)) == GroupFrom(([], []), Lex(arg, false))
      decreases |arg| - p
    {
      var c := arg[p];
      assert arg[p..][1..] == arg[p + 1..];
      p := p + 1;
      if c == '"' {
        quote := !quote;
      } else if c == ' ' {
        if quote {
          cur := cur + [c];
          slc := slc + 1;
        } else if slc != 0 {
          words := words + [cur];
          cur := [];
          slc := 0;
        }
      } else if c == '\\' && p < |arg| {
        assert arg[p - 1..][2..] == arg[p + 1..];
        cur := cur + [arg[p]];
        p := p + 1;
        slc := slc + 1;
      } else {
        cur := cur + [c];
        slc := slc + 1;
      }
    }
    arr := words + [cur];
    WordsWellFormed(arg);
  }

  /** The flag bits of popen.h; flags are a C short. */
  type Flags = bv16
  const Read: Flags := 1
  const Write: Flags := 2
  const ReadWrite: Flags := 3
  const Privileged: Flags := 4

  /**
   * run_cmd's flags: P_READ added when neither direction is asked for,
   * P_PRIVD always cleared, every other bit kept.
   */
  function RunCmdFlags(flags: Flags): (r: Flags)
    ensures r & Privileged == 0
    ensures r & ReadWrite == (if flags & ReadWrite == 0 then Read else flags & ReadWrite)
    ensures r & !(ReadWrite | Privileged) == flags & !(ReadWrite | Privileged)
  {
    var f := if flags & ReadWrite == 0 then flags | Read else flags;
    f & !Privileged
  }

  /** priv_run_cmd's flags: the same direction rule, P_PRIVD always set, every other bit kept. */
  function PrivRunCmdFlags(flags: Flags): (r: Flags)
    ensures r & Privileged == Privileged
    ensures r & ReadWrite == (if flags & ReadWrite == 0 then Read else flags & ReadWrite)
    ensures r & !(ReadWrite | Privileged) == flags & !(ReadWrite | Privileged)
  {
    var f := if flags & ReadWrite == 0 then flags | Read else flags;
    f | Privileged
  }

  /** The two entry points differ only in P_PRIVD. */
  lemma FlagsDifferInPrivileged(flags: Flags)
    ensures PrivRunCmdFlags(flags) == RunCmdFlags(flags) | Privileged
  {
  }

  /** Normalising twice changes nothing. */
  lemma FlagsIdempotent(flags: Flags)
    ensures RunCmdFlags(RunCmdFlags(flags)) == RunCmdFlags(flags)
    ensures PrivRunCmdFlags(PrivRunCmdFlags(flags)) == PrivRunCmdFlags(flags)
  {
  }
}

=== FILE: prng.dfy ===
/**
 * The counter-mode generator of prng.c.  AES is abstract: a block
 * function from key and 16-byte block to 16-byte block.  The counter
 * ectr and the secret increment step are two uint64 limbs each, most
 * significant first.  They are kept in memory through long_long_swap;
 * the number a pair of limbs denotes is a U128, and the counter moves
 * by step modulo 2^128.
 *
 * Keystream: the leftover bytes of the last block, then AES under the
 * current key of the counter after one, two, ... more steps (Blocks).
 * Draw(h) is what the next request for h bytes returns.
 */
module Prng {
  import opened Bytes
  import opened ByteSwap

  /** AES_BLOCK_LEN. */
  const BlockLen: nat := 16
  const TWO128: nat := 0x1_0000_0000_0000_0000_0000_0000_0000_0000
  const Million: int := 1000000

  type U128 = x: nat | x < TWO128

  datatype Option<T> = None | Some(value: T)

  /** AES as a function of key and block, always a whole block. */
  type BlockFn = f: (seq<Byte>, seq<Byte>) -> seq<Byte> | forall k, b :: |f(k, b)| == BlockLen
    witness (k: seq<Byte>, b: seq<Byte>) => Zeros(BlockLen)

  /** The eight bytes of a uint64 as they lie in memory. */
  function MemBytes(raw: U64, bigEndian: bool): (r: seq<Byte>)
    ensures |r| == 8
  {
    if bigEndian then StoreBE64(raw) else StoreLE64(raw)
  }

  /** The uint64 the machine reads from eight bytes of memory. */
  function MemLoad(b: seq<Byte>, bigEndian: bool): U64
    requires |b| == 8
  {
    if bigEndian then BE64(b) else LE64(b)
  }

  /** Bytewise OR of two eight-byte strings. */
  function Or8(a: seq<Byte>, b: seq<Byte>): (r: seq<Byte>)
    requires |a| == 8 && |b| == 8
    ensures |r| == 8
  {
    [a[0] | b[0], a[1] | b[1], a[2] | b[2], a[3] | b[3], a[4] | b[4], a[5] | b[5], a[6] | b[6], a[7] | b[7]]
  }

  /** The C operator | on two uint64 values, taken byte by byte. */
  function Or64(x: U64, y: U64): U64
  {
    LE64(Or8(StoreLE64(x), StoreLE64(y)))
  }

  function Xor64(x: U64, y: U64): U64
  {
    LE64(Xor(StoreLE64(x), StoreLE64(y)))
  }

  /** The 16 bytes AES encrypts for counter value v: both limbs, stored through long_long_swap. */
  function CtrBytes(v: U128, bigEndian: bool): (r: seq<Byte>)
    ensures |r| == BlockLen
  {
    MemBytes(LongLongSwap(v / TWO64, bigEndian), bigEndian) + MemBytes(LongLongSwap(v % TWO64, bigEndian), bigEndian)
  }

  /** A little-endian store is the big-endian store reversed. */
  lemma StoreLE64Reversed(x: U64)
    ensures StoreLE64(x) == Rev8(StoreBE64(x))
  {
  }

  /** The low bit of a little-endian load is the low bit of its first byte. */
  lemma LE64Parity(b: seq<Byte>)
    requires |b| == 8
    ensures LE64(b) % 2 == Val(b[0]) % 2
  {
    var lo := b[..4];
    assert LE32(lo) == BE32([lo[3], lo[2], lo[1], lo[0]]);
  }

  /** A limb stored through long_long_swap lies in memory least significant byte first, in both configurations. */
  lemma LimbPortable(x: U64, bigEndian: bool)
    ensures MemBytes(LongLongSwap(x, bigEndian), bigEndian) == StoreLE64(x)
  {
    if bigEndian {
      SwapMirrors(x);
    }
    StoreLE64Reversed(x);
  }

  /**
   * The counter goes to AES as each limb least significant byte first, in
   * both configurations: long_long_swap and the machine's byte order cancel.
   */
  lemma CtrBytesPortable(v: U128, bigEndian: bool)
    ensures CtrBytes(v, bigEndian) == StoreLE64(v / TWO64) + StoreLE64(v % TWO64)
  {
    LimbPortable(v / TWO64, bigEndian);
    LimbPortable(v % TWO64, bigEndian);
  }

  /** A uint64 copied in from memory and read through long_long_swap is its bytes little-endian, in both configurations. */
  lemma LoadPortable(b: seq<Byte>, bigEndian: bool)
    requires |b| == 8
    ensures LongLongSwap(MemLoad(b, bigEndian), bigEndian) == LE64(b)
  {
    if bigEndian {
      StoreLoadBE64(b);
      LoadLE64Reversed(Rev8(b));
      assert Rev8(Rev8(b)) == b;
    }
  }

  /** ORing in an odd byte gives an odd byte. */
  lemma OrOddIsOdd(a: Byte, b: Byte)
    requires Val(b) % 2 == 1
    ensures Val(a | b) % 2 == 1
  {
    assert b & 1 == 1;
    assert (a | b) & 1 == 1;
  }

  /**
   * The memory bytes of long_long_swap(1) hold the value 1 in the byte
   * LE64 reads as least significant after the swap back: the last byte on
   * a big-endian machine, the first otherwise.
   */
  lemma SwappedOneByte(bigEndian: bool)
    ensures Val(StoreLE64(LongLongSwap(1, bigEndian))[if bigEndian then 7 else 0]) == 1
  {
    StoreOne();
    if bigEndian {
      SwapMirrors(1);
      StoreLE64Reversed(SwapBytes(1));
    } else {
      StoreLE64Reversed(1);
    }
  }

  /**
   * PRNG_rekey's step[1] |= long_long_swap(1) makes the step's low limb
   * odd as a number, in both configurations.
   */
  lemma OrSwappedOneIsOdd(x: U64, bigEndian: bool)
    ensures LongLongSwap(Or64(x, LongLongSwap(1, bigEndian)), bigEndian) % 2 == 1
  {
    var a := StoreLE64(x);
    var one := StoreLE64(LongLongSwap(1, bigEndian));
    var o := Or8(a, one);
    SwappedOneByte(bigEndian);
    if bigEndian {
      OrOddIsOdd(a[7], one[7]);
      LoadLE64Reversed(o);
      StoreLoadBE64(Rev8(o));
      assert SwapBytes(LE64(o)) == LE64(Rev8(o));
      LE64Parity(Rev8(o));
    } else {
      OrOddIsOdd(a[0], one[0]);
      LE64Parity(o);
    }
  }

  /** A pair of limbs has the parity of its low limb. */
  lemma LowLimbParity(h: U64, l: U64)
    ensures (h * TWO64 + l) % 2 == l % 2
  {
    assert h * TWO64 == (h * (TWO64 / 2)) * 2;
  }

  /** The carry out of the low limbs: their sum does not fit in 64 bits. */
  function Carry(l: U64, sl: U64): nat
  {
    if l + sl >= TWO64 then 1 else 0
  }

  /**
   * Limb-wise addition, the low limbs modulo 2^64 with their carry into
   * the high limbs and the high limbs modulo 2^64, is addition modulo 2^128.
   */
  lemma AddLimbs(h: U64, l: U64, sh: U64, sl: U64, newHi: U64, newLo: U64)
    requires newHi == ((h + Carry(l, sl)) % TWO64 + sh) % TWO64 && newLo == (l + sl) % TWO64
    ensures newHi * TWO64 + newLo == (h * TWO64 + l + (sh * TWO64 + sl)) % TWO128
  {
    var hi := (h + Carry(l, sl) + sh) % TWO64;
    assert ((h + Carry(l, sl)) % TWO64 + sh) % TWO64 == hi;
    var q := (h + Carry(l, sl) + sh) / TWO64;
    assert h + Carry(l, sl) + sh == q * TWO64 + hi;
    assert l + sl == Carry(l, sl) * TWO64 + (l + sl) % TWO64;
    var total := h * TWO64 + l + (sh * TWO64 + sl);
    assert total == (h + Carry(l, sl) + sh) * TWO64 + (l + sl) % TWO64;
    assert total == q * TWO128 + (hi * TWO64 + (l + sl) % TWO64);
    assert hi * TWO64 + (l + sl) % TWO64 < TWO128;
  }

  /** The counter after n steps of s from c. */
  function Adv(c: U128, s: U128, n: nat): U128
  {
    if n == 0 then c else (Adv(c, s, n - 1) + s) % TWO128
  }

  /** The next n keystream blocks from counter c with increment s under key. */
  function Blocks(aes: BlockFn, key: seq<Byte>, c: U128, s: U128, n: nat, bigEndian: bool): (r: seq<Byte>)
    ensures |r| == BlockLen * n
  {
    if n == 0 then [] else Blocks(aes, key, c, s, n - 1, bigEndian) + aes(key, CtrBytes(Adv(c, s, n), bigEndian))
  }

  /** How many blocks internal_output_bytes generates for howmuch bytes with pending bytes left over. */
  function BlocksFor(pending: nat, howmuch: nat): (n: nat)
    ensures pending + n * BlockLen >= howmuch
    ensures n > 0 ==> pending + (n - 1) * BlockLen < howmuch
  {
    if howmuch <= pending then 0 else (howmuch - pending + BlockLen - 1) / BlockLen
  }

  /**
   * internal_output_bytes' bookkeeping: the pending bytes taken, then the
   * first rest bytes of k fresh blocks, are the first howmuch bytes of
   * the stream; what remains of it is the unused tail of the last block.
   */
  lemma SplitDraw(pend: seq<Byte>, blocks: seq<Byte>, last: seq<Byte>, howmuch: nat, rest: nat, lo: nat, k: nat)
    requires rest == (if howmuch <= |pend| then 0 else howmuch - |pend|)
    requires |blocks| == 16 * k && rest + lo == 16 * k && lo < 16 && |last| == 16
    requires k > 0 ==> blocks[16 * (k - 1) ..] == last
    ensures pend[.. howmuch - rest] + blocks[.. rest] == (pend + blocks)[.. howmuch]
    ensures (pend + blocks)[howmuch ..] == if lo != 0 then last[16 - lo ..] else if rest > 0 then [] else pend[howmuch ..]
  {
    if rest > 0 {
      assert pend[.. howmuch - rest] == pend;
      if lo != 0 {
        assert blocks[rest ..] == blocks[16 * (k - 1) ..][16 - lo ..];
      }
    }
  }

  /** Past the pending bytes, the block count depends only on the bytes still wanted. */
  lemma BlocksForShift(pending: nat, howmuch: nat)
    requires howmuch > pending
    ensures BlocksFor(pending, howmuch) == BlocksFor(0, howmuch - pending)
  {
  }

  /** The block count is the only one meeting those bounds. */
  lemma BlocksForUnique(pending: nat, howmuch: nat, n: nat)
    requires pending + n * BlockLen >= howmuch
    requires n > 0 ==> pending + (n - 1) * BlockLen < howmuch
    requires n == 0 ==> howmuch <= pending
    ensures BlocksFor(pending, howmuch) == n
  {
    if howmuch > pending {
      var d := howmuch - pending + BlockLen - 1;
      assert n * BlockLen <= d < n * BlockLen + BlockLen;
    }
  }

  /** Stepping a + b times is stepping a times, then b. */
  lemma {:induction false} AdvAdd(c: U128, s: U128, a: nat, b: nat)
    ensures Adv(c, s, a + b) == Adv(Adv(c, s, a), s, b)
    decreases b
  {
    if b > 0 {
      AdvAdd(c, s, a, b - 1);
    }
  }

  /** The last of n blocks comes from the counter advanced n times. */
  lemma BlocksUnfold(aes: BlockFn, key: seq<Byte>, c: U128, s: U128, n: nat, bigEndian: bool)
    requires n > 0
    ensures Blocks(aes, key, c, s, n, bigEndian) == Blocks(aes, key, c, s, n - 1, bigEndian) + aes(key, CtrBytes(Adv(c, s, n), bigEndian))
  {
  }

  /** The inductive step of BlocksAdd: one more block on both sides. */
  lemma BlocksAddStep(aes: BlockFn, key: seq<Byte>, c: U128, s: U128, a: nat, b: nat, bigEndian: bool)
    requires b > 0
    requires Blocks(aes, key, c, s, a + b - 1, bigEndian) ==
             Blocks(aes, key, c, s, a, bigEndian) + Blocks(aes, key, Adv(c, s, a), s, b - 1, bigEndian)
    requires Adv(c, s, a + b) == Adv(Adv(c, s, a), s, b)
    ensures Blocks(aes, key, c, s, a + b, bigEndian) ==
            Blocks(aes, key, c, s, a, bigEndian) + Blocks(aes, key, Adv(c, s, a), s, b, bigEndian)
  {
    hide CtrBytes;
    var d := Adv(c, s, a);
    BlocksUnfold(aes, key, c, s, a + b, bigEndian);
    BlocksUnfold(aes, key, d, s, b, bigEndian);
    hide Blocks, Adv;
    var first, mid := Blocks(aes, key, c, s, a, bigEndian), Blocks(aes, key, d, s, b - 1, bigEndian);
    var last := aes(key, CtrBytes(Adv(c, s, a + b), bigEndian));
    assert (first + mid) + last == first + (mid + last);
  }

  /** a + b blocks are the first a, then b more from where those left the counter. */
  lemma {:induction false} BlocksAdd(aes: BlockFn, key: seq<Byte>, c: U128, s: U128, a: nat, b: nat, bigEndian: bool)
    ensures Blocks(aes, key, c, s, a + b, bigEndian) ==
            Blocks(aes, key, c, s, a, bigEndian) + Blocks(aes, key, Adv(c, s, a), s, b, bigEndian)
    decreases b
  {
    hide CtrBytes;
    if b > 0 {
      BlocksAdd(aes, key, c, s, a, b - 1, bigEndian);
      AdvAdd(c, s, a, b);
      BlocksAddStep(aes, key, c, s, a, b, bigEndian);
    } else {
      assert Blocks(aes, key, Adv(c, s, a), s, 0, bigEndian) == [];
    }
  }

  /**
   * No byte skipped or repeated: after h bytes of the stream of n blocks
   * behind the pending bytes p, the rest, followed by m more blocks from
   * the advanced counter, is the stream of n + m blocks less its first h bytes.
   */
  lemma Contiguous(aes: BlockFn, key: seq<Byte>, p: seq<Byte>, c: U128, s: U128, n: nat, m: nat, h: nat, bigEndian: bool)
    requires h <= |p| + n * BlockLen
    ensures (p + Blocks(aes, key, c, s, n, bigEndian))[h ..] + Blocks(aes, key, Adv(c, s, n), s, m, bigEndian) ==
            (p + Blocks(aes, key, c, s, n + m, bigEndian))[h ..]
  {
    hide CtrBytes;
    var b1, b2 := Blocks(aes, key, c, s, n, bigEndian), Blocks(aes, key, Adv(c, s, n), s, m, bigEndian);
    BlocksAdd(aes, key, c, s, n, m, bigEndian);
    hide Blocks;
    var x := p + b1;
    assert p + (b1 + b2) == x + b2;
    assert (x + b2)[h ..] == x[h ..] + b2;
  }

  /** gettimeofday's result. */
  datatype TimeVal = TimeVal(sec: int, usec: int)

  /** now is at or past t: poll_rekey's comparison. */
  predicate Reached(now: TimeVal, t: TimeVal)
  {
    now.sec > t.sec || (now.sec == t.sec && now.usec >= t.usec)
  }

  /** Once the target is reached it stays reached: every later poll finds it due. */
  lemma ReachedStays(t: TimeVal, now: TimeVal, later: TimeVal)
    requires Reached(now, t) && Reached(later, now)
    ensures Reached(later, t)
  {
  }

  /** PRNG_init's target: now plus (sec, usec), with one carry from microseconds into seconds. */
  function Target(now: TimeVal, sec: int, usec: int): (t: TimeVal)
    ensures t.sec * Million + t.usec == (now.sec + sec) * Million + now.usec + usec
    ensures t.usec < Million <== now.usec + usec < 2 * Million
  {
    var u := now.usec + usec;
    if u >= Million then TimeVal(now.sec + sec + 1, u - Million) else TimeVal(now.sec + sec, u)
  }

  /** The target's microseconds stay in range when both summands are. */
  lemma TargetNormal(now: TimeVal, sec: int, usec: int)
    requires 0 <= now.usec < Million && 0 <= usec < Million
    ensures 0 <= Target(now, sec, usec).usec < Million
  {
  }

  /** With usec of two million or more a single carry leaves tv_usec out of range. */
  lemma TargetNeedsSmallUsec()
    ensures Target(TimeVal(0, 0), 0, 2 * Million).usec >= Million
  {
  }

  /** The seed bytes PRNG_rekey reads: j runs over 0 .. 2 keylen for the key, then 16 more. */
  function SeedLen(keyLen: nat): nat
  {
    2 * keyLen + BlockLen
  }

  /** What poll_rekey's caller asks the entropy source for: keylen * 8 + blocklen * 8 bytes. */
  function RekeyRequest(keyLen: nat): (n: nat)
    ensures n >= SeedLen(keyLen)
  {
    keyLen * 8 + BlockLen * 8
  }

  /** The bytes XORed into the key: seed[1], seed[3], ..., as j advances twice per key byte. */
  function KeySeedBytes(seed: seq<Byte>, n: nat): (r: seq<Byte>)
    requires 2 * n <= |seed|
    ensures |r| == n && forall i :: 0 <= i < n ==> r[i] == seed[2 * i + 1]
  {
    seq(n, i requires 0 <= i < n => seed[2 * i + 1])
  }

  /** The first h bytes of the pending bytes p followed by the blocks from counter c with increment s. */
  ghost function DrawOf(aes: BlockFn, key: seq<Byte>, p: seq<Byte>, c: U128, s: U128, h: nat, bigEndian: bool): (r: seq<Byte>)
    ensures |r| == h
  {
    (p + Blocks(aes, key, c, s, BlocksFor(|p|, h), bigEndian))[.. h]
  }

  /** The key a freshly initialised generator draws first: all-zero AES key, counter 0, step 1. */
  ghost function FirstDraw(aes: BlockFn, keyLen: nat, bigEndian: bool): (r: seq<Byte>)
    ensures |r| == keyLen
  {
    Blocks(aes, Zeros(keyLen), 0, 1, BlocksFor(0, keyLen), bigEndian)[.. keyLen]
  }

  /**
   * PRNG_rekey's key loop: j steps twice per key byte, once for the stmp
   * address it computes and never reads, once for the seed byte XORed in.
   */
  method MixKey(drawn: seq<Byte>, seed: seq<Byte>) returns (newKey: seq<Byte>)
    requires 2 * |drawn| <= |seed|
    ensures newKey == Xor(drawn, KeySeedBytes(seed, |drawn|))
  {
    var j := 0;
    newKey := drawn;
    for i := 0 to |drawn|
      invariant j == 2 * i && |newKey| == |drawn|
      invariant forall t :: 0 <= t < i ==> newKey[t] == drawn[t] ^ seed[2 * t + 1]
      invariant forall t :: i <= t < |drawn| ==> newKey[t] == drawn[t]
    {
      j := j + 1;
      newKey := newKey[i := newKey[i] ^ seed[j]];
      j := j + 1;
    }
  }

  /**
   * PRNG_rekey's step loop: each of the two drawn uint64 words XORed
   * with the uint64 the machine reads at the seed's next eight bytes,
   * from offset 2 keylen on.
   */
  method MixStep(drawn: seq<Byte>, seed: seq<Byte>, keyLen: nat, bigEndian: bool) returns (newStep: seq<U64>)
    requires |drawn| == BlockLen && |seed| >= 2 * keyLen + BlockLen
    ensures |newStep| == 2
    ensures newStep[0] == Xor64(MemLoad(drawn[.. 8], bigEndian), MemLoad(seed[2 * keyLen .. 2 * keyLen + 8], bigEndian))
    ensures newStep[1] == Xor64(MemLoad(drawn[8 .. 16], bigEndian), MemLoad(seed[2 * keyLen + 8 .. 2 * keyLen + 16], bigEndian))
  {
    var j := 2 * keyLen;
    newStep := [MemLoad(drawn[.. 8], bigEndian), MemLoad(drawn[8 .. 16], bigEndian)];
    for i := 0 to 2
      invariant j == 2 * keyLen + 8 * i && |newStep| == 2
      invariant newStep[0] == if i > 0 then Xor64(MemLoad(drawn[.. 8], bigEndian), MemLoad(seed[2 * keyLen .. 2 * keyLen + 8], bigEndian))
                              else MemLoad(drawn[.. 8], bigEndian)
      invariant newStep[1] == if i > 1 then Xor64(MemLoad(drawn[8 .. 16], bigEndian), MemLoad(seed[2 * keyLen + 8 .. 2 * keyLen + 16], bigEndian))
                              else MemLoad(drawn[8 .. 16], bigEndian)
    {
      newStep := newStep[i := Xor64(newStep[i], MemLoad(seed[j .. j + 8], bigEndian))];
      j := j + 8;
    }
  }

  /** The seed PRNG_destroy hands to PRNG_init as written: UMAC_KEY_LEN zero bytes. */
  function DestroySeed(keyLen: nat): seq<Byte>
  {
    Zeros(keyLen)
  }

  /**
   * PRNG_rekey reads 2 keylen + 16 seed bytes: more than the keylen + 16
   * its comment asks for, and more than the keylen bytes PRNG_destroy
   * passes, so that call reads past the end of its seed.
   */
  lemma DestroySeedTooShort(keyLen: nat)
    requires keyLen > 0
    ensures |DestroySeed(keyLen)| < keyLen + BlockLen < SeedLen(keyLen)
  {
  }

  /** The seed PRNG_destroy needs: as many zero bytes as PRNG_rekey reads. */
  function ZeroSeed(keyLen: nat): (r: seq<Byte>)
    ensures |r| == SeedLen(keyLen) && KeySeedBytes(r, keyLen) == Zeros(keyLen)
  {
    Zeros(SeedLen(keyLen))
  }

  /** The generator's constants: the block cipher, UMAC_KEY_LEN, WORDS_BIGENDIAN, GATE_SIZE and MAXBLOCKRESEED. */
  datatype Config = Config(aes: BlockFn, keyLen: nat, bigEndian: bool, gateSize: nat, maxReseed: nat)

  /** Everything in a prngctx_t that the bytes it hands out depend on. */
  datatype GenState = GenState(key: seq<Byte>, pending: seq<Byte>, ctr: U128, step: U128, ob: nat)

  /** Two native words as the number long_long_swap reads from them, the first one high. */
  function Limbs(hi: U64, lo: U64, bigEndian: bool): U128
  {
    LongLongSwap(hi, bigEndian) * TWO64 + LongLongSwap(lo, bigEndian)
  }

  /** The step self_reseed stores: the 16 drawn bytes loaded as two native words. */
  function DrawnStep(s: seq<Byte>, bigEndian: bool): U128
    requires |s| == BlockLen
  {
    Limbs(MemLoad(s[.. 8], bigEndian), MemLoad(s[8 .. 16], bigEndian), bigEndian)
  }

  /**
   * The step PRNG_rekey stores: each drawn word XORed with the seed word
   * at offset 2 keylen and 2 keylen + 8, the low one with its last bit set.
   */
  function SeededStep(s: seq<Byte>, seed: seq<Byte>, keyLen: nat, bigEndian: bool): U128
    requires |s| == BlockLen && |seed| >= SeedLen(keyLen)
  {
    var kl, be := keyLen, bigEndian;
    Limbs(Xor64(MemLoad(s[.. 8], be), MemLoad(seed[2 * kl .. 2 * kl + 8], be)),
          Or64(Xor64(MemLoad(s[8 .. 16], be), MemLoad(seed[2 * kl + 8 .. 2 * kl + 16], be)), LongLongSwap(1, be)),
          be)
  }

  /** Forcing the low limb's last bit with long_long_swap(1) makes the number odd. */
  lemma LimbsOdd(hi: U64, x: U64, bigEndian: bool)
    ensures Limbs(hi, Or64(x, LongLongSwap(1, bigEndian)), bigEndian) % 2 == 1
  {
    OrSwappedOneIsOdd(x, bigEndian);
    hide Or64, LongLongSwap;
    LowLimbParity(LongLongSwap(hi, bigEndian), LongLongSwap(Or64(x, LongLongSwap(1, bigEndian)), bigEndian));
  }

  /** Whatever was drawn and whatever the seed holds, PRNG_rekey's step is odd. */
  lemma SeededStepOdd(s: seq<Byte>, seed: seq<Byte>, keyLen: nat, bigEndian: bool)
    requires |s| == BlockLen && |seed| >= SeedLen(keyLen)
    ensures SeededStep(s, seed, keyLen, bigEndian) % 2 == 1
  {
    var kl, be := keyLen, bigEndian;
    LimbsOdd(Xor64(MemLoad(s[.. 8], be), MemLoad(seed[2 * kl .. 2 * kl + 8], be)),
             Xor64(MemLoad(s[8 .. 16], be), MemLoad(seed[2 * kl + 8 .. 2 * kl + 16], be)), be);
  }

  /** outputblocks after one internal_output_bytes call: one more, or 2 after the self_reseed that reaching MAXBLOCKRESEED sets off. */
  function NextCount(ob: nat, max: nat): nat
  {
    if ob + 1 >= max then 2 else ob + 1
  }

  /**
   * internal_output_bytes before its count: the next h bytes of the
   * stream, the counter past the blocks they took, and the unused rest
   * of the last block pending.
   */
  ghost function Produced(c: Config, st: GenState, h: nat): (r: (seq<Byte>, GenState))
    ensures |r.0| == h && r.1.key == st.key && r.1.step == st.step && r.1.ob == st.ob
  {
    var n := BlocksFor(|st.pending|, h);
    var s := st.pending + Blocks(c.aes, st.key, st.ctr, st.step, n, c.bigEndian);
    (DrawOf(c.aes, st.key, st.pending, st.ctr, st.step, h, c.bigEndian), st.(pending := s[h ..], ctr := Adv(st.ctr, st.step, n)))
  }

  /** internal_output_bytes: the bytes produced, then the call counted, and at MAXBLOCKRESEED the count reset and a self_reseed. */
  ghost function OutputBytes(c: Config, st: GenState, h: nat): (r: (seq<Byte>, GenState))
    requires c.maxReseed >= 3
    ensures |r.0| == h && r.1.ob == NextCount(st.ob, c.maxReseed)
    decreases if st.ob + 1 >= c.maxReseed then 4 else 1
  {
    var p := Produced(c, st, h);
    if st.ob + 1 >= c.maxReseed then (p.0, Reseeded(c, p.1.(ob := 0))) else (p.0, p.1.(ob := st.ob + 1))
  }

  /** self_reseed: a key drawn, a step drawn under it, and the counter at zero. */
  ghost function Reseeded(c: Config, st: GenState): (r: GenState)
    requires c.maxReseed >= 3
    ensures r.ob == NextCount(NextCount(st.ob, c.maxReseed), c.maxReseed) && r.ctr == 0
    decreases if st.ob + 2 >= c.maxReseed then 5 else 2
  {
    var k := OutputBytes(c, st, c.keyLen);
    var s := OutputBytes(c, k.1.(key := k.0), BlockLen);
    s.1.(ctr := 0, step := DrawnStep(s.0, c.bigEndian))
  }

  /**
   * PRNG_rekey: a key drawn and XORed with the odd-indexed seed bytes,
   * a step drawn under it and XORed with the two seed words after those,
   * its low limb forced odd, and the counter at zero.
   */
  ghost function Rekeyed(c: Config, st: GenState, seed: seq<Byte>): (r: GenState)
    requires c.maxReseed >= 3 && |seed| >= SeedLen(c.keyLen)
    ensures r.ob == NextCount(NextCount(st.ob, c.maxReseed), c.maxReseed) && r.ctr == 0
  {
    var k := OutputBytes(c, st, c.keyLen);
    var s := OutputBytes(c, k.1.(key := Xor(k.0, KeySeedBytes(seed, c.keyLen))), BlockLen);
    s.1.(ctr := 0, step := SeededStep(s.0, seed, c.keyLen, c.bigEndian))
  }

  /**
   * PRNG_output's loop and last call: while more than GATE_SIZE bytes
   * are wanted, a GATE_SIZE piece followed by a self_reseed; then the
   * remaining bytes.
   */
  ghost function Gated(c: Config, st: GenState, size: nat): (r: (seq<Byte>, GenState))
    requires c.maxReseed >= 3 && c.gateSize > 0
    ensures |r.0| == size
    decreases size
  {
    if size > c.gateSize then
      var piece := OutputBytes(c, st, c.gateSize);
      var more := Gated(c, Reseeded(c, piece.1), size - c.gateSize);
      (piece.0 + more.0, more.1)
    else
      OutputBytes(c, st, size)
  }

  /** The state PRNG_init starts its rekey from: the all-zero key, nothing pending, counter 0, step 1, no output counted. */
  function Initial(keyLen: nat): GenState
  {
    GenState(Zeros(keyLen), [], 0, 1, 0)
  }

  /** An internal_output_bytes call that does not reach MAXBLOCKRESEED hands out the next h bytes of the stream and reseeds nothing. */
  lemma OutputBytesQuiet(c: Config, st: GenState, h: nat)
    requires c.maxReseed >= 3 && st.ob + 1 < c.maxReseed
    ensures OutputBytes(c, st, h).0 == Produced(c, st, h).0 == DrawOf(c.aes, st.key, st.pending, st.ctr, st.step, h, c.bigEndian)
    ensures OutputBytes(c, st, h).1 == Produced(c, st, h).1.(ob := st.ob + 1)
    ensures OutputBytes(c, st, h).1.key == st.key && OutputBytes(c, st, h).1.step == st.step
  {
    hide OutputBytes, Reseeded, Blocks, DrawOf;
    OutputBytesStep(c, st, h);
  }

  /**
   * Away from MAXBLOCKRESEED, self_reseed takes the next keylen bytes of
   * the stream as its key, and the 16 after them, drawn under that key
   * from where the first draw left the counter, as its step.
   */
  lemma ReseededQuiet(c: Config, st: GenState)
    requires c.maxReseed >= 3 && st.ob + 2 < c.maxReseed
    ensures var k := Produced(c, st, c.keyLen);
            var s := Produced(c, k.1.(key := k.0), BlockLen);
            k.0 == DrawOf(c.aes, st.key, st.pending, st.ctr, st.step, c.keyLen, c.bigEndian) &&
            Reseeded(c, st) == s.1.(ctr := 0, step := DrawnStep(s.0, c.bigEndian), ob := st.ob + 2)
  {
    hide OutputBytes, Reseeded, Produced, Blocks, DrawOf, DrawnStep;
    ReseededStep(c, st);
    var k := Produced(c, st, c.keyLen);
    OutputBytesQuiet(c, st, c.keyLen);
    ProducedOb(c, k.1.(key := k.0), BlockLen, st.ob + 1);
    OutputBytesQuiet(c, k.1.(key := k.0).(ob := st.ob + 1), BlockLen);
  }

  /** Away from MAXBLOCKRESEED, PRNG_rekey's key is the next keylen bytes of the stream XORed with the odd-indexed seed bytes. */
  lemma RekeyedKey(c: Config, st: GenState, seed: seq<Byte>)
    requires c.maxReseed >= 3 && |seed| >= SeedLen(c.keyLen) && st.ob + 2 < c.maxReseed
    ensures Rekeyed(c, st, seed).key == Xor(DrawOf(c.aes, st.key, st.pending, st.ctr, st.step, c.keyLen, c.bigEndian), KeySeedBytes(seed, c.keyLen))
  {
    hide OutputBytes, Rekeyed, Produced, Blocks, DrawOf, SeededStep, Xor, KeySeedBytes;
    RekeyedStep(c, st, seed);
    OutputBytesQuiet(c, st, c.keyLen);
    var k := OutputBytes(c, st, c.keyLen);
    OutputBytesQuiet(c, k.1.(key := Xor(k.0, KeySeedBytes(seed, c.keyLen))), BlockLen);
  }

  /** PRNG_rekey always leaves an odd step, so the counter runs through all 2^128 values before repeating. */
  lemma RekeyedOdd(c: Config, st: GenState, seed: seq<Byte>)
    requires c.maxReseed >= 3 && |seed| >= SeedLen(c.keyLen)
    ensures Rekeyed(c, st, seed).step % 2 == 1
  {
    hide OutputBytes, Rekeyed, Produced, SeededStep, Xor, KeySeedBytes;
    RekeyedStep(c, st, seed);
    var k := OutputBytes(c, st, c.keyLen);
    var s := OutputBytes(c, k.1.(key := Xor(k.0, KeySeedBytes(seed, c.keyLen))), BlockLen);
    SeededStepOdd(s.0, seed, c.keyLen, c.bigEndian);
  }

  /**
   * The first piece PRNG_output writes, up to GATE_SIZE bytes, is the
   * continuation of the stream the state stood at; the bytes after it
   * come from a self_reseeded state with its counter at zero.
   */
  lemma GatedFirst(c: Config, st: GenState, size: nat)
    requires c.maxReseed >= 3 && c.gateSize > 0 && st.ob + 1 < c.maxReseed
    ensures var h := if size <= c.gateSize then size else c.gateSize;
            Gated(c, st, size).0[.. h] == DrawOf(c.aes, st.key, st.pending, st.ctr, st.step, h, c.bigEndian)
    ensures size > c.gateSize ==>
              var next := Reseeded(c, OutputBytes(c, st, c.gateSize).1);
              next.ctr == 0 && Gated(c, st, size).0[c.gateSize ..] == Gated(c, next, size - c.gateSize).0
  {
    hide OutputBytes, Reseeded, Produced, Gated, Blocks, DrawOf;
    OutputBytesQuiet(c, st, if size <= c.gateSize then size else c.gateSize);
    if size > c.gateSize {
      GatedStep(c, st, size);
      var piece := OutputBytes(c, st, c.gateSize).0;
      assert |piece| == c.gateSize;
    } else {
      GatedLast(c, st, size);
    }
  }

  /** Produced does not look at outputblocks and leaves it as it was. */
  lemma ProducedOb(c: Config, st: GenState, h: nat, ob: nat)
    ensures Produced(c, st.(ob := ob), h) == (Produced(c, st, h).0, Produced(c, st, h).1.(ob := ob))
  {
    hide Blocks, DrawOf;
  }

  /** OutputBytes spelled out, for proofs that keep it hidden. */
  lemma OutputBytesStep(c: Config, st: GenState, h: nat)
    requires c.maxReseed >= 3
    ensures var p := Produced(c, st, h);
            OutputBytes(c, st, h) == if st.ob + 1 >= c.maxReseed then (p.0, Reseeded(c, p.1.(ob := 0))) else (p.0, p.1.(ob := st.ob + 1))
  {
    hide Produced, Reseeded;
  }

  /** Reseeded spelled out. */
  lemma ReseededStep(c: Config, st: GenState)
    requires c.maxReseed >= 3
    ensures var k := OutputBytes(c, st, c.keyLen);
            var s := OutputBytes(c, k.1.(key := k.0), BlockLen);
            Reseeded(c, st) == s.1.(ctr := 0, step := DrawnStep(s.0, c.bigEndian))
  {
    hide OutputBytes, DrawnStep;
  }

  /** Rekeyed spelled out. */
  lemma RekeyedStep(c: Config, st: GenState, seed: seq<Byte>)
    requires c.maxReseed >= 3 && |seed| >= SeedLen(c.keyLen)
    ensures var k := OutputBytes(c, st, c.keyLen);
            var s := OutputBytes(c, k.1.(key := Xor(k.0, KeySeedBytes(seed, c.keyLen))), BlockLen);
            Rekeyed(c, st, seed) == s.1.(ctr := 0, step := SeededStep(s.0, seed, c.keyLen, c.bigEndian))
  {
    hide OutputBytes, SeededStep, Xor, KeySeedBytes;
  }

  /** One GATE_SIZE round of Gated, spelled out. */
  lemma GatedStep(c: Config, st: GenState, size: nat)
    requires c.maxReseed >= 3 && c.gateSize > 0 && size > c.gateSize
    ensures var piece := OutputBytes(c, st, c.gateSize);
            var more := Gated(c, Reseeded(c, piece.1), size - c.gateSize);
            Gated(c, st, size) == (piece.0 + more.0, more.1)
  {
    hide Produced, OutputBytes, Reseeded;
  }

  /** Gated's last call, spelled out. */
  lemma GatedLast(c: Config, st: GenState, size: nat)
    requires c.maxReseed >= 3 && c.gateSize > 0 && size <= c.gateSize
    ensures Gated(c, st, size) == OutputBytes(c, st, size)
  {
    hide Produced, OutputBytes, Reseeded;
  }

  /** outputblocks after one internal_output_bytes call, and whether that call reseeds. */
  function AfterOutput(ob: nat, max: nat): (nat, bool)
  {
    if ob + 1 >= max then (0, true) else (ob + 1, false)
  }

  /**
   * A self_reseed entered with outputblocks at 0 makes two
   * internal_output_bytes calls.  With MAXBLOCKRESEED at least 3 neither
   * reseeds again; with 1 or 2 one of them does, from outputblocks 0
   * again, so the recursion never ends.
   */
  lemma ReseedRecursesIff(max: nat)
    ensures var (ob1, r1) := AfterOutput(0, max);
            var (_, r2) := AfterOutput(ob1, max);
            (r1 || r2) <==> max < 3
  {
  }

  class Generator {
    /** UMAC_KEY_LEN, WORDS_BIGENDIAN, the block cipher, GATE_SIZE and MAXBLOCKRESEED. */
    const keyLen: nat
    const bigEndian: bool
    const aes: BlockFn
    const gateSize: nat
    const maxReseed: nat
    const ectr: array<U64>
    const step: array<U64>
    const leftover: array<Byte>
    /** The key cctx was set up with. */
    var key: seq<Byte>
    /** lptr, as an offset into leftover, and num_left. */
    var lptr: nat
    var numLeft: nat
    var outputblocks: nat
    var mypid: int
    var target: TimeVal
    var sec: int
    var usec: int

    /** The storage of a prngctx_t and the constants it is built with. */
    ghost predicate Shape()
      reads {}
    {
      ectr.Length == 2 && step.Length == 2 && leftover.Length == BlockLen && ectr != step &&
      gateSize > 0 && maxReseed >= 3
    }

    ghost predicate Valid()
      reads this`key, this`numLeft, this`lptr
    {
      Shape() && |key| == keyLen && numLeft < BlockLen && (numLeft == 0 || lptr + numLeft <= BlockLen)
    }

    /** The counter and the step as numbers. */
    ghost function Ctr(): U128
      reads ectr
      requires ectr.Length == 2
    {
      LongLongSwap(ectr[0], bigEndian) * TWO64 + LongLongSwap(ectr[1], bigEndian)
    }

    ghost function Step(): U128
      reads step
      requires step.Length == 2
    {
      LongLongSwap(step[0], bigEndian) * TWO64 + LongLongSwap(step[1], bigEndian)
    }

    /** The bytes of the last block not yet handed out. */
    ghost function Pending(): (r: seq<Byte>)
      reads this`key, this`numLeft, this`lptr, leftover
      requires Valid()
      ensures |r| == numLeft
    {
      if numLeft == 0 then [] else leftover[lptr .. lptr + numLeft]
    }

    /** The pending bytes, then n blocks under the current key. */
    ghost function Stream(n: nat): (r: seq<Byte>)
      reads this`key, this`numLeft, this`lptr, ectr, step, leftover
      requires Valid()
      ensures |r| == numLeft + n * BlockLen
    {
      Pending() + Blocks(aes, key, Ctr(), Step(), n, bigEndian)
    }

    /** What the next h bytes drawn are. */
    ghost function Draw(h: nat): (r: seq<Byte>)
      reads this`key, this`numLeft, this`lptr, ectr, step, leftover
      requires Valid()
      ensures |r| == h
    {
      DrawOf(aes, key, Pending(), Ctr(), Step(), h, bigEndian)
    }

    /** The constants the generator was built with. */
    function Cfg(): Config
    {
      Config(aes, keyLen, bigEndian, gateSize, maxReseed)
    }

    /** The generator as a value: what every byte it hands out from now on depends on. */
    ghost function State(): GenState
      reads this`key, this`numLeft, this`lptr, this`outputblocks, ectr, step, leftover
      requires Valid()
    {
      GenState(key, Pending(), Ctr(), Step(), outputblocks)
    }

    /** What Valid says, for proofs that keep its definition hidden. */
    lemma ValidFacts()
      requires Valid()
      ensures BlockLen == 16
      ensures ectr.Length == 2 && step.Length == 2 && leftover.Length == BlockLen && ectr != step
      ensures gateSize > 0 && maxReseed >= 3 && |key| == keyLen && |Pending()| == numLeft < BlockLen
      ensures Cfg() == Config(aes, keyLen, bigEndian, gateSize, maxReseed)
    {
    }

    /** Pending spelled out. */
    lemma PendingNow()
      requires Valid()
      ensures Pending() == if numLeft == 0 then [] else leftover[lptr .. lptr + numLeft]
    {
    }

    /** State spelled out. */
    lemma StateNow()
      requires Valid()
      ensures State() == GenState(key, Pending(), Ctr(), Step(), outputblocks)
    {
    }

    /** The step words as a number. */
    lemma StepLimbs()
      requires step.Length == 2
      ensures Step() == Limbs(step[0], step[1], bigEndian)
    {
    }

    /** Produced from the current state, in the terms Produce is stated in. */
    lemma ProducedNow(h: nat)
      requires Valid()
      ensures var n := BlocksFor(numLeft, h);
              Produced(Cfg(), State(), h) == (Draw(h), State().(pending := Stream(n)[h ..], ctr := Adv(Ctr(), Step(), n)))
    {
    }

    /** Draw and Stream spelled out: h bytes are the first h of the stream of enough blocks. */
    lemma StreamDraw(h: nat)
      requires Valid()
      ensures var n := BlocksFor(numLeft, h);
              Stream(n) == Pending() + Blocks(aes, key, Ctr(), Step(), n, bigEndian) && Draw(h) == Stream(n)[.. h]
    {
    }

    /** Draw spelled out. */
    lemma DrawNow(h: nat)
      requires Valid()
      ensures Draw(h) == DrawOf(aes, key, Pending(), Ctr(), Step(), h, bigEndian)
    {
    }

    /** A zeroed ectr is the counter value 0. */
    lemma CtrZero()
      requires ectr.Length == 2 && ectr[0] == 0 && ectr[1] == 0
      ensures Ctr() == 0
    {
      SwapZero(bigEndian);
    }

    /** PRNG_rekey's last statement leaves the step odd. */
    lemma StepOdd(x: U64)
      requires step.Length == 2 && step[1] == Or64(x, LongLongSwap(1, bigEndian))
      ensures Step() % 2 == 1
    {
      OrSwappedOneIsOdd(x, bigEndian);
      hide Or64, LongLongSwap;
      LowLimbParity(LongLongSwap(step[0], bigEndian), LongLongSwap(step[1], bigEndian));
    }

    /** The bytes aes reads from ectr are the counter's block. */
    lemma CounterInMemory()
      requires ectr.Length == 2
      ensures MemBytes(ectr[0], bigEndian) + MemBytes(ectr[1], bigEndian) == CtrBytes(Ctr(), bigEndian)
    {
      var h, l := LongLongSwap(ectr[0], bigEndian), LongLongSwap(ectr[1], bigEndian);
      assert Ctr() / TWO64 == h && Ctr() % TWO64 == l;
      SwapInvolution(ectr[0], bigEndian);
      SwapInvolution(ectr[1], bigEndian);
    }

    /** increment_counter's first and last loop: every word of ectr and step through long_long_swap. */
    method SwapWords()
      requires Shape()
      modifies ectr, step
      ensures ectr[0] == LongLongSwap(old(ectr[0]), bigEndian) && ectr[1] == LongLongSwap(old(ectr[1]), bigEndian)
      ensures step[0] == LongLongSwap(old(step[0]), bigEndian) && step[1] == LongLongSwap(old(step[1]), bigEndian)
    {
      for j := 0 to 2
        invariant ectr[0] == (if j > 0 then LongLongSwap(old(ectr[0]), bigEndian) else old(ectr[0]))
        invariant ectr[1] == (if j > 1 then LongLongSwap(old(ectr[1]), bigEndian) else old(ectr[1]))
        invariant step[0] == (if j > 0 then LongLongSwap(old(step[0]), bigEndian) else old(step[0]))
        invariant step[1] == (if j > 1 then LongLongSwap(old(step[1]), bigEndian) else old(step[1]))
      {
        ectr[j] := LongLongSwap(ectr[j], bigEndian);
        step[j] := LongLongSwap(step[j], bigEndian);
      }
    }

    /**
     * increment_counter's middle loop on native words: from the low word
     * up, each ectr word plus its step word modulo 2^64, and on overflow
     * the carry rippled into the words above until one does not wrap.
     */
    method AddStepWords()
      requires Shape()
      modifies ectr
      ensures ectr[1] == (old(ectr[1]) + step[1]) % TWO64
      ensures ectr[0] == ((old(ectr[0]) + Carry(old(ectr[1]), step[1])) % TWO64 + step[0]) % TWO64
    {
      ghost var h, l := ectr[0], ectr[1];
      var i := 2;
      while i > 0
        invariant 0 <= i <= 2
        invariant ectr[1] == (if i == 2 then l else (l + step[1]) % TWO64)
        invariant ectr[0] == (if i == 2 then h else if i == 1 then (h + Carry(l, step[1])) % TWO64
                              else ((h + Carry(l, step[1])) % TWO64 + step[0]) % TWO64)
      {
        i := i - 1;
        var prev := ectr[i];
        ectr[i] := (ectr[i] + step[i]) % TWO64;
        if prev > ectr[i] {
          ghost var before0, before1 := ectr[0], ectr[1];
          var d := i;
          while d > 0
            invariant 0 <= d <= i && ectr[1] == before1
            invariant ectr[0] == (if d == i then before0 else (before0 + 1) % TWO64)
          {
            d := d - 1;
            ectr[d] := (ectr[d] + 1) % TWO64;
            if ectr[d] != 0 {
              break;
            }
          }
        }
      }
    }

    /**
     * increment_counter: both limbs read through long_long_swap, the low
     * limb plus the low step with its carry into the high limb, the high
     * limb plus the high step with the final carry dropped, and both
     * stored back: the counter advances by step modulo 2^128.
     */
    method IncrementCounter()
      requires Valid()
      modifies ectr, step
      ensures Ctr() == (old(Ctr()) + Step()) % TWO128 && step[..] == old(step[..])
      ensures step[0] == old(step[0]) && step[1] == old(step[1]) && Step() == old(Step())
    {
      hide LongLongSwap;
      ghost var s0, s1 := step[0], step[1];
      ghost var h, l := LongLongSwap(ectr[0], bigEndian), LongLongSwap(ectr[1], bigEndian);
      ghost var sh, sl := LongLongSwap(s0, bigEndian), LongLongSwap(s1, bigEndian);
      SwapWords();
      AddStepWords();
      ghost var newHi, newLo := ectr[0], ectr[1];
      SwapWords();
      SwapInvolution(s0, bigEndian);
      SwapInvolution(s1, bigEndian);
      SwapInvolution(newHi, bigEndian);
      SwapInvolution(newLo, bigEndian);
      assert step[..] == old(step[..]);
      assert Step() == sh * TWO64 + sl;
      assert Ctr() == newHi * TWO64 + newLo;
      assert old(Ctr()) == h * TWO64 + l;
      AddLimbs(h, l, sh, sl, newHi, newLo);
    }

    /**
     * internal_output_bytes' first part: as many pending bytes as are
     * wanted, at most all of them; lptr goes back to the start of the
     * buffer once none are left.  rest is what is still to be generated.
     */
    method TakePending(howmuch: nat) returns (out: seq<Byte>, rest: nat)
      requires Valid()
      modifies this`numLeft, this`lptr
      ensures Valid() && rest == (if howmuch <= old(numLeft) then 0 else howmuch - old(numLeft))
      ensures out == old(Pending())[.. howmuch - rest] && Pending() == old(Pending())[howmuch - rest ..]
      ensures rest > 0 ==> numLeft == 0
    {
      rest := howmuch;
      out := [];
      if numLeft > 0 {
        var frombuf := if numLeft >= rest then rest else numLeft;
        out := leftover[lptr .. lptr + frombuf];
        numLeft := numLeft - frombuf;
        lptr := lptr + frombuf;
        rest := rest - frombuf;
        if numLeft == 0 {
          lptr := 0;
        }
      }
    }

    /**
     * internal_output_bytes' loop: one counter step and one AES block at
     * a time, whole blocks until the last, which may be cut short; lo is
     * the number of its bytes left unused and outtmp the last block.
     */
    method GenerateBlocks(howmuch: nat) returns (out: seq<Byte>, outtmp: seq<Byte>, lo: nat)
      requires Valid()
      modifies ectr, step
      ensures step[..] == old(step[..]) && Step() == old(Step()) && |outtmp| == BlockLen
      ensures var k := BlocksFor(0, howmuch);
              out == Blocks(aes, key, old(Ctr()), Step(), k, bigEndian)[.. howmuch] &&
              Ctr() == Adv(old(Ctr()), Step(), k) &&
              lo < BlockLen && howmuch + lo == 16 * k &&
              (k > 0 ==> Blocks(aes, key, old(Ctr()), Step(), k, bigEndian) == Blocks(aes, key, old(Ctr()), Step(), k - 1, bigEndian) + outtmp)
    {
      hide CtrBytes, MemBytes, LongLongSwap, Blocks;
      ghost var c0, st := Ctr(), Step();
      var remaining: nat := howmuch;
      out := [];
      outtmp := Zeros(BlockLen);
      lo := 0;
      ghost var k := 0;
      while remaining > 0
        invariant step[0] == old(step[0]) && step[1] == old(step[1]) && Step() == st
        invariant remaining <= howmuch && |outtmp| == BlockLen
        invariant Ctr() == Adv(c0, st, k) && howmuch - remaining <= 16 * k
        invariant out == Blocks(aes, key, c0, st, k, bigEndian)[.. howmuch - remaining]
        invariant remaining > 0 ==> howmuch - remaining == 16 * k
        invariant k > 0 ==> 16 * (k - 1) < howmuch
        invariant k > 0 ==> Blocks(aes, key, c0, st, k, bigEndian) == Blocks(aes, key, c0, st, k - 1, bigEndian) + outtmp
        invariant lo < BlockLen && (remaining == 0 ==> howmuch + lo == 16 * k)
        decreases remaining
      {
        IncrementCounter();
        CounterInMemory();
        outtmp := aes(key, MemBytes(ectr[0], bigEndian) + MemBytes(ectr[1], bigEndian));
        var frombuf;
        if remaining > BlockLen {
          frombuf := BlockLen;
        } else {
          frombuf := remaining;
          lo := BlockLen - remaining;
        }
        BlocksUnfold(aes, key, c0, st, k + 1, bigEndian);
        out := out + outtmp[.. frombuf];
        remaining := remaining - frombuf;
        k := k + 1;
      }
      BlocksForUnique(0, howmuch, k);
    }

    /** internal_output_bytes' last block, when cut short: its unused last lo bytes become the pending bytes. */
    method KeepTail(outtmp: seq<Byte>, lo: nat)
      requires Valid() && |outtmp| == BlockLen && 0 < lo < BlockLen
      modifies leftover, this`numLeft, this`lptr
      ensures Valid() && Pending() == outtmp[BlockLen - lo ..]
    {
      Store(leftover, 0, outtmp[BlockLen - lo ..]);
      numLeft := lo;
      lptr := 0;
    }

    /**
     * internal_output_bytes up to its count: the pending bytes first, then
     * one AES block per counter step, the unused tail of the last block
     * kept as the new pending bytes.
     */
    method Produce(howmuch: nat) returns (out: seq<Byte>)
      requires Valid()
      modifies this`numLeft, this`lptr, ectr, step, leftover
      ensures Valid() && |out| == howmuch
      ensures out == old(Draw(howmuch)) && step[..] == old(step[..]) && Step() == old(Step())
      ensures Ctr() == Adv(old(Ctr()), Step(), BlocksFor(old(numLeft), howmuch))
      ensures Pending() == old(Stream(BlocksFor(numLeft, howmuch)))[howmuch ..]
    {
      hide *;
      ValidFacts();
      ghost var pend0, c0, st := Pending(), Ctr(), Step();
      ghost var n := BlocksFor(|pend0|, howmuch);
      StreamDraw(howmuch);
      ghost var s0 := Stream(n);
      ghost var d0 := Draw(howmuch);
      var fromPending, rest := TakePending(howmuch);
      var fromBlocks, outtmp, lo := GenerateBlocks(rest);
      ghost var k := BlocksFor(0, rest);
      ghost var blocks := Blocks(aes, key, c0, st, k, bigEndian);
      if rest > 0 {
        BlocksForShift(|pend0|, howmuch);
      }
      assert k == n;
      if k > 0 {
        assert blocks[16 * (k - 1) ..] == outtmp;
      }
      SplitDraw(pend0, blocks, outtmp, howmuch, rest, lo, k);
      out := fromPending + fromBlocks;
      assert out == d0;
      if lo != 0 {
        KeepTail(outtmp, lo);
      } else {
        ValidFacts();
      }
      assert Pending() == s0[howmuch ..];
    }

    /**
     * internal_output_bytes' last step: one more call counted; the call
     * that reaches MAXBLOCKRESEED resets the count and reseeds.
     */
    method CountOutput()
      requires Valid()
      modifies this, ectr, step, leftover
      decreases if outputblocks + 1 >= maxReseed then 3 else 0
      ensures Valid()
      ensures State() == if old(outputblocks) + 1 >= maxReseed then Reseeded(Cfg(), old(State()).(ob := 0))
                         else old(State()).(ob := old(outputblocks) + 1)
      ensures mypid == old(mypid) && target == old(target) && sec == old(sec) && usec == old(usec)
      ensures old(outputblocks) + 1 < maxReseed ==> unchanged(ectr, step, leftover) && numLeft == old(numLeft) && lptr == old(lptr)
    {
      hide *;
      ValidFacts();
      StateNow();
      outputblocks := outputblocks + 1;
      if outputblocks >= maxReseed {
        outputblocks := 0;
        StateNow();
        SelfReseed();
      } else {
        StateNow();
      }
    }

    /**
     * internal_output_bytes: howmuch bytes of the stream, and the call
     * counted towards a reseed.
     */
    method InternalOutput(howmuch: nat) returns (out: seq<Byte>)
      requires Valid()
      modifies this, ectr, step, leftover
      decreases if outputblocks + 1 >= maxReseed then 4 else 1
      ensures Valid() && (out, State()) == OutputBytes(Cfg(), old(State()), howmuch)
      ensures mypid == old(mypid) && target == old(target) && sec == old(sec) && usec == old(usec)
    {
      hide *;
      ValidFacts();
      ProducedNow(howmuch);
      StateNow();
      ghost var s0 := State();
      out := Produce(howmuch);
      StateNow();
      ghost var s1 := State();
      assert (out, s1) == Produced(Cfg(), s0, howmuch);
      CountOutput();
      OutputBytesStep(Cfg(), s0, howmuch);
    }

    /** The loop that ends self_reseed and PRNG_rekey: each ectr word zeroed and each step word stored. */
    method StoreStep(words: seq<U64>)
      requires Shape() && |words| == 2
      modifies ectr, step
      ensures ectr[0] == 0 && ectr[1] == 0 && step[0] == words[0] && step[1] == words[1]
    {
      for i := 0 to 2
        invariant forall j :: 0 <= j < i ==> ectr[j] == 0 && step[j] == words[j]
      {
        ectr[i] := 0;
        step[i] := words[i];
      }
    }

    /**
     * self_reseed: a new key drawn from the stream, then 16 more bytes
     * drawn under that key as the new step, and the counter back to zero.
     */
    method SelfReseed()
      requires Valid()
      modifies this, ectr, step, leftover
      decreases if outputblocks + 2 >= maxReseed then 5 else 2
      ensures Valid() && State() == Reseeded(Cfg(), old(State()))
      ensures ectr[0] == 0 && ectr[1] == 0
      ensures mypid == old(mypid) && target == old(target) && sec == old(sec) && usec == old(usec)
    {
      hide CtrBytes, Blocks, Draw, Stream, DrawOf, MemLoad, LongLongSwap, Adv, BlocksFor, Ctr, Step, Produced, OutputBytes, Limbs,
           Rekeyed, Reseeded, Gated, State;
      ValidFacts();
      StateNow();
      ghost var c, s0 := Cfg(), State();
      var drawnKey := InternalOutput(keyLen);
      StateNow();
      ghost var p1 := Pending();
      key := drawnKey;
      assert Pending() == p1 by {
        ValidFacts();
        PendingNow();
      }
      StateNow();
      var drawnStep := InternalOutput(BlockLen);
      ValidFacts();
      StateNow();
      ghost var p2 := Pending();
      StoreStep([MemLoad(drawnStep[.. 8], bigEndian), MemLoad(drawnStep[8 .. 16], bigEndian)]);
      CtrZero();
      StepLimbs();
      StateNow();
      assert Step() == DrawnStep(drawnStep, bigEndian);
      ReseededStep(c, s0);
    }

    /** PRNG_rekey's two draws: the key, XORed with the odd-indexed seed bytes, then the step bytes drawn under it. */
    method RekeyDraws(seed: seq<Byte>) returns (stepBytes: seq<Byte>)
      requires Valid() && |seed| >= SeedLen(keyLen)
      modifies this, ectr, step, leftover
      ensures Valid()
      ensures var k := OutputBytes(Cfg(), old(State()), keyLen);
              (stepBytes, State()) == OutputBytes(Cfg(), k.1.(key := Xor(k.0, KeySeedBytes(seed, keyLen))), BlockLen)
      ensures mypid == old(mypid) && target == old(target) && sec == old(sec) && usec == old(usec)
    {
      hide CtrBytes, Blocks, Draw, Stream, DrawOf, MemLoad, LongLongSwap, Adv, BlocksFor, Ctr, Step, Xor64, Or64, KeySeedBytes, Xor,
           Produced, OutputBytes, Limbs, Rekeyed, Reseeded, Gated, State;
      ValidFacts();
      ghost var c, s0 := Cfg(), State();
      var newKey := InternalOutput(keyLen);
      ghost var k := OutputBytes(c, s0, keyLen);
      newKey := MixKey(newKey, seed);
      StateNow();
      ghost var p1 := Pending();
      key := newKey;
      assert Pending() == p1 by {
        ValidFacts();
        PendingNow();
      }
      StateNow();
      stepBytes := InternalOutput(BlockLen);
    }

    /**
     * PRNG_rekey: a key drawn from the stream XORed with the odd-indexed
     * seed bytes, then a step drawn under that key XORed with the two
     * uint64 words of seed that follow, its low limb forced odd, and the
     * counter back to zero.
     */
    method Rekey(seed: seq<Byte>)
      requires Valid() && |seed| >= SeedLen(keyLen)
      modifies this, ectr, step, leftover
      ensures Valid() && State() == Rekeyed(Cfg(), old(State()), seed)
      ensures ectr[0] == 0 && ectr[1] == 0 && Ctr() == 0 && Step() % 2 == 1
      ensures mypid == old(mypid) && target == old(target) && sec == old(sec) && usec == old(usec)
    {
      hide CtrBytes, Blocks, Draw, Stream, DrawOf, MemLoad, LongLongSwap, Adv, BlocksFor, Ctr, Step, Xor64, Or64, KeySeedBytes, Xor,
           Produced, OutputBytes, Limbs, Rekeyed, Reseeded, Gated, State;
      ValidFacts();
      ghost var c, s0 := Cfg(), State();
      var stepBytes := RekeyDraws(seed);
      ValidFacts();
      StateNow();
      ghost var p2, key2, ob2 := Pending(), key, outputblocks;
      var newStep := MixStep(stepBytes, seed, keyLen, bigEndian);
      StoreStep(newStep);
      ghost var unforced := step[1];
      step[1] := Or64(step[1], LongLongSwap(1, bigEndian));
      CtrZero();
      StepOdd(unforced);
      StepLimbs();
      StateNow();
      RekeyedStep(c, s0, seed);
    }

    /** poll_rekey: an entropy gateway is installed and the clock has reached the target. */
    predicate PollRekey(hasEg: bool, now: TimeVal)
      reads this`target
    {
      hasEg && Reached(now, target)
    }

    /** PRNG_output's fork check: a new process id reseeds before anything is written. */
    method ForkCheck(pid: int)
      requires Valid()
      modifies this, ectr, step, leftover
      ensures Valid() && mypid == pid && target == old(target) && sec == old(sec) && usec == old(usec)
      ensures State() == if old(mypid) == pid then old(State()) else Reseeded(Cfg(), old(State()))
      ensures old(mypid) == pid ==> unchanged(ectr, step, leftover) && numLeft == old(numLeft) && lptr == old(lptr)
    {
      if mypid != pid {
        SelfReseed();
        mypid := pid;
      }
    }

    /** One round of PRNG_output's loop: a GATE_SIZE piece of the stream, then a reseed. */
    method Gate() returns (piece: seq<Byte>)
      requires Valid()
      modifies this, ectr, step, leftover
      ensures Valid() && piece == OutputBytes(Cfg(), old(State()), gateSize).0
      ensures State() == Reseeded(Cfg(), OutputBytes(Cfg(), old(State()), gateSize).1)
      ensures mypid == old(mypid) && target == old(target) && sec == old(sec) && usec == old(usec)
    {
      hide *;
      piece := InternalOutput(gateSize);
      SelfReseed();
    }

    /**
     * PRNG_output's loop: while more than GATE_SIZE bytes are wanted, a
     * GATE_SIZE piece and a reseed after it; rest is what is left for the
     * last piece, and what Gated still owes from here completes the output.
     */
    method GatePieces(size: nat) returns (out: seq<Byte>, rest: nat)
      requires Valid()
      modifies this, ectr, step, leftover
      ensures Valid() && mypid == old(mypid) && target == old(target) && sec == old(sec) && usec == old(usec)
      ensures rest <= gateSize && |out| + rest == size
      ensures out + Gated(Cfg(), State(), rest).0 == Gated(Cfg(), old(State()), size).0
      ensures Gated(Cfg(), State(), rest).1 == Gated(Cfg(), old(State()), size).1
    {
      hide *;
      ValidFacts();
      ghost var whole := Gated(Cfg(), State(), size);
      rest := size;
      out := [];
      while rest > gateSize
        invariant Valid() && mypid == old(mypid) && target == old(target) && sec == old(sec) && usec == old(usec)
        invariant |out| + rest == size
        invariant out + Gated(Cfg(), State(), rest).0 == whole.0 && Gated(Cfg(), State(), rest).1 == whole.1
        decreases rest
      {
        ValidFacts();
        ghost var s := State();
        GatedStep(Cfg(), s, rest);
        var piece := Gate();
        ghost var more := Gated(Cfg(), State(), rest - gateSize).0;
        assert (out + piece) + more == out + (piece + more);
        out := out + piece;
        rest := rest - gateSize;
      }
      ValidFacts();
    }

    /**
     * PRNG_output: after the fork check and the GATE_SIZE pieces, the
     * remainder, then, when poll_rekey says so, a rekey from the bytes
     * the entropy gateway returns, if it returns any.  egOut is what the
     * gateway's call would return.
     */
    method Output(size: nat, pid: int, hasEg: bool, now: TimeVal, egOut: Option<seq<Byte>>) returns (out: seq<Byte>, ghost rekeyed: bool)
      requires Valid() && (egOut.Some? ==> |egOut.value| == RekeyRequest(keyLen))
      modifies this, ectr, step, leftover
      ensures Valid() && |out| == size
      ensures rekeyed <==> old(PollRekey(hasEg, now)) && egOut.Some?
      ensures var start := if old(mypid) == pid then old(State()) else Reseeded(Cfg(), old(State()));
              var g := Gated(Cfg(), start, size);
              out == g.0 && State() == if rekeyed then Rekeyed(Cfg(), g.1, egOut.value) else g.1
      ensures mypid == pid && target == old(target) && sec == old(sec) && usec == old(usec)
    {
      hide *;
      ValidFacts();
      ForkCheck(pid);
      ghost var start := State();
      var gated, rest := GatePieces(size);
      ValidFacts();
      GatedLast(Cfg(), State(), rest);
      var last := InternalOutput(rest);
      out := gated + last;
      rekeyed := false;
      if PollRekey(hasEg, now) {
        match egOut {
          case Some(seed) =>
            Rekey(seed);
            rekeyed := true;
          case None =>
        }
      }
    }
    /**
     * PRNG_init's set-up before the rekey: the all-zero key, no output
     * counted, ectr 0 and step 1 stored through long_long_swap, nothing
     * pending, and the rekey interval.
     */
    method Reset(sec: int, usec: int, pid: int)
      requires Shape()
      modifies this, ectr, step
      ensures Valid() && key == Zeros(keyLen) && outputblocks == 0 && numLeft == 0
      ensures Ctr() == 0 && Step() == 1 && mypid == pid && this.sec == sec && this.usec == usec
      ensures target == old(target)
    {
      hide LongLongSwap, Zeros;
      SwapZero(bigEndian);
      SwapInvolution(1, bigEndian);
      key := Zeros(keyLen);
      outputblocks := 0;
      for i := 0 to 2
        modifies ectr, step
        invariant forall t :: 0 <= t < i ==> ectr[t] == 0 && step[t] == 0
      {
        ectr[i] := 0;
        step[i] := 0;
      }
      step[1] := 1;
      numLeft := 0;
      this.sec := sec;
      this.usec := usec;
      for i := 0 to 2
        modifies ectr, step
        invariant ectr[0] == (if i > 0 then LongLongSwap(0, bigEndian) else 0)
        invariant ectr[1] == (if i > 1 then LongLongSwap(0, bigEndian) else 0)
        invariant step[0] == (if i > 0 then LongLongSwap(0, bigEndian) else 0)
        invariant step[1] == (if i > 1 then LongLongSwap(1, bigEndian) else 1)
      {
        ectr[i] := LongLongSwap(ectr[i], bigEndian);
        step[i] := LongLongSwap(step[i], bigEndian);
      }
      mypid := pid;
      CtrZero();
    }

    /**
     * PRNG_init: the reset, a rekey from seed, and the first target the
     * interval (sec, usec) after now.  The key it ends with is the first
     * keylen bytes a zero-keyed generator at counter 0 with step 1 draws,
     * XORed with the odd-indexed seed bytes.
     */
    method Init(seed: seq<Byte>, sec: int, usec: int, now: TimeVal, pid: int)
      requires Shape() && |seed| >= SeedLen(keyLen)
      modifies this, ectr, step, leftover
      ensures Valid() && State() == Rekeyed(Cfg(), Initial(keyLen), seed)
      ensures Ctr() == 0 && Step() % 2 == 1 && outputblocks == 2
      ensures key == Xor(FirstDraw(aes, keyLen, bigEndian), KeySeedBytes(seed, keyLen))
      ensures mypid == pid && this.sec == sec && this.usec == usec && target == Target(now, sec, usec)
    {
      hide CtrBytes, Blocks, Stream, MemLoad, LongLongSwap, Adv, Ctr, Step, Xor64, Or64, Rekeyed, OutputBytes, Produced;
      Reset(sec, usec, pid);
      ValidFacts();
      StateNow();
      assert State() == Initial(keyLen);
      Rekey(seed);
      RekeyedKey(Cfg(), Initial(keyLen), seed);
      assert DrawOf(aes, Zeros(keyLen), [], 0, 1, keyLen, bigEndian) == FirstDraw(aes, keyLen, bigEndian) by {
        assert [] + Blocks(aes, Zeros(keyLen), 0, 1, BlocksFor(0, keyLen), bigEndian) == Blocks(aes, Zeros(keyLen), 0, 1, BlocksFor(0, keyLen), bigEndian);
      }
      target := Target(now, sec, usec);
    }

    /**
     * The constructor allocates the two-limb ectr and step and the block
     * buffer, then runs PRNG_init.
     */
    constructor (keyLen: nat, bigEndian: bool, aes: BlockFn, gateSize: nat, maxReseed: nat,
                 seed: seq<Byte>, sec: int, usec: int, now: TimeVal, pid: int)
      requires gateSize > 0 && maxReseed >= 3 && |seed| >= SeedLen(keyLen)
      ensures Valid() && Ctr() == 0 && Step() % 2 == 1 && outputblocks == 2
      ensures this.keyLen == keyLen && this.bigEndian == bigEndian && this.aes == aes
      ensures this.gateSize == gateSize && this.maxReseed == maxReseed
      ensures State() == Rekeyed(Cfg(), Initial(keyLen), seed)
      ensures key == Xor(FirstDraw(aes, keyLen, bigEndian), KeySeedBytes(seed, keyLen))
      ensures mypid == pid && this.sec == sec && this.usec == usec && target == Target(now, sec, usec)
    {
      this.keyLen := keyLen;
      this.bigEndian := bigEndian;
      this.aes := aes;
      this.gateSize := gateSize;
      this.maxReseed := maxReseed;
      ectr := new U64[2](_ => 0);
      step := new U64[2](_ => 0);
      leftover := new Byte[BlockLen](_ => 0);
      key := [];
      new;
      Init(seed, sec, usec, now, pid);
    }

    /**
     * PRNG_destroy: PRNG_init again with an all-zero seed and a zero
     * interval, here given the seed PRNG_rekey reads, so the key becomes
     * the first draw of a zero-keyed generator itself.
     */
    method Destroy(now: TimeVal, pid: int)
      requires Valid()
      modifies this, ectr, step, leftover
      ensures Valid() && Ctr() == 0 && Step() % 2 == 1 && outputblocks == 2
      ensures key == FirstDraw(aes, keyLen, bigEndian) && mypid == pid && sec == 0 && usec == 0
      ensures 0 <= now.usec < Million ==> target == now
    {
      hide CtrBytes, Blocks, Stream, DrawOf, MemLoad, LongLongSwap, Adv, Ctr, Step, Xor64, Or64, Rekeyed, OutputBytes, Produced, Reseeded, Gated;
      Init(ZeroSeed(keyLen), 0, 0, now, pid);
      ghost var d := FirstDraw(aes, keyLen, bigEndian);
      assert Xor(d, Zeros(keyLen)) == d;
    }
  }
}

=== FILE: procout.dfy ===
/**
 * read_line and read_lines of procout.c over a character stream.  The
 * FILE is a CharStream whose remaining characters fgetc consumes; EOF is
 * None.  A realloc-grown buffer is a sequence whose length is the
 * number of elements allocated, so every store into it is checked
 * against the allocation.
 */
module ProcOut {

  datatype Option<T> = None | Some(value: T)

  /** BUFSIZ of glibc's stdio.h. */
  const BufSiz: nat := 8192

  /** The remaining input of a FILE opened for reading. */
  class CharStream {
    var rest: seq<char>

    constructor (contents: seq<char>)
      ensures rest == contents
    {
      rest := contents;
    }

    /** fgetc: the next character, consumed, or EOF at the end. */
    method Getc() returns (c: Option<char>)
      modifies this
      ensures old(rest) == [] ==> c == None && rest == []
      ensures old(rest) != [] ==> c == Some(old(rest)[0]) && rest == old(rest)[1..]
    {
      if rest == [] {
        c := None;
      } else {
        c := Some(rest[0]);
        rest := rest[1..];
      }
    }
  }

  /** The first line of s without its '\n', and what follows the '\n'; all of s when there is none. */
  function SplitLine(s: string): (r: (string, string))
    ensures '\n' !in r.0
    ensures s == r.0 + ['\n'] + r.1 || (s == r.0 && r.1 == [])
    ensures s != [] ==> |r.1| < |s|
  {
    if s == [] then ([], [])
    else if s[0] == '\n' then ([], s[1..])
    else var (l, t) := SplitLine(s[1..]); ([s[0]] + l, t)
  }

  /** A line and the rest of the input determine each other. */
  lemma {:induction false} SplitLineUnique(s: string, l: string, t: string)
    requires '\n' !in l && (s == l + ['\n'] + t || (s == l && t == []))
    ensures SplitLine(s) == (l, t)
    decreases |s|
  {
    if s != [] && s[0] != '\n' {
      assert l != [] && l[0] == s[0];
      assert s[1..] == l[1..] + ['\n'] + t || (s[1..] == l[1..] && t == []);
      SplitLineUnique(s[1..], l[1..], t);
      assert [s[0]] + l[1..] == l;
    }
  }

  /** The non-empty lines read_lines returns: up to the first empty line or the end of input. */
  function LeadingLines(s: string): (r: seq<string>)
    ensures forall i :: 0 <= i < |r| ==> r[i] != [] && '\n' !in r[i]
    decreases |s|
  {
    var (line, rest) := SplitLine(s);
    if line == [] then [] else [line] + LeadingLines(rest)
  }

  /** What the input is left with after read_lines. */
  function AfterLeadingLines(s: string): string
    decreases |s|
  {
    var (line, rest) := SplitLine(s);
    if line == [] then rest else AfterLeadingLines(rest)
  }

  /** One step of read_lines: a non-empty line is kept and reading goes on after it. */
  lemma LeadingStep(s: string)
    ensures var (line, rest) := SplitLine(s);
            LeadingLines(s) == (if line == [] then [] else [line] + LeadingLines(rest)) &&
            AfterLeadingLines(s) == (if line == [] then rest else AfterLeadingLines(rest))
  {
  }

  /** Lines each followed by '\n'. */
  function Terminated(ls: seq<string>): string
  {
    if ls == [] then [] else ls[0] + ['\n'] + Terminated(ls[1..])
  }

  /**
   * Round trip: non-empty, newline-free lines written one per line and
   * followed by an empty line (or the end of input) are read back
   * exactly, and reading stops before anything after the empty line.
   */
  lemma {:induction false} LeadingLinesRoundTrip(ls: seq<string>, tail: string)
    requires forall i :: 0 <= i < |ls| ==> ls[i] != [] && '\n' !in ls[i]
    requires tail == [] || tail[0] == '\n'
    ensures LeadingLines(Terminated(ls) + tail) == ls
    ensures AfterLeadingLines(Terminated(ls) + tail) == if tail == [] then [] else tail[1..]
    decreases |ls|
  {
    var s := Terminated(ls) + tail;
    if ls == [] {
      assert s == tail;
      if tail != [] {
        SplitLineUnique(s, [], tail[1..]);
      }
    } else {
      var more := Terminated(ls[1..]) + tail;
      assert s == ls[0] + ['\n'] + more;
      SplitLineUnique(s, ls[0], more);
      LeadingLinesRoundTrip(ls[1..], tail);
      assert [ls[0]] + ls[1..] == ls;
    }
  }

  /** The allocation of a buffer grown by BUFSIZ whenever n reaches a multiple of BUFSIZ. */
  function Room(n: nat): nat
  {
    n - n % BufSiz + BufSiz + 1
  }

  /**
   * `buf[n++] = v; if (!(n % BUFSIZ)) realloc(buf, n + BUFSIZ + 1)`: the
   * store is within the allocation, and the allocation is exactly full
   * when it grows.
   */
  method Push<T>(buf: seq<T>, n: nat, v: T, fill: T) returns (r: seq<T>)
    requires |buf| == Room(n)
    ensures |r| == Room(n + 1) && n + 1 < |r|
    ensures r[n] == v && forall i :: 0 <= i < n ==> r[i] == buf[i]
  {
    r := buf[n := v];
    if (n + 1) % BufSiz == 0 {
      assert |r| == n + 2;
      r := r + seq(BufSiz, _ => fill);
    }
  }

  /**
   * read_line: characters up to the next '\n' or EOF, the '\n' consumed;
   * NULL (None) when no character was stored, for an empty line as for
   * EOF.  While reading, the buffer always has a free byte at index n,
   * which takes the terminating NUL.
   */
  method ReadLine(fp: CharStream) returns (r: Option<string>)
    modifies fp
    ensures var (line, rest) := SplitLine(old(fp.rest));
            fp.rest == rest && r == (if line == [] then None else Some(line))
  {
    var buf: seq<char> := seq(BufSiz + 1, _ => '\0');
    var n: nat := 0;
    ghost var start := fp.rest;
    var c := fp.Getc();
    while c.Some? && c.value != '\n'
      invariant |buf| == Room(n) && n < |buf| && '\n' !in buf[.. n]
      invariant c.Some? ==> start == buf[.. n] + [c.value] + fp.rest
      invariant c.None? ==> start == buf[.. n] && fp.rest == []
      decreases |fp.rest| + (if c.Some? then 1 else 0)
    {
      ghost var prefix := buf[.. n];
      buf := Push(buf, n, c.value, '\0');
      assert buf[.. n + 1] == prefix + [c.value];
      n := n + 1;
      c := fp.Getc();
    }
    SplitLineUnique(start, buf[.. n], fp.rest);
    if n == 0 {
      return None;
    }
    ghost var line := buf[.. n];
    buf := buf[n := '\0'];
    buf := buf[.. n + 1];
    assert buf[.. n] == line;
    r := Some(buf[.. n]);
  }

  /**
   * Where read_lines stands: lines read so far, then the last result of
   * read_line, then what the input has left, account for all the leading
   * lines of start and for what remains after them.
   */
  ghost predicate ReadSoFar(start: string, lines: seq<string>, line: Option<string>, rest: string)
  {
    LeadingLines(start) == lines + (if line.None? then [] else [line.value] + LeadingLines(rest)) &&
    AfterLeadingLines(start) == (if line.None? then rest else AfterLeadingLines(rest))
  }

  /** The first call of read_line starts the account. */
  lemma ReadSoFarStart(start: string)
    ensures var (line, rest) := SplitLine(start);
            ReadSoFar(start, [], if line == [] then None else Some(line), rest)
  {
    LeadingStep(start);
  }

  /** A line kept and one more call of read_line keep the account. */
  lemma ReadSoFarStep(start: string, lines: seq<string>, l: string, rest: string)
    requires ReadSoFar(start, lines, Some(l), rest)
    ensures var (line, rest') := SplitLine(rest);
            ReadSoFar(start, lines + [l], if line == [] then None else Some(line), rest')
  {
    LeadingStep(rest);
    var (line, rest') := SplitLine(rest);
    if line != [] {
      assert lines + ([l] + LeadingLines(rest)) == (lines + [l]) + ([line] + LeadingLines(rest'));
    }
  }

  /** Once read_line returns NULL, the lines read are all the leading lines. */
  lemma ReadSoFarEnd(start: string, lines: seq<string>, rest: string)
    requires ReadSoFar(start, lines, None, rest)
    ensures LeadingLines(start) == lines && AfterLeadingLines(start) == rest
  {
  }

  /**
   * read_lines: read_line until it returns NULL, each result stored in
   * the array of lines, the NULL included; *x is the number of lines.  The
   * loop always stores at least the final NULL, so the array is never
   * NULL itself and ret[*x] is the NULL.
   */
  method ReadLines(fp: CharStream) returns (ret: seq<Option<string>>, x: nat)
    modifies fp
    ensures |ret| == x + 1 && ret[x] == None
    ensures var ls := LeadingLines(old(fp.rest));
            x == |ls| && forall i :: 0 <= i < x ==> ret[i] == Some(ls[i])
    ensures fp.rest == AfterLeadingLines(old(fp.rest))
  {
    hide LeadingLines, AfterLeadingLines, SplitLine, ReadSoFar;
    var arr: seq<Option<string>> := seq(BufSiz + 1, _ => None);
    var n: nat := 0;
    ghost var start := fp.rest;
    ghost var lines: seq<string> := [];
    ReadSoFarStart(start);
    var line := ReadLine(fp);
    arr := Push(arr, n, line, None);
    n := n + 1;
    while line.Some?
      invariant 1 <= n < |arr| && |arr| == Room(n) && |lines| == n - 1 && arr[n - 1] == line
      invariant forall i :: 0 <= i < n - 1 ==> arr[i] == Some(lines[i])
      invariant ReadSoFar(start, lines, line, fp.rest)
      decreases |fp.rest| + (if line.Some? then 1 else 0)
    {
      ReadSoFarStep(start, lines, line.value, fp.rest);
      lines := lines + [line.value];
      line := ReadLine(fp);
      arr := Push(arr, n, line, None);
      n := n + 1;
    }
    ReadSoFarEnd(start, lines, fp.rest);
    ret := arr[.. n];
    x := n - 1;
  }
}

=== FILE: ps.dfy ===
/**
 * The Linux `ps -elf` entropy gatherer: ps_cmp, processes_same,
 * diff_ps_for_entropy and the rotation of the static last/cur snapshots
 * in call_ps.  The columns of `ps -elf` are F S UID PID PPID ...; ps_cmp
 * orders lines by the text from UID on, and processes_same takes two
 * lines for the same process when their UID PID spans agree up to the
 * shorter span's length.
 */
module Ps {
  import opened LineDiff
  import ProcOut

  /** Where the comparison starts: after the F and S columns and the spaces after them. */
  function KeyStart(s: string): nat
  {
    FieldsFrom(s, 2, 0)
  }

  /** The text ps_cmp compares. */
  function Key(s: string): string
  {
    AfterFields(s, 2)
  }

  /** From a key at p: where the UID column ends, as processes_same's first two loops find it. */
  function UidEnd(s: string, p: nat): nat
  {
    SpaceFrom(s, NonSpaceFrom(s, p) + 1)
  }

  /** Where the PID column starts, after the third loop. */
  function PidStart(s: string, p: nat): nat
  {
    NonSpaceFrom(s, UidEnd(s, p))
  }

  /** The space after the PID column, where the fourth loop stops. */
  function PidEnd(s: string, p: nat): nat
  {
    SpaceFrom(s, PidStart(s, p) + 1)
  }

  /** The four loops from p stay inside the line: each finds what it looks for before the NUL. */
  predicate SpanFits(s: string, p: nat)
  {
    NonSpaceFrom(s, p) < |s| && UidEnd(s, p) < |s| && PidStart(s, p) < |s| && PidEnd(s, p) < |s|
  }

  /** processes_same's l1: the length of the UID PID span. */
  function SpanLen(s: string): nat
  {
    PidEnd(s, KeyStart(s)) - KeyStart(s)
  }

  /** The UID PID span: the third column, its spaces and the fourth column. */
  function Span(s: string): string
  {
    Prefix(Key(s), SpanLen(s))
  }

  /**
   * A line the C loops scan without reading past its NUL: two columns
   * before the key, and a space after the fourth column.
   */
  predicate Line(s: string)
  {
    HasFields(s, 2, 0) && SpanFits(s, KeyStart(s))
  }

  predicate Lines(ls: seq<string>)
  {
    forall l | l in ls :: Line(l)
  }

  /** processes_same: strncmp of the keys over the shorter span. */
  function Same(a: string, b: string): int
  {
    StrNCmp(Key(a), Key(b), Min(SpanLen(a), SpanLen(b)))
  }

  /** ps_cmp: the loops skip two columns on each line, then strcmp. */
  method Cmp(s1: string, s2: string) returns (c: int)
    requires HasFields(s1, 2, 0) && HasFields(s2, 2, 0)
    ensures c == Compare(Key(s1), Key(s2))
  {
    var p1 := SkipFieldsLoops(s1, 2);
    var p2 := SkipFieldsLoops(s2, 2);
    c := Compare(s1[p1..], s2[p2..]);
  }

  /**
   * The four index loops of processes_same over one line, from its key
   * at p; l counts from p, so the line's own index is p + l.
   */
  method SpanLoops(s: string, p: nat) returns (l: nat)
    requires SpanFits(s, p)
    ensures l == PidEnd(s, p) - p
  {
    var q := SkipSpaces(s, p);
    q := ToSpace(s, q + 1);
    q := SkipSpaces(s, q);
    q := ToSpace(s, q + 1);
    l := q - p;
  }

  /** processes_same: skip two columns on each line, measure both spans, strncmp over the shorter. */
  method ProcessesSame(s1: string, s2: string) returns (c: int)
    requires Line(s1) && Line(s2)
    ensures c == Same(s1, s2)
  {
    hide SpaceFrom, NonSpaceFrom, FieldsFrom, HasFields, PidEnd, UidEnd, PidStart, SpanFits, StrNCmp, Compare;
    var p1 := SkipFieldsLoops(s1, 2);
    var p2 := SkipFieldsLoops(s2, 2);
    var l1 := SpanLoops(s1, p1);
    var l2 := SpanLoops(s2, p2);
    c := StrNCmp(s1[p1..], s2[p2..], Min(l1, l2));
  }

  /**
   * diff_ps_for_entropy: the merge walk over the sorted snapshots.  e is
   * an unsigned char, so it wraps at 256; the estimate credited with the
   * timestamp is e / 5.  steps counts the iterations of the main loop.
   */
  method DiffForEntropy(last: seq<string>, cur: seq<string>) returns (e: nat, credit: nat, ghost steps: nat)
    requires Lines(last) && Lines(cur)
    ensures e < 256 && e == Count(last, cur, Same) % 256 && credit == e / 5
    ensures steps <= |last| + |cur|
  {
    hide Count, Same, Compare, Inc, Line;
    var i: nat, j: nat := 0, 0;
    e := 0;
    ghost var total: nat := 0;
    steps := 0;
    while i < |last| && j < |cur|
      invariant i <= |last| && j <= |cur| && e < 256 && e == total % 256
      invariant total + Count(last[i..], cur[j..], Same) == Count(last, cur, Same)
      invariant steps <= i + j
      decreases |last| - i + |cur| - j
    {
      assert last[i..][0] == last[i] && last[i..][1..] == last[i + 1..];
      assert cur[j..][0] == cur[j] && cur[j..][1..] == cur[j + 1..];
      CountStep(last[i..], cur[j..], Same);
      var c := ProcessesSame(last[i], cur[j]);
      IncWraps(e, total);
      if c == 0 {
        if Compare(last[i], cur[j]) != 0 {
          e, total := Inc(e), total + 1;
        }
        i, j := i + 1, j + 1;
      } else if c < 1 {
        e, total, i := Inc(e), total + 1, i + 1;
      } else {
        e, total, j := Inc(e), total + 1, j + 1;
      }
      steps := steps + 1;
    }
    CountEnd(last[i..], cur[j..], Same);
    if i == |last| {
      while j < |cur|
        invariant j <= |cur| && e < 256 && e == total % 256
        invariant total + (|cur| - j) == Count(last, cur, Same)
      {
        IncWraps(e, total);
        e, total, j := Inc(e), total + 1, j + 1;
      }
    } else {
      while i < |last|
        invariant i <= |last| && e < 256 && e == total % 256
        invariant total + (|last| - i) == Count(last, cur, Same)
      {
        IncWraps(e, total);
        e, total, i := Inc(e), total + 1, i + 1;
      }
    }
    credit := e / 5;
  }

  /** A snapshot of the lines read: the header first, the other lines sorted by ps_cmp. */
  predicate Snapshot(read: seq<string>, s: seq<string>)
  {
    read != [] && |s| == |read| && s[0] == read[0] &&
    multiset(s[1..]) == multiset(read[1..]) && SortedBy(s[1..], Key)
  }

  /** The static last and cur of call_ps. */
  class Sampler {
    var last: ProcOut.Option<seq<string>>
    var cur: ProcOut.Option<seq<string>>

    predicate Valid()
      reads this
    {
      (last.Some? ==> Lines(last.value)) && (cur.Some? ==> Lines(cur.value))
    }

    /** Both statics start NULL. */
    constructor ()
      ensures Valid() && last.None? && cur.None?
    {
      last, cur := ProcOut.None, ProcOut.None;
    }

    /**
     * call_ps over the output of the pipeline in f.  Every line but the
     * header is fed with estimate 0 (fed); the lines after the header
     * are sorted.  The first snapshot is only stored.  Afterwards the
     * older snapshot is released, cur becomes last, the new snapshot
     * becomes cur, and the diff credits its estimate.  No lines: nothing
     * changes.
     */
    method CallPs(f: ProcOut.CharStream) returns (fed: seq<string>, credit: ProcOut.Option<nat>)
      requires Valid() && Lines(ProcOut.LeadingLines(f.rest))
      modifies this, f
      ensures Valid() && f.rest == ProcOut.AfterLeadingLines(old(f.rest))
      ensures var read := ProcOut.LeadingLines(old(f.rest));
        if read == [] then fed == [] && credit.None? && last == old(last) && cur == old(cur)
        else
          fed == read[1..] && cur.Some? && Snapshot(read, cur.value) &&
          if old(cur).None? then last == old(last) && credit.None?
          else last == old(cur) && credit == ProcOut.Some(Count(last.value, cur.value, Same) % 256 / 5)
    {
      hide Count, Same, Key, Line, ProcOut.LeadingLines, ProcOut.AfterLeadingLines;
      ghost var read := ProcOut.LeadingLines(f.rest);
      var ret, n := ProcOut.ReadLines(f);
      fed, credit := [], ProcOut.None;
      if n == 0 {
        return;
      }
      var lines := seq(n, i requires 0 <= i < n && i < |ret| => ret[i].value);
      assert lines == read;
      for i := 1 to n
        invariant fed == lines[1 .. i]
      {
        fed := fed + [lines[i]];
      }
      var sorted := SortLines(lines[1..], Key);
      forall x | x in sorted
        ensures Line(x)
      {
        assert x in multiset(lines[1..]);
      }
      lines := [lines[0]] + sorted;
      assert lines[1..] == sorted;
      if cur.None? {
        cur := ProcOut.Some(lines);
        return;
      }
      last := cur;
      cur := ProcOut.Some(lines);
      var e, c, _ := DiffForEntropy(last.value, lines);
      credit := ProcOut.Some(c);
    }
  }

  // ---------------------------------------------------------------
  // What the comparisons and the count mean
  // ---------------------------------------------------------------

  /** ps_cmp compares whatever follows the first two columns and their spaces. */
  lemma KeyOfColumns(f1: string, g1: string, f2: string, g2: string, rest: string)
    requires Word(f1) && Gap(g1) && Word(f2) && Gap(g2) && (rest == [] || rest[0] != ' ')
    ensures HasFields(f1 + g1 + f2 + g2 + rest, 2, 0)
    ensures KeyStart(f1 + g1 + f2 + g2 + rest) == |f1 + g1 + f2 + g2|
    ensures Key(f1 + g1 + f2 + g2 + rest) == rest
  {
    hide Fielded, HasFields, FieldsFrom;
    var ws, gs := [f1, f2], [g1, g2];
    FieldedCons(ws, gs);
    FieldedCons(ws[1..], gs[1..]);
    FieldedCons(ws[1..][1..], gs[1..][1..]);
    assert Fielded(ws, gs) == f1 + g1 + f2 + g2;
    assert f1 + g1 + f2 + g2 + rest == Fielded(ws, gs) + rest;
    AfterFieldsOf(ws, gs, rest);
    assert Fielded(ws, gs) + rest == f1 + g1 + f2 + g2 + rest;
  }

  /**
   * From a key at k whose UID column ends at a, whose PID column starts
   * at b and is followed by a space at e, the four loops stay in the
   * line and stop at e.
   */
  lemma SpanFrom(s: string, k: nat, a: nat, b: nat, e: nat)
    requires k < a < b < e < |s| && s[e] == ' '
    requires forall i | k <= i < a :: s[i] != ' '
    requires forall i | a <= i < b :: s[i] == ' '
    requires forall i | b <= i < e :: s[i] != ' '
    ensures SpanFits(s, k) && PidEnd(s, k) == e
  {
    hide SpaceFrom, NonSpaceFrom;
    NonSpaceAt(s, k, k);
    SpaceAt(s, k + 1, a);
    NonSpaceAt(s, a, b);
    SpaceAt(s, b + 1, e);
  }

  /**
   * On a line of at least four columns with spaces after the fourth,
   * processes_same's span is the UID column, its spaces and the PID
   * column, and the C loops stay inside the line.
   */
  lemma SpanOfColumns(f1: string, g1: string, f2: string, g2: string,
                      f3: string, g3: string, f4: string, g4: string, rest: string)
    requires Word(f1) && Gap(g1) && Word(f2) && Gap(g2)
    requires Word(f3) && Gap(g3) && Word(f4) && Gap(g4)
    ensures var s := f1 + g1 + f2 + g2 + f3 + g3 + f4 + g4 + rest;
      Line(s) && Span(s) == f3 + g3 + f4
  {
    hide SpaceFrom, NonSpaceFrom, HasFields, FieldsFrom, UidEnd, PidStart, PidEnd, SpanFits;
    var u := f3 + g3 + f4 + g4;
    var t := u + rest;
    var s := f1 + g1 + f2 + g2 + t;
    assert s == f1 + g1 + f2 + g2 + f3 + g3 + f4 + g4 + rest;
    assert t[0] == f3[0];
    KeyOfColumns(f1, g1, f2, g2, t);
    var k := |f1 + g1 + f2 + g2|;
    var a, b := k + |f3|, k + |f3 + g3|;
    var e := b + |f4|;
    assert s[k .. k + |u|] == u;
    assert forall i | k <= i < a :: s[i] == f3[i - k];
    assert forall i | a <= i < b :: s[i] == g3[i - a];
    assert forall i | b <= i < e :: s[i] == f4[i - b];
    assert s[e] == g4[0];
    SpanFrom(s, k, a, b, e);
    assert SpanLen(s) == |f3 + g3 + f4|;
    assert Key(s) == t && t[.. |f3 + g3 + f4|] == f3 + g3 + f4;
  }

  /** On scannable lines the span is within the key. */
  lemma SpanInKey(s: string)
    requires Line(s)
    ensures SpanLen(s) < |Key(s)| && Span(s) == Key(s)[.. SpanLen(s)]
  {
  }

  /**
   * processes_same compares, up to the shorter length, only the UID PID
   * spans; it reports the same process exactly when one span is a prefix
   * of the other, so PID 34 and PID 345 of one user are taken for one
   * process.
   */
  lemma SameComparesSpans(a: string, b: string)
    requires Line(a) && Line(b)
    ensures var m := Min(|Span(a)|, |Span(b)|);
      Same(a, b) == Compare(Span(a)[.. m], Span(b)[.. m])
    ensures Same(a, b) == 0 <==> IsPrefix(Span(a), Span(b)) || IsPrefix(Span(b), Span(a))
  {
    hide Line, Key, KeyStart, SpanLen, PidEnd, PidStart, UidEnd, SpanFits, FieldsFrom, HasFields, AfterFields, SpaceFrom, NonSpaceFrom, Compare;
    SpanInKey(a);
    SpanInKey(b);
    var m := Min(|Span(a)|, |Span(b)|);
    assert Prefix(Key(a), m) == Span(a)[.. m];
    assert Prefix(Key(b), m) == Span(b)[.. m];
  }

  /** processes_same is antisymmetric. */
  lemma SameAntisym(a: string, b: string)
    ensures Same(b, a) == -Same(a, b)
  {
    StrNCmpAntisym(Key(a), Key(b), Min(SpanLen(a), SpanLen(b)));
    assert Min(SpanLen(b), SpanLen(a)) == Min(SpanLen(a), SpanLen(b));
  }

  /** Neither span is a prefix of the other. */
  predicate Apart(a: string, b: string)
  {
    !IsPrefix(Span(a), Span(b)) && !IsPrefix(Span(b), Span(a))
  }

  /** Spans that are equal or apart are ordered by processes_same as by strcmp. */
  lemma SameOrdersSpans(a: string, b: string)
    requires Line(a) && Line(b) && (Span(a) == Span(b) || Apart(a, b))
    ensures Same(a, b) == Compare(Span(a), Span(b))
  {
    hide Line, Key, KeyStart, SpanLen, PidEnd, PidStart, UidEnd, SpanFits, FieldsFrom, HasFields, AfterFields, SpaceFrom, NonSpaceFrom, Compare;
    SameComparesSpans(a, b);
    if Span(a) != Span(b) {
      var m := Min(|Span(a)|, |Span(b)|);
      var u, v := Span(a)[.. m], Span(b)[.. m];
      assert u != v by {
        if |Span(a)| <= |Span(b)| {
          assert u == Span(a);
        } else {
          assert v == Span(b);
        }
      }
      CompareAppend(u, v, Span(a)[m..], Span(b)[m..]);
      assert u + Span(a)[m..] == Span(a) && v + Span(b)[m..] == Span(b);
    }
  }

  /** Lines sorted by ps_cmp whose spans are pairwise apart are strictly sorted by span. */
  lemma SortedBySpan(ls: seq<string>)
    requires Lines(ls) && SortedBy(ls, Key)
    requires forall i, j | 0 <= i < j < |ls| :: Apart(ls[i], ls[j])
    ensures StrictlySorted(ls, Span)
  {
    hide Line, Key, KeyStart, SpanLen, PidEnd, PidStart, UidEnd, SpanFits, FieldsFrom, HasFields, AfterFields, SpaceFrom, NonSpaceFrom, Compare;
    forall i, j | 0 <= i < j < |ls|
      ensures Compare(Span(ls[i]), Span(ls[j])) < 0
    {
      var x, y := ls[i], ls[j];
      assert x in ls && y in ls;
      SpanInKey(x);
      SpanInKey(y);
      assert Key(x) == Span(x) + Key(x)[SpanLen(x)..];
      assert Key(y) == Span(y) + Key(y)[SpanLen(y)..];
      CompareAppend(Span(x), Span(y), Key(x)[SpanLen(x)..], Key(y)[SpanLen(y)..]);
    }
  }

  /** Identical snapshots give e = 0. */
  lemma NoChangeNoCredit(ls: seq<string>)
    ensures Count(ls, ls, Same) == 0
  {
    forall x | x in ls
      ensures Same(x, x) == 0
    {
    }
    CountSelf(ls, Same);
  }

  /** The count does not depend on which of two snapshots is the older one. */
  lemma CountOrderFree(a: seq<string>, b: seq<string>)
    ensures Count(a, b, Same) == Count(b, a, Same)
  {
    forall x, y | x in a && y in b
      ensures Same(y, x) == -Same(x, y)
    {
      SameAntisym(x, y);
    }
    CountSymmetric(a, b, Same);
  }

  /**
   * Two snapshots with the same header whose spans are pairwise apart
   * within each snapshot, and equal or apart across them: e counts the
   * processes that ended, the processes that started, and the processes
   * whose line changed.
   */
  lemma CountsProcessChanges(last: seq<string>, cur: seq<string>)
    requires Lines(last) && Lines(cur) && last != [] && cur != [] && last[0] == cur[0]
    requires SortedBy(last[1..], Key) && SortedBy(cur[1..], Key)
    requires forall i, j | 1 <= i < j < |last| :: Apart(last[i], last[j])
    requires forall i, j | 1 <= i < j < |cur| :: Apart(cur[i], cur[j])
    requires forall x, y | x in last[1..] && y in cur[1..] :: Span(x) == Span(y) || Apart(x, y)
    ensures Count(last, cur, Same) ==
      Unmatched(last[1..], cur[1..], Span) + Unmatched(cur[1..], last[1..], Span) +
      Changed(last[1..], cur[1..], Span)
  {
    hide Line, Key, KeyStart, SpanLen, PidEnd, PidStart, UidEnd, SpanFits, FieldsFrom, HasFields, AfterFields, SpaceFrom, NonSpaceFrom, Compare;
    var a, b := last[1..], cur[1..];
    assert Same(last[0], cur[0]) == 0;
    assert Count(last, cur, Same) == Count(a, b, Same);
    SortedBySpan(a);
    SortedBySpan(b);
    forall x, y | x in a && y in b
      ensures Same(x, y) == Compare(Span(x), Span(y))
    {
      SameOrdersSpans(x, y);
    }
    CountByKey(a, b, Same, Span);
  }
}

=== FILE: uhash.dfy ===
/**
 * UHASH as the source computes it for WORD_LEN 4, two streams and
 * L1_KEY_LEN 1024: a message of at most 1024 bytes is hashed by NH and
 * the inner-product layer directly; a longer message is cut into
 * 1024-byte blocks whose NH results are folded by the polynomial layer
 * before the inner-product layer.
 */
module Uhash {
  import opened Bytes
  import opened Endian
  import Aes
  import Kdf
  import Nh
  import opened Poly
  import opened Ip

  const L1KeyLen: nat := 1024
  /** (8 * PREFIX_STREAMS + 4) * 8: the bytes uhash_init takes from kdf indexes 1 and 2. */
  const L2BufBytes: nat := 160

  /** The keys of UHASH as the host reads them: NH key words, poly keys, inner-product keys, translation keys. */
  datatype UhashKey = UhashKey(nh: seq<U32>, poly: seq<U64>, ip: seq<U64>, trans: seq<U32>)

  /** Key shapes and domains: poly keys masked, inner-product keys reduced mod p36. */
  predicate WellFormed(k: UhashKey)
  {
    |k.nh| == Nh.KeyWords && |k.poly| == 2 && KeyInDomain(k.poly[0]) && KeyInDomain(k.poly[1]) &&
    |k.ip| == 8 && (forall i | 0 <= i < 8 :: k.ip[i] < P36) && |k.trans| == 2
  }

  /** Poly key i: the eight bytes at 24i, big-endian, masked to the special domain. */
  function PolyKeysOf(b: seq<Byte>): (r: seq<U64>)
    requires |b| == L2BufBytes
    ensures |r| == 2 && KeyInDomain(r[0]) && KeyInDomain(r[1])
  {
    [MaskKey(BE64(b[0 .. 8])), MaskKey(BE64(b[24 .. 32]))]
  }

  /** Where inner-product key 4i + j comes from: word j of the four at (8i + 4) * 8. */
  function IpKeyOffset(n: nat): (r: nat)
    requires n < 8
    ensures r + 8 <= L2BufBytes
  {
    (8 * (n / 4) + 4) * 8 + 8 * (n % 4)
  }

  /** Inner-product key n: the big-endian word at IpKeyOffset(n), reduced mod p36. */
  function IpKeyAt(b: seq<Byte>, n: nat): (r: U64)
    requires |b| == L2BufBytes && n < 8
    ensures r < P36
  {
    BE64(b[IpKeyOffset(n) .. IpKeyOffset(n) + 8]) % P36
  }

  /** The inner-product keys: big-endian words reduced mod p36. */
  function IpKeysOf(b: seq<Byte>): (r: seq<U64>)
    requires |b| == L2BufBytes
    ensures |r| == 8 && forall i | 0 <= i < 8 :: r[i] < P36
  {
    seq(8, n requires 0 <= n < 8 => IpKeyAt(b, n))
  }

  /**
   * The keys uhash_init derives: the NH key from kdf index 0, the poly
   * keys from index 1, the inner-product keys from index 2 and the
   * translation keys from index 3.
   */
  function KeysOf(E: seq<Byte> -> seq<Byte>): (k: UhashKey)
    requires Aes.IsBlockCipher(E)
    ensures WellFormed(k)
  {
    UhashKey(Nh.BEWords(Kdf.KdfBytes(E, 0, Nh.KeyBytes), Nh.KeyWords),
             PolyKeysOf(Kdf.KdfBytes(E, 1, L2BufBytes)),
             IpKeysOf(Kdf.KdfBytes(E, 2, L2BufBytes)),
             Nh.BEWords(Kdf.KdfBytes(E, 3, 8), 2))
  }

  // ---------------------------------------------------------------------
  // The value UHASH computes.

  /** Stream s's NH results of the p whole blocks of B. */
  function Done(k: UhashKey, s: nat, B: seq<Byte>, p: nat): (r: seq<U64>)
    requires WellFormed(k) && s < 2 && |B| == L1KeyLen * p
    ensures |r| == p
  {
    seq(p, j requires 0 <= j < p => Nh.NhResult(k.nh, B[L1KeyLen * j .. L1KeyLen * j + L1KeyLen])[s])
  }

  /** The words stream s hands to the polynomial layer for a message longer than one block. */
  function L2Words(k: UhashKey, s: nat, M: seq<Byte>): (r: seq<U64>)
    requires WellFormed(k) && s < 2 && |M| > L1KeyLen
  {
    var p := |M| / L1KeyLen;
    Done(k, s, M[.. L1KeyLen * p], p) +
      if |M| % L1KeyLen == 0 then [] else [Nh.NhResult(k.nh, M[L1KeyLen * p ..])[s]]
  }

  /** What stream s hands to the inner-product layer. */
  function L3Input(k: UhashKey, s: nat, M: seq<Byte>): (r: U64)
    requires WellFormed(k) && s < 2
  {
    if |M| <= L1KeyLen then Nh.NhResult(k.nh, M)[s] else Fix(PolyFold(k.poly[s], L2Words(k, s, M)))
  }

  /**
   * The eight result bytes of UHASH for M, as the code computes them:
   * the inner-product layer reads stream s's keys at ip_keys + s.
   */
  function UhashOf(k: UhashKey, M: seq<Byte>): (r: seq<Byte>)
    requires WellFormed(k)
    ensures |r| == 8
  {
    IpBytesAsWritten(k.ip, k.trans, [L3Input(k, 0, M), L3Input(k, 1, M)])
  }

  /** UHASH with each stream's inner-product keys read where uhash_init laid them. */
  function UhashOfIntended(k: UhashKey, M: seq<Byte>): (r: seq<Byte>)
    requires WellFormed(k)
    ensures |r| == 8
  {
    IpBytes(k.ip, k.trans, [L3Input(k, 0, M), L3Input(k, 1, M)])
  }

  /**
   * The code's UHASH is the intended one under other keys: those whose
   * inner-product keys are the ones the code reads, k[0 .. 3] for stream
   * 0 and k[1 .. 4] for stream 1.
   */
  lemma UhashIsIntendedOnReadKeys(k: UhashKey, M: seq<Byte>)
    requires WellFormed(k)
    ensures WellFormed(k.(ip := ReadLayout(k.ip)))
    ensures UhashOf(k, M) == UhashOfIntended(k.(ip := ReadLayout(k.ip)), M)
  {
    hide IpBytes, IpBytesAsWritten, Nh.NhResult, PolyFold, Fix;
    var k' := k.(ip := ReadLayout(k.ip));
    assert L3Input(k', 0, M) == L3Input(k, 0, M) && L3Input(k', 1, M) == L3Input(k, 1, M);
    AsWrittenIsReadLayout(k.ip, k.trans, [L3Input(k, 0, M), L3Input(k, 1, M)]);
  }

  /**
   * UHASH in its three layers stated over the integers: NH, then POLY
   * over Z_p64 for long messages, then the inner product of stream s's
   * word with the four keys from ip_keys + s, mod p36.
   */
  lemma {:induction false} UhashLayers(k: UhashKey, M: seq<Byte>)
    requires WellFormed(k)
    ensures UhashOf(k, M) ==
      IpRef(k.ip, k.trans, 0, 0, RefInput(k, 0, M)) + IpRef(k.ip, k.trans, 1, 1, RefInput(k, 1, M))
  {
    for s := 0 to 2
      invariant forall t | 0 <= t < s :: L3Input(k, t, M) == RefInput(k, t, M)
    {
      if |M| > L1KeyLen {
        PolyFoldIsPoly(k.poly[s], L2Words(k, s, M));
      }
    }
    IpOutAsWrittenIsRef(k.ip, k.trans, 0, L3Input(k, 0, M));
    IpOutAsWrittenIsRef(k.ip, k.trans, 1, L3Input(k, 1, M));
  }

  /** The input of the inner-product layer over the integers: the NH result, or POLY of the L2 words. */
  function RefInput(k: UhashKey, s: nat, M: seq<Byte>): (r: U64)
    requires WellFormed(k) && s < 2
  {
    if |M| <= L1KeyLen then Nh.NhResult(k.nh, M)[s] else PolyRefFold(k.poly[s], L2Words(k, s, M))
  }

  /** One more whole block extends each stream's results by the block's NH result. */
  lemma {:induction false} DoneAppend(k: UhashKey, s: nat, B: seq<Byte>, p: nat, blk: seq<Byte>, BB: seq<Byte>)
    requires WellFormed(k) && s < 2 && |B| == L1KeyLen * p && |blk| == L1KeyLen && BB == B + blk
    ensures Done(k, s, BB, p + 1) == Done(k, s, B, p) + [Nh.NhResult(k.nh, blk)[s]]
  {
    hide Nh.NhResult;
    forall j | 0 <= j < p + 1
      ensures Done(k, s, BB, p + 1)[j] == (Done(k, s, B, p) + [Nh.NhResult(k.nh, blk)[s]])[j]
    {
      if j < p {
        assert BB[L1KeyLen * j .. L1KeyLen * j + L1KeyLen] == B[L1KeyLen * j .. L1KeyLen * j + L1KeyLen];
      } else {
        assert BB[L1KeyLen * j .. L1KeyLen * j + L1KeyLen] == blk;
      }
    }
  }

  /** Horner's rule over one more word is one more poly_hash step. */
  lemma PolyFoldSnoc(key: U64, ms: seq<U64>, m: U64)
    ensures PolyFold(key, ms + [m]) == PolyStep(PolyFold(key, ms), key, m)
  {
    assert (ms + [m])[..|ms|] == ms;
  }

  // ---------------------------------------------------------------------
  // Key setup (uhash_init).

  /** An 8-byte word converted by endian_convert and loaded natively reads big-endian. */
  lemma LoadConverted64(s: seq<Byte>, c: seq<Byte>)
    requires |s| == 8 && c == SwapGroups(s, 8)
    ensures LE64(c) == BE64(s)
  {
    SwapGroupsAt(s, 8, 0, 0);
    assert c == c[0 .. 8] && s == s[0 .. 8];
    LoadReversed64(s);
  }

  /**
   * The poly-key loop of uhash_init: key i is the eight bytes at 24i of
   * kdf index 1, endian-converted, loaded and masked with
   * 0x01ffffff01ffffff.
   */
  method DerivePolyKeys(rk: array<Byte>, ghost E: seq<Byte> -> seq<Byte>) returns (pk: seq<U64>)
    requires Aes.Keyed(rk, E)
    ensures pk == PolyKeysOf(Kdf.KdfBytes(E, 1, L2BufBytes))
  {
    hide Kdf.KdfBytes, Aes.Keyed, MaskKey, BE64, LE64, SwapGroups;
    var buf := new Byte[L2BufBytes];
    Kdf.Derive(buf, rk, E, 1);
    ghost var b := buf[..];
    pk := [];
    for i := 0 to 2
      invariant buf[..] == b
      invariant |pk| == i && forall t | 0 <= t < i :: pk[t] == MaskKey(BE64(b[24 * t .. 24 * t + 8]))
    {
      var w := FromSeq(buf[24 * i .. 24 * i + 8]);
      EndianConvert(w, 8);
      LoadConverted64(b[24 * i .. 24 * i + 8], w[..]);
      pk := pk + [MaskKey(LE64(w[..]))];
    }
    assert pk == [pk[0], pk[1]];
  }

  /** Eight bytes at o of x + y come from x when they fit in it, otherwise from y. */
  lemma EightOfConcat(x: seq<Byte>, y: seq<Byte>, o: nat)
    requires o + 8 <= |x| + |y| && (o + 8 <= |x| || |x| <= o)
    ensures o + 8 <= |x| ==> (x + y)[o .. o + 8] == x[o .. o + 8]
    ensures |x| <= o ==> (x + y)[o .. o + 8] == y[o - |x| .. o - |x| + 8]
  {
    if o + 8 <= |x| {
      assert (x + y)[o .. o + 8] == x[o .. o + 8];
    } else {
      assert (x + y)[o .. o + 8] == y[o - |x| .. o - |x| + 8];
    }
  }

  /** Eight bytes at o of the slice b[a .. e] are the eight bytes at a + o of b. */
  lemma EightOfSlice(b: seq<Byte>, a: nat, e: nat, o: nat)
    requires a <= e <= |b| && o + 8 <= e - a
    ensures b[a .. e][o .. o + 8] == b[a + o .. a + o + 8]
  {
    var y, z := b[a .. e][o .. o + 8], b[a + o .. a + o + 8];
    assert forall i | 0 <= i < |y| :: y[i] == z[i];
  }

  /** Inner-product key n read from the gathered, converted buffer is the big-endian word at IpKeyOffset(n). */
  lemma {:induction false} IpKeyLoad(b: seq<Byte>, g: seq<Byte>, c: seq<Byte>, n: nat)
    requires |b| == L2BufBytes && g == b[32 .. 64] + b[96 .. 128] && c == SwapGroups(g, 8) && n < 8
    ensures LE64(c[8 * n .. 8 * n + 8]) % P36 == IpKeyAt(b, n)
  {
    hide LE64, BE64, SwapGroups;
    var o := 8 * n;
    SwapGroupsAt(g, 8, o, n);
    LoadReversed64(g[o .. o + 8]);
    EightOfConcat(b[32 .. 64], b[96 .. 128], o);
    if n < 4 {
      assert n / 4 == 0 && n % 4 == n;
      EightOfSlice(b, 32, 64, o);
    } else {
      assert n / 4 == 1 && n % 4 == n - 4;
      EightOfSlice(b, 96, 128, o - 32);
    }
  }

  /**
   * The inner-product-key part of uhash_init: four words per stream from
   * (8i + 4) * 8 of kdf index 2, endian-converted together, each reduced
   * mod p36.
   */
  method DeriveIpKeys(rk: array<Byte>, ghost E: seq<Byte> -> seq<Byte>) returns (ik: seq<U64>)
    requires Aes.Keyed(rk, E)
    ensures ik == IpKeysOf(Kdf.KdfBytes(E, 2, L2BufBytes))
  {
    hide Kdf.KdfBytes, Aes.Keyed, BE64, LE64, SwapGroups, IpKeyAt;
    var buf := new Byte[L2BufBytes];
    Kdf.Derive(buf, rk, E, 2);
    ghost var b := buf[..];
    var keys := new Byte[64];
    Store(keys, 0, buf[32 .. 64]);
    Store(keys, 32, buf[96 .. 128]);
    ghost var g := keys[..];
    assert g == b[32 .. 64] + b[96 .. 128] by {
      assert g == keys[..32] + keys[32..];
    }
    EndianConvert(keys, 8);
    ghost var c := keys[..];
    ik := [];
    for n := 0 to 8
      invariant keys[..] == c
      invariant |ik| == n && forall t | 0 <= t < n :: ik[t] == IpKeyAt(b, t)
    {
      IpKeyLoad(b, g, c, n);
      ik := ik + [LE64(keys[8 * n .. 8 * n + 8]) % P36];
    }
  }

  /** The translation keys: eight bytes of kdf index 3, converted as 32-bit words. */
  method DeriveTrans(rk: array<Byte>, ghost E: seq<Byte> -> seq<Byte>) returns (tr: seq<U32>)
    requires Aes.Keyed(rk, E)
    ensures tr == Nh.BEWords(Kdf.KdfBytes(E, 3, 8), 2)
  {
    hide *;
    var buf := new Byte[8];
    Kdf.Derive(buf, rk, E, 3);
    ghost var raw := buf[..];
    EndianConvert(buf, 4);
    Nh.NativeKeyWords(raw, 2);
    tr := Nh.Words(buf[..], 2);
  }

  // ---------------------------------------------------------------------
  // The streaming context.

  /** How many whole blocks uhash_update has passed to poly_hash once n bytes are fed: none while n <= L1_KEY_LEN. */
  function DoneBlocks(n: nat): (p: nat)
    ensures L1KeyLen * p <= n && n - L1KeyLen * p <= L1KeyLen
    ensures n > L1KeyLen ==> n - L1KeyLen * p < L1KeyLen
  {
    if n <= L1KeyLen then 0 else n / L1KeyLen
  }

  /** n bytes are p whole blocks and r more. */
  lemma BlockSplit(n: nat, p: nat, r: nat)
    requires n == L1KeyLen * p + r && r < L1KeyLen
    ensures n / L1KeyLen == p && n % L1KeyLen == r
  {
  }

  /** bytes_hashed in uhash_update is the number of bytes the NH context holds. */
  lemma BytesHashed(n: nat)
    ensures (if n == L1KeyLen then L1KeyLen else n % L1KeyLen) == n - L1KeyLen * DoneBlocks(n)
  {
    if n > L1KeyLen {
      BlockSplit(n, n / L1KeyLen, n % L1KeyLen);
    }
  }

  /** Past one block, p whole blocks and fewer than L1_KEY_LEN bytes after them is what DoneBlocks counts. */
  lemma DoneAfter(n: nat, p: nat, r: nat)
    requires n == L1KeyLen * p + r && r < L1KeyLen && n > L1KeyLen
    ensures DoneBlocks(n) == p
  {
    BlockSplit(n, p, r);
  }

  /** The L2 words of a long message: the whole blocks' NH results, then the tail's if there is one. */
  lemma {:induction false} L2Split(k: UhashKey, s: nat, M: seq<Byte>, p: nat, r: nat)
    requires WellFormed(k) && s < 2 && |M| > L1KeyLen && |M| == L1KeyLen * p + r && r < L1KeyLen
    ensures L2Words(k, s, M) ==
      Done(k, s, M[.. L1KeyLen * p], p) + if r == 0 then [] else [Nh.NhResult(k.nh, M[L1KeyLen * p ..])[s]]
  {
    hide Done, Nh.NhResult;
    BlockSplit(|M|, p, r);
  }

  /** Before any block, each accumulator's fold is the initial 1. */
  lemma StartFold(k: UhashKey, s: nat)
    requires WellFormed(k) && s < 2
    ensures PolyFold(k.poly[s], Done(k, s, [], 0)) == 1
  {
  }

  /** One more whole block through poly_hash is the fold over one more block's NH result. */
  lemma {:induction false} FoldBlock(k: UhashKey, s: nat, B: seq<Byte>, p: nat, blk: seq<Byte>, BB: seq<Byte>, acc: U64)
    requires WellFormed(k) && s < 2 && |B| == L1KeyLen * p && |blk| == L1KeyLen && BB == B + blk
    requires acc == PolyFold(k.poly[s], Done(k, s, B, p))
    ensures PolyStep(acc, k.poly[s], Nh.NhResult(k.nh, blk)[s]) == PolyFold(k.poly[s], Done(k, s, BB, p + 1))
  {
    hide Nh.NhResult, PolyStep, Done;
    DoneAppend(k, s, B, p, blk, BB);
    PolyFoldSnoc(k.poly[s], Done(k, s, B, p), Nh.NhResult(k.nh, blk)[s]);
  }

  /** A message of at most one block: UHASH is the inner-product layer over its NH result. */
  lemma ShortOf(k: UhashKey, M: seq<Byte>, r0: U64, r1: U64)
    requires WellFormed(k) && |M| <= L1KeyLen && [r0, r1] == Nh.NhResult(k.nh, M)
    ensures IpBytesAsWritten(k.ip, k.trans, [r0, r1]) == UhashOf(k, M)
  {
  }

  /**
   * A longer message of p whole blocks and r more bytes: UHASH is the
   * inner-product layer over the accumulators, brought into Z_p64, after
   * the whole blocks and, if r > 0, one more step for the tail.
   */
  lemma {:induction false} LongOf(k: UhashKey, M: seq<Byte>, p: nat, r: nat, a0: U64, a1: U64, v0: U64, v1: U64)
    requires WellFormed(k) && |M| > L1KeyLen && |M| == L1KeyLen * p + r && r < L1KeyLen
    requires a0 == PolyFold(k.poly[0], Done(k, 0, M[.. L1KeyLen * p], p))
    requires a1 == PolyFold(k.poly[1], Done(k, 1, M[.. L1KeyLen * p], p))
    requires r == 0 ==> v0 == a0 && v1 == a1
    requires r != 0 ==> v0 == PolyStep(a0, k.poly[0], Nh.NhResult(k.nh, M[L1KeyLen * p ..])[0]) &&
                        v1 == PolyStep(a1, k.poly[1], Nh.NhResult(k.nh, M[L1KeyLen * p ..])[1])
    ensures IpBytesAsWritten(k.ip, k.trans, [Fix(v0), Fix(v1)]) == UhashOf(k, M)
  {
    hide Nh.NhResult, PolyStep, Done, IpBytesAsWritten;
    var B := M[.. L1KeyLen * p];
    L2Split(k, 0, M, p, r);
    L2Split(k, 1, M, p, r);
    if r != 0 {
      var T := M[L1KeyLen * p ..];
      PolyFoldSnoc(k.poly[0], Done(k, 0, B, p), Nh.NhResult(k.nh, T)[0]);
      PolyFoldSnoc(k.poly[1], Done(k, 1, B, p), Nh.NhResult(k.nh, T)[1]);
      assert L2Words(k, 0, M) == Done(k, 0, B, p) + [Nh.NhResult(k.nh, T)[0]];
      assert L2Words(k, 1, M) == Done(k, 1, B, p) + [Nh.NhResult(k.nh, T)[1]];
    } else {
      assert L2Words(k, 0, M) == Done(k, 0, B, p);
      assert L2Words(k, 1, M) == Done(k, 1, B, p);
    }
    assert Fix(v0) == L3Input(k, 0, M) && Fix(v1) == L3Input(k, 1, M);
  }

  /**
   * uhash_ctx: the NH context, the poly keys and accumulators, the
   * inner-product and translation keys, and msg_len.
   */
  class UhashCtx {
    const hash: Nh.NhCtx
    const polyKey: seq<U64>
    const polyAccum: array<U64>
    const ipKeys: seq<U64>
    const ipTrans: seq<U32>
    /** Bytes fed since the last reset. */
    var msgLen: nat
    /** The bytes themselves. */
    ghost var fed: seq<Byte>

    /** The keys the context holds. */
    ghost function Key(): UhashKey
      reads this, hash
    {
      UhashKey(hash.key, polyKey, ipKeys, ipTrans)
    }

    /** The objects the context is made of, which no operation replaces. */
    ghost function Parts(): (Nh.NhCtx, array<Byte>, array<U64>, array<U64>)
      reads this, hash
    {
      (hash, hash.data, hash.state, polyAccum)
    }

    /** Key shapes and separate arrays. */
    ghost predicate Shaped()
      reads this, hash
    {
      WellFormed(Key()) && hash.data.Length == Nh.HashBufBytes && hash.state.Length == 2 &&
      hash.data != hash.state as object && polyAccum.Length == 2 && polyAccum != hash.state
    }

    /** p whole blocks of what was fed have gone through poly_hash; the NH context holds the bytes after them. */
    ghost predicate Staged(p: nat)
      reads this, hash, hash.data, hash.state, polyAccum
    {
      Shaped() && hash.Valid() && msgLen == |fed| && L1KeyLen * p <= |fed| && hash.fed == fed[L1KeyLen * p ..] &&
      forall s | 0 <= s < 2 :: polyAccum[s] == PolyFold(polyKey[s], Done(Key(), s, fed[.. L1KeyLen * p], p))
    }

    /** The facts Staged(p) stands for, one by one. */
    lemma StagedFacts(p: nat)
      requires Staged(p)
      ensures |hash.key| == Nh.KeyWords && |polyKey| == 2 && |ipKeys| == 8 && |ipTrans| == 2 && |hash.fed| <= L1KeyLen
      ensures Shaped() && hash.Valid() && msgLen == |fed| && L1KeyLen * p <= |fed| && hash.fed == fed[L1KeyLen * p ..]
      ensures polyAccum[0] == PolyFold(polyKey[0], Done(Key(), 0, fed[.. L1KeyLen * p], p))
      ensures polyAccum[1] == PolyFold(polyKey[1], Done(Key(), 1, fed[.. L1KeyLen * p], p))
    {
      hide PolyFold, Done, Nh.NhCtx.Valid;
      hash.ValidFed();
    }

    /** Staged(p) from its facts. */
    lemma StagedIntro(p: nat)
      requires Shaped() && hash.Valid() && msgLen == |fed| && L1KeyLen * p <= |fed| && hash.fed == fed[L1KeyLen * p ..]
      requires polyAccum[0] == PolyFold(polyKey[0], Done(Key(), 0, fed[.. L1KeyLen * p], p))
      requires polyAccum[1] == PolyFold(polyKey[1], Done(Key(), 1, fed[.. L1KeyLen * p], p))
      ensures Staged(p)
    {
      hide PolyFold, Done, Nh.NhCtx.Valid;
    }

    /** Between calls, every whole block has been hashed once more than one block was fed. */
    ghost predicate Valid()
      reads this, hash, hash.data, hash.state, polyAccum
    {
      Staged(DoneBlocks(|fed|))
    }

    /** A valid context is shaped. */
    lemma ValidShaped()
      requires Valid()
      ensures Shaped()
    {
      StagedFacts(DoneBlocks(|fed|));
    }

    /** uhash_reset: the NH context reset, msg_len zero, each accumulator 1. */
    method Reset()
      requires Shaped()
      modifies this, hash, hash.state, polyAccum
      ensures Valid() && fed == [] && Key() == old(Key()) && Parts() == old(Parts())
    {
      assert |hash.key| == Nh.KeyWords;
      hide Nh.NhCtx.Valid, WellFormed, PolyFold, Done;
      hash.Reset();
      msgLen := 0;
      polyAccum[0] := 1;
      polyAccum[1] := 1;
      fed := [];
      StartFold(Key(), 0);
      StartFold(Key(), 1);
    }

    /**
     * uhash_init: nh_init, the poly keys from kdf index 1 with both
     * accumulators at 1, the inner-product keys from index 2, the
     * translation keys from index 3.
     */
    constructor (rk: array<Byte>, ghost E: seq<Byte> -> seq<Byte>)
      requires Aes.Keyed(rk, E)
      ensures Valid() && fed == [] && Key() == KeysOf(E)
      ensures fresh(hash) && fresh(hash.data) && fresh(hash.state) && fresh(polyAccum)
    {
      hide Kdf.KdfBytes, Aes.Keyed, PolyKeysOf, IpKeysOf, Nh.BEWords;
      hash := new Nh.NhCtx(rk, E);
      var pk := DerivePolyKeys(rk, E);
      polyKey := pk;
      polyAccum := new U64[2];
      var ik := DeriveIpKeys(rk, E);
      ipKeys := ik;
      var tr := DeriveTrans(rk, E);
      ipTrans := tr;
      new;
      // The zeroed context with both accumulators at 1 is the state uhash_reset leaves.
      Reset();
    }

    /** poly_hash: each stream's accumulator takes one Horner step with the stream's NH result, the marker for large words included. */
    method PolyHash(r0: U64, r1: U64)
      requires polyAccum.Length == 2 && |polyKey| == 2
      modifies polyAccum
      ensures polyAccum[0] == PolyStep(old(polyAccum[0]), polyKey[0], r0)
      ensures polyAccum[1] == PolyStep(old(polyAccum[1]), polyKey[1], r1)
    {
      var data := [r0, r1];
      for i := 0 to 2
        invariant forall s | 0 <= s < 2 :: polyAccum[s] == if s < i then PolyStep(old(polyAccum[s]), polyKey[s], data[s]) else old(polyAccum[s])
      {
        if data[i] / TWO32 == 0xFFFF_FFFF {
          polyAccum[i] := Poly64(polyAccum[i], polyKey[i], P64 - 1);
          polyAccum[i] := Poly64(polyAccum[i], polyKey[i], data[i] - 59);
        } else {
          polyAccum[i] := Poly64(polyAccum[i], polyKey[i], data[i]);
        }
      }
    }

    /**
     * ip_short: the inner-product layer over the two NH results, four
     * big-endian bytes per stream, stream i reading its keys at
     * ip_keys + i.
     */
    method IpShort(r0: U64, r1: U64, res: array<Byte>)
      requires WellFormed(Key()) && res.Length >= 8
      modifies res
      ensures res[..8] == IpBytesAsWritten(ipKeys, ipTrans, [r0, r1]) && res[8..] == old(res[8..])
    {
      Store(res, 0, IpOutAsWritten(ipKeys, ipTrans, 0, r0));
      Store(res, 4, IpOutAsWritten(ipKeys, ipTrans, 1, r1));
      assert res[..8] == res[0 .. 4] + res[4 .. 8];
    }

    /**
     * ip_long: each accumulator brought into Z_p64, then the
     * inner-product layer over them, with the keys at ip_keys + i.
     */
    method IpLong(res: array<Byte>)
      requires WellFormed(Key()) && polyAccum.Length == 2 && res.Length >= 8
      modifies polyAccum, res
      ensures polyAccum[0] == Fix(old(polyAccum[0])) && polyAccum[1] == Fix(old(polyAccum[1]))
      ensures res[..8] == IpBytesAsWritten(ipKeys, ipTrans, [polyAccum[0], polyAccum[1]]) && res[8..] == old(res[8..])
    {
      hide IpOutAsWritten;
      for i := 0 to 2
        invariant forall s | 0 <= s < 2 :: polyAccum[s] == if s < i then Fix(old(polyAccum[s])) else old(polyAccum[s])
        invariant forall s | 0 <= s < i :: res[4 * s .. 4 * s + 4] == IpOutAsWritten(ipKeys, ipTrans, s, polyAccum[s])
        invariant res[4 * i ..] == old(res[4 * i ..])
      {
        if polyAccum[i] >= P64 {
          polyAccum[i] := polyAccum[i] - P64;
        }
        Store(res, 4 * i, IpOutAsWritten(ipKeys, ipTrans, i, polyAccum[i]));
      }
      assert res[..8] == res[0 .. 4] + res[4 .. 8];
    }
  
    /**
     * The start of uhash_update's block loop: hand the NH context the
     * bytes that complete its block, finish it with nh_final and pass the
     * result to poly_hash.
     */
    method CompleteBlock(input: seq<Byte>, remaining: nat, ghost p: nat)
      requires Staged(p) && |hash.fed| + remaining == L1KeyLen && remaining <= |input|
      modifies this, hash, hash.data, hash.state, polyAccum
      ensures Staged(p + 1) && hash.fed == [] && fed == old(fed) + input[.. remaining]
      ensures Key() == old(Key()) && Parts() == old(Parts())
    {
      hide Staged, WellFormed, Nh.NhCtx.Valid, Nh.NhCtx.Accumulated, Nh.NhResult, Nh.NhOutput, Nh.AccW, Nh.Words,
        PolyFold, PolyStep, Done;
      StagedFacts(p);
      ghost var k := Key();
      ghost var B := fed[.. L1KeyLen * p];
      ghost var F := fed + input[.. remaining];
      ghost var a0, a1 := polyAccum[0], polyAccum[1];
      hash.Update(input[.. remaining]);
      ghost var blk := hash.fed;
      var r0, r1 := hash.Final();
      msgLen := msgLen + remaining;
      fed := F;
      PolyHash(r0, r1);
      assert F == B + blk && F[.. L1KeyLen * (p + 1)] == F;
      FoldBlock(k, 0, B, p, blk, F, a0);
      FoldBlock(k, 1, B, p, blk, F, a1);
      StagedIntro(p + 1);
    }

    /** One pass of uhash_update's block loop: the all-in-one nh of a whole block, then poly_hash. */
    method HashBlock(blk: seq<Byte>, ghost p: nat)
      requires Staged(p) && hash.fed == [] && |blk| == L1KeyLen
      modifies this, polyAccum
      ensures Staged(p + 1) && hash.fed == [] && fed == old(fed) + blk
      ensures Key() == old(Key()) && Parts() == old(Parts())
    {
      hide Staged, WellFormed, Nh.NhCtx.Valid, Nh.NhCtx.Accumulated, Nh.NhResult, Nh.NhOutput, Nh.AccW, Nh.Words,
        PolyFold, PolyStep, Done;
      StagedFacts(p);
      ghost var k := Key();
      ghost var B := fed;
      ghost var a0, a1 := polyAccum[0], polyAccum[1];
      Nh.NhBlock(hash.key, blk);
      assert B == fed[.. L1KeyLen * p];
      var r0, r1 := hash.Nh(blk, L1KeyLen, 32);
      msgLen := msgLen + L1KeyLen;
      PolyHash(r0, r1);
      fed := fed + blk;
      assert fed[.. L1KeyLen * (p + 1)] == fed;
      FoldBlock(k, 0, B, p, blk, fed, a0);
      FoldBlock(k, 1, B, p, blk, fed, a1);
      StagedIntro(p + 1);
    }

    /** nh_update of bytes that stay in the NH context, and msg_len advanced past them. */
    method Buffer(bytes: seq<Byte>, ghost p: nat)
      requires Staged(p) && |hash.fed| + |bytes| <= L1KeyLen
      modifies this, hash, hash.data, hash.state
      ensures Staged(p) && hash.fed == old(hash.fed) + bytes && fed == old(fed) + bytes
      ensures Key() == old(Key()) && Parts() == old(Parts())
    {
      hide Staged, WellFormed, Nh.NhCtx.Valid, Nh.NhCtx.Accumulated, Nh.NhResult, Nh.NhOutput, Nh.AccW, Nh.Words,
        PolyFold, PolyStep, Done;
      StagedFacts(p);
      ghost var B := fed[.. L1KeyLen * p];
      hash.Update(bytes);
      msgLen := msgLen + |bytes|;
      fed := fed + bytes;
      assert fed[.. L1KeyLen * p] == B;
      StagedIntro(p);
    }

    /**
     * The block loop of uhash_update, from the context's first whole block
     * on: complete the block the NH context holds, if it holds any bytes,
     * then hash every whole block of what is left directly.
     */
    method HashBlocks(input: seq<Byte>, bytesHashed: nat, ghost p: nat) returns (rest: seq<Byte>, ghost p': nat)
      requires Staged(p) && bytesHashed == |hash.fed| && bytesHashed + |input| >= L1KeyLen
      modifies this, hash, hash.data, hash.state, polyAccum
      ensures Staged(p') && hash.fed == [] && fed + rest == old(fed) + input && |rest| < L1KeyLen
      ensures Key() == old(Key()) && Parts() == old(Parts())
    {
      hide Staged, WellFormed, Nh.NhCtx.Valid, Nh.NhCtx.Accumulated, Nh.NhResult, Nh.NhOutput, Nh.AccW, Nh.Words,
        PolyFold, PolyStep, Done;
      StagedFacts(p);
      rest, p' := input, p;
      if bytesHashed != 0 {
        var remaining := L1KeyLen - bytesHashed;
        CompleteBlock(rest, remaining, p);
        rest := rest[remaining ..];
        p' := p + 1;
      }
      while |rest| >= L1KeyLen
        invariant Staged(p') && hash.fed == [] && fed + rest == old(fed) + input
        invariant Key() == old(Key()) && Parts() == old(Parts())
        decreases |rest|
      {
        HashBlock(rest[.. L1KeyLen], p');
        rest := rest[L1KeyLen ..];
        p' := p' + 1;
      }
    }

    /**
     * uhash_update: while at most L1_KEY_LEN bytes have come, everything
     * goes to the NH context; after that each block is completed, hashed
     * and passed to poly_hash as soon as it is whole, and the bytes after
     * the last whole block wait in the NH context.
     */
    method Update(input: seq<Byte>)
      requires Valid()
      modifies this, hash, hash.data, hash.state, polyAccum
      ensures Valid() && fed == old(fed) + input
      ensures Key() == old(Key()) && Parts() == old(Parts())
    {
      hide Staged, WellFormed, Nh.NhCtx.Valid, Nh.NhCtx.Accumulated, Nh.NhResult, Nh.NhOutput, Nh.AccW, Nh.Words,
        PolyFold, PolyStep, Done;
      ghost var p := DoneBlocks(|fed|);
      StagedFacts(p);
      if msgLen + |input| <= L1KeyLen {
        Buffer(input, p);
      } else {
        var bytesHashed := msgLen % L1KeyLen;
        if msgLen == L1KeyLen {
          bytesHashed := L1KeyLen;
        }
        BytesHashed(|fed|);
        var rest := input;
        if bytesHashed + |rest| >= L1KeyLen {
          rest, p := HashBlocks(rest, bytesHashed, p);
        }
        StagedFacts(p);
        if |rest| > 0 {
          Buffer(rest, p);
        }
        DoneAfter(|fed|, p, |hash.fed|);
      }
    }

    /**
     * The long-message half of uhash_final: the partial block, if any,
     * through nh_final and poly_hash, then ip_long.
     */
    method FinishLong(res: array<Byte>, ghost p: nat)
      requires Staged(p) && p == DoneBlocks(|fed|) && |fed| > L1KeyLen && res.Length >= 8 && res != hash.data
      modifies hash, hash.data, hash.state, polyAccum, res
      ensures Shaped() && Key() == old(Key()) && Parts() == old(Parts())
      ensures res[..8] == UhashOf(Key(), fed) && res[8..] == old(res[8..])
    {
      hide Staged, WellFormed, Nh.NhCtx.Valid, Nh.NhCtx.Accumulated, Nh.NhResult, Nh.NhOutput, Nh.AccW, Nh.Words,
        PolyFold, PolyStep, Done;
      hide UhashOf, IpBytesAsWritten, Fix;
      StagedFacts(p);
      ghost var k, M := Key(), fed;
      ghost var r := |M| - L1KeyLen * p;
      ghost var a0, a1 := polyAccum[0], polyAccum[1];
      BlockSplit(|M|, p, r);
      if msgLen % L1KeyLen != 0 {
        var r0, r1 := hash.Final();
        PolyHash(r0, r1);
      }
      ghost var v0, v1 := polyAccum[0], polyAccum[1];
      IpLong(res);
      LongOf(k, M, p, r, a0, a1, v0, v1);
    }

    /**
     * uhash_final: a long message's last partial block goes through nh_final
     * and poly_hash and the accumulators through ip_long; a short one's NH
     * result goes through ip_short.  The eight result bytes are UHASH of
     * everything fed, and the context is reset.
     */
    method Final(res: array<Byte>)
      requires Valid() && res.Length >= 8 && res != hash.data
      modifies this, hash, hash.data, hash.state, polyAccum, res
      ensures Valid() && fed == [] && Key() == old(Key()) && Parts() == old(Parts())
      ensures res[..8] == UhashOf(Key(), old(fed)) && res[8..] == old(res[8..])
    {
      hide Staged, WellFormed, Nh.NhCtx.Valid, Nh.NhCtx.Accumulated, Nh.NhResult, Nh.NhOutput, Nh.AccW, Nh.Words,
        PolyFold, PolyStep, Done;
      hide UhashOf, IpBytesAsWritten;
      ghost var p := DoneBlocks(|fed|);
      StagedFacts(p);
      if msgLen > L1KeyLen {
        FinishLong(res, p);
      } else {
        ghost var k, M := Key(), fed;
        var r0, r1 := hash.Final();
        IpShort(r0, r1, res);
        ShortOf(k, M, r0, r1);
      }
      Reset();
    }
  
    /**
     * zero_pad from the end of msg[off .. off + n] up to the next 32-byte
     * boundary, then the all-in-one nh of the padded bytes with n as the
     * message length: the NH result of msg[off .. off + n].
     */
    method NhPadded(msg: array<Byte>, off: nat, n: nat) returns (r0: U64, r1: U64)
      requires |hash.key| == Nh.KeyWords && 0 < n <= L1KeyLen && off + 32 * Nh.PadChunks(n) <= msg.Length
      modifies msg
      ensures [r0, r1] == Nh.NhResult(hash.key, old(msg[off .. off + n]))
      ensures msg[.. off + n] == old(msg[.. off + n])
      ensures msg[off + 32 * Nh.PadChunks(n) ..] == old(msg[off + 32 * Nh.PadChunks(n) ..])
    {
      hide Nh.NhResult, Nh.NhOutput, Nh.AccW, Nh.Words;
      var nhLen, c := Nh.PadLength(n);
      Nh.ZeroPad(msg, off + n, nhLen - n);
      var P := msg[off .. off + nhLen];
      r0, r1 := hash.Nh(P, n, c);
      assert P == old(msg[off .. off + n]) + Zeros(nhLen - n) by {
        assert P == msg[off .. off + n] + msg[off + n .. off + nhLen];
        assert msg[off .. off + n] == msg[.. off + n][off ..];
      }
      Nh.PaddedBlock(hash.key, old(msg[off .. off + n]), P, c);
    }

    /**
     * The block loop of the all-in-one uhash: nh straight from msg and
     * poly_hash for every whole block of msg[..len].
     */
    method HashDirect(msg: array<Byte>, len: nat) returns (off: nat, ghost p: nat)
      requires Valid() && fed == [] && L1KeyLen < len <= msg.Length
      modifies polyAccum
      ensures off == L1KeyLen * p && off <= len < off + L1KeyLen
      ensures polyAccum[0] == PolyFold(polyKey[0], Done(Key(), 0, msg[.. off], p))
      ensures polyAccum[1] == PolyFold(polyKey[1], Done(Key(), 1, msg[.. off], p))
    {
      hide Staged, WellFormed, Nh.NhCtx.Valid, Nh.NhCtx.Accumulated, Nh.NhResult, Nh.NhOutput, Nh.AccW, Nh.Words,
        PolyFold, PolyStep, Done, UhashOf, IpBytesAsWritten, Fix;
      StagedFacts(0);
      ghost var k, M := Key(), msg[..len];
      assert fed[.. L1KeyLen * 0] == M[.. 0];
      var rest: nat;
      rest, off, p := len, 0, 0;
      // The source's do-while: its first pass always runs, as len > L1_KEY_LEN.
      while rest >= L1KeyLen
        invariant off + rest == len && off == L1KeyLen * p
        invariant polyAccum[0] == PolyFold(polyKey[0], Done(k, 0, M[.. off], p))
        invariant polyAccum[1] == PolyFold(polyKey[1], Done(k, 1, M[.. off], p))
        decreases rest
      {
        var blk := msg[off .. off + L1KeyLen];
        assert blk == M[off .. off + L1KeyLen];
        assert M[.. off + L1KeyLen] == M[.. off] + blk;
        Nh.NhBlock(hash.key, blk);
        var r0, r1 := hash.Nh(blk, L1KeyLen, 32);
        ghost var a0, a1 := polyAccum[0], polyAccum[1];
        PolyHash(r0, r1);
        FoldBlock(k, 0, M[.. off], p, blk, M[.. off + L1KeyLen], a0);
        FoldBlock(k, 1, M[.. off], p, blk, M[.. off + L1KeyLen], a1);
        rest := rest - L1KeyLen;
        off := off + L1KeyLen;
        p := p + 1;
      }
      assert M[.. off] == msg[.. off];
    }

    /**
     * The long-message half of the all-in-one uhash: the whole blocks,
     * then the zero-padded tail if there is one, then ip_long.
     */
    method OneShotLong(msg: array<Byte>, len: nat, res: array<Byte>)
      requires Valid() && fed == [] && len > L1KeyLen && 32 * Nh.PadChunks(len) <= msg.Length
      requires res.Length >= 8 && msg != res
      modifies polyAccum, res, msg
      ensures res[..8] == UhashOf(Key(), old(msg[..len])) && res[8..] == old(res[8..])
      ensures msg[..len] == old(msg[..len]) && msg[32 * Nh.PadChunks(len) ..] == old(msg[32 * Nh.PadChunks(len) ..])
    {
      hide Staged, WellFormed, Nh.NhCtx.Valid, Nh.NhCtx.Accumulated, Nh.NhResult, Nh.NhOutput, Nh.AccW, Nh.Words,
        PolyFold, PolyStep, Done, UhashOf, IpBytesAsWritten, Fix;
      StagedFacts(0);
      ghost var k, M := Key(), msg[..len];
      var off, p := HashDirect(msg, len);
      var rest: nat := len - off;
      assert msg[.. off] == M[.. L1KeyLen * p];
      ghost var a0, a1 := polyAccum[0], polyAccum[1];
      if rest > 0 {
        assert msg[off .. off + rest] == M[L1KeyLen * p ..];
        Nh.PadChunksShift(rest, p * 32);
        var r0, r1 := NhPadded(msg, off, rest);
        PolyHash(r0, r1);
      }
      ghost var v0, v1 := polyAccum[0], polyAccum[1];
      IpLong(res);
      LongOf(k, M, p, rest, a0, a1, v0, v1);
    }

    /**
     * uhash: the all-in-one UHASH of msg[..len] in a freshly reset
     * context, hashing straight from msg, which must have room for the
     * zero padding up to the next 32-byte boundary (the source does not
     * handle len = 0).  The context is reset afterwards.
     */
    method Uhash(msg: array<Byte>, len: nat, res: array<Byte>)
      requires Valid() && fed == [] && len > 0 && 32 * Nh.PadChunks(len) <= msg.Length
      requires res.Length >= 8 && msg != res && res != hash.data
      modifies this, hash, hash.state, polyAccum, res, msg
      ensures Valid() && fed == [] && Key() == old(Key()) && Parts() == old(Parts())
      ensures res[..8] == UhashOf(Key(), old(msg[..len])) && res[8..] == old(res[8..])
      ensures msg[..len] == old(msg[..len]) && msg[32 * Nh.PadChunks(len) ..] == old(msg[32 * Nh.PadChunks(len) ..])
    {
      hide Staged, WellFormed, Nh.NhCtx.Valid, Nh.NhCtx.Accumulated, Nh.NhResult, Nh.NhOutput, Nh.AccW, Nh.Words,
        PolyFold, PolyStep, Done, UhashOf, IpBytesAsWritten, Fix;
      StagedFacts(0);
      ghost var k, M := Key(), msg[..len];
      if len <= L1KeyLen {
        var r0, r1 := NhPadded(msg, 0, len);
        IpShort(r0, r1, res);
        ShortOf(k, M, r0, r1);
      } else {
        OneShotLong(msg, len, res);
      }
      Reset();
    }
  }
}

=== FILE: umac.dfy ===
/**
 * UMAC as the source implements it, with UMAC_OUTPUT_LEN 8 and WORD_LEN
 * 4 (a variant of the UMAC of RFC 4418 whose last layer differs): the
 * eight-byte UHASH of the message XORed with the eight-byte pad for the
 * nonce.  A context holds a UHASH context and a pad context, both keyed
 * from one AES key; it offers the sequential interface (reset, update,
 * final) and the all-in-one one.
 *
 * The tag is stated over two block functions: E, AES under the user key,
 * and F, AES under the pad key K' derived from it.  TagDependsOnKey shows
 * that any two such choices give the same tag.
 */
module Umac {
  import opened Bytes
  import opened Aes
  import Kdf
  import Nh
  import Pdf
  import opened Uhash

  /** F computes AES under the pad key that E derives for a key of keyLen bytes. */
  ghost predicate PadCipher(E: seq<Byte> -> seq<Byte>, keyLen: nat, F: seq<Byte> -> seq<Byte>)
  {
    IsBlockCipher(E) && Computes(F, Kdf.KdfBytes(E, Pdf.PdfIndex, keyLen))
  }

  /** The UMAC tag of M for nonce: UHASH of M under the keys E derives, XOR the pad under F. */
  ghost function Tag(E: seq<Byte> -> seq<Byte>, F: seq<Byte> -> seq<Byte>, M: seq<Byte>, nonce: seq<Byte>): (r: seq<Byte>)
    requires IsBlockCipher(E) && IsBlockCipher(F) && |nonce| == 8
    ensures |r| == 8
  {
    Xor(UhashOf(KeysOf(E), M), Pdf.Pad(F, nonce))
  }

  /**
   * The tag is a function of the user key: any E computing AES under it,
   * with any F computing AES under the pad key, gives the same tag.
   */
  lemma {:induction false} TagDependsOnKey(key: seq<Byte>, E: seq<Byte> -> seq<Byte>, F: seq<Byte> -> seq<Byte>,
                                           E': seq<Byte> -> seq<Byte>, F': seq<Byte> -> seq<Byte>,
                                           M: seq<Byte>, nonce: seq<Byte>)
    requires Computes(E, key) && Computes(E', key) && |nonce| == 8
    requires PadCipher(E, |key|, F) && PadCipher(E', |key|, F')
    ensures Tag(E, F, M, nonce) == Tag(E', F', M, nonce)
  {
    hide UhashOf, Pdf.Pad, KeysOf, Computes;
    Kdf.ComputesSame(E, E', key);
    KeysAgree(E, E');
    PadAgree(E, E', |key|, F, F', nonce);
  }

  /** UHASH keys derived by two block functions that agree on blocks are the same. */
  lemma KeysAgree(E: seq<Byte> -> seq<Byte>, E': seq<Byte> -> seq<Byte>)
    requires IsBlockCipher(E) && IsBlockCipher(E') && Kdf.SameCipher(E, E')
    ensures KeysOf(E) == KeysOf(E')
  {
    hide PolyKeysOf, IpKeysOf, Nh.BEWords, Kdf.KdfBytes;
    Kdf.KdfAgree(E, E', 0, Nh.KeyBytes);
    Kdf.KdfAgree(E, E', 1, L2BufBytes);
    Kdf.KdfAgree(E, E', 2, L2BufBytes);
    Kdf.KdfAgree(E, E', 3, 8);
  }

  /** So are the pad keys, and hence the pads. */
  lemma PadAgree(E: seq<Byte> -> seq<Byte>, E': seq<Byte> -> seq<Byte>, keyLen: nat,
                 F: seq<Byte> -> seq<Byte>, F': seq<Byte> -> seq<Byte>, nonce: seq<Byte>)
    requires IsBlockCipher(E) && IsBlockCipher(E') && Kdf.SameCipher(E, E') && |nonce| == 8
    requires PadCipher(E, keyLen, F) && PadCipher(E', keyLen, F')
    ensures Pdf.Pad(F, nonce) == Pdf.Pad(F', nonce)
  {
    Kdf.KdfAgree(E, E', Pdf.PdfIndex, keyLen);
    var x := Pdf.PadInput(nonce);
    assert F(x) == Encrypt(Kdf.KdfBytes(E, Pdf.PdfIndex, keyLen), x);
  }

  /**
   * The tag as a function of the user key alone: E is AES under key and
   * F AES under the pad key derived from it.
   */
  function KeyTag(key: seq<Byte>, M: seq<Byte>, nonce: seq<Byte>): (r: seq<Byte>)
    requires ValidKeyLen(|key|) && |nonce| == 8
    ensures |r| == 8
  {
    var E := AesOf(key);
    Xor(UhashOf(KeysOf(E), M), Pdf.Pad(AesOf(Kdf.KdfBytes(E, Pdf.PdfIndex, |key|)), nonce))
  }

  /** Every pair of block functions keyed from key gives KeyTag. */
  lemma TagOfKey(key: seq<Byte>, E: seq<Byte> -> seq<Byte>, F: seq<Byte> -> seq<Byte>, M: seq<Byte>, nonce: seq<Byte>)
    requires Computes(E, key) && PadCipher(E, |key|, F) && |nonce| == 8
    ensures Tag(E, F, M, nonce) == KeyTag(key, M, nonce)
  {
    hide UhashOf, Pdf.Pad, KeysOf, Kdf.KdfBytes;
    var E' := AesOf(key);
    var F' := AesOf(Kdf.KdfBytes(E', Pdf.PdfIndex, |key|));
    TagDependsOnKey(key, E, F, E', F', M, nonce);
  }

  /** The tag XORed with the pad gives back the UHASH value: the pad is all that hides it. */
  lemma {:induction false} TagUnmasks(E: seq<Byte> -> seq<Byte>, F: seq<Byte> -> seq<Byte>, M: seq<Byte>, nonce: seq<Byte>)
    requires IsBlockCipher(E) && IsBlockCipher(F) && |nonce| == 8
    ensures Xor(Tag(E, F, M, nonce), Pdf.Pad(F, nonce)) == UhashOf(KeysOf(E), M)
  {
    XorInvolution(UhashOf(KeysOf(E), M), Pdf.Pad(F, nonce));
  }

  /** aes_setup on the user key, into a fresh expanded-key buffer. */
  method ExpandKey(k: seq<Byte>) returns (rk: array<Byte>, ghost E: seq<Byte> -> seq<Byte>)
    requires ValidKeyLen(|k|)
    ensures fresh(rk) && rk.Length == 16 * (Rounds(|k|) + 1) && Keyed(rk, E) && Computes(E, k)
  {
    rk := new Byte[16 * (Rounds(|k|) + 1)];
    SetupKeyed(k, rk);
    E := AesOf(k);
  }

  class UmacCtx {
    /** Hash function for message compression. */
    const hash: UhashCtx
    /** Pad for the hashed output. */
    const pdf: Pdf.PdfCtx
    /** The user key given to umac_new, and AES under it. */
    ghost var key: seq<Byte>
    ghost var E: seq<Byte> -> seq<Byte>

    /** The message fed since the last reset. */
    ghost function Fed(): seq<Byte>
      reads this, hash
    {
      hash.fed
    }

    /** The arrays the two halves keep. */
    ghost function Buffers(): set<object>
      reads this, hash, hash.hash, pdf
    {
      {hash.hash.data as object, hash.hash.state, hash.polyAccum, pdf.cache, pdf.nonce, pdf.prfKey}
    }

    /** Every object the context owns. */
    ghost function Repr(): set<object>
      reads this, hash, hash.hash, pdf
    {
      {this as object, hash, hash.hash, pdf} + Buffers()
    }

    /** Both halves valid, keyed from key, and sharing no buffer. */
    ghost predicate Valid()
      reads this, hash, hash.hash, hash.hash.data, hash.hash.state, hash.polyAccum
      reads pdf, pdf.cache, pdf.nonce, pdf.prfKey
    {
      hash.Valid() && pdf.Valid() && Computes(E, key) &&
      hash.Key() == KeysOf(E) && pdf.key == Kdf.KdfBytes(E, Pdf.PdfIndex, |key|) && Computes(pdf.E, pdf.key) &&
      {pdf.cache as object, pdf.nonce, pdf.prfKey} !! {hash.hash.data as object, hash.hash.state, hash.polyAccum}
    }

    /**
     * umac_new: expand the key, then derive the pad context and the
     * UHASH context from it; nothing has been fed.
     */
    constructor (k: seq<Byte>)
      requires ValidKeyLen(|k|)
      ensures Valid() && key == k && Fed() == [] && PadCipher(E, |key|, pdf.E) && fresh(Repr())
    {
      hide Uhash.UhashCtx.Valid, Pdf.PdfCtx.Valid, KeysOf, Kdf.KdfBytes, WellFormed, UhashOf, Pdf.Pad, Xor;
      var rk, AE := ExpandKey(k);
      pdf := new Pdf.PdfCtx(rk, |k|, AE);
      hash := new UhashCtx(rk, AE);
      key, E := k, AE;
    }

    /** The tags a valid context computes are those of its key. */
    lemma FinalTag(M: seq<Byte>, nonce: seq<Byte>)
      requires Valid() && |nonce| == 8
      ensures Tag(E, pdf.E, M, nonce) == KeyTag(key, M, nonce)
    {
      TagOfKey(key, E, pdf.E, M, nonce);
    }

    /** umac_reset: begin a new message. */
    method Reset()
      requires Valid()
      modifies hash, hash.hash, hash.hash.state, hash.polyAccum
      ensures Valid() && key == old(key) && E == old(E) && Fed() == []
    {
      hide Uhash.UhashCtx.Valid, Pdf.PdfCtx.Valid, KeysOf, Kdf.KdfBytes, WellFormed, UhashOf, Pdf.Pad, Xor;
      hash.ValidShaped();
      hash.Reset();
    }

    /** umac_update: hash len more bytes of the message. */
    method Update(input: seq<Byte>)
      requires Valid()
      modifies hash, hash.hash, hash.hash.data, hash.hash.state, hash.polyAccum
      ensures Valid() && key == old(key) && E == old(E) && Fed() == old(Fed()) + input
    {
      hide Uhash.UhashCtx.Valid, Pdf.PdfCtx.Valid, KeysOf, Kdf.KdfBytes, WellFormed, UhashOf, Pdf.Pad, Xor;
      hash.Update(input);
    }

    /**
     * umac_final: the tag of everything fed since the reset, written
     * straight into tag; the context is reset for the next message.
     */
    method Final(tag: array<Byte>, nonce: seq<Byte>)
      requires Valid() && tag.Length == 8 && |nonce| == 8
      requires tag !in Buffers()
      modifies hash, hash.hash, hash.hash.data, hash.hash.state, hash.polyAccum, pdf.nonce, pdf.cache, tag
      ensures Valid() && key == old(key) && E == old(E) && Fed() == []
      ensures tag[..] == Tag(E, pdf.E, old(Fed()), nonce)
    {
      hide Uhash.UhashCtx.Valid, Pdf.PdfCtx.Valid, KeysOf, Kdf.KdfBytes, WellFormed, UhashOf, Pdf.Pad, Xor;
      ghost var u := UhashOf(KeysOf(E), Fed());
      hash.Final(tag);
      assert tag[..] == tag[..8] == u;
      pdf.GenXor(nonce, tag);
      assert tag[..] == Xor(u, Pdf.Pad(pdf.E, nonce));
    }

    /**
     * umac: the all-in-one interface on a freshly reset context; as with
     * uhash, the bytes after msg[..len] up to the next multiple of 32 are
     * overwritten with zeros.
     */
    method Umac(msg: array<Byte>, len: nat, tag: array<Byte>, nonce: seq<Byte>)
      requires Valid() && Fed() == [] && len > 0 && 32 * Nh.PadChunks(len) <= msg.Length
      requires tag.Length == 8 && |nonce| == 8 && msg != tag
      requires tag !in Buffers() && msg !in Buffers()
      modifies hash, hash.hash, hash.hash.state, hash.polyAccum, pdf.nonce, pdf.cache, tag, msg
      ensures Valid() && key == old(key) && E == old(E) && Fed() == []
      ensures tag[..] == Tag(E, pdf.E, old(msg[..len]), nonce)
      ensures msg[..len] == old(msg[..len])
    {
      hide Uhash.UhashCtx.Valid, Pdf.PdfCtx.Valid, KeysOf, Kdf.KdfBytes, WellFormed, UhashOf, Pdf.Pad, Xor;
      ghost var u := UhashOf(KeysOf(E), msg[..len]);
      hash.Uhash(msg, len, tag);
      assert tag[..] == tag[..8] == u;
      pdf.GenXor(nonce, tag);
      assert tag[..] == Xor(u, Pdf.Pad(pdf.E, nonce));
    }
  }
}
